=== FILE: README.md ===
# ToF AR samples: the application logic around the SDK

A Dafny model of the engine-independent logic in the Unity sample applications of the ToF AR SDK. Sensing itself happens inside the closed SDK and is not modelled. What is modelled is the code around it:

- **Depth sampling and index mapping.**
  - `RegionSampler`: the ToF region sampler, which clamps a square region, copies it out, averages the valid samples and saves a fixed number of frames.
  - `CoordinateMapper`: the colour-to-depth map, with the sentinel 32001.
  - `ColorRecorder`: the colour recorder's flipped nearest-neighbour downsampler and its skip counter.
  - `HumanPointCloud` and `ColoredPointCloud`: the point-cloud filters and buffers.
- **The recorder pipeline.**
  - `Recorder`, `CsvRecorder` and `BinaryRecorder`: the start/stop/store state machine.
  - One module per data type: the CSV header and row layout for hand, body, face and SLAM data, and the raw depth bytes.
  - `DataController`: byte accounting, the files and rows written on save, the result message, and the preference encoding.
- **View and selection state.**
  - `ImageViewController`: the shared picture-in-picture counters per screen anchor.
  - `ImageViewAdjuster`: the grid layout.
  - `TofManagerController`: the camera-configuration list and its lookup.
  - The guarded `Index`/`IsShow`/`Offset`/`Scale` setters of the hand, body and material controllers.
- **Orientation arithmetic.** `ReorientWithDevice`, `BodyRotationHandler` and `VrmVisualizer`, including the VRM joint-to-bone mapping.
- **Small tables and accumulators.**
  - `ScrollTextView`: licence-text chunking.
  - `URPMaterialChanger`: the URP blend-mode table.
  - `URPHandAlphaController`: the hand fade.
  - `MarkBillboard`: the extreme-point accumulator.

Modelling conventions:

- Unity and SDK values are plain datatypes: vectors and colours are records of `real`, materials are records of their properties, and configurations are records.
- Events raised by a setter are returned as a trace next to the new state.
- Files form a map from path to content (`Storage`).
- A .NET `Dictionary` is an insertion-ordered list of entries that assignment overwrites in place (`Entries`).
- Exceptions and `null` become `Result`/`Option` values (`Wrappers`).
- Whatever comes from the SDK, the engine or the clock is passed in as a parameter:
  - sensor frames, screen and camera orientations, platform flags;
  - float and timestamp formatting (`ToString`), PNG encoding, the camera projection;
  - the current time.

Each file holds one module named after the source component it models. The helper modules are `Wrappers`, `Text`, `Arith`, `RawBytes`, `Entries`, `Vectors`, `Fields`, `Storage` and `RecordTypes`.

## Model

| member | source | states |
|---|---|---|
| Arith.Wrap32 | Assets/TofArSamplesBasic/SamplesBasic/Recorder/Scripts/DataController.cs:320 | the 32-bit sum lies in the int range, differs from the true sum by a multiple of 2^32, and equals it when no overflow occurs |
| RawBytes.EncodeLayout | Assets/TofArSamplesBasic/SamplesBasic/Recorder/Scripts/DepthRecorder.cs:37 | the block copy puts sample i at bytes 2i (low byte) and 2i + 1 (high byte) |
| RawBytes.DecodeEncode | Assets/TofArSamplesBasic/SamplesBasic/Recorder/Scripts/DepthRecorder.cs:37 | the copied bytes read back as little-endian pairs give exactly the original samples |
| Entries.Lookup | Assets/TofArSamplesBasic/SamplesBasic/Recorder/Scripts/CsvRecorder.cs:40 | a dictionary read finds nothing exactly when the key is absent |
| Entries.Put | Assets/TofArSamplesBasic/SamplesBasic/Recorder/Scripts/CsvRecorder.cs:68 | after an assignment the key reads back the assigned value |
| Entries.PutOther | Assets/TofArSamplesBasic/SamplesBasic/Recorder/Scripts/BinaryRecorder.cs:60 | an assignment leaves every other key's value unchanged |
| Entries.PutShape | Assets/TofArSamplesBasic/SamplesBasic/Recorder/Scripts/BinaryRecorder.cs:60 | a new key is added at the end, and an existing key keeps its position with no entry added |
| Entries.PutDistinct | Assets/TofArSamplesBasic/SamplesBasic/Recorder/Scripts/CsvRecorder.cs:68 | assignment never creates a duplicate key |
| RecordTypes.RecordModeOf | Assets/TofArSamplesBasic/SamplesBasic/Recorder/Scripts/Types.cs:21-25 | Casting a stored int to RecordMode keeps the code; the result is a named mode exactly for 0 and 1, and the only valid mode with that code, so a mode's code cast back gives the mode |
| Recorder.SetRecord | Assets/TofArSamplesBasic/SamplesBasic/Recorder/Scripts/Recorder.cs:15-22 | The Record setter stores the value, leaves `recording` alone and raises onChangeRecord once with that value |
| Recorder.Set | Assets/TofArSamplesBasic/SamplesBasic/Recorder/Scripts/CsvRecorder.cs:63-69 | A frame always becomes the current data; while recording it can be looked up under its key; otherwise the dictionary is unchanged |
| Recorder.IdleFeedStoresNothing | Assets/TofArSamplesBasic/SamplesBasic/Recorder/Scripts/CsvRecorder.cs:63-69 | Any number of frames delivered while not recording leave the dictionary and the flags unchanged |
| Recorder.RecordingFeedAppends | Assets/TofArSamplesBasic/SamplesBasic/Recorder/Scripts/CsvRecorder.cs:63-69 | While recording, frames with fresh, distinct keys are stored after the earlier entries, in arrival order |
| Recorder.SessionStores | Assets/TofArSamplesBasic/SamplesBasic/Recorder/Scripts/Recorder.cs:43-48 | After StartRectoring the dictionary holds exactly the frames that arrived, in order, if Record was on, and nothing if it was off |
| Recorder.FeedCurrent | Assets/TofArSamplesBasic/SamplesBasic/Recorder/Scripts/CsvRecorder.cs:63-69 | The current data and its time are those of the last frame delivered, recording or not |
| CsvRecorder.GetData | Assets/TofArSamplesBasic/SamplesBasic/Recorder/Scripts/CsvRecorder.cs:71-81 | Single mode gives one entry at the current time; any other mode gives the stored dictionary |
| CsvRecorder.SingleSavesLatest | Assets/TofArSamplesBasic/SamplesBasic/Recorder/Scripts/CsvRecorder.cs:63-81 | After SetData, Single mode saves exactly that row at the time it arrived |
| CsvRecorder.Header | Assets/TofArSamplesBasic/SamplesBasic/Recorder/Scripts/CsvRecorder.cs:26-37 | The first read caches what CreateHeader returns; a non-empty cache is returned unchanged |
| CsvRecorder.HeaderStable | Assets/TofArSamplesBasic/SamplesBasic/Recorder/Scripts/CsvRecorder.cs:26-37 | Once a non-empty header is cached, later reads return it whatever CreateHeader would give |
| CsvRecorder.DefaultHeaderColumns | Assets/TofArSamplesBasic/SamplesBasic/Recorder/Scripts/CsvRecorder.cs:53-61 | The default header is "Timestamp" and Value_0 .. Value_(n-1) joined by commas, and splits back into exactly those names |
| CsvRecorder.DefaultColumnName | Assets/TofArSamplesBasic/SamplesBasic/Recorder/Scripts/CsvRecorder.cs:53-61 | Column i + 1 of the default header is Value_i |
| BinaryRecorder.SetData | Assets/TofArSamplesBasic/SamplesBasic/Recorder/Scripts/BinaryRecorder.cs:55-62 | The frame becomes the current data; onDataStored is raised, with the byte count, exactly while recording, and only then is the frame stored under its time |
| BinaryRecorder.GetData | Assets/TofArSamplesBasic/SamplesBasic/Recorder/Scripts/BinaryRecorder.cs:64-85 | Single mode gives the converted current frame, or fails when none arrived; Multiple gives every stored frame, in storage order and under its own time, converted by the subclass's conversion; any other mode gives null |
| BinaryRecorder.RawMultipleIsStored | Assets/TofArSamplesBasic/SamplesBasic/Recorder/Scripts/BinaryRecorder.cs:77-80 | Multiple mode of the base class returns the stored dictionary itself |
| DepthRecorder.OnFrameArrived | Assets/TofArSamplesBasic/SamplesBasic/Recorder/Scripts/DepthRecorder.cs:31-39 | A frame without depth data changes nothing; while recording, onDataStored reports twice the sample count |
| DepthRecorder.StoredFrameDecodes | Assets/TofArSamplesBasic/SamplesBasic/Recorder/Scripts/DepthRecorder.cs:34-38 | A recorded frame is stored under its time, and its bytes decode back to the same samples |
| HandRecorder.PointFields | Assets/TofArSamplesBasic/SamplesBasic/Recorder/Scripts/HandRecorder.cs:50-57 | Three fields for every point whose index is not ignored |
| HandRecorder.OnFrameArrived | Assets/TofArSamplesBasic/SamplesBasic/Recorder/Scripts/HandRecorder.cs:41-60 | A row is produced exactly when hand data exists and the status is not NoHand |
| HandRecorder.HeaderWithColumns | Assets/TofArSamplesBasic/SamplesBasic/Recorder/Scripts/HandRecorder.cs:62-73 | With n joints the header splits into Timestamp, X, Y, Z of each joint and PoseID: 3n + 2 columns |
| HandRecorder.HeaderColumnCount | Assets/TofArSamplesBasic/SamplesBasic/Recorder/Scripts/HandRecorder.cs:62-73 | The recorder's 21-joint header has 65 columns |
| HandRecorder.HeaderColumnName | Assets/TofArSamplesBasic/SamplesBasic/Recorder/Scripts/HandRecorder.cs:65-70 | Columns 1 + 3i, 2 + 3i and 3 + 3i are JointI_X, JointI_Y and JointI_Z |
| HandRecorder.RowFields | Assets/TofArSamplesBasic/SamplesBasic/Recorder/Scripts/HandRecorder.cs:50-58 | With a comma-free number format a row splits into the kept coordinates and the pose id |
| HandRecorder.RowMatchesHeader | Assets/TofArSamplesBasic/SamplesBasic/Recorder/Scripts/HandRecorder.cs:50-73 | A saved line has as many columns as the header exactly when 21 points are kept |
| BodyRecorder.OnBodyPoseEstimated | Assets/TofArSamplesBasic/SamplesBasic/Recorder/Scripts/BodyRecorder.cs:45-69 | No result changes nothing; otherwise the first body's row, with the recognition mode captured at start, is the current data |
| BodyRecorder.HeaderSplits | Assets/TofArSamplesBasic/SamplesBasic/Recorder/Scripts/BodyRecorder.cs:71-82 | The header splits into the eight fixed columns, X, Y, Z of every joint name but the last, FrameDataSource and RecogMode: 3n + 7 columns |
| BodyRecorder.RowSplits | Assets/TofArSamplesBasic/SamplesBasic/Recorder/Scripts/BodyRecorder.cs:48-67 | A row splits into 7 pose fields, 3 per joint, the frame data source and the recognition mode |
| BodyRecorder.RowMatchesHeader | Assets/TofArSamplesBasic/SamplesBasic/Recorder/Scripts/BodyRecorder.cs:59-82 | A saved line has as many columns as the header exactly when the body has one joint fewer than there are JointIndices names |
| FaceRecorder.Row | Assets/TofArSamplesBasic/SamplesBasic/Recorder/Scripts/FaceRecorder.cs:37-56 | Every value followed by a comma, last comma removed, is the values joined by commas |
| FaceRecorder.OnFaceEstimated | Assets/TofArSamplesBasic/SamplesBasic/Recorder/Scripts/FaceRecorder.cs:29-57 | No face changes nothing; otherwise dataLength becomes 7 + 3 per vertex and the first face's row is the current data |
| FaceRecorder.RowFitsDefaultHeader | Assets/TofArSamplesBasic/SamplesBasic/Recorder/Scripts/FaceRecorder.cs:35-56 | The row has exactly dataLength columns, so a saved line matches the default header |
| SlamRecorder.Row | Assets/TofArSamplesBasic/SamplesBasic/Recorder/Scripts/SlamRecorder.cs:34-44 | The seven values with the trailing comma removed are the values joined by commas |
| SlamRecorder.OnFrameArrived | Assets/TofArSamplesBasic/SamplesBasic/Recorder/Scripts/SlamRecorder.cs:30-45 | A frame without SLAM data changes nothing; otherwise its row is the current data and dataLength is kept |
| SlamRecorder.RowMatchesHeader | Assets/TofArSamplesBasic/SamplesBasic/Recorder/Scripts/SlamRecorder.cs:24-49 | The header splits into its eight names; a row has dataLength = 7 columns, one fewer than the header |
| ColorRecorder.ResizeDataFrom | Assets/TofArSamplesBasic/SamplesBasic/Recorder/Scripts/ColorRecorder.cs:70-83 | The output has 3 bytes per resized pixel, and every output byte is the input byte the flipped nearest-neighbour index names |
| ColorRecorder.FullFrameSuffices | Assets/TofArSamplesBasic/SamplesBasic/Recorder/Scripts/ColorRecorder.cs:44-45 | An input frame of the texture's full size holds every byte the resize reads |
| ColorRecorder.NearestNeighbour | Assets/TofArSamplesBasic/SamplesBasic/Recorder/Scripts/ColorRecorder.cs:77-79 | When the texture width is rw * scale, the byte read is from input column scale * x of row scale * (rh - 1 - y) |
| ColorRecorder.SkipStep | Assets/TofArSamplesBasic/SamplesBasic/Recorder/Scripts/ColorRecorder.cs:51-56 | A frame is stored exactly when the incremented counter exceeds skip, and the counter then resets to 0 |
| ColorRecorder.SkipRunPeriodic | Assets/TofArSamplesBasic/SamplesBasic/Recorder/Scripts/ColorRecorder.cs:51-56 | After n frames the counter is n mod (skip + 1) and n div (skip + 1) frames were stored |
| ColorRecorder.OnFrameArrived | Assets/TofArSamplesBasic/SamplesBasic/Recorder/Scripts/ColorRecorder.cs:35-57 | The counter always advances; only a stored frame whose reads stay in bounds reaches SetData, and what SetData receives is the resize of the frame (every byte fixed by ResizedUnique), reporting 3 * rw * rh bytes |
| ColorRecorder.ResizedUnique | Assets/TofArSamplesBasic/SamplesBasic/Recorder/Scripts/ColorRecorder.cs:70-83 | Two byte arrays that both meet the resize's per-pixel description of a frame are equal: the description fixes every output byte |
| DataController.OnDataStored | Assets/TofArSamplesBasic/SamplesBasic/Recorder/Scripts/DataController.cs:318-329 | The total grows by the byte count with 32-bit wrap-around, and a stop is posted exactly when the new total reaches the maximum |
| DataController.StoreAllSums | Assets/TofArSamplesBasic/SamplesBasic/Recorder/Scripts/DataController.cs:318-329 | Without overflow, a run of stored frames adds up their sizes, and its last frame posts a stop exactly when that sum reaches the maximum |
| DataController.DataStored | Assets/TofArSamplesBasic/SamplesBasic/Recorder/Scripts/DataController.cs:318-329 | The controller's byte total is updated as onDataStored does, and the stop is requested exactly at or past the maximum |
| DataController.AppendRowsText | Assets/TofArSamplesBasic/SamplesBasic/Recorder/Scripts/DataController.cs:441-445 | Each entry appends its "timestamp,value" line to the file, in order, and no other file or folder changes |
| DataController.WriteFilesContent | Assets/TofArSamplesBasic/SamplesBasic/Recorder/Scripts/DataController.cs:456-464 | Every entry gets a file named by its timestamp and extension; with distinct names each file holds its entry's bytes; files no entry names are untouched |
| DataController.SaveCsv | Assets/TofArSamplesBasic/SamplesBasic/Recorder/Scripts/DataController.cs:433-446 | The header line is written only when the file does not exist yet, then one line per entry of GetData; one row is counted per entry |
| DataController.SaveBinary | Assets/TofArSamplesBasic/SamplesBasic/Recorder/Scripts/DataController.cs:448-466 | On success the folder exists, every entry is written and the stored frames are cleared; GetData's exception stops with no file counted and the frames kept |
| DataController.SaveSlot | Assets/TofArSamplesBasic/SamplesBasic/Recorder/Scripts/DataController.cs:428-466 | A recorder with Record off is skipped; a saved recorder keeps its kind and flags |
| DataController.SaveAll | Assets/TofArSamplesBasic/SamplesBasic/Recorder/Scripts/DataController.cs:428-467 | Every recorder keeps its kind and flags, and recorders with Record off are left as they were |
| DataController.SaveAllCounts | Assets/TofArSamplesBasic/SamplesBasic/Recorder/Scripts/DataController.cs:413-467 | Without an exception the counts are the rows and files the recorders' data holds |
| DataController.IdleSaveWritesNothing | Assets/TofArSamplesBasic/SamplesBasic/Recorder/Scripts/DataController.cs:428-430 | When no recorder has Record on, saving writes nothing and counts nothing |
| DataController.Message | Assets/TofArSamplesBasic/SamplesBasic/Recorder/Scripts/DataController.cs:471-496 | "No record saves." exactly when a named mode saved nothing; the empty message exactly for a mode that is neither |
| DataController.MessageReportsCounts | Assets/TofArSamplesBasic/SamplesBasic/Recorder/Scripts/DataController.cs:482-491 | The Multiple message is "Succeed in save" then a line whose first and third words parse back to the row and binary counts |
| DataController.StopAll | Assets/TofArSamplesBasic/SamplesBasic/Recorder/Scripts/DataController.cs:378 | Every recorder is stopped |
| DataController.StartAll | Assets/TofArSamplesBasic/SamplesBasic/Recorder/Scripts/DataController.cs:371 | Every recorder is started |
| DataController.SaveRecord | Assets/TofArSamplesBasic/SamplesBasic/Recorder/Scripts/DataController.cs:406-497 | The data goes to the save folder, or to a per-timestamp folder in it, and the result is the message or the exception |
| DataController.StopRecording | Assets/TofArSamplesBasic/SamplesBasic/Recorder/Scripts/DataController.cs:375-390 | Every recorder stops; without saving nothing is written; a successful save shows its message and resets the byte total; a failed one leaves "Saving" and the total |
| DataController.SaveAllStopped | Assets/TofArSamplesBasic/SamplesBasic/Recorder/Scripts/DataController.cs:378-386 | Stopping the recorders before saving changes nothing in what is saved |
| DataController.StopRecord | Assets/TofArSamplesBasic/SamplesBasic/Recorder/Scripts/DataController.cs:298-316 | Single mode only shows "Canceled record." when the coroutine field is set, and keeps it set, so every later call cancels again; nothing else changes and nothing is saved; Multiple stops and saves; any other mode does nothing |
| DataController.CancelRepeats | Assets/TofArSamplesBasic/SamplesBasic/Recorder/Scripts/DataController.cs:300-306 | In Single mode a second cancel repeats the message and changes nothing else, since the coroutine field is never cleared there |
| DataController.CountdownElapsed | Assets/TofArSamplesBasic/SamplesBasic/Recorder/Scripts/DataController.cs:362-372 | Single mode saves at once and shows the message; otherwise every recorder starts recording exactly when its Record is on |
| DataController.IndexOf | Assets/TofArSamplesBasic/SamplesBasic/Recorder/Scripts/DataController.cs:99 | The first position of the value, or -1 exactly when it is absent |
| DataController.LastColor | Assets/TofArSamplesBasic/SamplesBasic/Recorder/Scripts/DataController.cs:92-103 | The last colour recorder, None exactly when there is none |
| DataController.ColorScaleIndex | Assets/TofArSamplesBasic/SamplesBasic/Recorder/Scripts/DataController.cs:92-103 | The index of the last colour recorder's scale in the table, -1 when it is not there, 0 without a colour recorder |
| DataController.SetColorScaleIndex | Assets/TofArSamplesBasic/SamplesBasic/Recorder/Scripts/DataController.cs:79-90 | Fails (index out of range) exactly when a colour recorder exists and the index is outside the table |
| DataController.ColorScaleRoundTrip | Assets/TofArSamplesBasic/SamplesBasic/Recorder/Scripts/DataController.cs:79-103 | Setting a valid scale index reads back as that index (0 without a colour recorder) and leaves the skip alone |
| DataController.ColorSkipRoundTrip | Assets/TofArSamplesBasic/SamplesBasic/Recorder/Scripts/DataController.cs:106-132 | Setting the skip reads back as that value (0 without a colour recorder) and leaves the scale index alone |
| DataController.FlagCode | Assets/TofArSamplesBasic/SamplesBasic/Recorder/Scripts/DataController.cs:278-284 | A flag is stored as 1 exactly when it is true, else 0 |
| DataController.SaveTypeOf | Assets/TofArSamplesBasic/SamplesBasic/Recorder/Scripts/DataController.cs:188 | Casting a stored int to SaveType keeps the code |
| DataController.SavePrefs | Assets/TofArSamplesBasic/SamplesBasic/Recorder/Scripts/DataController.cs:270-290 | The save time and every int key get the controller's values; other keys keep theirs |
| DataController.Awake | Assets/TofArSamplesBasic/SamplesBasic/Recorder/Scripts/DataController.cs:173-201 | Without a saved time nothing is restored; otherwise the settings are those read from the preferences |
| DataController.RestoredSettings | Assets/TofArSamplesBasic/SamplesBasic/Recorder/Scripts/DataController.cs:184-197 | each of the seven flags is on exactly when its stored int is 1; the timer is the stored int, and the record mode and save type are the casts of theirs |
| DataController.SettingsRoundTrip | Assets/TofArSamplesBasic/SamplesBasic/Recorder/Scripts/DataController.cs:270-287 | Saving the preferences and reading them back gives the same settings |
| DataController.PrefsRoundTrip | Assets/TofArSamplesBasic/SamplesBasic/Recorder/Scripts/DataController.cs:184-199 | Saving and then waking a controller with the same recorders restores the settings, the colour scale index and the colour skip |
| DataController.UpdateRecorderAt | Assets/TofArSamplesBasic/SamplesBasic/Recorder/Scripts/DataController.cs:524-535 | UpdateRecorder sets Record on each recorder of the given type and leaves every other recorder alone |
| DataController.UpdateRecordersApplies | Assets/TofArSamplesBasic/SamplesBasic/Recorder/Scripts/DataController.cs:513-522 | Afterwards every recorder's Record is the controller's flag for its type, and its kind and recording state are unchanged |
| DataController.SetRecord | Assets/TofArSamplesBasic/SamplesBasic/Recorder/Scripts/DataController.cs:527-531 | the recorder's Record flag becomes the requested value; whether it is recording and its data type are unchanged |
| DataController.StopSlot | Assets/TofArSamplesBasic/SamplesBasic/Recorder/Scripts/DataController.cs:378 | a stopped recorder is not recording, and keeps its Record flag and data type |
| DataController.StartSlot | Assets/TofArSamplesBasic/SamplesBasic/Recorder/Scripts/DataController.cs:371 | a started recorder records exactly when its Record flag is on, and keeps the flag and data type |
| DataController.SaveSlotStopped | Assets/TofArSamplesBasic/SamplesBasic/Recorder/Scripts/DataController.cs:378-386 | saving one recorder writes the same files, counts and error whether or not it was stopped first |
| DataController.SaveStoppedSame | Assets/TofArSamplesBasic/SamplesBasic/Recorder/Scripts/DataController.cs:375-390 | stopping every recorder before saving changes nothing in the files written or the message |
| DataController.MapColor | Assets/TofArSamplesBasic/SamplesBasic/Recorder/Scripts/DataController.cs:83-89 | every colour recorder gets the setting and every other recorder is left as it is, in order |
| DataController.LastColorMapped | Assets/TofArSamplesBasic/SamplesBasic/Recorder/Scripts/DataController.cs:92-132 | after a setting is written to every colour recorder, the getters' last colour recorder is the old one with the setting applied |
| DataController.UpdateOne | Assets/TofArSamplesBasic/SamplesBasic/Recorder/Scripts/DataController.cs:526-532 | a recorder of the named data type takes the flag, and one of any other type is left as it is |
| RegionSampler.Truncate | Assets/TofArSamplesBasic/SamplesBasic/Tof/Scripts/SaveFromRegion.cs:283-284 | the (int) cast of a float rounds toward zero: for non-negative x the result is the floor, for negative x the ceiling |
| RegionSampler.Origin | Assets/TofArSamplesBasic/SamplesBasic/Tof/Scripts/SaveFromRegion.cs:283-303 | the region origin lies inside the frame (origin plus region width at most one short of the edge) whenever the frame is wider than the region; it is (0, 0) in full-screen mode and the centred position when that already fits |
| RegionSampler.CornersSuffice | Assets/TofArSamplesBasic/SamplesBasic/Tof/Scripts/SaveFromRegion.cs:211-224 | every read of the strided copy is in range exactly when the first and the last read are |
| RegionSampler.Extract | Assets/TofArSamplesBasic/SamplesBasic/Tof/Scripts/SaveFromRegion.cs:206-224 | the working buffer has w * h samples and sample (i, j) holds source sample (rx + i, ry + j); an empty source array is never read and leaves the buffer zero |
| RegionSampler.Average | Assets/TofArSamplesBasic/SamplesBasic/Tof/Scripts/SaveFromRegion.cs:225-235 | the loop totals exactly the samples that differ from the invalid value, and DepthAverage is their mean, 0 when there are none |
| RegionSampler.NoneValid | Assets/TofArSamplesBasic/SamplesBasic/Tof/Scripts/SaveFromRegion.cs:235 | the average falls back to 0 exactly when every sample equals the invalid value |
| RegionSampler.SumBounds | Assets/TofArSamplesBasic/SamplesBasic/Tof/Scripts/SaveFromRegion.cs:225-234 | valid samples within [lo, hi] give a total within count times [lo, hi] |
| RegionSampler.MeanWithin | Assets/TofArSamplesBasic/SamplesBasic/Tof/Scripts/SaveFromRegion.cs:235 | the depth average lies between the smallest and the largest valid sample |
| RegionSampler.SavePoint | Assets/TofArSamplesBasic/SamplesBasic/Tof/Scripts/SaveFromRegion.cs:383-393 | a save is armed only while the stream is active and no save is running, with the directory "/Region" + Full or the width + "_" + time; otherwise nothing changes; the save-counter invariant is kept |
| RegionSampler.RegionDirectoryParts | Assets/TofArSamplesBasic/SamplesBasic/Tof/Scripts/SaveFromRegion.cs:389 | the directory name splits on "_" into "/Region<label>" and the time, and the label reads back as the region width (or "Full") |
| RegionSampler.Advance | Assets/TofArSamplesBasic/SamplesBasic/Tof/Scripts/SaveFromRegion.cs:237-247 | an armed save counts the frame and writes it under the new count while that count is at most SaveFrames; the frame after the last disarms and resets the counter; an idle saver is untouched |
| RegionSampler.RunFrom | Assets/TofArSamplesBasic/SamplesBasic/Tof/Scripts/SaveFromRegion.cs:237-247 | from m frames into a save, the frames m+1 .. SaveFrames are written in order and the next frame disarms |
| RegionSampler.SaveSession | Assets/TofArSamplesBasic/SamplesBasic/Tof/Scripts/SaveFromRegion.cs:237-264 | a save armed by SavePoint writes frames 1 .. SaveFrames, one per frame, and then stops with the counter back at 0 |
| RegionSampler.PathsDiffer | Assets/TofArSamplesBasic/SamplesBasic/Tof/Scripts/SaveFromRegion.cs:246-247 | a frame's depth file and confidence file never have the same path |
| RegionSampler.SaveRaw | Assets/TofArSamplesBasic/SamplesBasic/Tof/Scripts/SaveFromRegion.cs:396-448 | the directory is created; on success the file holds two bytes per sample that decode to the samples and other files are untouched; an IOException reports false and writes nothing |
| RegionSampler.SaveFrame | Assets/TofArSamplesBasic/SamplesBasic/Tof/Scripts/SaveFromRegion.cs:249-264 | both files of the frame are written when they can be; a dialog appears after the last frame or when either file fails, and only then |
| RegionSampler.OnFrameArrived | Assets/TofArSamplesBasic/SamplesBasic/Tof/Scripts/SaveFromRegion.cs:200-305 | frames without depth or confidence data are ignored; an out-of-range read throws before any field changes; otherwise both buffers are the region's samples, DepthAverage their valid mean, and an armed save advances and writes the frame |
| RegionSampler.Touch | Assets/TofArSamplesBasic/SamplesBasic/Tof/Scripts/SaveFromRegion.cs:315-318 | a normalised touch in [0, 1) becomes a pixel position inside the depth frame; geometry and save state are unchanged |
| RegionSampler.InvalidValue | Assets/TofArSamplesBasic/SamplesBasic/Tof/Scripts/SaveFromRegion.cs:134-184 | parsing throws exactly when an entry of the current layout fails or the older layout does not parse; without a current layout the older layout's converted-to or converted-from value is used, 32001 when neither layout parses, and a throw keeps the previous value |
| RegionSampler.ScanNoMatch | Assets/TofArSamplesBasic/SamplesBasic/Tof/Scripts/SaveFromRegion.cs:147-160 | with no camera entry matching the camera id the invalid value keeps its previous value, whether or not the loop throws |
| RegionSampler.ScanThrows | Assets/TofArSamplesBasic/SamplesBasic/Tof/Scripts/SaveFromRegion.cs:147-160 | the loop throws exactly when some entry has a null id, or matches the camera and holds a value int.Parse rejects |
| RegionSampler.ScanStopsAt | Assets/TofArSamplesBasic/SamplesBasic/Tof/Scripts/SaveFromRegion.cs:147-160 | the loop stops at the first failing entry with the value the entries before it left |
| RegionSampler.ScanLastMatch | Assets/TofArSamplesBasic/SamplesBasic/Tof/Scripts/SaveFromRegion.cs:147-160 | when the loop does not throw, the last entry matching the camera id decides the invalid value, since the loop does not break |
| RegionSampler.Start | Assets/TofArSamplesBasic/SamplesBasic/Tof/Scripts/SaveFromRegion.cs:119-184 | the sampler always gets the camera's frame size, an 11-pixel region at the centre pixel, the data path and no save armed, since those are set before the attributes are read; the invalid value is the one reached when parsing ended, and the flag is set exactly when the attributes throw |
| RegionSampler.StartCentred | Assets/TofArSamplesBasic/SamplesBasic/Tof/Scripts/SaveFromRegion.cs:119-123 | before any touch the default region is centred on the middle pixel of the frame, also when Start threw |
| CoordinateMapper.MappedValue | Assets/TofArSamplesBasic/ColorDepth/Scripts/CoordinateMapper3D.cs:92-107 | a colour pixel without a depth point gets 32001; a mapped pixel whose index lies in the depth buffer gets the depth sample at x + y * depthWidth, and one past its end (or with no depth buffer) gets 32001; a negative index throws |
| CoordinateMapper.MapToDepth | Assets/TofArSamplesBasic/ColorDepth/Scripts/CoordinateMapper3D.cs:75-119 | pixels are written row by row with their mapped values; the first pixel that throws stops the loop with the earlier writes kept and the rest of the buffer unchanged, and false is returned exactly when the loop did not reach width * height |
| CoordinateMapper.MapsAllWhenNoFailure | Assets/TofArSamplesBasic/ColorDepth/Scripts/CoordinateMapper3D.cs:75-119 | the mapping reports success exactly when every colour pixel has a depth point that maps without throwing |
| CoordinateMapper.Resize | Assets/TofArSamplesBasic/ColorDepth/Scripts/CoordinateMapper3D.cs:171-174 | Array.Resize keeps the common prefix and fills new slots with 0 |
| CoordinateMapper.ProcessCoordinate | Assets/TofArSamplesBasic/ColorDepth/Scripts/CoordinateMapper3D.cs:121-185 | nothing happens without a stream, depth data or calibration; the depth frame is copied in; a frame of the wrong size or without depth points stops there; otherwise the colour-sized buffer is mapped and shown exactly when every pixel mapped |
| HumanPointCloud.Kept | Assets/TofArSamplesBasic/HumanPointCloud/Scripts/HumanPointCloud.cs:201-245 | the filter keeps at most one point per depth index visited, and exactly as many texture coordinates as points |
| HumanPointCloud.KeptSound | Assets/TofArSamplesBasic/HumanPointCloud/Scripts/HumanPointCloud.cs:205-243 | every kept point is a point of the cloud whose colour pixel passes the test, paired with that pixel's texture coordinate |
| HumanPointCloud.KeptAll | Assets/TofArSamplesBasic/HumanPointCloud/Scripts/HumanPointCloud.cs:201-245 | when every colour pixel passes the test, the whole cloud is kept in order |
| HumanPointCloud.Filter | Assets/TofArSamplesBasic/HumanPointCloud/Scripts/HumanPointCloud.cs:201-245 | the row-by-row loop keeps exactly the filter's points and coordinates; it throws exactly when a depth index inside the cloud has no colour point, keeping what it gathered before |
| HumanPointCloud.FilterRow | Assets/TofArSamplesBasic/HumanPointCloud/Scripts/HumanPointCloud.cs:203-220 | one row keeps the filter's points for its depth indices, skipping indices past the cloud, and stops at the first missing colour point |
| HumanPointCloud.Reindex | Assets/TofArSamplesBasic/HumanPointCloud/Scripts/HumanPointCloud.cs:256-274 | more points than before extend the index buffer with i at slot i and keep the old slots; fewer points are padded with zero points and zero coordinates up to the previous count; the count becomes the vertex count |
| HumanPointCloud.ReindexKeepsIndexed | Assets/TofArSamplesBasic/HumanPointCloud/Scripts/HumanPointCloud.cs:256-274 | the index buffer stays 0 .. n-1 for n the vertex count, and n never decreases |
| HumanPointCloud.Update | Assets/TofArSamplesBasic/HumanPointCloud/Scripts/HumanPointCloud.cs:124-288 | without configurations nothing happens; without both streams the renderer is off; a missing mapping stops the frame, and otherwise a new frame is always drawn or throws; it throws exactly when a filter applies and the colour points run out before the depth frame does, leaving the points and coordinates kept up to the first missing colour point; a drawn frame comes from the mask-filtered, colour-filtered or whole cloud, reindexed, with texture coordinates only in colour mode |
| ColoredPointCloud.StreamStarted | Assets/TofArSamplesBasic/ColoredPointCloud/Scripts/ColoredPointCloud.cs:173-180 | a ToF stream start takes the new depth size and makes a zeroed coordinate buffer with one slot per depth pixel |
| ColoredPointCloud.Refresh | Assets/TofArSamplesBasic/ColoredPointCloud/Scripts/ColoredPointCloud.cs:106-124 | after the row-by-row loop, each slot whose colour pixel lies inside the colour image holds that pixel's coordinate, and every other slot keeps its old coordinate |
| ColoredPointCloud.RefreshIdempotent | Assets/TofArSamplesBasic/ColoredPointCloud/Scripts/ColoredPointCloud.cs:106-124 | refreshing twice with the same colour points gives the same buffer as refreshing once |
| ColoredPointCloud.RefreshChanges | Assets/TofArSamplesBasic/ColoredPointCloud/Scripts/ColoredPointCloud.cs:118-121 | a slot changes only to its own colour pixel's coordinate, and only when that pixel is inside the colour image |
| ColoredPointCloud.Update | Assets/TofArSamplesBasic/ColoredPointCloud/Scripts/ColoredPointCloud.cs:75-136 | the renderer is on exactly when both streams run; a depth frame of the configured size is mapped, and a missing mapping resets the property; the buffer is refreshed when the colour points cover the depth frame, and handed to the mesh exactly when its length is the vertex count |
| ScrollTextView.LinesHaveNoBreaks | Assets/AppLicense/Scripts/ScrollTextView.cs:28 | splitting on "\r\n", "\n" and "\r" leaves no line-break character in any line |
| ScrollTextView.SplitLinesUnix | Assets/AppLicense/Scripts/ScrollTextView.cs:28 | on text without carriage returns the three-separator split is the plain split on "\n" |
| ScrollTextView.SplitJoinedLines | Assets/AppLicense/Scripts/ScrollTextView.cs:28 | lines without breaks joined with "\n" split back into the same lines |
| ScrollTextView.ChunkCount | Assets/AppLicense/Scripts/ScrollTextView.cs:30-57 | a trailing partial box is kept, so there are ceil(lines / 10) text boxes |
| ScrollTextView.ChunkAt | Assets/AppLicense/Scripts/ScrollTextView.cs:30-57 | text box i holds lines 10i up to 10i + 10 (or the last line), joined with "\n" |
| ScrollTextView.JoinChunks | Assets/AppLicense/Scripts/ScrollTextView.cs:30-57 | no line is lost or reordered: the boxes joined with "\n" give the lines joined with "\n" |
| ScrollTextView.GatherLine | Assets/AppLicense/Scripts/ScrollTextView.cs:32-51 | one pass of the foreach keeps the loop invariant: whole boxes of ten lines so far, and mixText holding the lines since the last box |
| ScrollTextView.SetText | Assets/AppLicense/Scripts/ScrollTextView.cs:22-58 | the boxes created are the licence text's lines in consecutive groups of ten, the last group possibly shorter |
| ScrollTextView.GetTextSplit | Assets/AppLicense/Scripts/ScrollTextView.cs:79-102 | ceil(length / count) pieces, piece i being the count characters from count * i (shorter at the end), which concatenate back to the string; a negative count gives no piece |
| ImageViewController.Listed | Assets/TofArSamplesBasic/Common/Scripts/ImageViewController.cs:34-41 | every anchor appears in the anchor list |
| ImageViewController.Initial | Assets/TofArSamplesBasic/Common/Scripts/ImageViewController.cs:64-126 | a view starts hidden and anchored right-bottom, with no mode list |
| ImageViewController.ModeListFor | Assets/TofArSamplesBasic/Common/Scripts/ImageViewController.cs:264-284 | the mode list ends with Hide, holds FullScreen exactly when a quad or a raw image exists and PictureInPicture exactly when a raw image exists, and holds no mode twice |
| ImageViewController.Start | Assets/TofArSamplesBasic/Common/Scripts/ImageViewController.cs:254-306 | Start builds the mode list; ModeIndex is the position of the current mode in it, 0 when absent; AnchorIndex is the position of the current anchor among the five |
| ImageViewController.Leave | Assets/TofArSamplesBasic/Common/Scripts/ImageViewController.cs:80-86 | a view leaving an anchor takes one off its counter, never below 0, and no other counter changes |
| ImageViewController.Enter | Assets/TofArSamplesBasic/Common/Scripts/ImageViewController.cs:87-90 | a view entering an anchor adds one to its counter, and no other counter changes |
| ImageViewController.SyncModeIndex | Assets/TofArSamplesBasic/Common/Scripts/ImageViewController.cs:94 | re-syncing ModeIndex after a mode change makes it point at the new mode in the list, raising OnChangeMode only when the index actually moves |
| ImageViewController.SetViewMode | Assets/TofArSamplesBasic/Common/Scripts/ImageViewController.cs:69-97 | a new mode leaves picture-in-picture (one count off its anchor) or enters it (one count on), raises OnUpdateView first and keeps the anchor; setting the same mode does nothing |
| ImageViewController.SetModeIndex | Assets/TofArSamplesBasic/Common/Scripts/ImageViewController.cs:48-62 | only a different index inside the mode list is taken; it selects that list entry as the mode and raises OnChangeMode last; before Start the list is missing and the setter throws |
| ImageViewController.SetViewAnchor | Assets/TofArSamplesBasic/Common/Scripts/ImageViewController.cs:131-156 | a new anchor moves one count from the old anchor to the new one in picture-in-picture only, raises OnUpdateView first, and re-syncs AnchorIndex to the new anchor |
| ImageViewController.SetAnchorIndex | Assets/TofArSamplesBasic/Common/Scripts/ImageViewController.cs:109-124 | only a different index among the five anchors is taken; it selects that anchor and raises OnChangeAnchor last |
| ImageViewController.ChangeViewMode | Assets/TofArSamplesBasic/Common/Scripts/ImageViewController.cs:312-325 | index 0 hides the view and any other index shows it full screen; nothing happens before Start |
| ImageViewController.PositionSlot | Assets/TofArSamplesBasic/Common/Scripts/ImageViewController.cs:471-479 | a picture-in-picture view takes its requested slot, clamped to one below the anchor's count; other modes use slot 0 |
| ImageViewController.PipAtUpdate | Assets/TofArSamplesBasic/Common/Scripts/ImageViewController.cs:199-206 | replacing one view changes each anchor's count by that view's own contribution only |
| ImageViewController.InitialCounted | Assets/TofArSamplesBasic/Common/Scripts/ImageViewController.cs:199-206 | with no views, the initial all-zero counters equal the number of picture-in-picture views at each anchor |
| ImageViewController.AddView | Assets/TofArSamplesBasic/Common/Scripts/ImageViewController.cs:199-206 | adding a view that is not in picture-in-picture keeps every counter equal to its count |
| ImageViewController.Replace | Assets/TofArSamplesBasic/Common/Scripts/ImageViewController.cs:199-206 | counters adjusted by the old and the new view's contribution stay equal to the counts |
| ImageViewController.ShownPositive | Assets/TofArSamplesBasic/Common/Scripts/ImageViewController.cs:199-206 | an anchor with a picture-in-picture view has a positive count |
| ImageViewController.SetViewModeCounted | Assets/TofArSamplesBasic/Common/Scripts/ImageViewController.cs:69-97 | the ViewMode setter on any view keeps every shared counter equal to the number of picture-in-picture views at its anchor |
| ImageViewController.MoveCounts | Assets/TofArSamplesBasic/Common/Scripts/ImageViewController.cs:141-148 | moving a picture-in-picture view between anchors moves exactly one unit of count |
| ImageViewController.SetViewAnchorCounted | Assets/TofArSamplesBasic/Common/Scripts/ImageViewController.cs:131-156 | the ViewAnchor setter on any view keeps every shared counter equal to its count |
| ImageViewController.SetModeIndexCounted | Assets/TofArSamplesBasic/Common/Scripts/ImageViewController.cs:48-62 | the ModeIndex setter keeps every shared counter equal to its count |
| ImageViewController.SetAnchorIndexCounted | Assets/TofArSamplesBasic/Common/Scripts/ImageViewController.cs:109-124 | the AnchorIndex setter keeps every shared counter equal to its count |
| ImageViewController.SlotInRange | Assets/TofArSamplesBasic/Common/Scripts/ImageViewController.cs:471-479 | while the counters are exact, a picture-in-picture view's slot is a valid slot at its anchor (between 0 and count - 1) |
| ImageViewController.SetModeIndexSelects | Assets/TofArSamplesBasic/Common/Scripts/ImageViewController.cs:48-62 | after Start, choosing a different index selects that mode, leaves ModeIndex at the chosen index and raises exactly OnUpdateView then OnChangeMode |
| ImageViewAdjuster.ActiveCount | Assets/TofArSamplesBasic/ColorDepth/Scripts/ImageViewAdjuster.cs:136-144 | a grid's active count is at most its number of views, and 0 exactly when none of its views is active |
| ImageViewAdjuster.Shown | Assets/TofArSamplesBasic/ColorDepth/Scripts/ImageViewAdjuster.cs:147-150 | the number of shown grids is at most the number of grids, and 0 exactly when every grid is empty |
| ImageViewAdjuster.CountSplit | Assets/TofArSamplesBasic/ColorDepth/Scripts/ImageViewAdjuster.cs:125-152 | each grid's split count is its number of active views, and the parent count is the number of grids with at least one |
| ImageViewAdjuster.ShownMonotone | Assets/TofArSamplesBasic/ColorDepth/Scripts/ImageViewAdjuster.cs:180-188 | the number of shown grids before a position only grows along the list, and strictly past a shown grid |
| ImageViewAdjuster.Adjust | Assets/TofArSamplesBasic/ColorDepth/Scripts/ImageViewAdjuster.cs:157-210 | nothing is placed when no grid is shown; otherwise every shown grid gets the part numbered by the shown grids before it, with its cells splitting the other side by its active views, and empty grids are left as they were |
| ImageViewAdjuster.ViewSize | Assets/TofArSamplesBasic/ColorDepth/Scripts/ImageViewAdjuster.cs:166-177 | one part is the area less the toolbar along the short side and an equal share of the long side among the shown grids |
| ImageViewAdjuster.Place | Assets/TofArSamplesBasic/ColorDepth/Scripts/ImageViewAdjuster.cs:190-209 | a grid takes one part, its cells share the part's other side equally, and it is offset by its slot times the part size, rightwards in portrait and downwards in landscape |
| ImageViewAdjuster.SlotsTile | Assets/TofArSamplesBasic/ColorDepth/Scripts/ImageViewAdjuster.cs:180-204 | shown grids take distinct slots in grid order, all below the shown count, so no two parts overlap |
| ImageViewAdjuster.SlotsCovered | Assets/TofArSamplesBasic/ColorDepth/Scripts/ImageViewAdjuster.cs:180-204 | every slot below the shown count is taken by some shown grid, so no part is left empty |
| ImageViewAdjuster.FindView | Assets/TofArSamplesBasic/ColorDepth/Scripts/ImageViewAdjuster.cs:76-94 | the search returns the first view, grid by grid and child by child, whose name contains the given name, or none when no view's does |
| ImageViewAdjuster.ShowView | Assets/TofArSamplesBasic/ColorDepth/Scripts/ImageViewAdjuster.cs:74-103 | only the first matching view is switched, and no other view changes; the split is then recounted from the new state, nothing being placed when no grid is shown, and otherwise every grid with active views is placed in its slot of the view size for the shown grids |
| TofManagerController.DefaultIndex | Assets/TofArSettings/Scripts/Tof/Controller/TofManagerController.cs:254-307 | every match overwrites defaultIndex, so the result is the last entry that matches the recommended configuration (same mode and, by platform, frame rate or name; or the fusion name), and 0 when none matches |
| TofManagerController.RemoveAt | Assets/TofArSettings/Scripts/Tof/Controller/TofManagerController.cs:313-314 | List.RemoveAt drops exactly entry k and shifts the later entries down by one |
| TofManagerController.MakePropertyList | Assets/TofArSettings/Scripts/Tof/Controller/TofManagerController.cs:245-332 | the list always starts with the blank entry "-"; with a recommended configuration and a non-empty list, the chosen entry is removed and the recommended configuration follows the blank with its text in red, the other entries keeping their order; otherwise the configurations follow the blank and no option texts are made |
| TofManagerController.Texts | Assets/TofArSettings/Scripts/Tof/Controller/TofManagerController.cs:254-307 | one option text per configuration, in order |
| TofManagerController.CheckIndexRange | Assets/TofArSettings/Scripts/Tof/Controller/TofManagerController.cs:97-100 | an index is accepted exactly when it lies inside the configuration list; a missing list throws |
| TofManagerController.CurrentConfig | Assets/TofArSettings/Scripts/Tof/Controller/TofManagerController.cs:24-30 | null exactly when there is no list; otherwise the entry at Index, or an IndexOutOfRangeException when Index is outside the list |
| TofManagerController.FindIndex | Assets/TofArSettings/Scripts/Tof/Controller/TofManagerController.cs:339-400 | 0 without a list or a manager; otherwise the first entry that is a candidate (same mode, or any in name mode) and passes the platform's test (frame rate on iOS, name in name mode or on dTof devices), the last such entry in name mode off iOS, and 0 when none passes |
| ReorientWithDevice.RotationAngle | Assets/TofArSamplesBasic/Common/Scripts/ReorientWithDevice.cs:77-96 | portrait is -90 degrees, upside-down portrait 90, landscape-right 180, and every other orientation 0 |
| ReorientWithDevice.CurrentOrientation | Assets/TofArSamplesBasic/Common/Scripts/ReorientWithDevice.cs:98-114 | the SDK's orientation is used when known; an unknown one becomes portrait exactly when the screen is taller than wide, else landscape-left; the result is never unknown |
| ReorientWithDevice.Rotate | Assets/TofArSamplesBasic/Common/Scripts/ReorientWithDevice.cs:57-76 | face-up and face-down keep the previous orientation and rotate nothing; a different orientation rotates by the difference of the two angles and becomes the previous one |
| ReorientWithDevice.UpdateRotation | Assets/TofArSamplesBasic/Common/Scripts/ReorientWithDevice.cs:43-46 | an orientation event only marks an update pending |
| ReorientWithDevice.Update | Assets/TofArSamplesBasic/Common/Scripts/ReorientWithDevice.cs:48-55 | a pending update clears the flag and rotates once; otherwise nothing changes |
| ReorientWithDevice.RunUpright | Assets/TofArSamplesBasic/Common/Scripts/ReorientWithDevice.cs:43-76 | however the device turns, the deltas telescope: the total rotation stays equal to the angle of the orientation last applied |
| ReorientWithDevice.FromInitial | Assets/TofArSamplesBasic/Common/Scripts/ReorientWithDevice.cs:43-76 | from the initial Unknown state the object's total rotation is the angle of the orientation it last took |
| ReorientWithDevice.RunKnown | Assets/TofArSamplesBasic/Common/Scripts/ReorientWithDevice.cs:57-76 | the remembered orientation never becomes face-up or face-down, and once known never becomes unknown again |
| BodyRotationHandler.CameraRotation | Assets/TofArSamplesBasic/Body/Scripts/BodyRotationHandler.cs:50-59 | the camera orientation's screen rotation is 270 for portrait, 180 for landscape-right, 90 for upside-down portrait and 0 otherwise |
| BodyRotationHandler.BodyRotation | Assets/TofArSamplesBasic/Body/Scripts/BodyRotationHandler.cs:40-71 | with the External detector while playing, the body's angle plus the camera's rotation is the screen angle; otherwise the body is not turned |
| BodyRotationHandler.LastEventDecides | Assets/TofArSamplesBasic/Body/Scripts/BodyRotationHandler.cs:28-71 | the angle is assigned, not accumulated: after any series of events it is the one the last event computes |
| BodyRotationHandler.HistoryIrrelevant | Assets/TofArSamplesBasic/Body/Scripts/BodyRotationHandler.cs:28-71 | two histories ending in the same event leave the body at the same angle |
| VrmVisualizer.BoneOfInverse | Assets/TofArSamplesBasic/Body/Scripts/VrmVisualizer.cs:72-90 | exactly the fifteen listed joints drive a bone; that bone is a real one (below LastBone) and the joint can be read back from it |
| VrmVisualizer.MappingInjective | Assets/TofArSamplesBasic/Body/Scripts/VrmVisualizer.cs:72-90 | the joint mapping has fifteen distinct entries and no two joints drive the same bone |
| VrmVisualizer.AvatarRotation | Assets/TofArSamplesBasic/Body/Scripts/VrmVisualizer.cs:161-196 | the avatar is not turned while the body stream is not playing; with the External detector it turns by the screen angle minus the camera's, otherwise by the camera's minus the screen's |
| VrmVisualizer.AvatarMatchesBody | Assets/TofArSamplesBasic/Body/Scripts/VrmVisualizer.cs:161-196 | with the External detector the avatar turns exactly like the body model; with the other detectors it turns the opposite way |
| VrmVisualizer.AvailableJoints | Assets/TofArSamplesBasic/Body/Scripts/VrmVisualizer.cs:266-281 | the loop succeeds exactly when every joint is present and no two tracked joints drive one bone, and then holds every tracked, mapped joint under its bone; otherwise it stops at the first null joint, or at the first joint whose bone an earlier tracked joint already took, whichever comes first |
| VrmVisualizer.InitialJoints | Assets/TofArSamplesBasic/Body/Scripts/VrmVisualizer.cs:92-113 | Awake makes an undetected entry for every bone from 0 up to LastBone, and no other |
| VrmVisualizer.BonesBelow | Assets/TofArSamplesBasic/Body/Scripts/VrmVisualizer.cs:99-106 | after the bones below n, exactly those bones have an entry, none detected |
| VrmVisualizer.SetJoint | Assets/TofArSamplesBasic/Body/Scripts/VrmVisualizer.cs:216-235 | a bone without an entry gives false and changes nothing; otherwise the bone's detected flag becomes whether the joint is present and tracked, and that flag is the result |
| VrmVisualizer.OnEnable | Assets/TofArSamplesBasic/Body/Scripts/VrmVisualizer.cs:125-132 | enabling subscribes each of the three handlers once more |
| VrmVisualizer.OnDisableAsWritten | Assets/TofArSamplesBasic/Body/Scripts/VrmVisualizer.cs:134-139 | as written, disabling subscribes the screen-orientation handler once more instead of removing it |
| VrmVisualizer.OnDisable | Assets/TofArSamplesBasic/Body/Scripts/VrmVisualizer.cs:134-139 | disabling, as intended, removes one subscription of each handler enabling added |
| VrmVisualizer.AsWrittenLeaks | Assets/TofArSamplesBasic/Body/Scripts/VrmVisualizer.cs:125-139 | as written, n enable/disable cycles leave 2n screen-orientation subscriptions behind |
| VrmVisualizer.CorrectedBalanced | Assets/TofArSamplesBasic/Body/Scripts/VrmVisualizer.cs:125-139 | with the removal intended, every enable/disable cycle returns to no subscriptions and each handler is subscribed exactly once while enabled |
| HandModelController.CheckOffsetRange | Assets/TofArSamplesBasic/Hand/Scripts/HandModelController.cs:181-195 | the early-exit loop over the three components accepts an offset exactly when x, y and z all lie in [-1, 1] |
| HandModelController.SetShow | Assets/TofArSamplesBasic/Hand/Scripts/HandModelController.cs:17-29 | the shown flag always ends at the requested value, the offset and scale are untouched, and an event is raised exactly when the value differed |
| HandModelController.SetOffset | Assets/TofArSamplesBasic/Hand/Scripts/HandModelController.cs:33-51 | an offset is taken, applied and announced exactly when it differs and lies in range; otherwise state and events are unchanged; an in-range offset stays in range |
| HandModelController.SetScale | Assets/TofArSamplesBasic/Hand/Scripts/HandModelController.cs:53-73 | a scale is taken and announced exactly when it differs and lies in [0.25, 4]; otherwise nothing changes; an in-range scale stays in range |
| HandModelController.InitialValid | Assets/TofArSamplesBasic/Hand/Scripts/HandModelController.cs:31-33 | the default settings (zero offset, scale 1) are within both ranges |
| HandModelController.SettersSettle | Assets/TofArSamplesBasic/Hand/Scripts/HandModelController.cs:17-68 | asking any setter twice for the same value takes it at most once: the second request changes nothing |
| HandModelController.Oriented | Assets/TofArSamplesBasic/Hand/Scripts/HandModelController.cs:83-106 | the three adjustment matrices turn the offset by a quarter turn one way (90), a half turn (180) and a quarter turn the other way (270), never moving z |
| HandModelController.TurnsInvert | Assets/TofArSamplesBasic/Hand/Scripts/HandModelController.cs:83-106 | the portrait and upside-down matrices invert each other, landscape-right is its own inverse, and two portrait turns make landscape-right |
| HandModelController.TurnKeepsRange | Assets/TofArSamplesBasic/Hand/Scripts/HandModelController.cs:83-106 | a turned in-range offset stays in range |
| HandModelController.PointsText | Assets/TofArSamplesBasic/Hand/Scripts/HandModelController.cs:131-151 | null points give the empty string; otherwise the point texts in order with one "\n" between neighbours and none at the end |
| HandModelController.PointsTextSplits | Assets/TofArSamplesBasic/Hand/Scripts/HandModelController.cs:131-151 | when no point text holds a newline, splitting the dump on "\n" gives back exactly one text per point |
| HandModelController.OptionNames | Assets/TofArSamplesBasic/SamplesBasic/Body/Scripts/BodyModelController.cs:82-85 | the option list of a model dropdown is "-" followed by the names in order, so option k names model k - 1; RealHandController.cs:77-79 builds its list the same way |
| BodyModelController.SetActive | Assets/TofArSamplesBasic/SamplesBasic/Body/Scripts/BodyModelController.cs:29-32 | only the named model's flag changes, and only when it names an existing model; everything else is kept |
| BodyModelController.SetIsShow | Assets/TofArSamplesBasic/SamplesBasic/Body/Scripts/BodyModelController.cs:17-37 | the field is stored; when the getter already agrees nothing else changes and nothing is raised; otherwise only the chosen model is switched, the getter then answers the request (when a model is chosen), and the new answer is announced |
| BodyModelController.ApplyScaling | Assets/TofArSamplesBasic/SamplesBasic/Body/Scripts/BodyModelController.cs:129-135 | every model takes the current scale and nothing else changes |
| BodyModelController.SetIndex | Assets/TofArSamplesBasic/SamplesBasic/Body/Scripts/BodyModelController.cs:42-72 | a value equal to Index or outside the options changes nothing; otherwise the old model is switched off, the value remembered, visibility set to value > 0, every model rescaled to the current scale when the result is shown and left unscaled otherwise, and the new Index announced after the visibility event |
| BodyModelController.SetIndexReadsBack | Assets/TofArSamplesBasic/SamplesBasic/Body/Scripts/BodyModelController.cs:39-72 | from a state with at most the chosen model active, a new index reads back, exactly its model is active (none for 0), and the events are a show then the index, or only the index for 0 |
| BodyModelController.SetIsShowKeeps | Assets/TofArSamplesBasic/SamplesBasic/Body/Scripts/BodyModelController.cs:17-39 | the visibility setter keeps the index among the options and at most the chosen model active, and with a model chosen the getter answers the request |
| BodyModelController.ShowWithoutChoice | Assets/TofArSamplesBasic/SamplesBasic/Body/Scripts/BodyModelController.cs:17-39 | with no model chosen, asking to show activates nothing and announces false |
| BodyModelController.Start | Assets/TofArSamplesBasic/SamplesBasic/Body/Scripts/BodyModelController.cs:80-98 | the first model named "BodySkeleton" is chosen and shown with Index reading its option number; without one nothing is chosen or raised |
| BodyModelController.ApplyOffset | Assets/TofArSamplesBasic/SamplesBasic/Body/Scripts/BodyModelController.cs:100-127 | every model is placed at the offset, turned with the screen exactly for the models under the reorienting socket; nothing else changes |
| BodyModelController.SetOffset | Assets/TofArSamplesBasic/Body/Scripts/AbstractBodyModelController.cs:33-47 | an offset the base guard accepts is re-applied to every model with its events; a refused one changes nothing |
| BodyModelController.ReorientReapplies | Assets/TofArSamplesBasic/Body/Scripts/AbstractBodyModelController.cs:127-130 | re-applying after a screen change keeps the offset, leaves non-reoriented models at it, and turns reoriented ones by a half turn in landscape-right |
| BodyModelController.SetScale | Assets/TofArSamplesBasic/Body/Scripts/AbstractBodyModelController.cs:55-68 | a scale the base guard accepts is applied to every model with its event; a refused one changes nothing |
| RealHandController.Start | Assets/TofArSamplesBasic/Hand/Scripts/RealHandController.cs:73-88 | after start the hand is hidden, Index reads 0 and nothing is remembered |
| RealHandController.StartGood | Assets/TofArSamplesBasic/Hand/Scripts/RealHandController.cs:73-88 | the state after start is one of the reachable states the setters keep |
| RealHandController.ScaleHand | Assets/TofArSamplesBasic/Hand/Scripts/RealHandController.cs:121-130 | each armature component keeps its sign and takes the requested size |
| RealHandController.Rescale | Assets/TofArSamplesBasic/Hand/Scripts/RealHandController.cs:132-136 | both armatures take the current scale with each component's sign kept, nothing else changes, and a non-zero scale leaves them rescalable |
| RealHandController.SetIndex | Assets/TofArSamplesBasic/Hand/Scripts/RealHandController.cs:32-63 | a value equal to Index or outside the options changes nothing; otherwise visibility becomes value > 0, a positive value picks material value - 1, is remembered and rescales both armatures to the current scale, hiding keeps the remembered index and the armatures, and one index event is raised |
| RealHandController.SetIsShow | Assets/TofArSamplesBasic/Hand/Scripts/RealHandController.cs:15-29 | a request the getter already answers changes nothing; otherwise Index is set to the remembered index (show) or 0 (hide) and the getter's new answer is announced after the index event |
| RealHandController.SetIndexReadsBack | Assets/TofArSamplesBasic/Hand/Scripts/RealHandController.cs:32-63 | from a reachable state, a new index reads back exactly, IsShow holds exactly when it is positive, and the state stays reachable |
| RealHandController.ShowIsField | Assets/TofArSamplesBasic/Hand/Scripts/RealHandController.cs:15-20 | in every reachable state the IsShow getter equals the isShow field |
| RealHandController.HideThenShow | Assets/TofArSamplesBasic/Hand/Scripts/RealHandController.cs:15-29 | hiding a shown hand keeps the remembered index, and showing it again restores the same Index, each with an index then a show event |
| RealHandController.ShowWithoutChoice | Assets/TofArSamplesBasic/Hand/Scripts/RealHandController.cs:15-29 | with no model ever chosen, asking to show leaves the hand hidden yet announces false |
| RealHandController.ApplyOffset | Assets/TofArSamplesBasic/Hand/Scripts/RealHandController.cs:96-119 | the model is placed at the offset turned with the screen, and an in-range offset stays in range |
| RealHandController.SetOffset | Assets/TofArSamplesBasic/Hand/Scripts/RealHandController.cs:96-119 | only an offset the base guard accepts moves the model, to the turned offset, with the base's events |
| RealHandController.SetScale | Assets/TofArSamplesBasic/Hand/Scripts/RealHandController.cs:132-136 | only a scale the base guard accepts is stored, and it rescales both armatures to the new size with each component's sign kept; a refused scale changes nothing |
| HandOcclusionController.SetClippingDistance | Assets/TofArSamplesBasic/Hand/Scripts/HandOcclusionController.cs:48-59 | the distance always ends at the requested value and an event is raised exactly when it changed; the mesh and the mode are untouched |
| HandOcclusionController.SetHandOnly | Assets/TofArSamplesBasic/Hand/Scripts/HandOcclusionController.cs:63-75 | a request equal to the mode changes nothing; a change switches the mode, clips the mesh at ClippingDistance (on) or 1000 (off) and announces the new mode |
| HandOcclusionController.HandDistance | Assets/TofArSamplesBasic/Hand/Scripts/HandOcclusionController.cs:88-98 | a missing hand counts as distance -1, a present one as the length of its centre point |
| HandOcclusionController.FrameArrived | Assets/TofArSamplesBasic/Hand/Scripts/HandOcclusionController.cs:77-104 | off hand-only mode the mesh returns to 1000; in hand-only mode with a manager and a mesh it is 0 when both hands are at 0, else exactly the farther hand's distance plus ClippingDistance; the settings never change |
| HandOcclusionController.NoHands | Assets/TofArSamplesBasic/Hand/Scripts/HandOcclusionController.cs:88-101 | with neither hand present the mesh is clipped at ClippingDistance - 1 |
| HandOcclusionController.ClippingTakesEffectNextFrame | Assets/TofArSamplesBasic/Hand/Scripts/HandOcclusionController.cs:48-101 | a new ClippingDistance does not move the mesh at once, and the next frame with a hand clips at the farther hand plus the new distance |
| HandOcclusionController.OffStaysDefault | Assets/TofArSamplesBasic/Hand/Scripts/HandOcclusionController.cs:63-82 | after hand-only occlusion is switched off, the mesh is at 1000 and every later frame keeps it there |
| MaterialColorController.Recolor | Assets/TofArSamplesBasic/Common/Scripts/MaterialColorController.cs:47-51 | the material keeps its own alpha and takes the chosen colour's red, green and blue |
| MaterialColorController.SetIndex | Assets/TofArSamplesBasic/Common/Scripts/MaterialColorController.cs:37-56 | an index equal to the current one or outside the list changes nothing; otherwise it is taken, the material recoloured and the index announced; the alpha, the list and the saved colour never change |
| MaterialColorController.RecolorLast | Assets/TofArSamplesBasic/Common/Scripts/MaterialColorController.cs:47-51 | recolouring twice is the same as recolouring once with the second colour |
| MaterialColorController.ColorNames | Assets/TofArSamplesBasic/Common/Scripts/MaterialColorController.cs:72-75 | one name per list entry, in order |
| MaterialColorController.Enable | Assets/TofArSamplesBasic/Common/Scripts/MaterialColorController.cs:83-86 | enabling saves the current material colour and leaves the material, the list and the index as they are |
| MaterialColorController.Disable | Assets/TofArSamplesBasic/Common/Scripts/MaterialColorController.cs:88-91 | disabling puts the saved colour back and keeps the list and the index |
| MaterialColorController.DisableRestores | Assets/TofArSamplesBasic/Common/Scripts/MaterialColorController.cs:37-91 | however many index changes happen between enable and disable, disabling restores the colour found on enable |
| MaterialColorController.ChooseKeepsSaved | Assets/TofArSamplesBasic/Common/Scripts/MaterialColorController.cs:37-56 | a run of index changes never touches the saved colour or the material's alpha |
| MaterialColorController.CurrentColor | Assets/TofArSamplesBasic/Common/Scripts/MaterialColorController.cs:61-67 | the Color getter yields the chosen entry's colour, and fails exactly when the index is outside the list |
| MaterialColorController.ChoiceShows | Assets/TofArSamplesBasic/Common/Scripts/MaterialColorController.cs:37-67 | after a taken choice the material's red, green and blue are those the Color getter reports |
| MaterialTransparentController.SetTransparent | Assets/TofArSamplesBasic/Common/Scripts/MaterialTransparentController.cs:35-51 | a value equal to the current one or outside [0, 1] changes nothing; otherwise it becomes the value and the material's alpha and is announced; red, green, blue and the saved colour never change |
| MaterialTransparentController.SetKeepsRange | Assets/TofArSamplesBasic/Common/Scripts/MaterialTransparentController.cs:20-51 | a value in [0, 1] stays in [0, 1] whatever is asked, and any alpha written lies in [0, 1] |
| MaterialTransparentController.Enable | Assets/TofArSamplesBasic/Common/Scripts/MaterialTransparentController.cs:59-62 | enabling saves the material colour and leaves the material and the slider value as they are |
| MaterialTransparentController.Disable | Assets/TofArSamplesBasic/Common/Scripts/MaterialTransparentController.cs:64-67 | disabling puts the saved colour back and keeps the slider value, so the slider and the restored alpha can disagree |
| MaterialTransparentController.DisableRestores | Assets/TofArSamplesBasic/Common/Scripts/MaterialTransparentController.cs:35-67 | a transparency set between enable and disable is undone by the disable |
| URPMaterialChanger.Truncate | Assets/URP/Scripts/URPMaterialChanger.cs:76 | a float cast to an enum truncates toward zero, so a non-negative value gives a non-negative ordinal |
| URPMaterialChanger.SetupMaterialBlendMode | Assets/URP/Scripts/URPMaterialChanger.cs:59-133 | a null material fails with ArgumentNull and only then; the alpha-test keyword follows _AlphaClip == 1; an opaque surface gets One/Zero blending with depth writes, queue -1 and shadows; each of the four blend modes gets its factors and premultiply keyword with the shared transparent settings; any other blend value leaves the rest as it was; the surface, blend, clip and colour are never written |
| URPMaterialChanger.ChangeTrans | Assets/URP/Scripts/URPMaterialChanger.cs:40-53 | switching to transparent yields alpha blending with the transparent settings; switching to opaque keeps _Blend and yields opaque settings; the colour is never touched and a null material fails |
| URPMaterialChanger.ChangeTransIdempotent | Assets/URP/Scripts/URPMaterialChanger.cs:40-53 | switching the same way twice gives the same material as switching once |
| URPMaterialChanger.ChangeTransRoundTrip | Assets/URP/Scripts/URPMaterialChanger.cs:40-53 | switching to transparent and back is switching to opaque directly, except that _Blend stays at Alpha |
| URPHandAlphaController.Count | Assets/URP/Scripts/Hand/URPHandAlphaController.cs:88-101 | the counter rises by one per frame with the hand up to 15 and falls by one per frame without it down to 0, so it stays in [0, 15] |
| URPHandAlphaController.CountSaturates | Assets/URP/Scripts/Hand/URPHandAlphaController.cs:88-101 | k frames with the hand add k up to 15, and k frames without subtract k down to 0 |
| URPHandAlphaController.Multiplier | Assets/URP/Scripts/Hand/URPHandAlphaController.cs:102 | the multiplier lies in [0, 1], is 0 exactly at counter 0 and 1 exactly at counter 15 |
| URPHandAlphaController.RatioInMinMax | Assets/URP/Scripts/Hand/URPHandAlphaController.cs:121-128 | the result times the span is the distance from the smaller bound, whichever way round the bounds are given |
| URPHandAlphaController.DistanceAlpha | Assets/URP/Scripts/Hand/URPHandAlphaController.cs:104-117 | 1 beyond 0.3, 0 nearer than 0.1, the linear ramp between, always in [0, 1] |
| URPHandAlphaController.DistanceAlphaMonotone | Assets/URP/Scripts/Hand/URPHandAlphaController.cs:104-117 | the distance alpha never drops as the hand moves away |
| URPHandAlphaController.Faded | Assets/URP/Scripts/Hand/URPHandAlphaController.cs:147 | the faded colour keeps red, green and blue, and its alpha is the original alpha scaled by the value clamped to [0, 1] |
| URPHandAlphaController.Transparent | Assets/URP/Scripts/Hand/URPHandAlphaController.cs:66-69 | every material is switched to transparent blending, in order |
| URPHandAlphaController.PrepareAsWritten | Assets/URP/Scripts/Hand/URPHandAlphaController.cs:58-83 | with the check on materials[0], a renderer counts as having the colour property exactly when it has no material or its first one does, and then records clear for any later material without it |
| URPHandAlphaController.SecondMaterialMissed | Assets/URP/Scripts/Hand/URPHandAlphaController.cs:73-82 | a renderer whose first material has the colour property and whose second does not passes the check as written, and the second material is faded from clear to clear |
| URPHandAlphaController.Prepare | Assets/URP/Scripts/Hand/URPHandAlphaController.cs:58-83 | with the check on materials[i], a renderer counts as having the colour property exactly when every material has it, and then records each material's own colour |
| URPHandAlphaController.Start | Assets/URP/Scripts/Hand/URPHandAlphaController.cs:44-84 | every renderer is prepared in order with the corrected check, the counter starts at 0 and the fade flag is set |
| URPHandAlphaController.SetRendererAlpha | Assets/URP/Scripts/Hand/URPHandAlphaController.cs:137-157 | a renderer with the colour property gives each material the faded colour, re-blending only when the fade state flipped; one without it is shown exactly when the value exceeds 0.5, unless it has no material |
| URPHandAlphaController.SetAlpha | Assets/URP/Scripts/Hand/URPHandAlphaController.cs:130-158 | every renderer is updated in order, and colour lists keep matching their materials |
| URPHandAlphaController.Update | Assets/URP/Scripts/Hand/URPHandAlphaController.cs:86-119 | the frame is counted, the fade flag is value < 1, and the value written is the distance alpha times the multiplier, with materials re-blended only on a flip |
| URPHandAlphaController.Value | Assets/URP/Scripts/Hand/URPHandAlphaController.cs:102-118 | the value written lies in [0, 1] |
| URPHandAlphaController.AlphaWithinOriginal | Assets/URP/Scripts/Hand/URPHandAlphaController.cs:118-147 | the alpha written never exceeds the material's original alpha and is never negative |
| URPHandAlphaController.HandGoneIsInvisible | Assets/URP/Scripts/Hand/URPHandAlphaController.cs:95-118 | once the counter is at 0, a frame without the hand writes alpha 0 to every material with the colour property, at any distance |
| MarkBillboard.PointAdded | Assets/TofArSamplesBasic/MarkRecog/Scripts/MarkBillboard.cs:76-84 | each of the five extremes is replaced by the point exactly when the point strictly beats it on its axis; visibility is untouched |
| MarkBillboard.NoImprovement | Assets/TofArSamplesBasic/MarkRecog/Scripts/MarkBillboard.cs:76-84 | a point that beats no extreme leaves the marks unchanged |
| MarkBillboard.StrokeExtremes | Assets/TofArSamplesBasic/MarkRecog/Scripts/MarkBillboard.cs:30-84 | after a stroke of points inside the ±9999 sentinels, each extreme is the first point reaching the minimum or maximum of its coordinate |
| MarkBillboard.ExtendBeaten | Assets/TofArSamplesBasic/MarkRecog/Scripts/MarkBillboard.cs:78-82 | a new point that beats the best so far becomes the first best of the longer stroke |
| MarkBillboard.ExtendKept | Assets/TofArSamplesBasic/MarkRecog/Scripts/MarkBillboard.cs:78-82 | a new point that does not beat the best so far leaves it the first best of the longer stroke |
| MarkBillboard.PointAddedImproves | Assets/TofArSamplesBasic/MarkRecog/Scripts/MarkBillboard.cs:76-84 | an extreme never gets worse, and the added point never beats the extreme that follows |
| MarkBillboard.DrawStopped | Assets/TofArSamplesBasic/MarkRecog/Scripts/MarkBillboard.cs:42-73 | the billboard is shown, centred between the reprojected left and right and top and bottom extremes at the far extreme's depth, and scaled to 1.2 times their extent |
| MarkBillboard.BillboardSpansMark | Assets/TofArSamplesBasic/MarkRecog/Scripts/MarkBillboard.cs:61-69 | without the 1.2 margin, the billboard spans exactly from the left to the right extreme and from the bottom to the top |

## Left out

- Rendering, file and network I/O, coroutines, threads and the Unity event loop. Each handler is a pure function of the state and its inputs. Posting a stop request to the main thread is a returned flag.
- Floating-point rounding. Vectors, colours, scales and alphas are `real`. Only integer widths that matter are written out (the 32-bit byte total in `Arith.Wrap32`, 16-bit samples in `RawBytes`).
- Formatting is a parameter in every model that uses it:
  - `float.ToString("f3")`, `Vector3.ToString()` and `DateTime` formatting;
  - the option text of a camera configuration (`TofManagerController.MakePropertyList`);
  - PNG encoding of colour frames.
- The current time (`DateTime.Now`) is passed in. So are the camera's world/screen projection (`MarkBillboard.DrawStopped`) and the SDK's answers: frames, results, orientations, configurations and platform flags.
- The SDK's own enumerations (`JointIndices`, `HandPointIndex`) are not visible.
  - Joints are identified by name, or their count is passed in.
  - The hand centre is an `Option` point, so an index beyond a short feature-point array is not modelled.
- `SaveType` is not part of the visible source. Its two values are taken as 0 and 1 in declaration order.
- IO exceptions while saving (a failing write is modelled only for the region sampler's raw files) and 32-bit overflow of any counter other than the byte total are not modelled.
- DataController.UpdateRecorders: the `SavePrefs` that each `UpdateRecorder` call runs is not repeated inside the model; `SavePrefs` is modelled on its own.
- The recorder UI is not modelled: the message fade in `Update`, the sound, `DeleteRecord`, and opening the file app.
- `ColorRecorder`'s texture reallocation is not modelled; the resized bytes are the output.
- ColoredPointCloud: the ToF frame handler only hands the depth frame to the SDK's depth-to-colour mapper, which is outside the model; the colour points it produces are an input of `ColoredPointCloud.Update`.
- ImageViewController: `Utils.Find` is not part of this model's source. It is taken as the index of the first equal element, or -1 when there is none (`ImageViewController.Find`).
- ImageViewAdjuster: the `AdjustViews` coroutine and the layout fitters are not modelled; only the counts and placements they compute are.
- RealHandController.SetIndex: requires both armature scales to have no zero component and a non-zero scale. `ScaleHand` divides by each component and would produce NaN there.
- RealHandController.SetIsShow: the same requirement, for the same reason.
- RealHandController.SetScale: the same requirement on the armature scales.
- RealHandController.Rescale: the same requirement on the armature scales.
- RealHandController: `RealHandModel.ChangeHandMaterial` is taken to set `CurrentHandModelIndex` to its argument, and that index to start non-negative.
- BodyModelController.IsShow: `activeInHierarchy` is taken as the model's own active flag; parent objects are assumed active.
- HandOcclusionController.FrameArrived: a missing dynamic mesh in the off-mode reset and in the `IsHandOnlyOcclusion` setter (a null reference in the source) is not modelled.
- URPHandAlphaController: the fade distances (0.3 and 0.1), the fade term (15) and the property name are fixed at their defaults. Reading a colour from a material without the property is taken to give clear.
- TofManagerController: a null camera id is compared as the empty string.
- VrmVisualizer: smoothing, inverse kinematics, scaling and the target geometry of each bone are not modelled; only which bones are updated, and with what rotation rule.
- ScrollTextView.GetTextSplit: requires count != 0. A zero count divides by zero in floating point, and the result of casting that to int depends on the platform. The method is private and never called.
- ImageViewController.SyncModeIndex: before `Start` has built the mode list, the re-sync is skipped. What `Utils.Find` does with a null list is not visible.
- RealHandController.ScaleHand: requires non-zero components, for the NaN reason above.

## Findings

| source | as written | input that shows it | evidently intended | confidence | as-written member | corrected member |
|---|---|---|---|---|---|---|
| Assets/TofArSamplesBasic/Body/Scripts/VrmVisualizer.cs:138 | `OnDisable` adds the screen-orientation handler again with `+=` | any enable/disable cycle: after n cycles the handler is subscribed 2n times instead of 0 | `-=`, so that disabling undoes `OnEnable` | high, not executed | VrmVisualizer.OnDisableAsWritten, VrmVisualizer.AsWrittenLeaks | VrmVisualizer.OnDisable, VrmVisualizer.CorrectedBalanced |
| Assets/URP/Scripts/Hand/URPHandAlphaController.cs:75 | the colour-property check inside the loop over materials reads `materials[0]` on every pass | a renderer whose first material has the colour property and whose second does not: the check passes, the second material's colour reads as clear, and it is faded from clear to clear instead of the renderer being shown or hidden | `materials[i]`, the material whose colour is read on the next line | medium, not executed | URPHandAlphaController.PrepareAsWritten, URPHandAlphaController.SecondMaterialMissed | URPHandAlphaController.Prepare |

=== FILE: arith.dfy ===
/** Facts about multiplication and division that the solver does not find alone. */
module Arith {

  lemma MulLe(a: int, b: int, k: int)
    requires 0 <= a <= b && 0 <= k
    ensures 0 <= a * k <= b * k
  {
    assert b * k - a * k == (b - a) * k;
  }

  /** Row y of a w-wide, h-high grid starts at y * w and ends at or before w * h. */
  lemma RowStep(w: nat, h: nat, y: nat)
    requires y < h
    ensures 0 <= y * w && (y + 1) * w == y * w + w && (y + 1) * w <= w * h
  {
    MulLe(y + 1, h, w);
    assert h * w == w * h;
  }

  lemma DivModUnique(n: int, m: int, q: int, r: int)
    requires m > 0 && 0 <= r < m && n == q * m + r
    ensures n / m == q && n % m == r
  {
    var q', r' := n / m, n % m;
    assert n == q' * m + r';
    assert (q - q') * m == r' - r;
    if q > q' {
      MulLe(1, q - q', m);
    } else if q < q' {
      MulLe(1, q' - q, m);
    }
  }

  /** Two's-complement 32-bit wrap-around of an int addition's exact result. */
  function Wrap32(x: int): (r: int)
    ensures -0x8000_0000 <= r < 0x8000_0000
    ensures (x - r) % 0x1_0000_0000 == 0
    ensures -0x8000_0000 <= x < 0x8000_0000 ==> r == x
  {
    var m := (x + 0x8000_0000) % 0x1_0000_0000;
    DivModUnique(x + 0x8000_0000, 0x1_0000_0000, (x + 0x8000_0000) / 0x1_0000_0000, m);
    m - 0x8000_0000
  }

  /** A quotient by a positive number keeps the bounds its numerator has in multiples of it. */
  lemma DivBounds(lo: real, hi: real, t: real, n: real)
    requires n > 0.0 && lo * n <= t <= hi * n
    ensures lo <= t / n <= hi
  {
    var q := t / n;
    assert q * n == t;
    assert (q - lo) * n == t - lo * n;
    assert (hi - q) * n == hi * n - t;
  }

  /** An integer total within count * [lo, hi] has its real mean within [lo, hi]. */
  lemma MeanBounds(lo: int, hi: int, sum: int, count: int)
    requires count > 0 && lo * count <= sum <= hi * count
    ensures lo as real <= sum as real / count as real <= hi as real
  {
    assert (lo * count) as real == lo as real * count as real;
    assert (hi * count) as real == hi as real * count as real;
    DivBounds(lo as real, hi as real, sum as real, count as real);
  }

  /** Scaling a fraction in [0, 1) keeps the product in [0, a). */
  lemma ScaleBelow(a: real, x: real)
    requires a >= 0.0
    ensures 0.0 <= x < 1.0 ==> 0.0 <= a * x && (a > 0.0 ==> a * x < a)
  {
    if 0.0 <= x < 1.0 && a > 0.0 {
      assert a - a * x == a * (1.0 - x);
      assert a * (1.0 - x) > 0.0;
    }
  }
}

=== FILE: binary_recorder.dfy ===
/**
 * A recorder that keeps one byte array per frame (BinaryRecorder.cs) and
 * reports the size of every stored frame through onDataStored.
 */
module BinaryRecorder {
  import opened Wrappers
  import opened RecordTypes
  import opened Entries
  import Recorder
  import RawBytes

  const DefaultFolderName := "Data"
  const DefaultExtension := "bin"

  type Bytes = seq<RawBytes.byte>
  type State = Recorder.Capture<Bytes>

  /**
   * SetData(bytes, dateTime): the frame is kept as current data and, while
   * recording, stored under its time; the second component is the size passed
   * to onDataStored, None when no event is raised.
   */
  function SetData(s: State, bytes: Bytes, time: Timestamp): (r: (State, Option<nat>))
    ensures r.1.Some? <==> s.flags.recording
    ensures r.1.Some? ==> r.1.value == |bytes|
    ensures r.0.current == Some(bytes) && r.0.currentTime == time
    ensures s.flags.recording ==> Lookup(r.0.stored, time) == Some(bytes)
    ensures !s.flags.recording ==> r.0.stored == s.stored
  {
    (Recorder.Set(s, bytes, time, time), if s.flags.recording then Some(|bytes|) else None)
  }

  /** Why saving the data of a recorder throws. */
  datatype GetError =
    | NullCurrent     // no frame has arrived: the single entry holds a null array
    | NullDictionary  // the record mode is neither Single nor Multiple: GetData returns null

  /**
   * GetData with the subclass's conversion of a stored frame into file
   * contents: the identity for raw binaries (CreateSingleData and
   * CreateMultipleData of the base class), PNG encoding for colour frames.
   */
  function GetData(s: State, mode: RecordMode, encode: Bytes -> Bytes): (r: Result<seq<Entry<Timestamp, Bytes>>, GetError>)
    ensures mode == Single && s.current.Some? ==> r == Ok([Entry(s.currentTime, encode(s.current.value))])
    ensures mode == Single && s.current.None? ==> r == Err(NullCurrent)
    ensures mode == Multiple ==> r.Ok? && Keys(r.value) == Keys(s.stored)
    ensures mode == Multiple ==>
      && |r.value| == |s.stored|
      && forall i :: 0 <= i < |s.stored| ==> r.value[i] == Entry(s.stored[i].key, encode(s.stored[i].value))
    ensures mode.Unnamed? ==> r == Err(NullDictionary)
  {
    match mode
    case Single =>
      if s.current.None? then Err(NullCurrent) else Ok([Entry(s.currentTime, encode(s.current.value))])
    case Multiple => MapKeys(s.stored, encode); Ok(MapValues(s.stored, encode))
    case Unnamed(_) => Err(NullDictionary)
  }

  lemma MapKeys(es: seq<Entry<Timestamp, Bytes>>, f: Bytes -> Bytes)
    ensures Keys(MapValues(es, f)) == Keys(es)
  {
    var m := MapValues(es, f);
    assert Keys(m) == Keys(es) by {
      forall i | 0 <= i < |es| ensures Keys(m)[i] == Keys(es)[i] {
        KeyAt(m, i);
        KeyAt(es, i);
      }
    }
  }

  /** Multiple mode with the identity conversion saves exactly what was stored. */
  lemma {:induction false} RawMultipleIsStored(s: State)
    ensures GetData(s, Multiple, b => b) == Ok(s.stored)
  {
    var m := MapValues(s.stored, (b: Bytes) => b);
    assert m == s.stored;
  }
}

=== FILE: body_model_controller.dfy ===
/**
 * The body model switcher (BodyModelController.cs over
 * AbstractBodyModelController.cs). Index 0 hides the body; index v > 0
 * activates model v - 1 and remembers v. Offsets and scales, guarded as
 * for the hand, are applied to every model.
 */
module BodyModelController {
  import opened Vectors
  import HMC = HandModelController

  type Event = HMC.Event

  /**
   * The controller and its models: the base settings, the last index
   * chosen, the option names, and for each model whether it is active,
   * its position and its (uniform) scale.
   */
  datatype Body = Body(settings: HMC.Settings, latestIndex: int, names: seq<string>,
                       active: seq<bool>, positions: seq<Vec3>, scales: seq<real>)

  /** One entry per model, and the options are "-" then one per model. */
  predicate WellFormed(b: Body)
  {
    |b.positions| == |b.active| && |b.scales| == |b.active| && |b.names| == |b.active| + 1
  }

  /** BodyIndex: the model count (no model) before any choice, else the remembered index less one. */
  function BodyIndex(b: Body): int
  {
    if b.latestIndex < 1 then |b.active| else b.latestIndex - 1
  }

  /** The IsShow getter: the chosen model exists and is active. */
  predicate IsShow(b: Body)
  {
    0 <= BodyIndex(b) < |b.active| && b.active[BodyIndex(b)]
  }

  /** The Index getter: the remembered index while shown, else 0. */
  function Index(b: Body): int
  {
    if IsShow(b) then b.latestIndex else 0
  }

  /** A remembered index among the options. */
  predicate Good(b: Body)
  {
    WellFormed(b) && 0 <= b.latestIndex < |b.names|
  }

  /** No model other than the chosen one is active. */
  predicate OnlyChosen(b: Body)
  {
    forall j :: 0 <= j < |b.active| && j != BodyIndex(b) ==> !b.active[j]
  }

  datatype Step = Step(body: Body, events: seq<Event>)

  function SetActive(b: Body, i: int, value: bool): (r: Body)
    ensures r.active == (if 0 <= i < |b.active| then b.active[i := value] else b.active)
    ensures r.latestIndex == b.latestIndex && r.names == b.names && r.settings == b.settings
    ensures r.positions == b.positions && r.scales == b.scales
  {
    if 0 <= i < |b.active| then b.(active := b.active[i := value]) else b
  }

  /**
   * The IsShow setter: the field is stored; when the getter disagrees
   * with the value, the chosen model (if any) is switched to it and the
   * getter's new answer is announced.
   */
  function SetIsShow(b: Body, value: bool): (r: Step)
    ensures |r.body.active| == |b.active|
    ensures r.body.settings.isShow == value && r.body.latestIndex == b.latestIndex && r.body.names == b.names
    ensures r.body.positions == b.positions && r.body.scales == b.scales
    ensures IsShow(b) == value ==> r.body == b.(settings := b.settings.(isShow := value)) && r.events == []
    ensures IsShow(b) != value ==>
      && r.events == [HMC.ChangeShow(IsShow(r.body))]
      && (0 <= BodyIndex(b) < |b.active| ==> IsShow(r.body) == value)
      && (BodyIndex(b) == |b.active| ==> r.body.active == b.active)
      && forall j :: 0 <= j < |b.active| && j != BodyIndex(b) ==> r.body.active[j] == b.active[j]
  {
    var stored := b.(settings := b.settings.(isShow := value));
    if IsShow(stored) != value then
      var switched := SetActive(stored, BodyIndex(stored), value);
      Step(switched, [HMC.ChangeShow(IsShow(switched))])
    else Step(stored, [])
  }

  /** ApplyScaling: every model takes the current scale. */
  function ApplyScaling(b: Body): (r: Body)
    ensures |r.scales| == |b.scales| && forall i :: 0 <= i < |b.scales| ==> r.scales[i] == b.settings.scale
    ensures r.active == b.active && r.latestIndex == b.latestIndex && r.names == b.names
    ensures r.settings == b.settings && r.positions == b.positions
  {
    b.(scales := seq(|b.scales|, _ => b.settings.scale))
  }

  /**
   * The Index setter: on a different value among the options, the chosen
   * model is switched off, the value remembered, IsShow set to value > 0
   * (the scale re-applied when shown), and the new Index announced.
   */
  function SetIndex(b: Body, v: int): (r: Step)
    ensures !(v != Index(b) && 0 <= v < |b.names|) ==> r == Step(b, [])
    ensures v != Index(b) && 0 <= v < |b.names| ==>
      var off := SetActive(b, BodyIndex(b), false).(latestIndex := v);
      var shown := SetIsShow(off, v > 0);
      && r.body.latestIndex == v && r.body.active == shown.body.active
      && r.events == shown.events + [HMC.ChangeIndex(Index(r.body))]
    ensures v != Index(b) && 0 <= v < |b.names| ==>
      && r.body.settings.isShow == (v > 0) && |r.body.scales| == |b.scales|
      && (IsShow(r.body) ==> forall i :: 0 <= i < |b.scales| ==> r.body.scales[i] == b.settings.scale)
      && (!IsShow(r.body) ==> r.body.scales == b.scales)
  {
    if v != Index(b) && 0 <= v < |b.names| then
      var off := SetActive(b, BodyIndex(b), false).(latestIndex := v);
      var shown := SetIsShow(off, v > 0);
      var after := if IsShow(shown.body) then ApplyScaling(shown.body) else shown.body;
      Step(after, shown.events + [HMC.ChangeIndex(Index(after))])
    else Step(b, [])
  }

  /**
   * With at most the chosen model active, a new index reads back, exactly
   * its model is active (none for 0), and showing announces itself before
   * the index.
   */
  lemma SetIndexReadsBack(b: Body, v: int)
    requires Good(b) && OnlyChosen(b)
    requires v != Index(b) && 0 <= v < |b.names|
    ensures var r := SetIndex(b, v);
      && Good(r.body) && OnlyChosen(r.body)
      && Index(r.body) == v && (IsShow(r.body) <==> v > 0)
      && (forall j :: 0 <= j < |b.active| ==> (r.body.active[j] <==> j == v - 1))
      && r.events == (if v > 0 then [HMC.ChangeShow(true), HMC.ChangeIndex(v)] else [HMC.ChangeIndex(0)])
  {
    var off := SetActive(b, BodyIndex(b), false).(latestIndex := v);
    assert forall j :: 0 <= j < |b.active| ==> !off.active[j];
  }

  /** The IsShow setter keeps the reachable states and at most the chosen model active. */
  lemma SetIsShowKeeps(b: Body, value: bool)
    requires Good(b) && OnlyChosen(b)
    ensures Good(SetIsShow(b, value).body) && OnlyChosen(SetIsShow(b, value).body)
    ensures BodyIndex(b) < |b.active| ==> IsShow(SetIsShow(b, value).body) == value
  {
  }

  /** With no model chosen yet, asking to show changes nothing visible but announces false. */
  lemma ShowWithoutChoice(b: Body)
    requires Good(b) && b.latestIndex == 0
    ensures SetIsShow(b, true).body.active == b.active
    ensures SetIsShow(b, true).events == [HMC.ChangeShow(false)]
  {
  }

  /**
   * Start: the names are built and the first option named "BodySkeleton"
   * is chosen through the Index setter; without one nothing is chosen.
   */
  method Start(modelNames: seq<string>, active: seq<bool>, positions: seq<Vec3>, scales: seq<real>)
    returns (r: Step)
    requires |modelNames| == |active| == |positions| == |scales|
    ensures Good(r.body) && r.body.names == HMC.OptionNames(modelNames)
    ensures "BodySkeleton" !in modelNames ==> r.body.latestIndex == 0 && r.body.active == active && r.events == []
    ensures "BodySkeleton" in modelNames ==>
      var k := r.body.latestIndex;
      && 1 <= k <= |modelNames| && modelNames[k - 1] == "BodySkeleton"
      && (forall j :: 0 <= j < k - 1 ==> modelNames[j] != "BodySkeleton")
      && IsShow(r.body) && Index(r.body) == k
  {
    var names := HMC.OptionNames(modelNames);
    var b := Body(HMC.Initial, 0, names, active, positions, scales);
    r := Step(b, []);
    var i := 0;
    while i < |names|
      invariant 0 <= i <= |names|
      invariant forall j :: 0 <= j < i - 1 ==> modelNames[j] != "BodySkeleton"
    {
      assert i > 0 ==> modelNames[i - 1] == names[i];
      if names[i] == "BodySkeleton" {
        r := SetIndex(b, i);
        return;
      }
      i := i + 1;
    }
    assert forall j :: 0 <= j < |modelNames| ==> modelNames[j] == names[j + 1];
  }

  /**
   * ApplyOffset: every model is placed at the offset, turned with the
   * screen for the models under the enabled reorienting socket.
   */
  function ApplyOffset(b: Body, reoriented: seq<bool>, screen: int): (r: Body)
    requires |reoriented| == |b.positions|
    ensures |r.positions| == |b.positions|
    ensures forall i :: 0 <= i < |b.positions| ==> r.positions[i] == HMC.Oriented(b.settings.offset, reoriented[i], screen)
    ensures r.active == b.active && r.latestIndex == b.latestIndex && r.settings == b.settings
    ensures r.names == b.names && r.scales == b.scales
  {
    b.(positions := seq(|b.positions|, i requires 0 <= i < |b.positions| =>
                          HMC.Oriented(b.settings.offset, reoriented[i], screen)))
  }

  /** The Offset setter: an accepted offset is re-applied to every model; otherwise nothing moves. */
  function SetOffset(b: Body, v: Vec3, reoriented: seq<bool>, screen: int): (r: Step)
    requires |reoriented| == |b.positions|
    ensures var c := HMC.SetOffset(b.settings, v);
      && |r.body.positions| == |b.positions|
      && (c.applied ==>
            && r.body.settings.offset == v
            && forall i :: 0 <= i < |b.positions| ==> r.body.positions[i] == HMC.Oriented(v, reoriented[i], screen))
      && (!c.applied ==> r.body == b)
      && r.events == c.events
  {
    var c := HMC.SetOffset(b.settings, v);
    if c.applied then Step(ApplyOffset(b.(settings := c.settings), reoriented, screen), c.events)
    else Step(b, [])
  }

  /** A screen-orientation change re-applies the current offset to every model; the offset itself stays. */
  lemma ReorientReapplies(b: Body, reoriented: seq<bool>, screen: int, i: nat)
    requires |reoriented| == |b.positions| && i < |b.positions|
    ensures ApplyOffset(b, reoriented, screen).settings.offset == b.settings.offset
    ensures !reoriented[i] ==> ApplyOffset(b, reoriented, screen).positions[i] == b.settings.offset
    ensures reoriented[i] && screen == 180 ==>
      ApplyOffset(b, reoriented, screen).positions[i] == Vec3(-b.settings.offset.x, -b.settings.offset.y, b.settings.offset.z)
  {
  }

  /** The Scale setter: an accepted scale is applied to every model. */
  function SetScale(b: Body, v: real): (r: Step)
    ensures var c := HMC.SetScale(b.settings, v);
      && (c.applied ==>
            && r.body.settings.scale == v && |r.body.scales| == |b.scales|
            && forall i :: 0 <= i < |b.scales| ==> r.body.scales[i] == v)
      && (!c.applied ==> r.body == b)
      && r.events == c.events
  {
    var c := HMC.SetScale(b.settings, v);
    if c.applied then Step(ApplyScaling(b.(settings := c.settings)), c.events)
    else Step(b, [])
  }
}

=== FILE: body_recorder.dfy ===
/** Records one CSV row per body estimation (BodyRecorder.cs). */
module BodyRecorder {
  import opened Wrappers
  import opened RecordTypes
  import opened Vectors
  import Text
  import Fields
  import CsvRecorder
  import Recorder

  const Kind := DataType.Body

  /** The first estimated body: its pose and the anchor position of every joint. */
  datatype BodyResult = BodyResult(position: Vec3, rotation: Quat, joints: seq<Vec3>)

  /** A body recorder also remembers the recognition mode captured when recording starts. */
  datatype State = State(csv: CsvRecorder.State, recogMode: int)

  /** dataLength: position, rotation, three values per JointIndices name, and the data source. */
  function DataLength(jointNameCount: nat): nat
  {
    3 + 4 + 3 * jointNameCount + 1
  }

  /** StartRectoring: captures the controller's recognition mode, then starts the capture. */
  function StartRecording(s: State, controllerMode: int): State
  {
    State(s.csv.(cap := Recorder.Start(s.csv.cap)), controllerMode)
  }

  /**
   * The row: pose, joints and frame data source each followed by a comma,
   * then the recognition mode.
   */
  function Row(b: BodyResult, frameDataSource: int, recogMode: int, fmt: real -> string): string
  {
    Text.Terminated(Fields.PoseFields(b.position, b.rotation, fmt) + Fields.PointFields(b.joints, fmt) + [Text.IntToString(frameDataSource)], ",")
      + Text.IntToString(recogMode)
  }

  /** OnBodyPoseEstimated: the row of the first body, with the captured recognition mode. */
  function OnBodyPoseEstimated(s: State, results: seq<BodyResult>, frameDataSource: int,
                               fmt: real -> string, now: Timestamp, key: Timestamp): (r: State)
    ensures |results| == 0 ==> r == s
    ensures |results| > 0 ==>
      r.csv.cap.current == Some(Row(results[0], frameDataSource, s.recogMode, fmt))
    ensures r.recogMode == s.recogMode
  {
    if |results| == 0 then s
    else s.(csv := CsvRecorder.SetData(s.csv, Row(results[0], frameDataSource, s.recogMode, fmt), now, key))
  }

  /** The eight names of the header's first literal, in order (note the spaces). */
  const FixedColumns := ["Timestamp", "Position_X", " Position_Y", " Position_Z",
                         " Rotaion_X", " Rotaion_Y", " Rotaion_Z", " Rotaion_W"]

  /** The header after the joint loop has run n times over the JointIndices names. */
  function HeaderLoop(names: seq<string>, n: nat): string
    requires n <= |names|
  {
    if n == 0 then Text.Join(FixedColumns, ",")
    else HeaderLoop(names, n - 1) + "," + (names[n - 1] + "_X") + "," + (names[n - 1] + "_Y") + "," + (names[n - 1] + "_Z")
  }

  function JointColumns(names: seq<string>, n: nat): (cs: seq<string>)
    requires n <= |names|
    ensures |cs| == 3 * n
  {
    if n == 0 then []
    else JointColumns(names, n - 1) + [names[n - 1] + "_X", names[n - 1] + "_Y", names[n - 1] + "_Z"]
  }

  /**
   * CreateHeader over the JointIndices names: every name but the last one
   * gets three columns.
   */
  function CreateHeader(names: seq<string>): string
  {
    var n := if |names| == 0 then 0 else |names| - 1;
    HeaderLoop(names, n) + "," + "FrameDataSource" + "," + "RecogMode"
  }

  function HeaderColumns(names: seq<string>): seq<string>
  {
    var n := if |names| == 0 then 0 else |names| - 1;
    FixedColumns + JointColumns(names, n) + ["FrameDataSource", "RecogMode"]
  }

  lemma {:induction false} HeaderLoopJoin(names: seq<string>, n: nat)
    requires n <= |names|
    ensures HeaderLoop(names, n) == Text.Join(FixedColumns + JointColumns(names, n), ",")
  {
    if n == 0 {
      assert FixedColumns + [] == FixedColumns;
    } else {
      HeaderLoopJoin(names, n - 1);
      var cs := FixedColumns + JointColumns(names, n - 1);
      var x, y, z := names[n - 1] + "_X", names[n - 1] + "_Y", names[n - 1] + "_Z";
      Text.JoinSnoc(cs, x, ",");
      Text.JoinSnoc(cs + [x], y, ",");
      Text.JoinSnoc(cs + [x, y], z, ",");
      assert cs + [x] + [y] == cs + [x, y];
      assert cs + [x, y] + [z] == FixedColumns + JointColumns(names, n);
    }
  }

  lemma {:induction false} JointColumnsFree(names: seq<string>, n: nat)
    requires n <= |names|
    requires Text.Free(names, ',')
    ensures Text.Free(JointColumns(names, n), ',')
  {
    if n > 0 {
      JointColumnsFree(names, n - 1);
      assert ',' !in names[n - 1];
    }
  }

  /**
   * With joint names free of commas, the header splits into the eight fixed
   * columns, X, Y and Z of every joint name but the last, the frame data
   * source and the recognition mode.
   */
  lemma HeaderJoins(names: seq<string>)
    ensures CreateHeader(names) == Text.Join(HeaderColumns(names), ",")
  {
    var n := if |names| == 0 then 0 else |names| - 1;
    var base := FixedColumns + JointColumns(names, n);
    HeaderLoopJoin(names, n);
    Text.JoinSnoc(base, "FrameDataSource", ",");
    Text.JoinSnoc(base + ["FrameDataSource"], "RecogMode", ",");
    assert base + ["FrameDataSource"] + ["RecogMode"] == HeaderColumns(names);
  }

  lemma HeaderFree(names: seq<string>)
    requires Text.Free(names, ',')
    ensures Text.Free(HeaderColumns(names), ',')
  {
    var n := if |names| == 0 then 0 else |names| - 1;
    var cs := HeaderColumns(names);
    JointColumnsFree(names, n);
    forall i | 0 <= i < |cs| ensures ',' !in cs[i] {
      if i >= 8 && i < 8 + 3 * n {
        assert cs[i] == JointColumns(names, n)[i - 8];
      }
    }
  }

  lemma HeaderSplits(names: seq<string>)
    requires Text.Free(names, ',')
    ensures Text.Split(CreateHeader(names), ',') == HeaderColumns(names)
    ensures |names| >= 1 ==> |Text.Split(CreateHeader(names), ',')| == 3 * |names| + 7
  {
    HeaderJoins(names);
    HeaderFree(names);
    Text.SplitJoin(HeaderColumns(names), ',');
  }

  /**
   * With a number format that writes no comma, a row splits into 7 pose
   * fields, 3 per joint, the frame data source and, last, the recognition
   * mode.
   */
  lemma RowSplits(b: BodyResult, frameDataSource: int, recogMode: int, fmt: real -> string)
    requires forall v :: ',' !in fmt(v)
    ensures var fs := Text.Split(Row(b, frameDataSource, recogMode, fmt), ',');
      |fs| == 3 * |b.joints| + 9 && fs[|fs| - 1] == Text.IntToString(recogMode)
  {
    var values := Fields.PoseFields(b.position, b.rotation, fmt) + Fields.PointFields(b.joints, fmt);
    var body := values + [Text.IntToString(frameDataSource)];
    var fs := body + [Text.IntToString(recogMode)];
    Text.TerminatedJoin(body, Text.IntToString(recogMode), ",");
    assert Text.Free(fs, ',') by {
      Fields.PoseAndPointsFree(b.position, b.rotation, b.joints, fmt, ',');
      forall i | 0 <= i < |fs| ensures ',' !in fs[i] {
        if i < |values| {
          assert fs[i] == values[i];
        }
      }
    }
    Text.SplitJoin(fs, ',');
  }

  /**
   * A saved line (timestamp, then the row) has as many columns as the header
   * exactly when the body has one joint fewer than JointIndices has names.
   */
  lemma RowMatchesHeader(b: BodyResult, frameDataSource: int, recogMode: int, fmt: real -> string, names: seq<string>)
    requires forall v :: ',' !in fmt(v)
    requires |names| >= 1 && Text.Free(names, ',')
    ensures 1 + |Text.Split(Row(b, frameDataSource, recogMode, fmt), ',')| == |Text.Split(CreateHeader(names), ',')|
      <==> |b.joints| == |names| - 1
  {
    RowSplits(b, frameDataSource, recogMode, fmt);
    HeaderSplits(names);
  }
}

=== FILE: body_rotation_handler.dfy ===
/**
 * The body model's turn to match the screen (BodyRotationHandler.cs):
 * a camera-orientation table and the z angle applied to the body root.
 */
module BodyRotationHandler {

  datatype CameraOrientation = Portrait | LandscapeLeft | PortraitUpsideDown | LandscapeRight | OtherOrientation

  /** The screen rotation the camera orientation implies, in degrees. */
  function CameraRotation(o: CameraOrientation): (r: int)
    ensures r in {0, 90, 180, 270}
    ensures r == 270 <==> o == Portrait
    ensures r == 180 <==> o == LandscapeRight
    ensures r == 90 <==> o == PortraitUpsideDown
  {
    match o
    case Portrait => 270
    case LandscapeRight => 180
    case PortraitUpsideDown => 90
    case _ => 0
  }

  /**
   * UpdateOrientation, run on body stream start and on every screen
   * orientation change: with the External detector while playing the
   * body turns by the screen angle minus the camera's; otherwise it is
   * not turned.
   */
  function BodyRotation(playing: bool, external: bool, camera: CameraOrientation, screen: int): (r: int)
    ensures !(playing && external) ==> r == 0
    ensures playing && external ==> r + CameraRotation(camera) == screen
  {
    if playing && external then screen - CameraRotation(camera) else 0
  }

  /** What one stream-start or screen-orientation event reads from the SDK. */
  datatype Reading = Reading(playing: bool, external: bool, camera: CameraOrientation, screen: int)

  /** The body root's z angle after a series of events, starting from `current`. */
  function AfterEvents(current: int, events: seq<Reading>): int
    decreases |events|
  {
    if |events| == 0 then current
    else
      var e := events[0];
      AfterEvents(BodyRotation(e.playing, e.external, e.camera, e.screen), events[1..])
  }

  /**
   * The angle is set, not added to: after any series of events it is the
   * one the last event computes, whatever came before.
   */
  lemma {:induction false} LastEventDecides(initial: int, events: seq<Reading>)
    requires |events| > 0
    ensures var e := events[|events| - 1];
      AfterEvents(initial, events) == BodyRotation(e.playing, e.external, e.camera, e.screen)
    decreases |events|
  {
    if |events| > 1 {
      var e := events[0];
      LastEventDecides(BodyRotation(e.playing, e.external, e.camera, e.screen), events[1..]);
    }
  }

  /** Two histories ending in the same event leave the body at the same angle. */
  lemma {:induction false} HistoryIrrelevant(a: int, b: int, xs: seq<Reading>, ys: seq<Reading>, last: Reading)
    ensures AfterEvents(a, xs + [last]) == AfterEvents(b, ys + [last])
  {
    LastEventDecides(a, xs + [last]);
    LastEventDecides(b, ys + [last]);
  }
}

=== FILE: color_recorder.dfy ===
/**
 * Records colour frames (ColorRecorder.cs): every (skip + 1)-th frame is
 * shrunk by an integer factor, flipped vertically, and stored as raw RGB
 * bytes; saving encodes the stored frames as PNG.
 */
module ColorRecorder {
  import opened Wrappers
  import opened RecordTypes
  import opened Entries
  import RawBytes
  import BinaryRecorder
  import Arith

  const Kind := DataType.Color
  const Channels := 3
  const DefaultSkip := 0
  const DefaultScale := 1

  /** Position of channel c of output pixel (x, y) in the resized frame. */
  function OutIndex(rw: int, x: int, y: int, c: int): int
  {
    Channels * (y * rw + x) + c
  }

  /** Position the resize reads for channel c of output pixel (x, y). */
  function SourceIndex(rw: int, rh: int, scale: int, x: int, y: int, c: int): int
  {
    Channels * scale * (scale * (rh - y - 1) * rw + x) + c
  }

  /** Every read of a resize to rw x rh stays inside a frame of n bytes. */
  predicate ReadsInBounds(n: int, rw: int, rh: int, scale: int)
  {
    rw <= 0 || rh <= 0 || SourceIndex(rw, rh, scale, rw - 1, 0, 2) < n
  }

  /** Pixels earlier in scan order have smaller positions. */
  lemma ScanOrder(rw: int, xx: int, yy: int, x: int, y: int)
    requires 0 <= xx < rw && 0 <= x && 0 <= yy
    requires yy < y || (yy == y && xx < x)
    ensures yy * rw + xx < y * rw + x
  {
    if yy < y {
      Arith.MulLe(yy + 1, y, rw);
      assert (yy + 1) * rw == yy * rw + rw;
    }
  }

  /** The last pixel of the first output row reads the furthest byte. */
  lemma SourceRange(rw: int, rh: int, scale: int, x: int, y: int, c: int)
    requires scale >= 1 && 0 <= x < rw && 0 <= y < rh && 0 <= c < 3
    ensures 0 <= SourceIndex(rw, rh, scale, x, y, c) <= SourceIndex(rw, rh, scale, rw - 1, 0, 2)
  {
    var a := scale * (rh - y - 1) * rw + x;
    var b := scale * (rh - 1) * rw + rw - 1;
    assert 0 <= a <= b by {
      Arith.MulLe(rh - y - 1, rh - 1, scale);
      Arith.MulLe(scale * (rh - y - 1), scale * (rh - 1), rw);
    }
    assert SourceIndex(rw, rh, scale, x, y, c) == (Channels * scale) * a + c;
    assert SourceIndex(rw, rh, scale, rw - 1, 0, 2) == (Channels * scale) * b + 2;
    assert (Channels * scale) * a <= (Channels * scale) * b by {
      Arith.MulLe(a, b, Channels * scale);
    }
  }

  /** Channel c of output pixel (x, y) holds the byte the resize reads for it. */
  predicate PixelCopied(out: seq<RawBytes.byte>, data: seq<RawBytes.byte>, rw: int, rh: int, scale: int, x: int, y: int, c: int)
  {
    0 <= OutIndex(rw, x, y, c) < |out| && 0 <= SourceIndex(rw, rh, scale, x, y, c) < |data|
    && out[OutIndex(rw, x, y, c)] == data[SourceIndex(rw, rh, scale, x, y, c)]
  }

  lemma OutRange(rw: int, rh: int, x: int, y: int, c: int)
    requires 0 <= x < rw && 0 <= y < rh && 0 <= c < Channels
    ensures 0 <= OutIndex(rw, x, y, c) < Channels * rw * rh
  {
    assert 0 <= y * rw by { Arith.MulLe(0, y, rw); }
    assert (y + 1) * rw <= rh * rw by { Arith.MulLe(y + 1, rh, rw); }
    assert Channels * rw * rh == Channels * (rh * rw);
  }

  /** Pixel (x, y) written, with nothing else changed, keeps every earlier pixel. */
  lemma CopyStep(before: seq<RawBytes.byte>, after: seq<RawBytes.byte>, data: seq<RawBytes.byte>,
                 rw: nat, rh: nat, scale: nat, x: nat, y: nat)
    requires x < rw && y < rh
    requires |after| == |before|
    requires var p := OutIndex(rw, x, y, 0);
      forall k :: 0 <= k < |before| && k != p && k != p + 1 && k != p + 2 ==> after[k] == before[k]
    requires forall c :: 0 <= c < Channels ==> PixelCopied(after, data, rw, rh, scale, x, y, c)
    requires forall yy, xx, c :: 0 <= yy < y && 0 <= xx < rw && 0 <= c < Channels ==>
      PixelCopied(before, data, rw, rh, scale, xx, yy, c)
    requires forall xx, c :: 0 <= xx < x && 0 <= c < Channels ==>
      PixelCopied(before, data, rw, rh, scale, xx, y, c)
    ensures forall yy, xx, c :: 0 <= yy < y && 0 <= xx < rw && 0 <= c < Channels ==>
      PixelCopied(after, data, rw, rh, scale, xx, yy, c)
    ensures forall xx, c :: 0 <= xx <= x && 0 <= c < Channels ==>
      PixelCopied(after, data, rw, rh, scale, xx, y, c)
  {
    forall yy, xx, c | 0 <= yy < y && 0 <= xx < rw && 0 <= c < Channels
      ensures PixelCopied(after, data, rw, rh, scale, xx, yy, c)
    {
      assert PixelCopied(before, data, rw, rh, scale, xx, yy, c);
      ScanOrder(rw, xx, yy, x, y);
    }
    forall xx, c | 0 <= xx <= x && 0 <= c < Channels
      ensures PixelCopied(after, data, rw, rh, scale, xx, y, c)
    {
      if xx < x {
        assert PixelCopied(before, data, rw, rh, scale, xx, y, c);
        ScanOrder(rw, xx, y, x, y);
      }
    }
  }

  /** out is the resize of data: 3 bytes per output pixel, each the byte the resize reads for it. */
  predicate Resized(out: seq<RawBytes.byte>, data: seq<RawBytes.byte>, rw: nat, rh: nat, scale: nat)
  {
    && |out| == Channels * rw * rh
    && forall y, x, c :: 0 <= y < rh && 0 <= x < rw && 0 <= c < Channels ==>
         PixelCopied(out, data, rw, rh, scale, x, y, c)
  }

  /** Every byte of a resized frame belongs to one channel of one output pixel. */
  lemma Covered(rw: nat, rh: nat, k: int) returns (x: nat, y: nat, c: nat)
    requires 0 <= k < Channels * rw * rh
    ensures x < rw && y < rh && c < Channels && OutIndex(rw, x, y, c) == k
  {
    var p := k / Channels;
    c := k % Channels;
    assert p * Channels + c == k;
    assert Channels * rw * rh == Channels * (rh * rw);
    assert p < rh * rw;
    assert rw > 0;
    y := p / rw;
    x := p % rw;
    assert p == y * rw + x;
    assert (rh - y) * rw == rh * rw - y * rw;
    assert (rh - y) * rw > 0;
  }

  /** The resize determines every output byte: two resizes of the same frame are equal. */
  lemma ResizedUnique(a: seq<RawBytes.byte>, b: seq<RawBytes.byte>, data: seq<RawBytes.byte>,
                      rw: nat, rh: nat, scale: nat)
    requires Resized(a, data, rw, rh, scale) && Resized(b, data, rw, rh, scale)
    ensures a == b
  {
    forall k | 0 <= k < |a|
      ensures a[k] == b[k]
    {
      var x, y, c := Covered(rw, rh, k);
      assert PixelCopied(a, data, rw, rh, scale, x, y, c);
      assert PixelCopied(b, data, rw, rh, scale, x, y, c);
    }
  }

  /**
   * ResizeDataFrom: output pixel (x, y) takes the colour of input pixel
   * (scale * x, scale * (rh - 1 - y)), reading rows rw * scale pixels apart.
   */
  method ResizeDataFrom(data: seq<RawBytes.byte>, rw: nat, rh: nat, scale: nat) returns (out: seq<RawBytes.byte>)
    requires scale >= 1
    requires ReadsInBounds(|data|, rw, rh, scale)
    ensures |out| == Channels * rw * rh
    ensures forall y, x, c :: 0 <= y < rh && 0 <= x < rw && 0 <= c < Channels ==>
      PixelCopied(out, data, rw, rh, scale, x, y, c)
    ensures Resized(out, data, rw, rh, scale)
  {
    var a := new RawBytes.byte[Channels * rw * rh];
    var y := 0;
    while y < rh
      invariant 0 <= y <= rh
      invariant forall yy, xx, c :: 0 <= yy < y && 0 <= xx < rw && 0 <= c < Channels ==>
        PixelCopied(a[..], data, rw, rh, scale, xx, yy, c)
    {
      var x := 0;
      while x < rw
        invariant 0 <= x <= rw
        invariant forall yy, xx, c :: 0 <= yy < y && 0 <= xx < rw && 0 <= c < Channels ==>
          PixelCopied(a[..], data, rw, rh, scale, xx, yy, c)
        invariant forall xx, c :: 0 <= xx < x && 0 <= c < Channels ==>
          PixelCopied(a[..], data, rw, rh, scale, xx, y, c)
      {
        ghost var before := a[..];
        var p := OutIndex(rw, x, y, 0);
        OutRange(rw, rh, x, y, 0);
        OutRange(rw, rh, x, y, 2);
        SourceRange(rw, rh, scale, x, y, 0);
        SourceRange(rw, rh, scale, x, y, 1);
        SourceRange(rw, rh, scale, x, y, 2);
        a[p] := data[SourceIndex(rw, rh, scale, x, y, 0)];
        a[p + 1] := data[SourceIndex(rw, rh, scale, x, y, 1)];
        a[p + 2] := data[SourceIndex(rw, rh, scale, x, y, 2)];
        CopyStep(before, a[..], data, rw, rh, scale, x, y);
        x := x + 1;
      }
      y := y + 1;
    }
    out := a[..];
  }

  /** A frame of the full texture size always holds every byte the resize reads. */
  lemma FullFrameSuffices(n: int, rw: nat, rh: nat, scale: nat)
    requires scale >= 1
    requires n >= Channels * (rw * scale) * (rh * scale)
    ensures ReadsInBounds(n, rw, rh, scale)
  {
    if rw > 0 && rh > 0 {
      var k := scale * (rh - 1) * rw;
      var row := scale * rw;
      assert SourceIndex(rw, rh, scale, rw - 1, 0, 2) == 3 * scale * (k + rw - 1) + 2;
      assert 3 * scale * (k + rw - 1) == 3 * scale * k + 3 * row - 3 * scale;
      assert scale * rh * rw == k + row;
      assert Channels * (rw * scale) * (rh * scale) == 3 * scale * (scale * rh * rw);
      assert 3 * scale * (k + row) == 3 * scale * k + 3 * (scale * row);
      Arith.MulLe(1, scale, row);
    }
  }

  /**
   * When the texture width is rw * scale, the byte read is channel c of the
   * input pixel in column scale * x and row scale * (rh - 1 - y): nearest
   * neighbour sampling of a vertically flipped image.
   */
  lemma NearestNeighbour(rw: nat, rh: nat, scale: nat, x: nat, y: nat, c: nat)
    requires scale >= 1 && x < rw && y < rh && c < Channels
    ensures SourceIndex(rw, rh, scale, x, y, c)
         == Channels * ((scale * (rh - 1 - y)) * (rw * scale) + scale * x) + c
  {
    assert scale * (scale * (rh - y - 1) * rw + x)
        == (scale * (rh - 1 - y)) * (rw * scale) + scale * x;
  }

  /**
   * The frame counter: incremented for every frame; once it exceeds `skip` it
   * is reset and the frame is stored.
   */
  function SkipStep(count: int, skip: int): (r: (int, bool))
    ensures r.1 <==> count + 1 > skip
    ensures r.0 == if r.1 then 0 else count + 1
  {
    if count + 1 > skip then (0, true) else (count + 1, false)
  }

  /** The counter after `n` frames from 0, and how many of them were stored. */
  function SkipRun(n: nat, skip: int): (r: (int, nat))
  {
    if n == 0 then (0, 0)
    else
      var prev := SkipRun(n - 1, skip);
      var step := SkipStep(prev.0, skip);
      (step.0, prev.1 + if step.1 then 1 else 0)
  }

  /**
   * With skip >= 0, frame k (counting from 1) is stored exactly when k is a
   * multiple of skip + 1: n frames store n / (skip + 1) of them.
   */
  lemma {:induction false} SkipRunPeriodic(n: nat, skip: nat)
    ensures SkipRun(n, skip).0 == n % (skip + 1)
    ensures SkipRun(n, skip).1 == n / (skip + 1)
  {
    if n > 0 {
      var m := skip + 1;
      var q, r := (n - 1) / m, (n - 1) % m;
      assert SkipRun(n - 1, skip) == (r, q) by {
        SkipRunPeriodic(n - 1, skip);
      }
      assert 0 <= r < m && n - 1 == q * m + r;
      if r + 1 == m {
        assert SkipRun(n, skip) == (0, q + 1);
        Arith.DivModUnique(n, m, q + 1, 0);
      } else {
        assert SkipRun(n, skip) == (r + 1, q);
        Arith.DivModUnique(n, m, q, r + 1);
      }
    }
  }

  /** The recorder: its capture and the frame counter with its settings. */
  datatype State = State(cap: BinaryRecorder.State, count: int, skip: int, scale: int)

  /**
   * The callback posted for every colour frame of a texture of the given
   * size: the resized dimensions are the texture's divided by the scale; the
   * counter decides whether the frame is stored. A frame too short for the
   * resize throws, after the counter was reset, and nothing is stored. The
   * second result is the size reported by onDataStored.
   */
  method OnFrameArrived(s: State, data: seq<RawBytes.byte>, width: nat, height: nat, now: Timestamp)
      returns (r: State, stored: Option<nat>)
    requires s.scale >= 1
    ensures r.skip == s.skip && r.scale == s.scale
    ensures r.count == SkipStep(s.count, s.skip).0
    ensures !SkipStep(s.count, s.skip).1 ==> r.cap == s.cap && stored.None?
    ensures SkipStep(s.count, s.skip).1 && s.cap.flags.recording && ReadsInBounds(|data|, width / s.scale, height / s.scale, s.scale)
      ==> stored == Some(Channels * (width / s.scale) * (height / s.scale))
    ensures !ReadsInBounds(|data|, width / s.scale, height / s.scale, s.scale) ==> r.cap == s.cap && stored.None?
    ensures SkipStep(s.count, s.skip).1 && ReadsInBounds(|data|, width / s.scale, height / s.scale, s.scale) ==>
      && r.cap.current.Some?
      && Resized(r.cap.current.value, data, width / s.scale, height / s.scale, s.scale)
      && (r.cap, stored) == BinaryRecorder.SetData(s.cap, r.cap.current.value, now)
  {
    var rw, rh := width / s.scale, height / s.scale;
    var step := SkipStep(s.count, s.skip);
    r := s.(count := step.0);
    stored := None;
    if step.1 && ReadsInBounds(|data|, rw, rh, s.scale) {
      var resized := ResizeDataFrom(data, rw, rh, s.scale);
      var res := BinaryRecorder.SetData(s.cap, resized, now);
      r := r.(cap := res.0);
      stored := res.1;
    }
  }

  /**
   * CreateSingleData / CreateMultipleData: the stored frames encoded with
   * `png` (EncodeToPNG of the resized texture).
   */
  function GetData(s: State, mode: RecordMode, png: BinaryRecorder.Bytes -> BinaryRecorder.Bytes)
    : Result<seq<Entry<Timestamp, BinaryRecorder.Bytes>>, BinaryRecorder.GetError>
  {
    BinaryRecorder.GetData(s.cap, mode, png)
  }
}

=== FILE: colored_point_cloud.dfy ===
/**
 * The coloured point cloud (ColoredPointCloud.cs). The depth points keep
 * their places in the mesh; each frame the texture coordinate of every
 * depth pixel whose colour pixel lies inside the colour image is
 * refreshed, and the others keep their last coordinate.
 */
module ColoredPointCloud {
  import opened Wrappers
  import Arith
  import HumanPointCloud

  type ColorPoint = HumanPointCloud.ColorPoint
  type Uv = HumanPointCloud.Uv

  /**
   * The component's state: the depth size from the ToF configuration, the
   * colour points of the last depth-to-colour mapping (null before the
   * first one), and the texture-coordinate buffer (null before a ToF
   * stream starts).
   */
  datatype State = State(depthWidth: nat, depthHeight: nat, colorPoints: Option<seq<ColorPoint>>,
                         meshUvs: Option<seq<Uv>>)

  const Initial := State(0, 0, None, None)

  /** The coordinate buffer, once made, has one slot per depth pixel. */
  predicate Consistent(s: State)
  {
    s.meshUvs.Some? ==> |s.meshUvs.value| == s.depthWidth * s.depthHeight
  }

  /** OnTofStreamStarted: the new depth size and a zeroed buffer of that size. */
  function StreamStarted(s: State, width: nat, height: nat): (r: State)
    ensures Consistent(r)
    ensures r.depthWidth == width && r.depthHeight == height && r.colorPoints == s.colorPoints
    ensures r.meshUvs.Some? && forall k :: 0 <= k < |r.meshUvs.value| ==> r.meshUvs.value[k] == HumanPointCloud.UvZero
  {
    State(width, height, s.colorPoints, Some(seq(width * height, _ => HumanPointCloud.UvZero)))
  }

  /** The coordinate depth pixel k gets: its colour pixel's when inside the colour image, else the old one. */
  function NewUv(points: seq<ColorPoint>, uvs: seq<Uv>, k: int, colorWidth: int, colorHeight: int): Uv
    requires 0 <= k < |points| && k < |uvs|
  {
    if HumanPointCloud.InColor(points[k], colorWidth, colorHeight) then
      HumanPointCloud.UvOf(points[k], colorWidth, colorHeight)
    else uvs[k]
  }

  /** The whole buffer after one refresh. */
  predicate Refreshed(out: seq<Uv>, points: seq<ColorPoint>, uvs: seq<Uv>, colorWidth: int, colorHeight: int)
    requires |points| == |uvs|
  {
    |out| == |uvs| && forall k :: 0 <= k < |out| ==> out[k] == NewUv(points, uvs, k, colorWidth, colorHeight)
  }

  /**
   * The row-by-row refresh of the coordinate buffer. The guard against an
   * index past w * h never fires: rows and columns stay inside the frame.
   */
  method Refresh(points: seq<ColorPoint>, uvs: seq<Uv>, w: nat, h: nat, colorWidth: int, colorHeight: int)
    returns (out: seq<Uv>)
    requires |points| == w * h && |uvs| == w * h
    ensures Refreshed(out, points, uvs, colorWidth, colorHeight)
  {
    out := uvs;
    var c := 0;
    var y := 0;
    while y < h
      invariant 0 <= y <= h && c == y * w && c <= w * h && |out| == |uvs|
      invariant forall k :: 0 <= k < c ==> out[k] == NewUv(points, uvs, k, colorWidth, colorHeight)
      invariant forall k :: c <= k < |out| ==> out[k] == uvs[k]
    {
      Arith.RowStep(w, h, y);
      var x := 0;
      while x < w
        invariant 0 <= x <= w && c == y * w + x && c <= (y + 1) * w && |out| == |uvs|
        invariant forall k :: 0 <= k < c ==> out[k] == NewUv(points, uvs, k, colorWidth, colorHeight)
        invariant forall k :: c <= k < |out| ==> out[k] == uvs[k]
      {
        var depthIndex := c;
        if HumanPointCloud.InColor(points[depthIndex], colorWidth, colorHeight) {
          out := out[depthIndex := HumanPointCloud.UvOf(points[depthIndex], colorWidth, colorHeight)];
        }
        c := c + 1;
        x := x + 1;
      }
      y := y + 1;
    }
  }

  /** A second refresh with the same colour points changes nothing. */
  lemma RefreshIdempotent(points: seq<ColorPoint>, uvs: seq<Uv>, once: seq<Uv>, twice: seq<Uv>,
                          colorWidth: int, colorHeight: int)
    requires |points| == |uvs|
    requires Refreshed(once, points, uvs, colorWidth, colorHeight)
    requires Refreshed(twice, points, once, colorWidth, colorHeight)
    ensures twice == once
  {
    forall k | 0 <= k < |once|
      ensures twice[k] == once[k]
    {
      assert twice[k] == NewUv(points, once, k, colorWidth, colorHeight);
    }
  }

  /** A slot changes only to its own colour pixel's coordinate, and only when that pixel is in the image. */
  lemma RefreshChanges(points: seq<ColorPoint>, uvs: seq<Uv>, out: seq<Uv>, colorWidth: int, colorHeight: int, k: nat)
    requires |points| == |uvs| && Refreshed(out, points, uvs, colorWidth, colorHeight) && k < |out|
    ensures out[k] != uvs[k] ==>
      HumanPointCloud.InColor(points[k], colorWidth, colorHeight)
      && out[k] == HumanPointCloud.UvOf(points[k], colorWidth, colorHeight)
  {
    assert out[k] == NewUv(points, uvs, k, colorWidth, colorHeight);
  }

  /** What Update does. */
  datatype Outcome =
    | Hidden                                     // colour or ToF not running: renderer off
    | NoMapping(state: State)                    // the SDK returned no mapping: the property is reset
    | Threw                                      // a null colour-point list or coordinate buffer was used
    | Shown(state: State, pushed: Option<seq<Uv>>) // renderer on; the coordinates handed to the mesh, if any

  /**
   * Update. With both streams running the renderer is on; a depth frame
   * whose size matches the configuration is mapped to colour (the SDK's
   * answer is `response`); the buffer is refreshed when the colour points
   * cover the depth frame, and handed to the mesh when its length is the
   * mesh's vertex count.
   */
  method Update(s: State, colorRunning: bool, tofRunning: bool, depthFrame: Option<seq<int>>,
                response: Option<seq<ColorPoint>>, colorWidth: int, colorHeight: int, vertexCount: nat)
    returns (o: Outcome)
    requires Consistent(s)
    ensures !(colorRunning && tofRunning) <==> o.Hidden?
    ensures o.NoMapping? <==>
      (colorRunning && tofRunning && depthFrame.Some?
       && |depthFrame.value| == s.depthWidth * s.depthHeight && response.None?)
    ensures o.NoMapping? ==> o.state == s.(colorPoints := None)
    ensures o.Shown? ==> Consistent(o.state)
    ensures o.Shown? ==>
      && o.state.depthWidth == s.depthWidth && o.state.depthHeight == s.depthHeight
      && s.meshUvs.Some? && o.state.meshUvs.Some? && o.state.colorPoints.Some?
      && (depthFrame.Some? && |depthFrame.value| == s.depthWidth * s.depthHeight ==> o.state.colorPoints == response)
      && (depthFrame.None? || |depthFrame.value| != s.depthWidth * s.depthHeight ==>
            o.state.colorPoints == s.colorPoints)
    ensures o.Shown? ==>
      var points := o.state.colorPoints.value;
      var uvs := s.meshUvs.value;
      && (|points| == s.depthWidth * s.depthHeight ==>
            Refreshed(o.state.meshUvs.value, points, uvs, colorWidth, colorHeight))
      && (|points| != s.depthWidth * s.depthHeight ==> o.state.meshUvs == s.meshUvs)
      && (o.pushed.Some? <==> |uvs| == vertexCount)
      && (o.pushed.Some? ==> o.pushed == o.state.meshUvs)
    ensures o.Threw? ==>
      var points := if depthFrame.Some? && |depthFrame.value| == s.depthWidth * s.depthHeight
                    then response else s.colorPoints;
      points.None? || s.meshUvs.None?
  {
    if !(colorRunning && tofRunning) {
      return Hidden;
    }
    var n := s.depthWidth * s.depthHeight;
    var points := s.colorPoints;
    if depthFrame.Some? && |depthFrame.value| == n {
      if response.None? {
        return NoMapping(s.(colorPoints := None));
      }
      points := response;
    }
    if points.None? || s.meshUvs.None? {
      return Threw;
    }
    var uvs := s.meshUvs.value;
    if |points.value| == n {
      uvs := Refresh(points.value, uvs, s.depthWidth, s.depthHeight, colorWidth, colorHeight);
    }
    var r := s.(colorPoints := points, meshUvs := Some(uvs));
    return Shown(r, if |uvs| == vertexCount then Some(uvs) else None);
  }
}

=== FILE: coordinate_mapper.dfy ===
/**
 * The colour-to-depth texture mapper (CoordinateMapper3D.cs). For every
 * colour pixel the SDK reports the depth pixel it sees; the mapper copies
 * that depth sample into a colour-sized buffer, writing the sentinel 32001
 * where no depth sample exists. The SDK mapping is an input.
 */
module CoordinateMapper {
  import opened Wrappers
  import RawBytes
  import Arith

  type short = RawBytes.short

  /** Depth value written for colour pixels that see no depth sample. */
  const Unmapped: short := 32001

  /** A colour pixel's depth pixel; -1 in either coordinate means none. */
  datatype DepthPoint = DepthPoint(x: int, y: int)

  /** Position of colour pixel (x, y) in the colour-sized buffer. */
  function ColorIndex(width: int, x: int, y: int): int
  {
    y * width + x
  }

  /**
   * The value MapToDepth writes for one depth point: the sentinel for an
   * unmapped point, a missing depth buffer or an index past its end, else
   * the depth sample. None when the index is negative, which throws.
   */
  function MappedValue(p: DepthPoint, depth: Option<seq<short>>, depthWidth: int): (r: Option<short>)
    ensures p.x == -1 || p.y == -1 ==> r == Some(Unmapped)
    ensures r.Some? && r.value != Unmapped ==>
      (depth.Some? && 0 <= p.x + p.y * depthWidth < |depth.value| && r.value == depth.value[p.x + p.y * depthWidth])
    ensures r.None? <==> p.x != -1 && p.y != -1 && depth.Some? && p.x + p.y * depthWidth < 0
    ensures p.x != -1 && p.y != -1 && depth.Some? && 0 <= p.x + p.y * depthWidth < |depth.value| ==>
      r == Some(depth.value[p.x + p.y * depthWidth])
    ensures p.x != -1 && p.y != -1 && (depth.None? || p.x + p.y * depthWidth >= |depth.value|) ==>
      r == Some(Unmapped)
  {
    if p.x == -1 || p.y == -1 then Some(Unmapped)
    else
      var i := p.x + p.y * depthWidth;
      if depth.None? || i >= |depth.value| then Some(Unmapped)
      else if i < 0 then None
      else Some(depth.value[i])
  }

  /** Colour pixel k makes the loop throw: no depth point or no buffer slot for it, or a negative read. */
  predicate FailsAt(points: seq<DepthPoint>, buffer: seq<short>, depth: Option<seq<short>>, depthWidth: int, k: int)
  {
    k >= |points| || k >= |buffer| || (0 <= k && MappedValue(points[k], depth, depthWidth).None?)
  }

  /** Pixel k was written with its mapped value. */
  predicate Written(out: seq<short>, points: seq<DepthPoint>, depth: Option<seq<short>>, depthWidth: int, k: int)
  {
    0 <= k < |out| && k < |points| && MappedValue(points[k], depth, depthWidth).Some?
    && out[k] == MappedValue(points[k], depth, depthWidth).value
  }

  lemma NextIndex(width: int, x: int, y: int)
    ensures ColorIndex(width, x, y) + 1 == ColorIndex(width, x + 1, y)
    ensures ColorIndex(width, width, y) == ColorIndex(width, 0, y + 1)
  {
    assert (y + 1) * width == y * width + width;
  }

  /**
   * MapToDepth: the colour pixels are visited row by row. A null point
   * array writes nothing and succeeds. Otherwise the first `mapped` pixels
   * get their mapped values; if a pixel throws, the loop stops there with
   * the earlier writes kept and reports false.
   */
  method MapToDepth(points: Option<seq<DepthPoint>>, width: nat, height: nat, depthWidth: int,
                    depth: Option<seq<short>>, buffer: seq<short>)
    returns (out: seq<short>, ok: bool, mapped: nat)
    ensures |out| == |buffer|
    ensures points.None? ==> out == buffer && ok
    ensures points.Some? ==>
      && mapped <= width * height
      && (ok <==> mapped == width * height)
      && (!ok ==> FailsAt(points.value, buffer, depth, depthWidth, mapped))
      && (forall k :: 0 <= k < mapped ==> !FailsAt(points.value, buffer, depth, depthWidth, k))
      && (forall k :: 0 <= k < mapped ==> Written(out, points.value, depth, depthWidth, k))
      && (forall k :: mapped <= k < |out| ==> out[k] == buffer[k])
  {
    if points.None? {
      return buffer, true, 0;
    }
    var ps := points.value;
    var a := buffer;
    var c := 0;
    var y := 0;
    while y < height
      invariant 0 <= y <= height
      invariant c == ColorIndex(width, 0, y) && 0 <= c <= width * height
      invariant |a| == |buffer|
      invariant forall k :: 0 <= k < c ==> !FailsAt(ps, buffer, depth, depthWidth, k)
      invariant forall k :: 0 <= k < c ==> Written(a, ps, depth, depthWidth, k)
      invariant forall k :: c <= k < |a| ==> a[k] == buffer[k]
    {
      RowEnd(width, height, y);
      var x := 0;
      while x < width
        invariant 0 <= x <= width
        invariant c == ColorIndex(width, x, y) && 0 <= c <= ColorIndex(width, 0, y + 1) <= width * height
        invariant |a| == |buffer|
        invariant forall k :: 0 <= k < c ==> !FailsAt(ps, buffer, depth, depthWidth, k)
        invariant forall k :: 0 <= k < c ==> Written(a, ps, depth, depthWidth, k)
        invariant forall k :: c <= k < |a| ==> a[k] == buffer[k]
      {
        NextIndex(width, x, y);
        if c >= |ps| || c >= |a| {
          return a, false, c;
        }
        var v := MappedValue(ps[c], depth, depthWidth);
        if v.None? {
          return a, false, c;
        }
        WriteStep(a, a[c := v.value], ps, depth, depthWidth, c, v.value);
        a := a[c := v.value];
        c := c + 1;
        x := x + 1;
      }
      NextIndex(width, width, y);
      y := y + 1;
    }
    return a, true, c;
  }

  lemma RowEnd(width: nat, height: nat, y: nat)
    requires y < height
    ensures 0 <= ColorIndex(width, 0, y) <= ColorIndex(width, 0, y + 1) <= width * height
    ensures ColorIndex(width, 0, height) == width * height
  {
    Arith.MulLe(y, y + 1, width);
    Arith.MulLe(y + 1, height, width);
  }

  /** Writing pixel c's mapped value keeps the earlier pixels and completes pixel c. */
  lemma WriteStep(a: seq<short>, b: seq<short>, ps: seq<DepthPoint>, depth: Option<seq<short>>, depthWidth: int,
                  c: nat, v: short)
    requires c < |a| && c < |ps| && MappedValue(ps[c], depth, depthWidth) == Some(v) && b == a[c := v]
    requires forall k :: 0 <= k < c ==> Written(a, ps, depth, depthWidth, k)
    ensures forall k :: 0 <= k <= c ==> Written(b, ps, depth, depthWidth, k)
  {
    forall k | 0 <= k <= c
      ensures Written(b, ps, depth, depthWidth, k)
    {
      if k < c {
        assert Written(a, ps, depth, depthWidth, k);
      }
    }
  }

  /** Every one of the first n colour pixels has a depth point that maps without throwing. */
  predicate MapsAll(points: seq<DepthPoint>, depth: Option<seq<short>>, depthWidth: int, n: nat)
  {
    forall k :: 0 <= k < n ==> Maps(points, depth, depthWidth, k)
  }

  /** Colour pixel k has a depth point that maps without throwing. */
  predicate Maps(points: seq<DepthPoint>, depth: Option<seq<short>>, depthWidth: int, k: int)
  {
    0 <= k < |points| && MappedValue(points[k], depth, depthWidth).Some?
  }

  /** With a buffer of n slots, the loop fails before pixel n exactly when some pixel has no mapping. */
  lemma MapsAllWhenNoFailure(points: seq<DepthPoint>, buffer: seq<short>, depth: Option<seq<short>>, depthWidth: int,
                             n: nat, mapped: nat)
    requires |buffer| == n && mapped <= n
    requires forall k :: 0 <= k < mapped ==> !FailsAt(points, buffer, depth, depthWidth, k)
    requires mapped < n ==> FailsAt(points, buffer, depth, depthWidth, mapped)
    ensures MapsAll(points, depth, depthWidth, n) <==> mapped == n
  {
    if mapped < n {
      assert !Maps(points, depth, depthWidth, mapped);
    } else {
      forall k | 0 <= k < n
        ensures Maps(points, depth, depthWidth, k)
      {
        assert !FailsAt(points, buffer, depth, depthWidth, k);
      }
    }
  }

  /** Array.Resize: the common prefix is kept and new slots are zero. */
  function Resize(buffer: seq<short>, n: nat): (r: seq<short>)
    ensures |r| == n
    ensures forall k :: 0 <= k < n ==> r[k] == (if k < |buffer| then buffer[k] else 0)
  {
    if |buffer| >= n then buffer[..n] else buffer + seq(n - |buffer|, _ => 0)
  }

  /** The colour and depth frame sizes from the calibration settings. */
  datatype Calibration = Calibration(colorWidth: nat, colorHeight: nat, depthWidth: nat, depthHeight: nat)

  /** The mapper's buffers and the texture last shown. */
  datatype Mapper = Mapper(depthBuffer: seq<short>, textureBuffer: seq<short>, shown: Option<seq<short>>)

  /**
   * ProcessCoordinate. Without a running stream, depth data or calibration
   * nothing happens. The depth frame is always copied in; a frame whose
   * size differs from the calibration's depth size, or without depth
   * points, stops there. Otherwise the colour-sized buffer is resized,
   * mapped, and shown when the whole mapping succeeded.
   */
  method ProcessCoordinate(m: Mapper, ready: bool, depthData: Option<seq<short>>, calibration: Option<Calibration>,
                           points: Option<seq<DepthPoint>>)
    returns (r: Mapper)
    ensures !ready || depthData.None? || calibration.None? ==> r == m
    ensures ready && depthData.Some? && calibration.Some? ==>
      var cal := calibration.value;
      var n := cal.colorWidth * cal.colorHeight;
      && r.depthBuffer == depthData.value
      && (|depthData.value| != cal.depthWidth * cal.depthHeight || points.None? ==>
            r.textureBuffer == m.textureBuffer && r.shown == m.shown)
      && (|depthData.value| == cal.depthWidth * cal.depthHeight && points.Some? ==>
            var total := MapsAll(points.value, Some(depthData.value), cal.depthWidth, n);
            && |r.textureBuffer| == n
            && (total ==> r.shown == Some(r.textureBuffer) && forall k :: 0 <= k < n ==>
                  Written(r.textureBuffer, points.value, Some(depthData.value), cal.depthWidth, k))
            && (!total ==> r.shown == m.shown))
  {
    if !ready || depthData.None? || calibration.None? {
      return m;
    }
    var cal := calibration.value;
    var data := depthData.value;
    r := m.(depthBuffer := data);
    if |data| != cal.depthWidth * cal.depthHeight || points.None? {
      return r;
    }
    var n := cal.colorWidth * cal.colorHeight;
    var buffer := if |m.textureBuffer| != n then Resize(m.textureBuffer, n) else m.textureBuffer;
    assert |buffer| == n;
    var out, ok, mapped := MapToDepth(points, cal.colorWidth, cal.colorHeight, cal.depthWidth, Some(data), buffer);
    r := r.(textureBuffer := out);
    if ok && |out| == n {
      assert mapped == n;
      assert forall k :: 0 <= k < n ==> Written(out, points.value, Some(data), cal.depthWidth, k);
      MapsAllWhenNoFailure(points.value, buffer, Some(data), cal.depthWidth, n, n);
      r := r.(shown := Some(out));
    } else {
      MapsAllWhenNoFailure(points.value, buffer, Some(data), cal.depthWidth, n, mapped);
    }
  }
}

=== FILE: csv_recorder.dfy ===
/**
 * A recorder that keeps one text row per frame (CsvRecorder.cs). The latest
 * row is always kept as the current data; while recording, every row is also
 * stored under the time it arrived.
 */
module CsvRecorder {
  import opened Wrappers
  import opened RecordTypes
  import opened Entries
  import Recorder
  import Text

  const DefaultFileName := "Data.csv"

  /** The recorder's capture, the cached header and the number of data columns. */
  datatype State = State(cap: Recorder.Capture<string>, header: string, dataLength: int)

  function Init(dataLength: int): State
  {
    State(Recorder.Init(), "", dataLength)
  }

  /** SetData: the first DateTime.Now is the current time, the second the stored key. */
  function SetData(s: State, data: string, now: Timestamp, key: Timestamp): State
  {
    s.(cap := Recorder.Set(s.cap, data, now, key))
  }

  /**
   * GetData: the current row alone in Single mode, every stored row otherwise.
   * A current row that is still null is written by String.Format as nothing.
   */
  function GetData(s: State, mode: RecordMode): (r: seq<Entry<Timestamp, string>>)
    ensures mode == Single ==> |r| == 1 && r[0].key == s.cap.currentTime
    ensures mode != Single ==> r == s.cap.stored
  {
    if mode == Single then
      [Entry(s.cap.currentTime, if s.cap.current.Some? then s.cap.current.value else "")]
    else s.cap.stored
  }

  /** The latest row is what Single mode saves. */
  lemma SingleSavesLatest(s: State, data: string, now: Timestamp, key: Timestamp)
    ensures GetData(SetData(s, data, now, key), Single) == [Entry(now, data)]
  {
  }

  /** The default CreateHeader: "Timestamp" then ",Value_i" for each data column. */
  function DefaultHeader(dataLength: int): string
    decreases dataLength
  {
    if dataLength <= 0 then "Timestamp"
    else DefaultHeader(dataLength - 1) + ",Value_" + Text.NatToString(dataLength - 1)
  }

  /** The column names of the default header. */
  function DefaultColumns(n: nat): (cs: seq<string>)
    ensures |cs| == n + 1
  {
    if n == 0 then ["Timestamp"] else DefaultColumns(n - 1) + ["Value_" + Text.NatToString(n - 1)]
  }

  /**
   * The Header getter: creates the header with the subclass's CreateHeader
   * (`created`) the first time and returns the cached one afterwards.
   */
  function Header(s: State, created: string): (r: (string, State))
    ensures s.header != "" ==> r.0 == s.header && r.1 == s
    ensures s.header == "" ==> r.0 == created
    ensures r.1.header == r.0
  {
    if |s.header| == 0 then (created, s.(header := created)) else (s.header, s)
  }

  /** Once created, the header never changes, whatever CreateHeader would return later. */
  lemma HeaderStable(s: State, first: string, later: string)
    requires first != ""
    ensures Header(Header(s, first).1, later).0 == Header(s, first).0
  {
  }

  /** The default header names the timestamp and one Value_i column per data value. */
  lemma {:induction false} DefaultHeaderColumns(n: nat)
    ensures DefaultHeader(n) == Text.Join(DefaultColumns(n), ",")
    ensures Text.Split(DefaultHeader(n), ',') == DefaultColumns(n)
  {
    if n > 0 {
      DefaultHeaderColumns(n - 1);
      Text.JoinSnoc(DefaultColumns(n - 1), "Value_" + Text.NatToString(n - 1), ",");
    }
    ColumnsFree(n);
    Text.SplitJoin(DefaultColumns(n), ',');
  }

  lemma {:induction false} ColumnsFree(n: nat)
    ensures Text.Free(DefaultColumns(n), ',')
  {
    if n > 0 {
      ColumnsFree(n - 1);
    }
  }

  /** Column i + 1 of the default header is Value_i. */
  lemma {:induction false} DefaultColumnName(n: nat, i: nat)
    requires i < n
    ensures DefaultColumns(n)[i + 1] == "Value_" + Text.NatToString(i)
  {
    if i + 1 < n {
      DefaultColumnName(n - 1, i);
    }
  }
}

=== FILE: data_controller.dfy ===
/**
 * The recorder controller (DataController.cs): which recorders take part,
 * the byte budget of a recording, stopping, and saving every participating
 * recorder's data into the file system, plus the preferences it persists.
 * The file system is an abstract map from paths to contents; the DateTime
 * formatting ("yyyyMMdd-HHmmssfff") is a parameter `stamp`.
 */
module DataController {
  import opened Wrappers
  import opened RecordTypes
  import opened Entries
  import opened Storage
  import Recorder
  import CsvRecorder
  import BinaryRecorder
  import ColorRecorder
  import Text
  import Arith


  /** 1 GiB. */
  const MaxByteSize := 1024 * 1024 * 1024
  const DefaultFolderName := "TofArData"

  /**
   * A recorder under the controller: a CSV recorder with its file name and
   * the header its CreateHeader builds (None for the default Value_i header),
   * a plain binary recorder with its folder and extension, or the colour
   * recorder.
   */
  datatype Slot =
    | CsvSlot(kind: DataType, fileName: string, customHeader: Option<string>, csv: CsvRecorder.State)
    | RawSlot(kind: DataType, folderName: string, extension: string, bin: BinaryRecorder.State)
    | ColorSlot(folderName: string, extension: string, color: ColorRecorder.State)

  function Kind(s: Slot): DataType
  {
    match s
    case CsvSlot(k, _, _, _) => k
    case RawSlot(k, _, _, _) => k
    case ColorSlot(_, _, _) => DataType.Color
  }

  function FlagsOf(s: Slot): Recorder.Flags
  {
    match s
    case CsvSlot(_, _, _, csv) => csv.cap.flags
    case RawSlot(_, _, _, bin) => bin.flags
    case ColorSlot(_, _, c) => c.cap.flags
  }

  /** The Record property of the recorder. */
  predicate Record(s: Slot)
  {
    FlagsOf(s).record
  }

  /** The Record setter on one recorder. */
  function SetRecord(s: Slot, on: bool): (r: Slot)
    ensures Record(r) == on && FlagsOf(r).recording == FlagsOf(s).recording && Kind(r) == Kind(s)
  {
    match s
    case CsvSlot(k, n, h, csv) => CsvSlot(k, n, h, csv.(cap := csv.cap.(flags := Recorder.SetRecord(csv.cap.flags, on).0)))
    case RawSlot(k, f, e, bin) => RawSlot(k, f, e, bin.(flags := Recorder.SetRecord(bin.flags, on).0))
    case ColorSlot(f, e, c) => ColorSlot(f, e, c.(cap := c.cap.(flags := Recorder.SetRecord(c.cap.flags, on).0)))
  }

  /** StopRectoring on one recorder. */
  function StopSlot(s: Slot): (r: Slot)
    ensures !FlagsOf(r).recording && Record(r) == Record(s) && Kind(r) == Kind(s)
  {
    match s
    case CsvSlot(k, n, h, csv) => CsvSlot(k, n, h, csv.(cap := Recorder.Stop(csv.cap)))
    case RawSlot(k, f, e, bin) => RawSlot(k, f, e, Recorder.Stop(bin))
    case ColorSlot(f, e, c) => ColorSlot(f, e, c.(cap := Recorder.Stop(c.cap)))
  }

  /** StartRectoring on one recorder: it records exactly when Record is on. */
  function StartSlot(s: Slot): (r: Slot)
    ensures FlagsOf(r).recording == Record(s) && Record(r) == Record(s) && Kind(r) == Kind(s)
  {
    match s
    case CsvSlot(k, n, h, csv) => CsvSlot(k, n, h, csv.(cap := Recorder.Start(csv.cap)))
    case RawSlot(k, f, e, bin) => RawSlot(k, f, e, Recorder.Start(bin))
    case ColorSlot(f, e, c) => ColorSlot(f, e, c.(cap := Recorder.Start(c.cap)))
  }

  // ---------------------------------------------------------------------
  // Byte accounting

  /**
   * onDataStored: the size is added to the 32-bit total; a stop is requested
   * (posted to the main thread) once the total reaches the maximum.
   */
  function OnDataStored(total: int, byteSize: int, maxByteSize: int): (r: (int, bool))
    ensures -0x8000_0000 <= total + byteSize < 0x8000_0000 ==> r.0 == total + byteSize
    ensures r.1 <==> r.0 >= maxByteSize
  {
    var t := Arith.Wrap32(total + byteSize);
    (t, t >= maxByteSize)
  }

  function Sum(sizes: seq<nat>): nat
  {
    if |sizes| == 0 then 0 else Sum(sizes[..|sizes| - 1]) + sizes[|sizes| - 1]
  }

  /** The total after a run of stored frames, and how many stop requests were posted. */
  function StoreAll(total: int, sizes: seq<nat>, maxByteSize: int): (r: (int, nat))
    ensures r.1 <= |sizes|
  {
    if |sizes| == 0 then (total, 0)
    else
      var prev := StoreAll(total, sizes[..|sizes| - 1], maxByteSize);
      var step := OnDataStored(prev.0, sizes[|sizes| - 1], maxByteSize);
      (step.0, prev.1 + if step.1 then 1 else 0)
  }

  /**
   * Without overflow the total is the sum of the stored sizes, and a stop is
   * requested by the last store exactly when that sum reaches the maximum.
   */
  lemma {:induction false} StoreAllSums(total: int, sizes: seq<nat>, maxByteSize: int)
    requires 0 <= total && total + Sum(sizes) < 0x8000_0000
    ensures StoreAll(total, sizes, maxByteSize).0 == total + Sum(sizes)
    ensures |sizes| > 0 ==>
      (StoreAll(total, sizes, maxByteSize).1 > StoreAll(total, sizes[..|sizes| - 1], maxByteSize).1
       <==> total + Sum(sizes) >= maxByteSize)
  {
    if |sizes| > 0 {
      StoreAllSums(total, sizes[..|sizes| - 1], maxByteSize);
    }
  }

  // ---------------------------------------------------------------------
  // The file system and the save plan

  /** One saved CSV line without its newline: the formatted key, a comma, the row. */
  function CsvLine(e: Entry<Timestamp, string>, stamp: Timestamp -> string): string
  {
    stamp(e.key) + "," + e.value
  }

  function CsvLines(es: seq<Entry<Timestamp, string>>, stamp: Timestamp -> string): (ls: seq<string>)
    ensures |ls| == |es|
    ensures forall i :: 0 <= i < |es| ==> ls[i] == CsvLine(es[i], stamp)
  {
    seq(|es|, i requires 0 <= i < |es| => CsvLine(es[i], stamp))
  }

  /** The foreach over GetData: one AppendAllText of "{key},{value}\n" per entry. */
  function AppendRows(fs: FileSystem, path: string, es: seq<Entry<Timestamp, string>>, stamp: Timestamp -> string): FileSystem
    decreases |es|
  {
    if |es| == 0 then fs
    else AppendRows(AppendText(fs, path, CsvLine(es[0], stamp) + "\n"), path, es[1..], stamp)
  }

  /**
   * Appending the rows one at a time to an existing file leaves it holding
   * what it held before followed by every line, each ending in a newline;
   * nothing else changes.
   */
  lemma {:induction false} AppendRowsText(fs: FileSystem, path: string, es: seq<Entry<Timestamp, string>>, stamp: Timestamp -> string)
    requires path in fs.texts
    ensures var r := AppendRows(fs, path, es, stamp);
      path in r.texts && r.texts[path] == fs.texts[path] + Text.Terminated(CsvLines(es, stamp), "\n")
    ensures var r := AppendRows(fs, path, es, stamp);
      r.dirs == fs.dirs && r.binaries == fs.binaries &&
      forall p :: p in fs.texts && p != path ==> p in r.texts && r.texts[p] == fs.texts[p]
    decreases |es|
  {
    if |es| > 0 {
      var line := CsvLine(es[0], stamp);
      var fs1 := AppendText(fs, path, line + "\n");
      AppendRowsText(fs1, path, es[1..], stamp);
      var ls := CsvLines(es, stamp);
      assert CsvLines(es[1..], stamp) == ls[1..];
      assert Text.Terminated(ls, "\n") == line + "\n" + Text.Terminated(ls[1..], "\n");
      assert fs1.texts[path] + Text.Terminated(ls[1..], "\n")
          == fs.texts[path] + (line + "\n" + Text.Terminated(ls[1..], "\n"));
    }
  }

  /** "{folder}/{key}.{extension}", the file of one binary entry. */
  function BinaryPath(dir: string, key: Timestamp, extension: string, stamp: Timestamp -> string): string
  {
    dir + "/" + stamp(key) + "." + extension
  }

  /** One FileStream in FileMode.Create per entry: an existing file is overwritten. */
  function WriteFiles(fs: FileSystem, dir: string, es: seq<Entry<Timestamp, Bytes>>, extension: string,
                      stamp: Timestamp -> string): FileSystem
    decreases |es|
  {
    if |es| == 0 then fs
    else
      var path := BinaryPath(dir, es[0].key, extension, stamp);
      WriteFiles(fs.(binaries := fs.binaries[path := es[0].value]), dir, es[1..], extension, stamp)
  }

  /** Some entry is written to `path`. */
  predicate Named(path: string, dir: string, es: seq<Entry<Timestamp, Bytes>>, extension: string, stamp: Timestamp -> string)
  {
    exists i :: 0 <= i < |es| && path == BinaryPath(dir, es[i].key, extension, stamp)
  }

  /** No two entries share a file name (the formatted timestamps differ). */
  predicate DistinctPaths(dir: string, es: seq<Entry<Timestamp, Bytes>>, extension: string, stamp: Timestamp -> string)
  {
    forall i, j :: 0 <= i < j < |es| ==>
      BinaryPath(dir, es[i].key, extension, stamp) != BinaryPath(dir, es[j].key, extension, stamp)
  }

  /**
   * Every entry gets its file; when the names are distinct each file holds
   * exactly its entry's bytes; every other file is untouched.
   */
  lemma {:induction false} WriteFilesContent(fs: FileSystem, dir: string, es: seq<Entry<Timestamp, Bytes>>,
                                             extension: string, stamp: Timestamp -> string)
    ensures var r := WriteFiles(fs, dir, es, extension, stamp);
      r.dirs == fs.dirs && r.texts == fs.texts &&
      (forall i :: 0 <= i < |es| ==> BinaryPath(dir, es[i].key, extension, stamp) in r.binaries)
    ensures var r := WriteFiles(fs, dir, es, extension, stamp);
      DistinctPaths(dir, es, extension, stamp) ==>
        forall i :: 0 <= i < |es| ==> r.binaries[BinaryPath(dir, es[i].key, extension, stamp)] == es[i].value
    ensures var r := WriteFiles(fs, dir, es, extension, stamp);
      forall p :: p in fs.binaries && !Named(p, dir, es, extension, stamp) ==> p in r.binaries && r.binaries[p] == fs.binaries[p]
    decreases |es|
  {
    if |es| > 0 {
      var path := BinaryPath(dir, es[0].key, extension, stamp);
      var fs1 := fs.(binaries := fs.binaries[path := es[0].value]);
      var rest := es[1..];
      WriteFilesContent(fs1, dir, rest, extension, stamp);
      var r := WriteFiles(fs, dir, es, extension, stamp);
      assert r == WriteFiles(fs1, dir, rest, extension, stamp);
      forall i | 0 <= i < |es| ensures BinaryPath(dir, es[i].key, extension, stamp) in r.binaries {
        if i > 0 {
          assert es[i] == rest[i - 1];
        } else if !Named(path, dir, rest, extension, stamp) {
          assert path in fs1.binaries;
        }
      }
      if DistinctPaths(dir, es, extension, stamp) {
        assert DistinctPaths(dir, rest, extension, stamp) by {
          forall i, j | 0 <= i < j < |rest|
            ensures BinaryPath(dir, rest[i].key, extension, stamp) != BinaryPath(dir, rest[j].key, extension, stamp)
          {
            assert rest[i] == es[i + 1] && rest[j] == es[j + 1];
          }
        }
        forall i | 0 <= i < |es| ensures r.binaries[BinaryPath(dir, es[i].key, extension, stamp)] == es[i].value {
          if i > 0 {
            assert es[i] == rest[i - 1];
          } else {
            assert !Named(path, dir, rest, extension, stamp) by {
              forall j | 0 <= j < |rest| ensures path != BinaryPath(dir, rest[j].key, extension, stamp) {
                assert rest[j] == es[j + 1];
              }
            }
          }
        }
      }
      forall p | p in fs.binaries && !Named(p, dir, es, extension, stamp) ensures p in r.binaries && r.binaries[p] == fs.binaries[p] {
        assert p != BinaryPath(dir, es[0].key, extension, stamp);
        assert !Named(p, dir, rest, extension, stamp) by {
          forall j | 0 <= j < |rest| ensures p != BinaryPath(dir, rest[j].key, extension, stamp) {
            assert rest[j] == es[j + 1];
          }
        }
      }
    }
  }

  /** What saving one recorder leaves: the file system, the recorder, the counts and a thrown error. */
  datatype SlotSave = SlotSave(fs: FileSystem, slot: Slot, rows: nat, binaries: nat, error: Option<BinaryRecorder.GetError>)

  /** The header CreateHeader would build now. */
  function CreatedHeader(customHeader: Option<string>, csv: CsvRecorder.State): string
  {
    if customHeader.Some? then customHeader.value else CsvRecorder.DefaultHeader(csv.dataLength)
  }

  /**
   * The CSV branch of SaveRecord: the header (through the caching Header
   * getter) only when the file does not exist, then one line per entry.
   */
  function SaveCsv(fs: FileSystem, target: string, k: DataType, fileName: string, customHeader: Option<string>,
                   csv: CsvRecorder.State, mode: RecordMode, stamp: Timestamp -> string): (r: SlotSave)
    ensures r.error.None? && r.binaries == 0 && r.rows == |CsvRecorder.GetData(csv, mode)|
    ensures r.slot.CsvSlot? && r.slot.kind == k && r.slot.csv.cap == csv.cap
    ensures var path := target + fileName;
      path in r.fs.texts &&
      r.fs.texts[path] ==
        (if path in fs.texts then fs.texts[path] else CsvRecorder.Header(csv, CreatedHeader(customHeader, csv)).0 + "\n")
        + Text.Terminated(CsvLines(CsvRecorder.GetData(csv, mode), stamp), "\n")
    ensures r.fs.dirs == fs.dirs && r.fs.binaries == fs.binaries
  {
    var path := target + fileName;
    var h := CsvRecorder.Header(csv, CreatedHeader(customHeader, csv));
    var fs1 := if path in fs.texts then fs else AppendText(fs, path, h.0 + "\n");
    var csv1 := if path in fs.texts then csv else h.1;
    var es := CsvRecorder.GetData(csv1, mode);
    assert es == CsvRecorder.GetData(csv, mode);
    AppendRowsText(fs1, path, es, stamp);
    SlotSave(AppendRows(fs1, path, es, stamp), CsvSlot(k, fileName, customHeader, csv1), |es|, 0, None)
  }

  /** What saving a binary recorder leaves: the file system, the file count, a thrown error, the recorder. */
  datatype BinarySave = BinarySave(fs: FileSystem, binaries: nat, error: Option<BinaryRecorder.GetError>, bin: BinaryRecorder.State)

  /**
   * The binary branch: the folder is created, every entry is written to its
   * own file and the stored frames are cleared. A null current frame in
   * Single mode throws after its (empty) file was created when the entries
   * are the raw frames; the colour recorder throws while encoding, before
   * any file. A mode that is neither Single nor Multiple throws on the null
   * dictionary.
   */
  function SaveBinary(fs: FileSystem, target: string, folderName: string, extension: string,
                      bin: BinaryRecorder.State, mode: RecordMode, stamp: Timestamp -> string,
                      encode: Bytes -> Bytes, raw: bool): (r: BinarySave)
    ensures var dir := target + folderName;
      var got := BinaryRecorder.GetData(bin, mode, encode);
      && (got.Ok? ==>
            r.error.None? && r.binaries == |got.value| && r.bin == Recorder.Clear(bin) &&
            r.fs == WriteFiles(MakeDir(fs, dir), dir, got.value, extension, stamp))
      && (got.Err? ==> r.error == Some(got.error) && r.binaries == 0 && r.bin == bin && dir in r.fs.dirs)
  {
    var dir := target + folderName;
    var fs1 := MakeDir(fs, dir);
    match BinaryRecorder.GetData(bin, mode, encode)
    case Ok(es) => BinarySave(WriteFiles(fs1, dir, es, extension, stamp), |es|, None, Recorder.Clear(bin))
    case Err(e) =>
      var fs2 := if raw && e.NullCurrent? then
                   fs1.(binaries := fs1.binaries[BinaryPath(dir, bin.currentTime, extension, stamp) := []])
                 else fs1;
      BinarySave(fs2, 0, Some(e), bin)
  }

  /** One iteration of SaveRecord's loop: a recorder with Record off is skipped. */
  function SaveSlot(fs: FileSystem, target: string, slot: Slot, mode: RecordMode, stamp: Timestamp -> string,
                    png: Bytes -> Bytes): (r: SlotSave)
    ensures !Record(slot) ==> r == SlotSave(fs, slot, 0, 0, None)
    ensures Kind(r.slot) == Kind(slot) && FlagsOf(r.slot) == FlagsOf(slot)
    ensures r.slot.CsvSlot? == slot.CsvSlot? && r.slot.RawSlot? == slot.RawSlot?
  {
    if !Record(slot) then SlotSave(fs, slot, 0, 0, None)
    else match slot
      case CsvSlot(k, name, h, csv) => SaveCsv(fs, target, k, name, h, csv, mode, stamp)
      case RawSlot(k, folder, ext, bin) =>
        var b := SaveBinary(fs, target, folder, ext, bin, mode, stamp, x => x, true);
        SlotSave(b.fs, RawSlot(k, folder, ext, b.bin), 0, b.binaries, b.error)
      case ColorSlot(folder, ext, c) =>
        var b := SaveBinary(fs, target, folder, ext, c.cap, mode, stamp, png, false);
        SlotSave(b.fs, ColorSlot(folder, ext, c.(cap := b.bin)), 0, b.binaries, b.error)
  }

  /** How many rows and files a recorder contributes when saving succeeds. */
  function ExpectedRows(slot: Slot, mode: RecordMode): nat
  {
    if Record(slot) && slot.CsvSlot? then |CsvRecorder.GetData(slot.csv, mode)| else 0
  }

  function ExpectedFiles(slot: Slot, mode: RecordMode): nat
  {
    if !Record(slot) || slot.CsvSlot? then 0
    else
      var cap := if slot.RawSlot? then slot.bin else slot.color.cap;
      if mode == Multiple then |cap.stored| else 1
  }

  function TotalRows(slots: seq<Slot>, mode: RecordMode): nat
  {
    if |slots| == 0 then 0 else ExpectedRows(slots[0], mode) + TotalRows(slots[1..], mode)
  }

  function TotalFiles(slots: seq<Slot>, mode: RecordMode): nat
  {
    if |slots| == 0 then 0 else ExpectedFiles(slots[0], mode) + TotalFiles(slots[1..], mode)
  }

  /** What SaveRecord's loop leaves; `error` is the exception that ended it early. */
  datatype SaveResult = SaveResult(fs: FileSystem, slots: seq<Slot>, rows: nat, binaries: nat, error: Option<BinaryRecorder.GetError>)

  /** The loop over the recorders; an exception leaves the remaining recorders as they were. */
  function SaveAll(fs: FileSystem, target: string, slots: seq<Slot>, mode: RecordMode, stamp: Timestamp -> string,
                   png: Bytes -> Bytes): (r: SaveResult)
    ensures |r.slots| == |slots|
    ensures forall i :: 0 <= i < |slots| ==> Kind(r.slots[i]) == Kind(slots[i]) && FlagsOf(r.slots[i]) == FlagsOf(slots[i])
    ensures forall i :: 0 <= i < |slots| && !Record(slots[i]) ==> r.slots[i] == slots[i]
    decreases |slots|
  {
    if |slots| == 0 then SaveResult(fs, [], 0, 0, None)
    else
      var h := SaveSlot(fs, target, slots[0], mode, stamp, png);
      if h.error.Some? then SaveResult(h.fs, [h.slot] + slots[1..], h.rows, h.binaries, h.error)
      else
        var t := SaveAll(h.fs, target, slots[1..], mode, stamp, png);
        SaveResult(t.fs, [h.slot] + t.slots, h.rows + t.rows, h.binaries + t.binaries, t.error)
  }

  /** A save that throws nothing counts every participating recorder's rows and files. */
  lemma {:induction false} SaveAllCounts(fs: FileSystem, target: string, slots: seq<Slot>, mode: RecordMode,
                                         stamp: Timestamp -> string, png: Bytes -> Bytes)
    ensures var r := SaveAll(fs, target, slots, mode, stamp, png);
      r.error.None? ==> r.rows == TotalRows(slots, mode) && r.binaries == TotalFiles(slots, mode)
    decreases |slots|
  {
    if |slots| > 0 {
      var h := SaveSlot(fs, target, slots[0], mode, stamp, png);
      if h.error.None? {
        SaveAllCounts(h.fs, target, slots[1..], mode, stamp, png);
      }
    }
  }

  /** With every recorder switched off nothing is written, counted or changed. */
  lemma {:induction false} IdleSaveWritesNothing(fs: FileSystem, target: string, slots: seq<Slot>, mode: RecordMode,
                                                 stamp: Timestamp -> string, png: Bytes -> Bytes)
    requires forall i :: 0 <= i < |slots| ==> !Record(slots[i])
    ensures SaveAll(fs, target, slots, mode, stamp, png) == SaveResult(fs, slots, 0, 0, None)
    decreases |slots|
  {
    if |slots| > 0 {
      IdleSaveWritesNothing(fs, target, slots[1..], mode, stamp, png);
      assert [slots[0]] + slots[1..] == slots;
    }
  }

  // ---------------------------------------------------------------------
  // Messages

  /** The second line of the Multiple-mode success message. */
  function CountText(rows: nat, binaries: nat): string
  {
    Text.NatToString(rows) + " rows, " + Text.NatToString(binaries) + " binaries."
  }

  /** The message SaveRecord returns for the counts it reached. */
  function Message(mode: RecordMode, rows: nat, binaries: nat): (m: string)
    ensures m == "No record saves." <==> !mode.Unnamed? && rows == 0 && binaries == 0
    ensures mode.Unnamed? <==> m == ""
  {
    match mode
    case Single => if rows == 0 && binaries == 0 then "No record saves." else "Succeed in save."
    case Multiple =>
      if rows == 0 && binaries == 0 then "No record saves."
      else "Succeed in save\n" + CountText(rows, binaries)
    case Unnamed(_) => ""
  }

  lemma DigitsHaveNoSpace(n: nat)
    ensures ' ' !in Text.NatToString(n)
  {
    var d := Text.NatToString(n);
    forall i | 0 <= i < |d| ensures d[i] != ' ' {
      assert '0' <= d[i] <= '9';
    }
  }

  function CountWordList(rows: nat, binaries: nat): seq<string>
  {
    [Text.NatToString(rows), "rows,", Text.NatToString(binaries), "binaries."]
  }

  lemma CountJoin(rows: nat, binaries: nat)
    ensures CountText(rows, binaries) == Text.Join(CountWordList(rows, binaries), " ")
  {
    var ws := CountWordList(rows, binaries);
    assert Text.Join(ws[3..], " ") == "binaries.";
    assert Text.Join(ws[2..], " ") == ws[2] + " " + "binaries.";
    assert Text.Join(ws[1..], " ") == "rows," + " " + (ws[2] + " " + "binaries.");
  }

  lemma CountFree(rows: nat, binaries: nat)
    ensures Text.Free(CountWordList(rows, binaries), ' ')
    ensures '\n' !in CountText(rows, binaries)
  {
    DigitsHaveNoSpace(rows);
    DigitsHaveNoSpace(binaries);
  }

  lemma CountWords(rows: nat, binaries: nat)
    ensures Text.Split(CountText(rows, binaries), ' ') == CountWordList(rows, binaries)
    ensures '\n' !in CountText(rows, binaries)
  {
    CountJoin(rows, binaries);
    CountFree(rows, binaries);
    Text.SplitJoin(CountWordList(rows, binaries), ' ');
  }

  /**
   * The Multiple-mode success message reports both counts: its second line
   * splits on spaces into the row count, "rows,", the file count and
   * "binaries.", and the numbers read back are the counts.
   */
  lemma MessageReportsCounts(rows: nat, binaries: nat)
    requires rows > 0 || binaries > 0
    ensures var lines := Text.Split(Message(Multiple, rows, binaries), '\n');
      |lines| == 2 && lines[0] == "Succeed in save" &&
      var words := Text.Split(lines[1], ' ');
      |words| == 4 && words[1] == "rows," && words[3] == "binaries." &&
      Text.ParseNat(words[0]) == rows && Text.ParseNat(words[2]) == binaries
  {
    var ls := ["Succeed in save", CountText(rows, binaries)];
    CountWords(rows, binaries);
    assert Message(Multiple, rows, binaries) == Text.Join(ls, "\n");
    Text.SplitJoin(ls, '\n');
    Text.ParseNatToString(rows);
    Text.ParseNatToString(binaries);
  }

  // ---------------------------------------------------------------------
  // The controller

  /** SaveType: per component (0), or into a folder named by the save time (1); a cast int may be neither. */
  datatype SaveType = Component | PerTimestamp | UnnamedSave(code: int)

  /** The inspector-visible settings the controller persists. */
  datatype Settings = Settings(
    timer: int, recordMode: RecordMode, saveType: SaveType,
    hand: bool, body: bool, face: bool, blendShape: bool, depth: bool, color: bool, slam: bool)

  const DefaultSettings := Settings(0, Multiple, Component, true, true, false, false, true, false, false)

  /**
   * The controller: its settings, its recorders, the bytes stored in the
   * running recording, whether the record coroutine is set, and the message
   * last shown.
   */
  datatype Controller = Controller(settings: Settings, slots: seq<Slot>, totalByteSize: int,
                                   maxByteSize: int, running: bool, message: string)

  function Init(slots: seq<Slot>): Controller
  {
    Controller(DefaultSettings, slots, 0, MaxByteSize, false, "")
  }

  function StopAll(slots: seq<Slot>): (r: seq<Slot>)
    ensures |r| == |slots|
    ensures forall i :: 0 <= i < |slots| ==> r[i] == StopSlot(slots[i])
  {
    seq(|slots|, i requires 0 <= i < |slots| => StopSlot(slots[i]))
  }

  function StartAll(slots: seq<Slot>): (r: seq<Slot>)
    ensures |r| == |slots|
    ensures forall i :: 0 <= i < |slots| ==> r[i] == StartSlot(slots[i])
  {
    seq(|slots|, i requires 0 <= i < |slots| => StartSlot(slots[i]))
  }

  /**
   * SaveRecord: creates the save folder (and, per timestamp, a sub-folder
   * named by `now`), saves every recorder and returns the message; an
   * exception from a recorder ends it with that error.
   */
  function SaveRecord(c: Controller, fs: FileSystem, savePath: string, now: string, stamp: Timestamp -> string,
                      png: Bytes -> Bytes): (r: (Controller, FileSystem, Result<string, BinaryRecorder.GetError>))
    ensures var target := if c.settings.saveType == PerTimestamp then savePath + now + "/" else savePath;
      var res := SaveAll(MakeDir(MakeDir(fs, savePath), target), target, c.slots, c.settings.recordMode, stamp, png);
      r.0 == c.(slots := res.slots) && r.1 == res.fs &&
      (res.error.None? ==> r.2 == Ok(Message(c.settings.recordMode, res.rows, res.binaries))) &&
      (res.error.Some? ==> r.2 == Err(res.error.value))
  {
    var fs1 := MakeDir(fs, savePath);
    var target := if c.settings.saveType == PerTimestamp then savePath + now + "/" else savePath;
    var fs2 := if c.settings.saveType == PerTimestamp then MakeDir(fs1, target) else fs1;
    assert fs2 == MakeDir(fs1, target);
    var res := SaveAll(fs2, target, c.slots, c.settings.recordMode, stamp, png);
    (c.(slots := res.slots), res.fs,
     if res.error.Some? then Err(res.error.value) else Ok(Message(c.settings.recordMode, res.rows, res.binaries)))
  }

  /**
   * StopRecord(save): every recorder stops; with `save` the data is saved,
   * the message shown and the byte total reset. An exception in the saving
   * task leaves "Saving" on screen and the total as it was.
   */
  function StopRecording(c: Controller, save: bool, fs: FileSystem, savePath: string, now: string,
                         stamp: Timestamp -> string, png: Bytes -> Bytes): (r: (Controller, FileSystem))
    ensures |r.0.slots| == |c.slots|
    ensures forall i :: 0 <= i < |c.slots| ==> !FlagsOf(r.0.slots[i]).recording && Kind(r.0.slots[i]) == Kind(c.slots[i])
    ensures !r.0.running && r.0.settings == c.settings
    ensures !save ==> r.1 == fs && r.0 == c.(slots := StopAll(c.slots), running := false)
    ensures save && SaveRecord(c, fs, savePath, now, stamp, png).2.Ok? ==>
      r.0.totalByteSize == 0 && r.0.message == SaveRecord(c, fs, savePath, now, stamp, png).2.value
    ensures save && SaveRecord(c, fs, savePath, now, stamp, png).2.Err? ==>
      r.0.totalByteSize == c.totalByteSize && r.0.message == "Saving"
  {
    var stopped := c.(slots := StopAll(c.slots), running := false);
    if !save then (stopped, fs)
    else
      var saved := SaveRecord(stopped.(message := "Saving"), fs, savePath, now, stamp, png);
      assert saved.2 == SaveRecord(c, fs, savePath, now, stamp, png).2 by {
        SaveStoppedSame(c, fs, savePath, now, stamp, png);
      }
      match saved.2
      case Ok(m) => (saved.0.(message := m, totalByteSize := 0), saved.1)
      case Err(_) => (saved.0, saved.1)
  }

  /** Stopping the recorders first changes nothing in what is saved. */
  lemma {:induction false} SaveStoppedSame(c: Controller, fs: FileSystem, savePath: string, now: string,
                                           stamp: Timestamp -> string, png: Bytes -> Bytes)
    ensures SaveRecord(c.(slots := StopAll(c.slots), running := false, message := "Saving"), fs, savePath, now, stamp, png).2
         == SaveRecord(c, fs, savePath, now, stamp, png).2
  {
    var target := if c.settings.saveType == PerTimestamp then savePath + now + "/" else savePath;
    SaveAllStopped(MakeDir(MakeDir(fs, savePath), target), target, c.slots, c.settings.recordMode, stamp, png);
  }

  /** Saving depends on the Record flags and the data, not on whether a recorder is still recording. */
  lemma {:induction false} SaveAllStopped(fs: FileSystem, target: string, slots: seq<Slot>, mode: RecordMode,
                                          stamp: Timestamp -> string, png: Bytes -> Bytes)
    ensures var a := SaveAll(fs, target, StopAll(slots), mode, stamp, png);
      var b := SaveAll(fs, target, slots, mode, stamp, png);
      a.fs == b.fs && a.rows == b.rows && a.binaries == b.binaries && a.error == b.error
    decreases |slots|
  {
    if |slots| > 0 {
      assert StopAll(slots)[1..] == StopAll(slots[1..]);
      var h := SaveSlot(fs, target, slots[0], mode, stamp, png);
      SaveSlotStopped(fs, target, slots[0], mode, stamp, png);
      SaveAllStopped(h.fs, target, slots[1..], mode, stamp, png);
    }
  }

  lemma SaveSlotStopped(fs: FileSystem, target: string, slot: Slot, mode: RecordMode,
                        stamp: Timestamp -> string, png: Bytes -> Bytes)
    ensures var a := SaveSlot(fs, target, StopSlot(slot), mode, stamp, png);
      var b := SaveSlot(fs, target, slot, mode, stamp, png);
      a.fs == b.fs && a.rows == b.rows && a.binaries == b.binaries && a.error == b.error
  {
    match slot
    case CsvSlot(k, n, h, csv) =>
      var csv' := csv.(cap := Recorder.Stop(csv.cap));
      assert CsvRecorder.GetData(csv', mode) == CsvRecorder.GetData(csv, mode);
      assert CreatedHeader(h, csv') == CreatedHeader(h, csv);
    case RawSlot(k, f, e, bin) =>
      assert BinaryRecorder.GetData(Recorder.Stop(bin), mode, x => x) == BinaryRecorder.GetData(bin, mode, x => x);
    case ColorSlot(f, e, c) =>
      assert BinaryRecorder.GetData(Recorder.Stop(c.cap), mode, png) == BinaryRecorder.GetData(c.cap, mode, png);
  }

  /**
   * The public StopRecord: in Single mode a pending countdown is cancelled
   * without saving, and the coroutine field is left set, so a later call
   * cancels again; in Multiple mode recording stops and the data is saved;
   * any other mode does nothing.
   */
  function StopRecord(c: Controller, fs: FileSystem, savePath: string, now: string,
                      stamp: Timestamp -> string, png: Bytes -> Bytes): (r: (Controller, FileSystem))
    ensures c.settings.recordMode == Single ==> r.1 == fs && r.0.(message := c.message) == c
    ensures c.settings.recordMode == Single ==> (r.0.message == "Canceled record." || r.0 == c)
    ensures c.settings.recordMode == Single && c.running ==> r.0.message == "Canceled record."
    ensures c.settings.recordMode == Single && !c.running ==> r.0 == c
    ensures c.settings.recordMode.Unnamed? ==> r == (c, fs)
    ensures c.settings.recordMode == Multiple ==> r == StopRecording(c, true, fs, savePath, now, stamp, png)
  {
    match c.settings.recordMode
    case Single => (if c.running then c.(message := "Canceled record.") else c, fs)
    case Multiple => StopRecording(c.(running := false), true, fs, savePath, now, stamp, png)
    case Unnamed(_) => (c, fs)
  }

  /**
   * In Single mode the coroutine field survives a cancel, so a second
   * StopRecord shows "Canceled record." again and changes nothing further.
   */
  lemma CancelRepeats(c: Controller, fs: FileSystem, savePath: string, now: string,
                      stamp: Timestamp -> string, png: Bytes -> Bytes)
    requires c.settings.recordMode == Single && c.running
    ensures var once := StopRecord(c, fs, savePath, now, stamp, png);
      var twice := StopRecord(once.0, once.1, savePath, now, stamp, png);
      twice == once && twice.0.message == "Canceled record." && twice.0.running
  {
  }

  /**
   * The end of StartRecord's countdown: Single mode saves the current data
   * at once and clears the coroutine; otherwise every recorder starts and
   * records exactly when its Record flag is on.
   */
  function CountdownElapsed(c: Controller, fs: FileSystem, savePath: string, now: string,
                            stamp: Timestamp -> string, png: Bytes -> Bytes): (r: (Controller, FileSystem))
    ensures c.settings.recordMode != Single ==>
      r.1 == fs && |r.0.slots| == |c.slots| &&
      forall i :: 0 <= i < |c.slots| ==> FlagsOf(r.0.slots[i]).recording == Record(c.slots[i])
    ensures c.settings.recordMode == Single && SaveRecord(c, fs, savePath, now, stamp, png).2.Ok? ==>
      !r.0.running && r.0.message == SaveRecord(c, fs, savePath, now, stamp, png).2.value
  {
    if c.settings.recordMode == Single then
      var saved := SaveRecord(c, fs, savePath, now, stamp, png);
      match saved.2
      case Ok(m) => (saved.0.(message := m, running := false), saved.1)
      case Err(_) => (saved.0, saved.1)
    else (c.(slots := StartAll(c.slots)), fs)
  }

  /** The controller's onDataStored handler; the flag says a stop was posted. */
  function DataStored(c: Controller, byteSize: int): (r: (Controller, bool))
    ensures r.0 == c.(totalByteSize := OnDataStored(c.totalByteSize, byteSize, c.maxByteSize).0)
    ensures r.1 <==> r.0.totalByteSize >= c.maxByteSize
  {
    var t := OnDataStored(c.totalByteSize, byteSize, c.maxByteSize);
    (c.(totalByteSize := t.0), t.1)
  }

  // ---------------------------------------------------------------------
  // The colour recorder's settings

  const ColorScales := [1, 2, 4, 10]

  /** Array.IndexOf: the first position of `v`, or -1. */
  function IndexOf(xs: seq<int>, v: int): (r: int)
    ensures -1 <= r < |xs|
    ensures r == -1 <==> v !in xs
    ensures r >= 0 ==> xs[r] == v && v !in xs[..r]
  {
    if |xs| == 0 then -1
    else if xs[0] == v then 0
    else
      var k := IndexOf(xs[1..], v);
      assert k >= 0 ==> xs[..k + 1] == [xs[0]] + xs[1..][..k];
      if k == -1 then -1 else k + 1
  }

  /** The last colour recorder in the list, if any. */
  function LastColor(slots: seq<Slot>): (r: Option<ColorRecorder.State>)
    ensures r.None? <==> forall i :: 0 <= i < |slots| ==> !slots[i].ColorSlot?
  {
    if |slots| == 0 then None
    else if slots[|slots| - 1].ColorSlot? then Some(slots[|slots| - 1].color)
    else
      var r := LastColor(slots[..|slots| - 1]);
      assert forall i :: 0 <= i < |slots| - 1 ==> slots[..|slots| - 1][i] == slots[i];
      r
  }

  /** The colorScaleIndex getter: the last colour recorder's scale in the table (-1 if absent), else 0. */
  function ColorScaleIndex(slots: seq<Slot>): (r: int)
    ensures -1 <= r < |ColorScales|
  {
    match LastColor(slots)
    case None => 0
    case Some(cr) => IndexOf(ColorScales, cr.scale)
  }

  /** The colorSkip getter: the last colour recorder's skip, else 0. */
  function ColorSkip(slots: seq<Slot>): int
  {
    match LastColor(slots)
    case None => 0
    case Some(cr) => cr.skip
  }

  /** Sets a colour setting on every colour recorder. */
  function MapColor(slots: seq<Slot>, f: ColorRecorder.State -> ColorRecorder.State): (r: seq<Slot>)
    ensures |r| == |slots|
    ensures forall i :: 0 <= i < |slots| ==>
      (if slots[i].ColorSlot? then r[i] == slots[i].(color := f(slots[i].color)) else r[i] == slots[i])
  {
    seq(|slots|, i requires 0 <= i < |slots| =>
      if slots[i].ColorSlot? then slots[i].(color := f(slots[i].color)) else slots[i])
  }

  lemma {:induction false} LastColorMapped(slots: seq<Slot>, f: ColorRecorder.State -> ColorRecorder.State)
    ensures LastColor(MapColor(slots, f)) == (match LastColor(slots) case None => None case Some(c) => Some(f(c)))
    decreases |slots|
  {
    if |slots| > 0 && !slots[|slots| - 1].ColorSlot? {
      var init := slots[..|slots| - 1];
      assert MapColor(slots, f)[..|slots| - 1] == MapColor(init, f);
      LastColorMapped(init, f);
    }
  }

  /**
   * The colorScaleIndex setter: every colour recorder gets that scale; an
   * index outside the table throws at the first colour recorder, before any
   * change (None).
   */
  function SetColorScaleIndex(slots: seq<Slot>, value: int): (r: Option<seq<Slot>>)
    ensures r.None? <==> LastColor(slots).Some? && !(0 <= value < |ColorScales|)
  {
    if LastColor(slots).Some? && !(0 <= value < |ColorScales|) then None
    else
      var scale := if 0 <= value < |ColorScales| then ColorScales[value] else 0;
      Some(MapColor(slots, (cr: ColorRecorder.State) => cr.(scale := scale)))
  }

  function SetColorSkip(slots: seq<Slot>, value: int): seq<Slot>
  {
    MapColor(slots, (cr: ColorRecorder.State) => cr.(skip := value))
  }

  /** Setting an index of the table and reading it back gives the index (0 without a colour recorder). */
  lemma ColorScaleRoundTrip(slots: seq<Slot>, value: int)
    requires 0 <= value < |ColorScales|
    ensures SetColorScaleIndex(slots, value).Some?
    ensures ColorScaleIndex(SetColorScaleIndex(slots, value).value) == if LastColor(slots).Some? then value else 0
    ensures ColorSkip(SetColorScaleIndex(slots, value).value) == ColorSkip(slots)
  {
    var f := (cr: ColorRecorder.State) => cr.(scale := ColorScales[value]);
    LastColorMapped(slots, f);
    if LastColor(slots).Some? {
      assert IndexOf(ColorScales, ColorScales[value]) == value;
    }
  }

  lemma ColorSkipRoundTrip(slots: seq<Slot>, value: int)
    ensures ColorSkip(SetColorSkip(slots, value)) == if LastColor(slots).Some? then value else 0
    ensures ColorScaleIndex(SetColorSkip(slots, value)) == ColorScaleIndex(slots)
  {
    LastColorMapped(slots, (cr: ColorRecorder.State) => cr.(skip := value));
  }

  // ---------------------------------------------------------------------
  // Preferences

  /** The PlayerPrefs keys the controller uses. */
  datatype PrefKey =
    | SaveTimeKey | TimerKey | RecordModeKey | SaveTypeKey
    | DepthKey | ColorKey | HandKey | BodyKey | FaceKey | BlendShapeKey | SlamKey
    | ColorScaleIndexKey | ColorSkipKey

  /** The key strings. */
  function KeyName(k: PrefKey): string
  {
    match k
    case SaveTimeKey => "recorder_save_time"
    case TimerKey => "recorder_timer"
    case RecordModeKey => "recorder_record_mode"
    case SaveTypeKey => "recorder_save_type"
    case DepthKey => "recorder_depth"
    case ColorKey => "recorder_color"
    case HandKey => "recorder_hand"
    case BodyKey => "recorder_body"
    case FaceKey => "recorder_face"
    case BlendShapeKey => "recorder_blendshape"
    case SlamKey => "recorder_slam"
    case ColorScaleIndexKey => "recorder_color_scale_index"
    case ColorSkipKey => "recorder_color_skip"
  }

  /** PlayerPrefs: a missing int reads as 0, a missing string as "". */
  datatype Prefs = Prefs(strings: map<PrefKey, string>, ints: map<PrefKey, int>)

  function GetInt(p: Prefs, key: PrefKey): int
  {
    if key in p.ints then p.ints[key] else 0
  }

  function GetString(p: Prefs, key: PrefKey): string
  {
    if key in p.strings then p.strings[key] else ""
  }

  function SaveTypeCode(t: SaveType): int
  {
    match t
    case Component => 0
    case PerTimestamp => 1
    case UnnamedSave(c) => c
  }

  /** The cast (SaveType)code. */
  function SaveTypeOf(code: int): (t: SaveType)
    ensures SaveTypeCode(t) == code
  {
    if code == 0 then Component else if code == 1 then PerTimestamp else UnnamedSave(code)
  }

  predicate ValidSaveType(t: SaveType)
  {
    t.UnnamedSave? ==> t.code != 0 && t.code != 1
  }

  /** A flag is stored as 1 or 0. */
  function FlagCode(b: bool): (r: int)
    ensures r == 0 || r == 1
    ensures r == 1 <==> b
  {
    if b then 1 else 0
  }

  /** The keys stored as ints. */
  const IntKeys := {TimerKey, RecordModeKey, SaveTypeKey, DepthKey, ColorKey, HandKey, BodyKey,
                    FaceKey, BlendShapeKey, SlamKey, ColorScaleIndexKey, ColorSkipKey}

  /** The int SavePrefs stores under a key: the setting, a flag as 1/0, or a colour getter's value. */
  function SavedInt(c: Controller, k: PrefKey): int
  {
    var st := c.settings;
    match k
    case TimerKey => st.timer
    case RecordModeKey => RecordModeCode(st.recordMode)
    case SaveTypeKey => SaveTypeCode(st.saveType)
    case DepthKey => FlagCode(st.depth)
    case ColorKey => FlagCode(st.color)
    case HandKey => FlagCode(st.hand)
    case BodyKey => FlagCode(st.body)
    case FaceKey => FlagCode(st.face)
    case BlendShapeKey => FlagCode(st.blendShape)
    case SlamKey => FlagCode(st.slam)
    case ColorScaleIndexKey => ColorScaleIndex(c.slots)
    case ColorSkipKey => ColorSkip(c.slots)
    case SaveTimeKey => 0
  }

  /** SavePrefs: the formatted save time, then every setting; other preferences are kept. */
  function SavePrefs(p: Prefs, c: Controller, now: string): (q: Prefs)
    ensures GetString(q, SaveTimeKey) == now
    ensures forall k :: k in IntKeys ==> GetInt(q, k) == SavedInt(c, k)
    ensures forall k :: k !in IntKeys && k != SaveTimeKey ==> GetInt(q, k) == GetInt(p, k) && GetString(q, k) == GetString(p, k)
  {
    Prefs(p.strings[SaveTimeKey := now],
          map k | k in p.ints.Keys + IntKeys :: if k in IntKeys then SavedInt(c, k) else p.ints[k])
  }

  /**
   * Awake's restore: only when a save time was stored. A flag reads back as
   * "== 1". An out-of-table colour scale index throws after the settings
   * were read, leaving the recorders unchanged (the flag is true).
   */
  function Awake(c: Controller, p: Prefs): (r: (Controller, bool))
    ensures |GetString(p, SaveTimeKey)| == 0 ==> r == (c, false)
    ensures |GetString(p, SaveTimeKey)| != 0 ==> r.0.settings == RestoredSettings(p)
    ensures r.1 ==> r.0.slots == c.slots
  {
    if |GetString(p, SaveTimeKey)| == 0 then (c, false)
    else
      var st := RestoredSettings(p);
      match SetColorScaleIndex(c.slots, GetInt(p, ColorScaleIndexKey))
      case None => (c.(settings := st), true)
      case Some(slots) => (c.(settings := st, slots := SetColorSkip(slots, GetInt(p, ColorSkipKey))), false)
  }

  /** The settings Awake reads: the casts of the stored ints, and every flag as "== 1". */
  function RestoredSettings(p: Prefs): (st: Settings)
    ensures st.hand <==> GetInt(p, HandKey) == 1
    ensures st.body <==> GetInt(p, BodyKey) == 1
    ensures st.face <==> GetInt(p, FaceKey) == 1
    ensures st.blendShape <==> GetInt(p, BlendShapeKey) == 1
    ensures st.depth <==> GetInt(p, DepthKey) == 1
    ensures st.color <==> GetInt(p, ColorKey) == 1
    ensures st.slam <==> GetInt(p, SlamKey) == 1
    ensures st.timer == GetInt(p, TimerKey)
    ensures st.recordMode == RecordModeOf(GetInt(p, RecordModeKey))
    ensures st.saveType == SaveTypeOf(GetInt(p, SaveTypeKey))
  {
    Settings(
      GetInt(p, TimerKey), RecordModeOf(GetInt(p, RecordModeKey)), SaveTypeOf(GetInt(p, SaveTypeKey)),
      GetInt(p, HandKey) == 1, GetInt(p, BodyKey) == 1, GetInt(p, FaceKey) == 1, GetInt(p, BlendShapeKey) == 1,
      GetInt(p, DepthKey) == 1, GetInt(p, ColorKey) == 1, GetInt(p, SlamKey) == 1)
  }

  /** Every setting survives SavePrefs followed by Awake's reading. */
  lemma SettingsRoundTrip(p: Prefs, c: Controller, now: string)
    requires ValidMode(c.settings.recordMode) && ValidSaveType(c.settings.saveType)
    ensures RestoredSettings(SavePrefs(p, c, now)) == c.settings
  {
    var q := SavePrefs(p, c, now);
    var st := c.settings;
    assert GetInt(q, HandKey) == FlagCode(st.hand) && GetInt(q, BodyKey) == FlagCode(st.body);
    assert GetInt(q, FaceKey) == FlagCode(st.face) && GetInt(q, BlendShapeKey) == FlagCode(st.blendShape);
    assert GetInt(q, DepthKey) == FlagCode(st.depth) && GetInt(q, ColorKey) == FlagCode(st.color);
    assert GetInt(q, SlamKey) == FlagCode(st.slam) && GetInt(q, TimerKey) == st.timer;
    assert GetInt(q, RecordModeKey) == RecordModeCode(st.recordMode);
    assert GetInt(q, SaveTypeKey) == SaveTypeCode(st.saveType);
  }

  /**
   * Saving the preferences and restoring them into a controller with the
   * same recorders gives back every setting and the colour settings, provided
   * the colour scale is one of the table's.
   */
  lemma PrefsRoundTrip(p: Prefs, c: Controller, restarted: Controller, now: string)
    requires |now| > 0
    requires ValidMode(c.settings.recordMode) && ValidSaveType(c.settings.saveType)
    requires restarted.slots == c.slots
    requires ColorScaleIndex(c.slots) >= 0
    ensures var r := Awake(restarted, SavePrefs(p, c, now));
      !r.1 && r.0.settings == c.settings &&
      ColorScaleIndex(r.0.slots) == ColorScaleIndex(c.slots) && ColorSkip(r.0.slots) == ColorSkip(c.slots)
  {
    var q := SavePrefs(p, c, now);
    SettingsRoundTrip(p, c, now);
    var value := ColorScaleIndex(c.slots);
    assert GetInt(q, ColorScaleIndexKey) == value;
    assert GetInt(q, ColorSkipKey) == ColorSkip(c.slots);
    ColorScaleRoundTrip(c.slots, value);
    var slots := SetColorScaleIndex(c.slots, value).value;
    ColorSkipRoundTrip(slots, ColorSkip(c.slots));
    assert LastColor(slots).Some? == LastColor(c.slots).Some? by {
      LastColorMapped(c.slots, (cr: ColorRecorder.State) => cr.(scale := ColorScales[value]));
    }
  }

  // ---------------------------------------------------------------------
  // Which recorders take part

  /** The controller's flag for a data type. */
  function Setting(st: Settings, k: DataType): bool
  {
    match k
    case Hand => st.hand
    case Body => st.body
    case Face => st.face
    case BlendShape => st.blendShape
    case Depth => st.depth
    case Color => st.color
    case Slam => st.slam
  }

  /** One recorder under UpdateRecorder. */
  function UpdateOne(slot: Slot, k: DataType, on: bool): (r: Slot)
    ensures Kind(r) == Kind(slot)
    ensures Kind(slot) == k ==> r == SetRecord(slot, on)
    ensures Kind(slot) != k ==> r == slot
  {
    if Kind(slot) == k then SetRecord(slot, on) else slot
  }

  /** UpdateRecorder: sets Record on every recorder of the type and on no other. */
  function UpdateRecorder(slots: seq<Slot>, k: DataType, on: bool): (r: seq<Slot>)
    ensures |r| == |slots|
  {
    if |slots| == 0 then [] else UpdateRecorder(slots[..|slots| - 1], k, on) + [UpdateOne(slots[|slots| - 1], k, on)]
  }

  lemma {:induction false} UpdateRecorderAt(slots: seq<Slot>, k: DataType, on: bool, i: int)
    requires 0 <= i < |slots|
    ensures UpdateRecorder(slots, k, on)[i] == UpdateOne(slots[i], k, on)
    decreases |slots|
  {
    if i < |slots| - 1 {
      UpdateRecorderAt(slots[..|slots| - 1], k, on, i);
    }
  }

  /** UpdateRecorders: UpdateRecorder for each type in turn, with the controller's flag for it. */
  function UpdateEach(slots: seq<Slot>, kinds: seq<DataType>, st: Settings): (r: seq<Slot>)
    ensures |r| == |slots|
    decreases |kinds|
  {
    if |kinds| == 0 then slots
    else UpdateEach(UpdateRecorder(slots, kinds[0], Setting(st, kinds[0])), kinds[1..], st)
  }

  const AllKinds := [Hand, Body, Face, BlendShape, Depth, Color, Slam]

  function UpdateRecorders(slots: seq<Slot>, st: Settings): (r: seq<Slot>)
    ensures |r| == |slots|
  {
    UpdateEach(slots, AllKinds, st)
  }

  lemma {:induction false} UpdateEachAt(slots: seq<Slot>, kinds: seq<DataType>, st: Settings, i: int)
    requires 0 <= i < |slots|
    requires forall a, b :: 0 <= a < b < |kinds| ==> kinds[a] != kinds[b]
    ensures UpdateEach(slots, kinds, st)[i] ==
      if Kind(slots[i]) in kinds then SetRecord(slots[i], Setting(st, Kind(slots[i]))) else slots[i]
    decreases |kinds|
  {
    if |kinds| > 0 {
      var a := UpdateRecorder(slots, kinds[0], Setting(st, kinds[0]));
      UpdateRecorderAt(slots, kinds[0], Setting(st, kinds[0]), i);
      UpdateEachAt(a, kinds[1..], st, i);
      if Kind(slots[i]) == kinds[0] {
        assert Kind(slots[i]) !in kinds[1..] by {
          forall j | 0 <= j < |kinds| - 1 ensures kinds[1..][j] != kinds[0] {
            assert kinds[1..][j] == kinds[j + 1];
          }
        }
      } else {
        assert Kind(slots[i]) in kinds <==> Kind(slots[i]) in kinds[1..] by {
          assert kinds == [kinds[0]] + kinds[1..];
        }
      }
    }
  }

  /**
   * Afterwards every recorder's Record is the controller's flag for its type,
   * and nothing else about it changed.
   */
  lemma UpdateRecordersApplies(slots: seq<Slot>, st: Settings)
    ensures var r := UpdateRecorders(slots, st);
      |r| == |slots| &&
      forall i :: 0 <= i < |slots| ==>
        Kind(r[i]) == Kind(slots[i]) && Record(r[i]) == Setting(st, Kind(slots[i])) &&
        FlagsOf(r[i]).recording == FlagsOf(slots[i]).recording
  {
    forall i | 0 <= i < |slots|
      ensures var r := UpdateRecorders(slots, st);
        Kind(r[i]) == Kind(slots[i]) && Record(r[i]) == Setting(st, Kind(slots[i])) &&
        FlagsOf(r[i]).recording == FlagsOf(slots[i]).recording
    {
      AllKindsDistinct();
      UpdateEachAt(slots, AllKinds, st, i);
      KindListed(Kind(slots[i]));
    }
  }

  lemma AllKindsDistinct()
    ensures forall a, b :: 0 <= a < b < |AllKinds| ==> AllKinds[a] != AllKinds[b]
  {
  }

  lemma KindListed(k: DataType)
    ensures k in AllKinds
  {
    match k
    case Hand => assert AllKinds[0] == k;
    case Body => assert AllKinds[1] == k;
    case Face => assert AllKinds[2] == k;
    case BlendShape => assert AllKinds[3] == k;
    case Depth => assert AllKinds[4] == k;
    case Color => assert AllKinds[5] == k;
    case Slam => assert AllKinds[6] == k;
  }
}

=== FILE: depth_recorder.dfy ===
/** Records depth frames as raw bytes (DepthRecorder.cs). */
module DepthRecorder {
  import opened Wrappers
  import opened RecordTypes
  import opened Entries
  import RawBytes
  import BinaryRecorder

  const Kind := DataType.Depth

  /**
   * OnFrameArrived: a frame without depth data is ignored; otherwise the
   * samples are copied into twice as many bytes and handed to SetData with the
   * time of arrival.
   */
  function OnFrameArrived(s: BinaryRecorder.State, depth: Option<seq<RawBytes.short>>, now: Timestamp)
    : (r: (BinaryRecorder.State, Option<nat>))
    ensures depth.None? ==> r == (s, None)
    ensures depth.Some? && s.flags.recording ==> r.1 == Some(2 * |depth.value|)
  {
    if depth.None? then (s, None)
    else BinaryRecorder.SetData(s, RawBytes.EncodeShorts(depth.value), now)
  }

  /** A recorded depth frame is stored under its time and reads back as the same samples. */
  lemma StoredFrameDecodes(s: BinaryRecorder.State, depth: seq<RawBytes.short>, now: Timestamp)
    requires s.flags.recording
    ensures var r := OnFrameArrived(s, Some(depth), now).0;
      Lookup(r.stored, now).Some? && RawBytes.DecodeShorts(Lookup(r.stored, now).value) == depth
  {
    RawBytes.DecodeEncode(depth);
  }
}

=== FILE: entries.dfy ===
/**
 * A System.Collections.Generic.Dictionary that is only ever added to,
 * overwritten and cleared enumerates its entries in insertion order, and an
 * assignment to an existing key replaces the value in place. The recorders
 * rely on that order when they write their files, so a dictionary is modelled
 * as a sequence of entries with distinct keys.
 */
module Entries {
  import opened Wrappers

  datatype Entry<K, V> = Entry(key: K, value: V)

  predicate DistinctKeys<K(==), V>(es: seq<Entry<K, V>>)
  {
    forall i, j :: 0 <= i < j < |es| ==> es[i].key != es[j].key
  }

  function Keys<K, V>(es: seq<Entry<K, V>>): (ks: seq<K>)
    ensures |ks| == |es|
  {
    if |es| == 0 then [] else [es[0].key] + Keys(es[1..])
  }

  lemma {:induction false} KeyAt<K, V>(es: seq<Entry<K, V>>, i: nat)
    requires i < |es|
    ensures Keys(es)[i] == es[i].key
  {
    if i > 0 {
      KeyAt(es[1..], i - 1);
    }
  }

  lemma {:induction false} KeysAppend<K, V>(a: seq<Entry<K, V>>, b: seq<Entry<K, V>>)
    ensures Keys(a + b) == Keys(a) + Keys(b)
  {
    if |a| > 0 {
      assert (a + b)[1..] == a[1..] + b;
      KeysAppend(a[1..], b);
      assert Keys(a + b) == [a[0].key] + Keys(a[1..] + b);
      assert Keys(a) == [a[0].key] + Keys(a[1..]);
    } else {
      assert a + b == b;
    }
  }

  /** dictionary[k], or None when the key is absent. */
  function Lookup<K(==), V>(es: seq<Entry<K, V>>, k: K): (r: Option<V>)
    ensures r.None? <==> k !in Keys(es)
  {
    if |es| == 0 then None
    else if es[0].key == k then Some(es[0].value)
    else Lookup(es[1..], k)
  }

  /** `dictionary[k] = v`. */
  function Put<K(==), V>(es: seq<Entry<K, V>>, k: K, v: V): (r: seq<Entry<K, V>>)
    ensures Lookup(r, k) == Some(v)
  {
    if |es| == 0 then [Entry(k, v)]
    else if es[0].key == k then [Entry(k, v)] + es[1..]
    else [es[0]] + Put(es[1..], k, v)
  }

  /** Overwriting one key leaves every other key's value as it was. */
  lemma {:induction false} PutOther<K, V>(es: seq<Entry<K, V>>, k: K, v: V, j: K)
    requires j != k
    ensures Lookup(Put(es, k, v), j) == Lookup(es, j)
  {
    if |es| > 0 && es[0].key != k {
      PutOther(es[1..], k, v, j);
    }
  }

  /** A new key is appended at the end; an existing key keeps its position. */
  lemma {:induction false} PutShape<K, V>(es: seq<Entry<K, V>>, k: K, v: V)
    ensures k !in Keys(es) ==> Put(es, k, v) == es + [Entry(k, v)]
    ensures k in Keys(es) ==> |Put(es, k, v)| == |es| && Keys(Put(es, k, v)) == Keys(es)
  {
    if |es| > 0 && es[0].key != k {
      PutShape(es[1..], k, v);
      assert Keys(es) == [es[0].key] + Keys(es[1..]);
    }
  }

  /** Assignment never creates a duplicate key. */
  lemma PutDistinct<K, V>(es: seq<Entry<K, V>>, k: K, v: V)
    requires DistinctKeys(es)
    ensures DistinctKeys(Put(es, k, v))
  {
    PutShape(es, k, v);
    var r := Put(es, k, v);
    if k !in Keys(es) {
      forall i, j | 0 <= i < j < |r| ensures r[i].key != r[j].key {
        if j == |es| {
          KeyAt(es, i);
        }
      }
    } else {
      forall i, j | 0 <= i < j < |r| ensures r[i].key != r[j].key {
        KeyAt(es, i); KeyAt(es, j); KeyAt(r, i); KeyAt(r, j);
      }
    }
  }

  /** Applies `f` to every value, keeping keys and order (a foreach that copies into a new dictionary). */
  function MapValues<K, V, W>(es: seq<Entry<K, V>>, f: V -> W): (r: seq<Entry<K, W>>)
    ensures |r| == |es|
    ensures forall i :: 0 <= i < |es| ==> r[i] == Entry(es[i].key, f(es[i].value))
  {
    if |es| == 0 then [] else [Entry(es[0].key, f(es[0].value))] + MapValues(es[1..], f)
  }
}

=== FILE: face_recorder.dfy ===
/** Records the first estimated face as one CSV row per frame (FaceRecorder.cs). */
module FaceRecorder {
  import opened Vectors
  import opened RecordTypes
  import Text
  import Fields
  import CsvRecorder

  const Kind := DataType.Face

  datatype FaceResult = FaceResult(position: Vec3, rotation: Quat, vertices: seq<Vec3>)

  function Values(f: FaceResult, fmt: real -> string): (fs: seq<string>)
    ensures |fs| == 3 + 4 + 3 * |f.vertices|
  {
    Fields.PoseFields(f.position, f.rotation, fmt) + Fields.PointFields(f.vertices, fmt)
  }

  /**
   * Every value followed by a comma, with the final comma removed: the row is
   * the values joined by commas.
   */
  function Row(f: FaceResult, fmt: real -> string): (r: string)
    ensures r == Text.Join(Values(f, fmt), ",")
  {
    var t := Text.Terminated(Values(f, fmt), ",");
    Text.TerminatedTrim(Values(f, fmt), ',');
    t[..|t| - 1]
  }

  /**
   * OnFaceEstimated: with no face nothing happens; otherwise dataLength is
   * reset to the size of the first face and its row becomes the current data.
   */
  function OnFaceEstimated(s: CsvRecorder.State, results: seq<FaceResult>, fmt: real -> string,
                           now: Timestamp, key: Timestamp): (r: CsvRecorder.State)
    ensures |results| == 0 ==> r == s
    ensures |results| > 0 ==>
      r.dataLength == 7 + 3 * |results[0].vertices| && r.header == s.header &&
      r.cap.current.Some? && r.cap.current.value == Row(results[0], fmt)
  {
    if |results| == 0 then s
    else
      var f := results[0];
      CsvRecorder.SetData(s.(dataLength := 3 + 4 + |f.vertices| * 3), Row(f, fmt), now, key)
  }

  /**
   * With a number format that writes no comma, the row has exactly
   * dataLength columns, so a saved line (timestamp, then the row) lines up
   * with the default header built from that dataLength.
   */
  lemma RowFitsDefaultHeader(s: CsvRecorder.State, results: seq<FaceResult>, fmt: real -> string,
                             now: Timestamp, key: Timestamp)
    requires forall v :: ',' !in fmt(v)
    requires |results| > 0
    ensures var r := OnFaceEstimated(s, results, fmt, now, key);
      |Text.Split(Row(results[0], fmt), ',')| == r.dataLength &&
      |Text.Split(CsvRecorder.DefaultHeader(r.dataLength), ',')| == 1 + r.dataLength
  {
    var f := results[0];
    Fields.PoseAndPointsFree(f.position, f.rotation, f.vertices, fmt, ',');
    Text.SplitJoin(Values(f, fmt), ',');
    CsvRecorder.DefaultHeaderColumns(7 + 3 * |f.vertices|);
  }
}

=== FILE: fields.dfy ===
/**
 * The text fields the CSV recorders write for poses and point lists: each
 * float through the number format `fmt`, in indexer order.
 */
module Fields {
  import opened Vectors
  import Text

  /** Position x, y, z then rotation x, y, z, w. */
  function PoseFields(position: Vec3, rotation: Quat, fmt: real -> string): (fs: seq<string>)
    ensures |fs| == 7
  {
    [fmt(position.x), fmt(position.y), fmt(position.z),
     fmt(rotation.x), fmt(rotation.y), fmt(rotation.z), fmt(rotation.w)]
  }

  /** x, y, z of every point, point after point. */
  function PointFields(points: seq<Vec3>, fmt: real -> string): (fs: seq<string>)
    ensures |fs| == 3 * |points|
  {
    if |points| == 0 then []
    else [fmt(points[0].x), fmt(points[0].y), fmt(points[0].z)] + PointFields(points[1..], fmt)
  }

  /** Field 3i + a is axis a of point i. */
  lemma {:induction false} PointFieldAt(points: seq<Vec3>, fmt: real -> string, i: nat, a: nat)
    requires i < |points| && a < 3
    ensures PointFields(points, fmt)[3 * i + a] == fmt(Components3(points[i])[a])
  {
    if i > 0 {
      PointFieldAt(points[1..], fmt, i - 1, a);
    }
  }

  lemma {:induction false} PointFieldsFree(points: seq<Vec3>, fmt: real -> string, c: char)
    requires forall v :: c !in fmt(v)
    ensures Text.Free(PointFields(points, fmt), c)
  {
    if |points| > 0 {
      PointFieldsFree(points[1..], fmt, c);
    }
  }

  /** Pose fields followed by point fields contain no `c` when the format never writes it. */
  lemma PoseAndPointsFree(position: Vec3, rotation: Quat, points: seq<Vec3>, fmt: real -> string, c: char)
    requires forall v :: c !in fmt(v)
    ensures Text.Free(PoseFields(position, rotation, fmt) + PointFields(points, fmt), c)
  {
    var fs := PoseFields(position, rotation, fmt) + PointFields(points, fmt);
    PointFieldsFree(points, fmt, c);
    forall i | 0 <= i < |fs| ensures c !in fs[i] {
      if i >= 7 {
        assert fs[i] == PointFields(points, fmt)[i - 7];
      }
    }
  }
}

=== FILE: hand_model_controller.dfy ===
/**
 * The settings every hand and body model shares (HandModelController.cs;
 * AbstractBodyModelController.cs repeats the same guards): whether it is
 * shown, a position offset with every component in [-1, 1], a scale in
 * [0.25, 4], the matrices that turn the offset with the screen, and the
 * text dump of a hand's points.
 */
module HandModelController {
  import opened Wrappers
  import opened Vectors
  import Text

  const OffsetMin: real := -1.0
  const OffsetMax: real := 1.0
  const ScaleMin: real := 0.25
  const ScaleMax: real := 4.0
  const ScaleDefault: real := 1.0

  /** The change notifications (OnChangeShow, OnChangeOffset, OnChangeScale, OnChangeIndex). */
  datatype Event = ChangeShow(shown: bool) | ChangeOffset(offset: Vec3) | ChangeScale(scale: real) | ChangeIndex(index: int)

  datatype Settings = Settings(isShow: bool, offset: Vec3, scale: real)

  const Initial := Settings(true, Zero3, ScaleDefault)

  /** The state a setter leaves, the events it raised, and whether it took the value (and so re-applied it). */
  datatype Change = Change(settings: Settings, events: seq<Event>, applied: bool)

  /** Every component of the offset lies in [OffsetMin, OffsetMax]. */
  predicate InOffsetRange(v: Vec3)
  {
    forall i :: 0 <= i < 3 ==> OffsetMin <= Components3(v)[i] <= OffsetMax
  }

  /** CheckOffsetRange: the loop over the three components, stopping at the first out of range. */
  method CheckOffsetRange(v: Vec3) returns (result: bool)
    ensures result <==> OffsetMin <= v.x <= OffsetMax && OffsetMin <= v.y <= OffsetMax && OffsetMin <= v.z <= OffsetMax
    ensures result <==> InOffsetRange(v)
  {
    result := true;
    var i := 0;
    while i < 3
      invariant 0 <= i <= 3
      invariant result <==> forall k :: 0 <= k < i ==> OffsetMin <= Components3(v)[k] <= OffsetMax
      invariant !result ==> i < 3
    {
      var xyz := Components3(v)[i];
      if xyz < OffsetMin || OffsetMax < xyz {
        result := false;
        break;
      }
      i := i + 1;
    }
    assert Components3(v)[0] == v.x && Components3(v)[1] == v.y && Components3(v)[2] == v.z;
  }

  /** The IsShow setter: a different value is stored and announced; the same value does nothing. */
  function SetShow(s: Settings, value: bool): (r: Change)
    ensures r.settings.isShow == value
    ensures r.settings.offset == s.offset && r.settings.scale == s.scale
    ensures r.events == (if s.isShow != value then [ChangeShow(value)] else [])
    ensures r.applied <==> s.isShow != value
  {
    if s.isShow != value then Change(s.(isShow := value), [ChangeShow(value)], true)
    else Change(s, [], false)
  }

  /**
   * The Offset setter: taken only when different and inside the range,
   * then applied and announced; otherwise nothing changes and nothing is
   * raised.
   */
  function SetOffset(s: Settings, v: Vec3): (r: Change)
    ensures r.applied <==> s.offset != v && InOffsetRange(v)
    ensures r.applied ==> r.settings == s.(offset := v) && r.events == [ChangeOffset(v)]
    ensures !r.applied ==> r.settings == s && r.events == []
    ensures InOffsetRange(s.offset) ==> InOffsetRange(r.settings.offset)
  {
    if s.offset != v && InOffsetRange(v) then Change(s.(offset := v), [ChangeOffset(v)], true)
    else Change(s, [], false)
  }

  /** The Scale setter: taken only when different and in [ScaleMin, ScaleMax]. */
  function SetScale(s: Settings, v: real): (r: Change)
    ensures r.applied <==> s.scale != v && ScaleMin <= v <= ScaleMax
    ensures r.applied ==> r.settings == s.(scale := v) && r.events == [ChangeScale(v)]
    ensures !r.applied ==> r.settings == s && r.events == []
    ensures ScaleMin <= s.scale <= ScaleMax ==> ScaleMin <= r.settings.scale <= ScaleMax
  {
    if s.scale != v && ScaleMin <= v <= ScaleMax then Change(s.(scale := v), [ChangeScale(v)], true)
    else Change(s, [], false)
  }

  /** The settings stay in range whatever is asked of the setters, starting from the defaults. */
  predicate Valid(s: Settings)
  {
    InOffsetRange(s.offset) && ScaleMin <= s.scale <= ScaleMax
  }

  lemma InitialValid()
    ensures Valid(Initial)
  {
    assert Components3(Zero3) == [0.0, 0.0, 0.0];
  }

  /** A setting asked twice is taken at most once: the second request finds nothing to change. */
  lemma SettersSettle(s: Settings, v: Vec3, scale: real, shown: bool)
    ensures !SetOffset(SetOffset(s, v).settings, v).applied
    ensures !SetScale(SetScale(s, scale).settings, scale).applied
    ensures !SetShow(SetShow(s, shown).settings, shown).applied
  {
  }

  /**
   * The option list of a model dropdown (HandNames of the real-hand
   * controller, ModelNames of the body controller): "-" for no model, then
   * the names in order, so option k names model k - 1.
   */
  function OptionNames(names: seq<string>): (r: seq<string>)
    ensures |r| == |names| + 1 && r[0] == "-"
    ensures forall k :: 1 <= k < |r| ==> r[k] == names[k - 1]
  {
    ["-"] + names
  }

  /** A Matrix4x4 row and matrix; unset entries are zero. */
  datatype Row = Row(c0: real, c1: real, c2: real, c3: real)
  datatype Matrix4 = Matrix4(r0: Row, r1: Row, r2: Row, r3: Row)

  function Apply(r: Row, p: Vec3): real
  {
    r.c0 * p.x + r.c1 * p.y + r.c2 * p.z + r.c3
  }

  /** Matrix4x4.MultiplyPoint: the full projective product, divided by the fourth coordinate. */
  function MultiplyPoint(m: Matrix4, p: Vec3): Vec3
    requires Apply(m.r3, p) != 0.0
  {
    var w := Apply(m.r3, p);
    Vec3(Apply(m.r0, p) / w, Apply(m.r1, p) / w, Apply(m.r2, p) / w)
  }

  const AdjustPortrait := Matrix4(Row(0.0, 1.0, 0.0, 0.0), Row(-1.0, 0.0, 0.0, 0.0), Row(0.0, 0.0, 1.0, 0.0),
                                  Row(0.0, 0.0, 0.0, 1.0))
  const AdjustPortraitUpsideDown := Matrix4(Row(0.0, -1.0, 0.0, 0.0), Row(1.0, 0.0, 0.0, 0.0), Row(0.0, 0.0, 1.0, 0.0),
                                            Row(0.0, 0.0, 0.0, 1.0))
  const AdjustLandscapeRight := Matrix4(Row(-1.0, 0.0, 0.0, 0.0), Row(0.0, -1.0, 0.0, 0.0), Row(0.0, 0.0, 1.0, 0.0),
                                        Row(0.0, 0.0, 0.0, 1.0))

  /**
   * ApplyOffset's position for a model under the reorienting socket: the
   * offset turned by the screen orientation (90, 180 or 270 degrees), and
   * the offset itself for any other angle or when the model is not
   * reoriented.
   */
  function Oriented(offset: Vec3, reoriented: bool, screen: int): (r: Vec3)
    ensures !reoriented ==> r == offset
    ensures reoriented && screen == 90 ==> r == Vec3(offset.y, -offset.x, offset.z)
    ensures reoriented && screen == 180 ==> r == Vec3(-offset.x, -offset.y, offset.z)
    ensures reoriented && screen == 270 ==> r == Vec3(-offset.y, offset.x, offset.z)
    ensures reoriented && screen !in {90, 180, 270} ==> r == offset
  {
    if !reoriented then offset
    else if screen == 90 then MultiplyPoint(AdjustPortrait, offset)
    else if screen == 180 then MultiplyPoint(AdjustLandscapeRight, offset)
    else if screen == 270 then MultiplyPoint(AdjustPortraitUpsideDown, offset)
    else offset
  }

  /**
   * The turns undo each other: portrait and upside-down are inverse
   * quarter turns, landscape-right a half turn; none moves the z axis.
   */
  lemma TurnsInvert(v: Vec3)
    ensures Oriented(Oriented(v, true, 90), true, 270) == v
    ensures Oriented(Oriented(v, true, 270), true, 90) == v
    ensures Oriented(Oriented(v, true, 180), true, 180) == v
    ensures Oriented(Oriented(v, true, 90), true, 90) == Oriented(v, true, 180)
  {
  }

  /** A turned offset in range stays in range: the turns only swap and negate components. */
  lemma TurnKeepsRange(v: Vec3, reoriented: bool, screen: int)
    ensures InOffsetRange(v) ==> InOffsetRange(Oriented(v, reoriented, screen))
  {
    if InOffsetRange(v) {
      assert OffsetMin <= Components3(v)[0] <= OffsetMax;
      assert OffsetMin <= Components3(v)[1] <= OffsetMax;
      assert OffsetMin <= Components3(v)[2] <= OffsetMax;
    }
  }

  /**
   * GetPointsDataText: the empty string for null points; otherwise each
   * point's text (Vector3.ToString, an input here) with "\n" between
   * neighbours and none at the end.
   */
  method PointsText(points: Option<seq<Vec3>>, text: Vec3 -> string) returns (r: string)
    ensures points.None? ==> r == ""
    ensures points.Some? ==> r == Text.Join(Texts(points.value, text), "\n")
  {
    if points.None? {
      return "";
    }
    var ps := points.value;
    var texts := Texts(ps, text);
    r := "";
    var i := 0;
    while i < |ps|
      invariant 0 <= i <= |ps|
      invariant i == 0 ==> r == ""
      invariant 0 < i < |ps| ==> r == Text.Join(texts[..i], "\n") + "\n"
      invariant 0 < i == |ps| ==> r == Text.Join(texts[..i], "\n")
    {
      if i > 0 {
        Text.JoinSnoc(texts[..i], texts[i], "\n");
        assert texts[..i] + [texts[i]] == texts[..i + 1];
      } else {
        assert texts[..1] == [texts[0]];
      }
      r := r + texts[i];
      if i < |ps| - 1 {
        r := r + "\n";
      }
      i := i + 1;
    }
    assert texts[..|ps|] == texts;
  }

  function Texts(ps: seq<Vec3>, text: Vec3 -> string): (r: seq<string>)
    ensures |r| == |ps| && forall i :: 0 <= i < |ps| ==> r[i] == text(ps[i])
  {
    seq(|ps|, i requires 0 <= i < |ps| => text(ps[i]))
  }

  /** When no point's text holds a newline, splitting the dump on "\n" gives back one text per point. */
  lemma PointsTextSplits(ps: seq<Vec3>, text: Vec3 -> string)
    requires |ps| >= 1
    requires forall i :: 0 <= i < |ps| ==> '\n' !in text(ps[i])
    ensures Text.Split(Text.Join(Texts(ps, text), "\n"), '\n') == Texts(ps, text)
  {
    Text.SplitJoin(Texts(ps, text), '\n');
  }
}

=== FILE: hand_occlusion_controller.dfy ===
/**
 * Hand-only occlusion (HandOcclusionController.cs): the dynamic mesh that
 * hides virtual content is clipped just behind the farther hand, or at a
 * far default distance when hand-only occlusion is off.
 */
module HandOcclusionController {
  import opened Wrappers
  import opened Vectors

  const DefaultClippingDistance: real := 1000.0
  const InitialClippingDistance: real := 0.1

  /** ClippingDistance, IsHandOnlyOcclusion and the dynamic mesh's clipping distance. */
  datatype Occlusion = Occlusion(clippingDistance: real, handOnly: bool, meshDistance: real)

  datatype Event = ChangeClippingDistance(distance: real) | ChangeHandOcclusion(on: bool)

  datatype Step = Step(occlusion: Occlusion, events: seq<Event>)

  /** The ClippingDistance setter: stored and announced only on a change; the mesh is not touched. */
  function SetClippingDistance(o: Occlusion, value: real): (r: Step)
    ensures r.occlusion == o.(clippingDistance := value)
    ensures r.events == (if o.clippingDistance != value then [ChangeClippingDistance(value)] else [])
  {
    if o.clippingDistance != value then Step(o.(clippingDistance := value), [ChangeClippingDistance(value)])
    else Step(o, [])
  }

  /** The IsHandOnlyOcclusion setter: on a change the mesh is clipped at ClippingDistance (on) or the default (off). */
  function SetHandOnly(o: Occlusion, value: bool): (r: Step)
    ensures o.handOnly == value ==> r == Step(o, [])
    ensures o.handOnly != value ==>
      && r.occlusion.handOnly == value && r.occlusion.clippingDistance == o.clippingDistance
      && r.occlusion.meshDistance == (if value then o.clippingDistance else DefaultClippingDistance)
      && r.events == [ChangeHandOcclusion(value)]
  {
    if value != o.handOnly then
      Step(o.(handOnly := value, meshDistance := if value then o.clippingDistance else DefaultClippingDistance),
           [ChangeHandOcclusion(value)])
    else Step(o, [])
  }

  /** A hand's distance: the length of its centre point, or -1 without the hand. */
  function HandDistance(center: Option<Vec3>, magnitude: Vec3 -> real): (r: real)
    ensures center.None? ==> r == -1.0
    ensures center.Some? ==> r == magnitude(center.value)
  {
    if center.None? then -1.0 else magnitude(center.value)
  }

  function Max(a: real, b: real): real
  {
    if a >= b then a else b
  }

  /**
   * HandFrameArrived. Off hand-only mode the mesh goes back to the default
   * distance; a frame from another sender stops there. In hand-only mode
   * with a mesh, both distances 0 clip at 0, otherwise the farther hand
   * plus ClippingDistance.
   */
  function FrameArrived(o: Occlusion, fromManager: bool, meshPresent: bool,
                        left: Option<Vec3>, right: Option<Vec3>, magnitude: Vec3 -> real): (r: Occlusion)
    ensures r.clippingDistance == o.clippingDistance && r.handOnly == o.handOnly
    ensures !o.handOnly ==> r.meshDistance == DefaultClippingDistance
    ensures o.handOnly && !(fromManager && meshPresent) ==> r == o
    ensures o.handOnly && fromManager && meshPresent ==>
      var dl := HandDistance(left, magnitude);
      var dr := HandDistance(right, magnitude);
      && (dl == 0.0 && dr == 0.0 ==> r.meshDistance == 0.0)
      && (!(dl == 0.0 && dr == 0.0) ==>
            r.meshDistance >= dl + o.clippingDistance && r.meshDistance >= dr + o.clippingDistance
            && (r.meshDistance == dl + o.clippingDistance || r.meshDistance == dr + o.clippingDistance))
  {
    var reset := if !o.handOnly then o.(meshDistance := DefaultClippingDistance) else o;
    if !fromManager then reset
    else
      var distanceLeft := HandDistance(left, magnitude);
      var distanceRight := HandDistance(right, magnitude);
      if meshPresent && reset.handOnly then
        reset.(meshDistance := if distanceRight == 0.0 && distanceLeft == 0.0 then 0.0
                               else Max(distanceLeft, distanceRight) + reset.clippingDistance)
      else reset
  }

  /** With no hand at all, the mesh is clipped just in front of the camera: ClippingDistance - 1. */
  lemma NoHands(o: Occlusion, magnitude: Vec3 -> real)
    requires o.handOnly
    ensures FrameArrived(o, true, true, None, None, magnitude).meshDistance == o.clippingDistance - 1.0
  {
  }
  /**
   * A new ClippingDistance leaves the mesh where it is and takes effect at
   * the next frame with a hand: the mesh is clipped at the farther hand
   * plus the new distance.
   */
  lemma ClippingTakesEffectNextFrame(o: Occlusion, d: real, left: Option<Vec3>, right: Option<Vec3>,
                                     magnitude: Vec3 -> real)
    requires o.handOnly
    ensures SetClippingDistance(o, d).occlusion.meshDistance == o.meshDistance
    ensures var dl := HandDistance(left, magnitude);
      var dr := HandDistance(right, magnitude);
      !(dl == 0.0 && dr == 0.0) ==>
        FrameArrived(SetClippingDistance(o, d).occlusion, true, true, left, right, magnitude).meshDistance
          == Max(dl, dr) + d
  {
  }

  /** Once hand-only occlusion is off, every later frame keeps the mesh at the default distance. */
  lemma OffStaysDefault(o: Occlusion, fromManager: bool, meshPresent: bool, left: Option<Vec3>, right: Option<Vec3>,
                        magnitude: Vec3 -> real)
    ensures var off := SetHandOnly(o, false).occlusion;
      && off.meshDistance == (if o.handOnly then DefaultClippingDistance else o.meshDistance)
      && FrameArrived(off, fromManager, meshPresent, left, right, magnitude).meshDistance == DefaultClippingDistance
  {
  }
}

=== FILE: hand_recorder.dfy ===
/** Records one CSV row per hand frame (HandRecorder.cs). */
module HandRecorder {
  import opened Wrappers
  import opened RecordTypes
  import opened Vectors
  import Text

  const Kind := DataType.Hand
  /** The header names 21 joints. */
  const HeaderJoints := 21

  /**
   * What the hand manager delivers: nothing, a NoHand status, or the feature
   * points and pose ids of both hands.
   */
  datatype HandFrame = HandFrame(noHand: bool, leftPoints: seq<Vec3>, rightPoints: seq<Vec3>, leftPose: int, rightPose: int)

  /** How many indices below n are not ignored. */
  function Kept(n: nat, ignored: set<int>): nat
  {
    if n == 0 then 0 else Kept(n - 1, ignored) + if n - 1 in ignored then 0 else 1
  }

  /**
   * The x, y, z fields of every point whose index is not ignored, in index
   * order. `ignored` holds the HandPointIndex values of WristPinkySide,
   * WristThumbSide, HandCenter and ArmCenter.
   */
  function PointFields(points: seq<Vec3>, ignored: set<int>, fmt: real -> string): (fs: seq<string>)
    ensures |fs| == 3 * Kept(|points|, ignored)
  {
    if |points| == 0 then []
    else
      var i := |points| - 1;
      PointFields(points[..i], ignored, fmt)
        + if i in ignored then [] else [fmt(points[i].x), fmt(points[i].y), fmt(points[i].z)]
  }

  /** The row: every kept coordinate followed by a comma, then the pose id. */
  function Row(points: seq<Vec3>, pose: int, ignored: set<int>, fmt: real -> string): string
  {
    Text.Terminated(PointFields(points, ignored, fmt), ",") + Text.IntToString(pose)
  }

  /**
   * OnFrameArrived: the row of the configured hand, or None when the frame is
   * ignored (no data or no hand).
   */
  function OnFrameArrived(frame: Option<HandFrame>, handType: HandType, ignored: set<int>, fmt: real -> string)
    : (r: Option<string>)
    ensures r.Some? <==> frame.Some? && !frame.value.noHand
  {
    if frame.None? || frame.value.noHand then None
    else
      var f := frame.value;
      if handType == Left then Some(Row(f.leftPoints, f.leftPose, ignored, fmt))
      else Some(Row(f.rightPoints, f.rightPose, ignored, fmt))
  }

  /** The header column for one axis of joint i, as string.Format(",Joint{0}_X", i) writes it after the comma. */
  function JointColumn(i: nat, axis: string): string
  {
    "Joint" + Text.NatToString(i) + "_" + axis
  }

  /** The header after the joint loop has run n times. */
  function HeaderLoop(n: nat): string
  {
    if n == 0 then "Timestamp"
    else HeaderLoop(n - 1) + "," + JointColumn(n - 1, "X") + "," + JointColumn(n - 1, "Y") + "," + JointColumn(n - 1, "Z")
  }

  /** The column names after the joint loop has run n times. */
  function HeaderColumns(n: nat): (cs: seq<string>)
    ensures |cs| == 3 * n + 1
  {
    if n == 0 then ["Timestamp"]
    else HeaderColumns(n - 1) + [JointColumn(n - 1, "X"), JointColumn(n - 1, "Y"), JointColumn(n - 1, "Z")]
  }

  /** CreateHeader with n joints; the recorder uses 21. */
  function HeaderWith(n: nat): string
  {
    HeaderLoop(n) + ",PoseID"
  }

  function CreateHeader(): string
  {
    HeaderWith(HeaderJoints)
  }

  lemma {:induction false} HeaderLoopJoin(n: nat)
    ensures HeaderLoop(n) == Text.Join(HeaderColumns(n), ",")
  {
    if n > 0 {
      HeaderLoopJoin(n - 1);
      var cs := HeaderColumns(n - 1);
      var x, y, z := JointColumn(n - 1, "X"), JointColumn(n - 1, "Y"), JointColumn(n - 1, "Z");
      Text.JoinSnoc(cs, x, ",");
      Text.JoinSnoc(cs + [x], y, ",");
      Text.JoinSnoc(cs + [x, y], z, ",");
      assert cs + [x] + [y] == cs + [x, y];
      assert cs + [x, y] + [z] == HeaderColumns(n);
    }
  }

  lemma {:induction false} HeaderColumnsFree(n: nat)
    ensures Text.Free(HeaderColumns(n), ',')
  {
    if n > 0 {
      HeaderColumnsFree(n - 1);
      var i := n - 1;
      assert ',' !in "Joint" + Text.NatToString(i) + "_";
    }
  }

  lemma HeaderWithJoin(n: nat)
    ensures HeaderWith(n) == Text.Join(HeaderColumns(n) + ["PoseID"], ",")
  {
    HeaderLoopJoin(n);
    Text.JoinSnoc(HeaderColumns(n), "PoseID", ",");
    assert ",PoseID" == "," + "PoseID";
  }

  lemma HeaderWithFree(n: nat)
    ensures Text.Free(HeaderColumns(n) + ["PoseID"], ',')
  {
    HeaderColumnsFree(n);
    var cs := HeaderColumns(n) + ["PoseID"];
    assert cs[|cs| - 1] == "PoseID";
  }

  /** With n joints the header splits into the timestamp, X, Y and Z of each joint, and the pose id. */
  lemma HeaderWithColumns(n: nat)
    ensures Text.Split(HeaderWith(n), ',') == HeaderColumns(n) + ["PoseID"]
    ensures |Text.Split(HeaderWith(n), ',')| == 3 * n + 2
  {
    var cs := HeaderColumns(n) + ["PoseID"];
    HeaderWithJoin(n);
    HeaderWithFree(n);
    Text.SplitJoin(cs, ',');
  }

  /** The recorder's header has 65 columns. */
  lemma HeaderColumnCount()
    ensures |Text.Split(CreateHeader(), ',')| == 65
  {
    HeaderWithColumns(HeaderJoints);
  }

  /** Column 1 + 3i of the header is the X column of joint i, and so on for Y and Z. */
  lemma {:induction false} HeaderColumnName(n: nat, i: nat)
    requires i < n
    ensures HeaderColumns(n)[1 + 3 * i] == JointColumn(i, "X")
    ensures HeaderColumns(n)[2 + 3 * i] == JointColumn(i, "Y")
    ensures HeaderColumns(n)[3 + 3 * i] == JointColumn(i, "Z")
  {
    if i + 1 < n {
      HeaderColumnName(n - 1, i);
    }
  }

  /**
   * With a number format that writes no comma, the row splits into the kept
   * coordinates followed by the pose id: 3 fields per kept point plus one.
   */
  lemma RowFields(points: seq<Vec3>, pose: int, ignored: set<int>, fmt: real -> string)
    requires forall v :: ',' !in fmt(v)
    ensures Text.Split(Row(points, pose, ignored, fmt), ',') == PointFields(points, ignored, fmt) + [Text.IntToString(pose)]
    ensures |Text.Split(Row(points, pose, ignored, fmt), ',')| == 3 * Kept(|points|, ignored) + 1
  {
    var fs := PointFields(points, ignored, fmt) + [Text.IntToString(pose)];
    Text.TerminatedJoin(PointFields(points, ignored, fmt), Text.IntToString(pose), ",");
    FieldsFree(points, ignored, fmt);
    Text.SplitJoin(fs, ',');
  }

  lemma {:induction false} FieldsFree(points: seq<Vec3>, ignored: set<int>, fmt: real -> string)
    requires forall v :: ',' !in fmt(v)
    ensures Text.Free(PointFields(points, ignored, fmt), ',')
  {
    if |points| > 0 {
      FieldsFree(points[..|points| - 1], ignored, fmt);
    }
  }

  /**
   * A saved line (timestamp, then the row) has as many columns as the header
   * exactly when 21 points are kept.
   */
  lemma RowMatchesHeader(points: seq<Vec3>, pose: int, ignored: set<int>, fmt: real -> string)
    requires forall v :: ',' !in fmt(v)
    ensures 1 + |Text.Split(Row(points, pose, ignored, fmt), ',')| == |Text.Split(CreateHeader(), ',')|
      <==> Kept(|points|, ignored) == HeaderJoints
  {
    RowFields(points, pose, ignored, fmt);
    HeaderColumnCount();
  }
}

=== FILE: human_point_cloud.dfy ===
/**
 * The segmented point cloud (HumanPointCloud.cs). Each frame the depth
 * points are filtered, by the human segmentation mask or by whether they
 * fall inside the colour image, together with their texture coordinates;
 * the mesh's index buffer only ever grows, and a frame with fewer points
 * than the last is padded with zeros.
 */
module HumanPointCloud {
  import opened Wrappers
  import Arith
  import opened Vectors
  import RawBytes

  type byte = RawBytes.byte

  /** The colour pixel a depth pixel maps to (ColorPointProperty). */
  datatype ColorPoint = ColorPoint(x: int, y: int)

  /**
   * A texture coordinate: a colour pixel divided by the colour image size,
   * kept exact as the pixel and the size, or the zero used for padding.
   */
  datatype Uv = UvOf(point: ColorPoint, colorWidth: int, colorHeight: int) | UvZero

  /** The default segmentation threshold. */
  const DefaultThreshold: byte := 128

  /** The point lies inside a colour image of the given size. */
  predicate InColor(p: ColorPoint, colorWidth: int, colorHeight: int)
  {
    p.x >= 0 && p.y >= 0 && p.x < colorWidth && p.y < colorHeight
  }

  /**
   * The mask test: the mask index of the colour point (its computation
   * from the segmentation and colour aspect ratios is an input) is inside
   * the mask and its byte reaches the threshold.
   */
  predicate InMask(p: ColorPoint, mask: seq<byte>, threshold: byte, maskIndex: ColorPoint -> int)
  {
    0 <= maskIndex(p) < |mask| && mask[maskIndex(p)] >= threshold
  }

  function Min(a: int, b: int): int
  {
    if a <= b then a else b
  }

  /**
   * The points and texture coordinates kept among depth indices 0 .. n-1:
   * an index past the point cloud is skipped, and a kept index contributes
   * its point and its colour pixel's coordinate.
   */
  function Kept(cloud: seq<Vec3>, points: seq<ColorPoint>, n: nat, keep: ColorPoint -> bool,
                colorWidth: int, colorHeight: int): (r: (seq<Vec3>, seq<Uv>))
    requires Min(n, |cloud|) <= |points|
    ensures |r.0| == |r.1| <= n
    decreases n
  {
    if n == 0 then ([], [])
    else
      var prev := Kept(cloud, points, n - 1, keep, colorWidth, colorHeight);
      var k := n - 1;
      if k < |cloud| && keep(points[k]) then
        (prev.0 + [cloud[k]], prev.1 + [UvOf(points[k], colorWidth, colorHeight)])
      else prev
  }

  /** A kept entry is a point of the cloud whose colour pixel passes the test, with that pixel's coordinate. */
  lemma {:induction false} KeptSound(cloud: seq<Vec3>, points: seq<ColorPoint>, n: nat, keep: ColorPoint -> bool,
                                     colorWidth: int, colorHeight: int, j: nat)
    requires Min(n, |cloud|) <= |points|
    requires j < |Kept(cloud, points, n, keep, colorWidth, colorHeight).0|
    ensures var r := Kept(cloud, points, n, keep, colorWidth, colorHeight);
      exists k :: 0 <= k < n && k < |cloud| && keep(points[k])
        && r.0[j] == cloud[k] && r.1[j] == UvOf(points[k], colorWidth, colorHeight)
    decreases n
  {
    var prev := Kept(cloud, points, n - 1, keep, colorWidth, colorHeight);
    if j < |prev.0| {
      KeptSound(cloud, points, n - 1, keep, colorWidth, colorHeight, j);
    }
  }

  /** With a test that passes everything and n covering the cloud, every point is kept, in order. */
  lemma {:induction false} KeptAll(cloud: seq<Vec3>, points: seq<ColorPoint>, n: nat, keep: ColorPoint -> bool,
                                   colorWidth: int, colorHeight: int)
    requires n <= |cloud| <= |points|
    requires forall k :: 0 <= k < n ==> keep(points[k])
    ensures Kept(cloud, points, n, keep, colorWidth, colorHeight).0 == cloud[..n]
    decreases n
  {
    if n > 0 {
      KeptAll(cloud, points, n - 1, keep, colorWidth, colorHeight);
      assert cloud[..n - 1] + [cloud[n - 1]] == cloud[..n];
    }
  }

  /**
   * The row-by-row filter loop over a depth frame of width w and height h.
   * Reading the colour pixel of an index past the colour points throws:
   * the loop then stops with what it has kept so far (the lists are
   * fields, so the partial result stays).
   */
  method Filter(cloud: seq<Vec3>, points: seq<ColorPoint>, w: nat, h: nat, keep: ColorPoint -> bool,
                colorWidth: int, colorHeight: int)
    returns (ok: bool, kept: seq<Vec3>, uvs: seq<Uv>, visited: nat)
    ensures ok <==> Min(w * h, |cloud|) <= |points|
    ensures visited <= w * h && (ok ==> visited == w * h)
    ensures !ok ==> visited == |points| < |cloud|
    ensures Min(visited, |cloud|) <= |points|
    ensures (kept, uvs) == Kept(cloud, points, visited, keep, colorWidth, colorHeight)
  {
    kept, uvs := [], [];
    var c := 0;
    var y := 0;
    while y < h
      invariant 0 <= y <= h && c == y * w && c <= w * h
      invariant Min(c, |cloud|) <= |points|
      invariant (kept, uvs) == Kept(cloud, points, c, keep, colorWidth, colorHeight)
    {
      Arith.RowStep(w, h, y);
      ok, kept, uvs, c := FilterRow(cloud, points, c, w, keep, colorWidth, colorHeight, kept, uvs);
      if !ok {
        return false, kept, uvs, c;
      }
      y := y + 1;
    }
    return true, kept, uvs, c;
  }

  /** One row of the filter loop: depth indices start .. start + w - 1. */
  method FilterRow(cloud: seq<Vec3>, points: seq<ColorPoint>, start: nat, w: nat, keep: ColorPoint -> bool,
                   colorWidth: int, colorHeight: int, kept0: seq<Vec3>, uvs0: seq<Uv>)
    returns (ok: bool, kept: seq<Vec3>, uvs: seq<Uv>, c: nat)
    requires Min(start, |cloud|) <= |points|
    requires (kept0, uvs0) == Kept(cloud, points, start, keep, colorWidth, colorHeight)
    ensures start <= c <= start + w && (ok <==> c == start + w)
    ensures !ok ==> |points| <= c < |cloud|
    ensures Min(c, |cloud|) <= |points|
    ensures (kept, uvs) == Kept(cloud, points, c, keep, colorWidth, colorHeight)
  {
    kept, uvs := kept0, uvs0;
    c := start;
    while c < start + w
      invariant start <= c <= start + w
      invariant Min(c, |cloud|) <= |points|
      invariant (kept, uvs) == Kept(cloud, points, c, keep, colorWidth, colorHeight)
    {
      if c < |cloud| {
        if c >= |points| {
          return false, kept, uvs, c;
        }
        if keep(points[c]) {
          kept := kept + [cloud[c]];
          uvs := uvs + [UvOf(points[c], colorWidth, colorHeight)];
        }
      }
      c := c + 1;
    }
    ok := true;
  }

  /** The mesh bookkeeping kept across frames. */
  datatype Cloud = Cloud(humanPoints: seq<Vec3>, uvPoints: seq<Uv>, indices: seq<int>, latestPointNum: nat)

  const InitialCloud := Cloud([], [], [], 0)

  /** The index buffer is 0, 1, .., latestPointNum - 1. */
  predicate Indexed(s: Cloud)
  {
    |s.indices| == s.latestPointNum && forall i :: 0 <= i < |s.indices| ==> s.indices[i] == i
  }

  /**
   * After filtering: more points than before extend the index buffer
   * (Array.Resize, then indices[i] = i for the new slots); fewer points
   * are padded with zero points and zero coordinates up to the previous
   * count; the count becomes the number of points.
   */
  function Reindex(s: Cloud, points: seq<Vec3>, uvs: seq<Uv>): (r: Cloud)
    ensures |points| > s.latestPointNum ==> r.humanPoints == points && r.uvPoints == uvs
    ensures |points| > s.latestPointNum ==>
      && |r.indices| == |points|
      && forall i :: s.latestPointNum <= i < |points| ==> r.indices[i] == i
    ensures |points| > s.latestPointNum ==> forall i :: 0 <= i < s.latestPointNum && i < |s.indices| ==> r.indices[i] == s.indices[i]
    ensures |points| <= s.latestPointNum ==> r.indices == s.indices
    ensures |points| <= s.latestPointNum ==>
      && r.humanPoints == points + seq(s.latestPointNum - |points|, _ => Zero3)
      && r.uvPoints == uvs + seq(s.latestPointNum - |points|, _ => UvZero)
    ensures r.latestPointNum == |r.humanPoints|
  {
    var latest := s.latestPointNum;
    var indices :=
      if |points| > latest then
        seq(|points|, i requires 0 <= i < |points| =>
          if i >= latest then i else if i < |s.indices| then s.indices[i] else 0)
      else s.indices;
    var pad := if |points| < latest then latest - |points| else 0;
    var humanPoints := points + seq(pad, _ => Zero3);
    Cloud(humanPoints, uvs + seq(pad, _ => UvZero), indices, |humanPoints|)
  }

  /**
   * The index buffer stays 0 .. n-1 with n the vertex count: the count
   * never decreases, and every index names a vertex of the mesh.
   */
  lemma ReindexKeepsIndexed(s: Cloud, points: seq<Vec3>, uvs: seq<Uv>)
    requires Indexed(s)
    ensures var r := Reindex(s, points, uvs);
      && Indexed(r) && r.latestPointNum >= s.latestPointNum
      && r.latestPointNum == |r.humanPoints|
      && r.latestPointNum == (if |points| > s.latestPointNum then |points| else s.latestPointNum)
  {
  }

  /** The frame's inputs: flags, sizes, and what the SDK delivered. */
  datatype Inputs = Inputs(
    segmentHuman: bool, colorDisplay: bool, threshold: byte,
    depthWidth: nat, depthHeight: nat, colorWidth: int, colorHeight: int,
    pointCloud: Option<seq<Vec3>>, mask: Option<seq<byte>>, maskIndex: ColorPoint -> int)

  /** What the mesh receives in a frame. */
  datatype Mesh = Mesh(vertices: seq<Vec3>, indices: seq<int>, uvs: Option<seq<Uv>>)

  /** What one Update does. */
  datatype Outcome =
    | Skipped                                  // no stream configuration yet
    | Hidden                                   // a stream is not running: the renderer is switched off
    | Waiting                                  // shown, but no new frame
    | NoMapping                                // shown, the SDK gave no depth-to-colour mapping
    | Threw(partial: Cloud)                    // shown, a colour point was missing
    | Drawn(cloud: Cloud, mesh: Mesh)          // shown and updated

  /**
   * Update for one frame with new data (`updated`): the colour mapping is
   * fetched when segmenting or showing colour; the points are filtered by
   * the mask, by the colour image, or all kept; then reindexed.
   */
  method Update(s: Cloud, configured: bool, streaming: bool, updated: bool, mapping: Option<seq<ColorPoint>>,
                inp: Inputs)
    returns (o: Outcome)
    ensures !configured ==> o == Skipped
    ensures configured && !streaming ==> o == Hidden
    ensures configured && streaming && !updated ==> o == Waiting
    ensures configured && streaming && updated && (inp.segmentHuman || inp.colorDisplay) && mapping.None? ==>
      o == NoMapping
    ensures o.Drawn? ==> Indexed(s) ==> Indexed(o.cloud)
    ensures o.Drawn? ==> o.cloud.latestPointNum >= s.latestPointNum
    ensures o.Drawn? ==> o.mesh == Mesh(o.cloud.humanPoints, o.cloud.indices,
                                        if inp.colorDisplay then Some(o.cloud.uvPoints) else None)
    ensures o.Drawn? ==> o.cloud.latestPointNum == |o.cloud.humanPoints|
    ensures o.Drawn? && inp.pointCloud.Some? && !(inp.segmentHuman && inp.mask.Some?) && !inp.colorDisplay ==>
      o.cloud == Reindex(s, inp.pointCloud.value, [])
    ensures o.Drawn? && inp.pointCloud.Some? && ((inp.segmentHuman && inp.mask.Some?) || inp.colorDisplay) ==>
      mapping.Some? && Min(inp.depthWidth * inp.depthHeight, |inp.pointCloud.value|) <= |mapping.value|
    ensures o.Drawn? && inp.pointCloud.Some? && inp.segmentHuman && inp.mask.Some? ==>
      var r := Kept(inp.pointCloud.value, mapping.value, inp.depthWidth * inp.depthHeight,
                    p => InMask(p, inp.mask.value, inp.threshold, inp.maskIndex), inp.colorWidth, inp.colorHeight);
      o.cloud == Reindex(s, r.0, r.1)
    ensures o.Drawn? && inp.pointCloud.Some? && !(inp.segmentHuman && inp.mask.Some?) && inp.colorDisplay ==>
      var r := Kept(inp.pointCloud.value, mapping.value, inp.depthWidth * inp.depthHeight,
                    p => InColor(p, inp.colorWidth, inp.colorHeight), inp.colorWidth, inp.colorHeight);
      o.cloud == Reindex(s, r.0, r.1)
    ensures o.Drawn? && inp.pointCloud.None? ==> o.cloud == Reindex(s, s.humanPoints, [])
    ensures o.Threw? ==>
      && inp.pointCloud.Some? && mapping.Some?
      && Min(inp.depthWidth * inp.depthHeight, |inp.pointCloud.value|) > |mapping.value|
    ensures configured && streaming && updated && !((inp.segmentHuman || inp.colorDisplay) && mapping.None?) ==>
      o.Drawn? || o.Threw?
    ensures configured && streaming && updated && inp.pointCloud.Some? && mapping.Some?
            && ((inp.segmentHuman && inp.mask.Some?) || inp.colorDisplay)
            && Min(inp.depthWidth * inp.depthHeight, |inp.pointCloud.value|) > |mapping.value| ==>
      o.Threw?
    ensures o.Threw? && inp.segmentHuman && inp.mask.Some? ==>
      var r := Kept(inp.pointCloud.value, mapping.value, |mapping.value|,
                    p => InMask(p, inp.mask.value, inp.threshold, inp.maskIndex), inp.colorWidth, inp.colorHeight);
      o.partial == s.(humanPoints := r.0, uvPoints := r.1)
    ensures o.Threw? && !(inp.segmentHuman && inp.mask.Some?) ==>
      var r := Kept(inp.pointCloud.value, mapping.value, |mapping.value|,
                    p => InColor(p, inp.colorWidth, inp.colorHeight), inp.colorWidth, inp.colorHeight);
      o.partial == s.(humanPoints := r.0, uvPoints := r.1)
  {
    if !configured {
      return Skipped;
    }
    if !streaming {
      return Hidden;
    }
    if !updated {
      return Waiting;
    }
    if (inp.segmentHuman || inp.colorDisplay) && mapping.None? {
      return NoMapping;
    }
    var points := s.humanPoints;
    var uvs: seq<Uv> := [];
    if inp.pointCloud.Some? {
      var cloud := inp.pointCloud.value;
      if inp.segmentHuman && inp.mask.Some? {
        var mask := inp.mask.value;
        var ok, kept, keptUvs, _ := Filter(cloud, mapping.value, inp.depthWidth, inp.depthHeight,
                                           p => InMask(p, mask, inp.threshold, inp.maskIndex),
                                           inp.colorWidth, inp.colorHeight);
        if !ok {
          return Threw(s.(humanPoints := kept, uvPoints := keptUvs));
        }
        points, uvs := kept, keptUvs;
      } else if inp.colorDisplay {
        var ok, kept, keptUvs, _ := Filter(cloud, mapping.value, inp.depthWidth, inp.depthHeight,
                                           p => InColor(p, inp.colorWidth, inp.colorHeight),
                                           inp.colorWidth, inp.colorHeight);
        if !ok {
          return Threw(s.(humanPoints := kept, uvPoints := keptUvs));
        }
        points, uvs := kept, keptUvs;
      } else {
        points := cloud;
      }
    }
    var r := Reindex(s, points, uvs);
    if Indexed(s) {
      ReindexKeepsIndexed(s, points, uvs);
    }
    return Drawn(r, Mesh(r.humanPoints, r.indices, if inp.colorDisplay then Some(r.uvPoints) else None));
  }
}

=== FILE: image_view_adjuster.dfy ===
/**
 * The split-screen layout of the colour and depth views
 * (ImageViewAdjuster.cs). The view area holds a row (portrait) or column
 * (landscape) of grids; a grid with no active view is skipped, the others
 * share the area equally, and inside a grid the active views share its
 * other dimension equally.
 */
module ImageViewAdjuster {
  import opened Wrappers
  import opened Vectors
  import Text

  /** A view under a grid: its object name and whether it is active. */
  datatype View = View(name: string, active: bool)

  type Grid = seq<View>

  /** A grid's placement: anchored position, size, and the size of each cell. */
  datatype Placement = Placement(position: Vec2, size: Vec2, cellSize: Vec2)

  /** The number of active views in a grid. */
  function ActiveCount(g: Grid): (r: nat)
    ensures r <= |g|
    ensures r == 0 <==> forall j :: 0 <= j < |g| ==> !g[j].active
  {
    if |g| == 0 then 0 else ActiveCount(g[..|g| - 1]) + (if g[|g| - 1].active then 1 else 0)
  }

  /** The number of grids with at least one active view. */
  function Shown(counts: seq<nat>): (r: nat)
    ensures r <= |counts|
    ensures r == 0 <==> forall i :: 0 <= i < |counts| ==> counts[i] == 0
  {
    if |counts| == 0 then 0 else Shown(counts[..|counts| - 1]) + (if counts[|counts| - 1] > 0 then 1 else 0)
  }

  /**
   * CountSplit: per grid the number of active views; the grid count less
   * the grids that have none.
   */
  method CountSplit(grids: seq<Grid>) returns (parent: int, counts: seq<nat>)
    ensures |counts| == |grids| && forall i :: 0 <= i < |grids| ==> counts[i] == ActiveCount(grids[i])
    ensures parent == Shown(counts)
  {
    parent := |grids|;
    counts := [];
    var i := 0;
    while i < |grids|
      invariant 0 <= i <= |grids| && |counts| == i
      invariant forall k :: 0 <= k < i ==> counts[k] == ActiveCount(grids[k])
      invariant parent == |grids| - i + Shown(counts)
    {
      var activeCount := 0;
      var j := 0;
      while j < |grids[i]|
        invariant 0 <= j <= |grids[i]| && activeCount == ActiveCount(grids[i][..j])
      {
        assert grids[i][..j + 1][..j] == grids[i][..j];
        if grids[i][j].active {
          activeCount := activeCount + 1;
        }
        j := j + 1;
      }
      assert grids[i][..j] == grids[i];
      assert (counts + [activeCount])[..i] == counts;
      counts := counts + [activeCount];
      if activeCount <= 0 {
        parent := parent - 1;
      }
      i := i + 1;
    }
  }

  /** A grid before position i with active views is shown before it: the shown count only grows. */
  lemma {:induction false} ShownMonotone(counts: seq<nat>, i: nat, j: nat)
    requires i <= j <= |counts|
    ensures Shown(counts[..i]) <= Shown(counts[..j])
    ensures i < j && counts[i] > 0 ==> Shown(counts[..i]) < Shown(counts[..j])
    decreases j - i
  {
    if i < j {
      ShownMonotone(counts, i, j - 1);
      assert counts[..j][..j - 1] == counts[..j - 1];
      if i == j - 1 {
        assert counts[..j][j - 1] == counts[i];
      }
    }
  }

  /**
   * Adjust. Nothing is placed when no grid is shown. Otherwise the area
   * less the toolbar is split into `parent` equal parts along the screen's
   * long side; a shown grid takes the part numbered by the shown grids
   * before it, and its cells split the grid's other side by its active
   * views. Empty grids are left where they were (None).
   */
  method Adjust(counts: seq<nat>, parent: int, area: Vec2, portrait: bool, barWidth: real)
    returns (r: Option<seq<Option<Placement>>>)
    ensures r.None? <==> parent <= 0
    ensures r.Some? ==>
      var view := ViewSize(area, portrait, barWidth, parent);
      && |r.value| == |counts|
      && forall i :: 0 <= i < |counts| ==> PlacedAt(r.value, counts, view, portrait, i)
  {
    if parent <= 0 {
      return None;
    }
    var view := ViewSize(area, portrait, barWidth, parent);
    var placed: seq<Option<Placement>> := [];
    var skipCount := 0;
    var i := 0;
    while i < |counts|
      invariant 0 <= i <= |counts| && |placed| == i
      invariant skipCount == i - Shown(counts[..i])
      invariant forall k :: 0 <= k < i ==> PlacedAt(placed, counts, view, portrait, k)
    {
      assert counts[..i + 1][..i] == counts[..i];
      var next := if counts[i] <= 0 then None else Some(Place(view, portrait, counts[i], i - skipCount));
      PlaceStep(placed, next, counts, view, portrait, i);
      if counts[i] <= 0 {
        skipCount := skipCount + 1;
      }
      placed := placed + [next];
      i := i + 1;
    }
    return Some(placed);
  }

  /** Grid k is left alone when empty, else placed at the slot numbered by the shown grids before it. */
  predicate PlacedAt(placed: seq<Option<Placement>>, counts: seq<nat>, view: Vec2, portrait: bool, k: int)
  {
    0 <= k < |placed| && k < |counts|
    && (counts[k] == 0 ==> placed[k].None?)
    && (counts[k] > 0 ==> placed[k] == Some(Place(view, portrait, counts[k], Shown(counts[..k]))))
  }

  lemma PlaceStep(placed: seq<Option<Placement>>, next: Option<Placement>, counts: seq<nat>, view: Vec2,
                  portrait: bool, i: nat)
    requires i == |placed| < |counts|
    requires counts[i] == 0 ==> next.None?
    requires counts[i] > 0 ==> next == Some(Place(view, portrait, counts[i], Shown(counts[..i])))
    requires forall k :: 0 <= k < i ==> PlacedAt(placed, counts, view, portrait, k)
    ensures forall k :: 0 <= k <= i ==> PlacedAt(placed + [next], counts, view, portrait, k)
  {
    forall k | 0 <= k <= i
      ensures PlacedAt(placed + [next], counts, view, portrait, k)
    {
      if k < i {
        assert PlacedAt(placed, counts, view, portrait, k);
      }
    }
  }

  /** The size of one part: the area less the toolbar, divided by the shown grids along the long side. */
  function ViewSize(area: Vec2, portrait: bool, barWidth: real, parent: int): (r: Vec2)
    requires parent > 0
    ensures portrait ==> r.x * parent as real == area.x && r.y == area.y - barWidth
    ensures !portrait ==> r.y * parent as real == area.y && r.x == area.x - barWidth
  {
    if portrait then Vec2(area.x / parent as real, area.y - barWidth)
    else Vec2(area.x - barWidth, area.y / parent as real)
  }

  /** A shown grid's placement at a slot: parts are laid left to right (portrait) or top to bottom. */
  function Place(view: Vec2, portrait: bool, count: nat, slot: int): (r: Placement)
    requires count > 0
    ensures r.size == view
    ensures portrait ==>
      && r.cellSize.x == view.x && r.cellSize.y * count as real == view.y
      && r.position == Vec2(view.x * slot as real, 0.0)
    ensures !portrait ==>
      && r.cellSize.y == view.y && r.cellSize.x * count as real == view.x
      && r.position == Vec2(0.0, -view.y * slot as real)
  {
    if portrait then Placement(Vec2(view.x * slot as real, 0.0), view, Vec2(view.x, view.y / count as real))
    else Placement(Vec2(0.0, -view.y * slot as real), view, Vec2(view.x / count as real, view.y))
  }

  /**
   * The shown grids take the slots 0 .. parent - 1, each exactly once and
   * in grid order: no two shown grids overlap and no part is left empty.
   */
  lemma SlotsTile(counts: seq<nat>, i: nat, j: nat)
    requires i < j < |counts| && counts[i] > 0 && counts[j] > 0
    ensures Shown(counts[..i]) < Shown(counts[..j]) < Shown(counts)
  {
    ShownMonotone(counts, i, j);
    ShownMonotone(counts, j, |counts|);
    assert counts[..|counts|] == counts;
  }

  /** Every slot below the shown count is taken by some shown grid. */
  lemma {:induction false} SlotsCovered(counts: seq<nat>, slot: nat)
    requires slot < Shown(counts)
    ensures exists i :: 0 <= i < |counts| && counts[i] > 0 && Shown(counts[..i]) == slot
    decreases |counts|
  {
    var n := |counts| - 1;
    var prefix := counts[..n];
    if slot < Shown(prefix) {
      SlotsCovered(prefix, slot);
      var i :| 0 <= i < |prefix| && prefix[i] > 0 && Shown(prefix[..i]) == slot;
      assert prefix[..i] == counts[..i];
    } else {
      assert counts[n] > 0 && Shown(counts[..n]) == slot;
    }
  }

  /** View k of grid i is the one ShowView finds: its name contains the given one. */
  predicate Matches(grids: seq<Grid>, name: string, i: int, k: int)
  {
    0 <= i < |grids| && 0 <= k < |grids[i]| && Text.Contains(grids[i][k].name, name)
  }

  /** (i, k) comes before (i2, k2) in the search order: grid by grid, then child by child. */
  predicate Before(i: int, k: int, i2: int, k2: int)
  {
    i < i2 || (i == i2 && k < k2)
  }

  /**
   * The search in ShowView: grids in order and each grid's children in
   * order, stopping at the first view whose name contains the given name.
   */
  method FindView(grids: seq<Grid>, name: string) returns (r: Option<(nat, nat)>)
    ensures r.Some? ==> FirstMatch(grids, name, r.value.0, r.value.1)
    ensures r.None? ==> forall i, k :: !Matches(grids, name, i, k)
  {
    var i := 0;
    while i < |grids|
      invariant 0 <= i <= |grids|
      invariant forall i2, k :: i2 < i ==> !Matches(grids, name, i2, k)
    {
      var k := 0;
      while k < |grids[i]|
        invariant 0 <= k <= |grids[i]|
        invariant forall k2 :: k2 < k ==> !Matches(grids, name, i, k2)
      {
        if Text.Contains(grids[i][k].name, name) {
          return Some((i, k));
        }
        k := k + 1;
      }
      i := i + 1;
    }
    return None;
  }

  /** (i, k) is the first match in the search order. */
  ghost predicate FirstMatch(grids: seq<Grid>, name: string, i: int, k: int)
  {
    Matches(grids, name, i, k) && forall i2, k2 :: Before(i2, k2, i, k) ==> !Matches(grids, name, i2, k2)
  }

  /**
   * ShowView: the first view whose name contains the name is switched on or
   * off, no other view changes, and the layout is counted and adjusted.
   */
  method ShowView(grids: seq<Grid>, name: string, onOff: bool, area: Vec2, portrait: bool, barWidth: real)
    returns (found: Option<(nat, nat)>, after: seq<Grid>, counts: seq<nat>, placed: Option<seq<Option<Placement>>>)
    ensures found.None? ==> after == grids && forall i, k :: !Matches(grids, name, i, k)
    ensures found.Some? ==>
      var (i, k) := found.value;
      && FirstMatch(grids, name, i, k)
      && after == grids[i := grids[i][k := View(grids[i][k].name, onOff)]]
    ensures |counts| == |after| && forall i :: 0 <= i < |after| ==> counts[i] == ActiveCount(after[i])
    ensures placed.None? <==> Shown(counts) == 0
    ensures placed.Some? ==>
      && |placed.value| == |counts|
      && forall i :: 0 <= i < |counts| ==>
           PlacedAt(placed.value, counts, ViewSize(area, portrait, barWidth, Shown(counts)), portrait, i)
  {
    found := FindView(grids, name);
    after := grids;
    if found.Some? {
      var (i, k) := found.value;
      if grids[i][k].active != onOff {
        after := grids[i := grids[i][k := View(grids[i][k].name, onOff)]];
      } else {
        assert grids[i][k] == View(grids[i][k].name, onOff);
        assert grids[i][k := View(grids[i][k].name, onOff)] == grids[i];
      }
    }
    var parent;
    parent, counts := CountSplit(after);
    placed := Adjust(counts, parent, area, portrait, barWidth);
  }
}

=== FILE: image_view_controller.dfy ===
/**
 * The view-mode and picture-in-picture state of an image view
 * (ImageViewController.cs). Each view has a mode and an anchor; the number
 * of views shown picture-in-picture at each anchor is kept in counters
 * shared by all views. Setters are transition functions that return the
 * new view, the new shared counters and the events raised, in order.
 */
module ImageViewController {
  import opened Wrappers

  datatype Mode = FullScreen | PictureInPicture | Hide

  datatype Anchor = LeftTop | LeftBottom | RightTop | RightBottom | Center

  /** Enum.GetValues(typeof(Anchor)), in declaration order. */
  const AnchorList: seq<Anchor> := [LeftTop, LeftBottom, RightTop, RightBottom, Center]

  /** OnChangeMode, OnChangeAnchor and the shared OnUpdateView. */
  datatype Event = ChangeMode(index: int) | ChangeAnchor(index: int) | UpdateView

  /** minimizedViewPerAnchor: how many views are shown picture-in-picture at each anchor. */
  type Counters = map<Anchor, int>

  const InitialCounters: Counters :=
    map[Center := 0, LeftBottom := 0, LeftTop := 0, RightBottom := 0, RightTop := 0]

  predicate Complete(c: Counters)
  {
    forall a: Anchor :: a in c
  }

  /** Every anchor is in the anchor list. */
  lemma Listed(a: Anchor)
    ensures a in AnchorList
  {
    match a
    case LeftTop => assert AnchorList[0] == a;
    case LeftBottom => assert AnchorList[1] == a;
    case RightTop => assert AnchorList[2] == a;
    case RightBottom => assert AnchorList[3] == a;
    case Center => assert AnchorList[4] == a;
  }

  /** Position of the first element equal to x, or -1. */
  function Find<T(==)>(x: T, list: seq<T>): (r: int)
    ensures -1 <= r < |list|
    ensures r >= 0 ==> list[r] == x && forall j :: 0 <= j < r ==> list[j] != x
    ensures r == -1 <==> x !in list
  {
    if |list| == 0 then -1
    else if list[0] == x then 0
    else
      var k := Find(x, list[1..]);
      if k < 0 then -1 else k + 1
  }

  /**
   * One view. modeList is None until Start builds it; positionIndex is the
   * slot the view asks for among the picture-in-picture views at its anchor.
   */
  datatype View = View(mode: Mode, anchor: Anchor, modeIndex: int, anchorIndex: int,
                       modeList: Option<seq<Mode>>, positionIndex: int)

  /** A view before Start: hidden, anchored right-bottom, both indices 0. */
  function Initial(positionIndex: int): (v: View)
    ensures v.mode == Hide && v.anchor == RightBottom && v.modeList.None?
  {
    View(Hide, RightBottom, 0, 0, None, positionIndex)
  }

  /** The new view, the shared counters and the events raised. */
  datatype Step = Step(view: View, counters: Counters, events: seq<Event>)

  /** No element occurs twice. */
  predicate Distinct<T(==)>(s: seq<T>)
  {
    forall i, j :: 0 <= i < j < |s| ==> s[i] != s[j]
  }

  /**
   * The mode list built in Start: full screen when a quad or a raw image
   * exists, picture-in-picture when a raw image exists, and always Hide.
   */
  function ModeListFor(existQuad: bool, existRawImage: bool): (r: seq<Mode>)
    ensures |r| >= 1 && r[|r| - 1] == Hide
    ensures FullScreen in r <==> existQuad || existRawImage
    ensures PictureInPicture in r <==> existRawImage
    ensures Distinct(r)
  {
    var withQuad := if existQuad then [FullScreen] else [];
    var withRaw :=
      if existRawImage then (if FullScreen in withQuad then withQuad else withQuad + [FullScreen]) + [PictureInPicture]
      else withQuad;
    withRaw + [Hide]
  }

  /**
   * Start: builds the mode list and takes the indices of the current mode
   * and anchor; a mode missing from the list gives index 0.
   */
  function Start(v: View, existQuad: bool, existRawImage: bool): (r: View)
    ensures r.mode == v.mode && r.anchor == v.anchor && r.positionIndex == v.positionIndex
    ensures r.modeList == Some(ModeListFor(existQuad, existRawImage))
    ensures 0 <= r.modeIndex < |r.modeList.value|
    ensures v.mode in r.modeList.value ==> r.modeList.value[r.modeIndex] == v.mode
    ensures v.mode !in r.modeList.value ==> r.modeIndex == 0
    ensures 0 <= r.anchorIndex < |AnchorList| && AnchorList[r.anchorIndex] == v.anchor
  {
    var list := ModeListFor(existQuad, existRawImage);
    var found := Find(v.mode, list);
    Listed(v.anchor);
    v.(modeList := Some(list), modeIndex := if found < 0 then 0 else found,
       anchorIndex := Find(v.anchor, AnchorList))
  }

  /** The counters after a view leaves picture-in-picture at anchor a: one less, never below 0. */
  function Leave(c: Counters, a: Anchor): (r: Counters)
    requires Complete(c)
    ensures Complete(r)
    ensures c[a] > 0 ==> r[a] == c[a] - 1
    ensures c[a] <= 0 ==> r[a] == c[a]
    ensures forall b :: b != a ==> r[b] == c[b]
  {
    if c[a] > 0 then c[a := c[a] - 1] else c
  }

  function Enter(c: Counters, a: Anchor): (r: Counters)
    requires Complete(c)
    ensures Complete(r) && r[a] == c[a] + 1
    ensures forall b :: b != a ==> r[b] == c[b]
  {
    c[a := c[a] + 1]
  }

  /**
   * The ModeIndex assignment at the end of the ViewMode setter: the index
   * of the new mode in the list, taken when it differs and is in range.
   * The ViewMode assignment it triggers sets the mode it already has.
   */
  function SyncModeIndex(v: View): (r: (View, seq<Event>))
    ensures r.0 == v.(modeIndex := r.0.modeIndex)
    ensures r.1 == [] || r.1 == [ChangeMode(r.0.modeIndex)]
    ensures v.modeList.Some? && v.mode in v.modeList.value ==>
      0 <= r.0.modeIndex < |v.modeList.value| && v.modeList.value[r.0.modeIndex] == v.mode
    ensures (v.modeList.Some? && v.mode in v.modeList.value && 0 <= v.modeIndex < |v.modeList.value|
               && v.modeList.value[v.modeIndex] != v.mode) ==>
      r.1 == [ChangeMode(r.0.modeIndex)]
    ensures r.1 == [] ==> r.0 == v
  {
    if v.modeList.None? then (v, [])
    else
      var j := Find(v.mode, v.modeList.value);
      if j != v.modeIndex && 0 <= j then (v.(modeIndex := j), [ChangeMode(j)])
      else (v, [])
  }

  /**
   * The ViewMode setter. A change away from picture-in-picture decrements
   * the counter of the view's anchor (never below 0), a change into it
   * increments it; every change raises UpdateView and re-syncs ModeIndex.
   */
  function SetViewMode(v: View, c: Counters, value: Mode): (s: Step)
    requires Complete(c)
    ensures Complete(s.counters)
    ensures v.mode == value ==> s == Step(v, c, [])
    ensures v.mode != value ==>
      && s.view.mode == value && s.view.anchor == v.anchor && s.view.anchorIndex == v.anchorIndex
      && s.view.modeList == v.modeList && s.view.positionIndex == v.positionIndex
      && |s.events| >= 1 && s.events[0] == UpdateView
      && (v.mode == PictureInPicture ==> s.counters == Leave(c, v.anchor))
      && (value == PictureInPicture ==> s.counters == Enter(c, v.anchor))
      && (v.mode != PictureInPicture && value != PictureInPicture ==> s.counters == c)
  {
    if v.mode == value then Step(v, c, [])
    else
      var counters :=
        if v.mode == PictureInPicture then Leave(c, v.anchor)
        else if value == PictureInPicture then Enter(c, v.anchor)
        else c;
      var synced := SyncModeIndex(v.(mode := value));
      Step(synced.0, counters, [UpdateView] + synced.1)
  }

  /**
   * The ModeIndex setter: only a different index inside the mode list
   * is taken; it then selects that mode. None is the NullReferenceException
   * raised when the list has not been built.
   */
  function SetModeIndex(v: View, c: Counters, value: int): (r: Option<Step>)
    requires Complete(c)
    ensures r.None? <==> v.modeList.None? && value != v.modeIndex && 0 <= value
    ensures r.Some? ==> Complete(r.value.counters)
    ensures r.Some? && !(value != v.modeIndex && 0 <= value < |v.modeList.value|) ==> r == Some(Step(v, c, []))
    ensures r.Some? && value != v.modeIndex && 0 <= value < |v.modeList.value| ==>
      && r.value.view.mode == v.modeList.value[value]
      && |r.value.events| >= 1 && r.value.events[|r.value.events| - 1] == ChangeMode(r.value.view.modeIndex)
  {
    if !(value != v.modeIndex && 0 <= value) then Some(Step(v, c, []))
    else if v.modeList.None? then None
    else if value >= |v.modeList.value| then Some(Step(v, c, []))
    else
      var s := SetViewMode(v.(modeIndex := value), c, v.modeList.value[value]);
      Some(Step(s.view, s.counters, s.events + [ChangeMode(s.view.modeIndex)]))
  }

  /**
   * The ViewAnchor setter. In picture-in-picture one count moves from
   * the old anchor (never below 0) to the new one; outside it the counters
   * are unchanged. Every change raises UpdateView and re-syncs AnchorIndex.
   */
  function SetViewAnchor(v: View, c: Counters, value: Anchor): (s: Step)
    requires Complete(c)
    ensures Complete(s.counters)
    ensures v.anchor == value ==> s == Step(v, c, [])
    ensures v.anchor != value ==>
      && s.view.anchor == value
      && 0 <= s.view.anchorIndex < |AnchorList| && AnchorList[s.view.anchorIndex] == value
      && s.view == v.(anchor := value, anchorIndex := s.view.anchorIndex)
      && |s.events| >= 1 && s.events[0] == UpdateView
      && (v.mode == PictureInPicture ==> s.counters == Enter(Leave(c, v.anchor), value))
      && (v.mode != PictureInPicture ==> s.counters == c)
  {
    if v.anchor == value then Step(v, c, [])
    else
      var counters := if v.mode == PictureInPicture then Enter(Leave(c, v.anchor), value) else c;
      var j := Find(value, AnchorList);
      Listed(value);
      var moved := v.(anchor := value);
      if j != v.anchorIndex then Step(moved.(anchorIndex := j), counters, [UpdateView, ChangeAnchor(j)])
      else Step(moved, counters, [UpdateView])
  }

  /** The AnchorIndex setter: only a different index among the five anchors is taken. */
  function SetAnchorIndex(v: View, c: Counters, value: int): (s: Step)
    requires Complete(c)
    ensures Complete(s.counters)
    ensures !(value != v.anchorIndex && 0 <= value < |AnchorList|) ==> s == Step(v, c, [])
    ensures value != v.anchorIndex && 0 <= value < |AnchorList| ==>
      && s.view.anchor == AnchorList[value] && s.view.anchorIndex == value
      && |s.events| >= 1 && s.events[|s.events| - 1] == ChangeAnchor(value)
  {
    if !(value != v.anchorIndex && 0 <= value < |AnchorList|) then Step(v, c, [])
    else
      var s := SetViewAnchor(v.(anchorIndex := value), c, AnchorList[value]);
      Step(s.view, s.counters, s.events + [ChangeAnchor(s.view.anchorIndex)])
  }

  /** ChangeViewMode: index 0 hides the view, any other shows it full screen; nothing before Start. */
  function ChangeViewMode(v: View, c: Counters, index: int): (s: Step)
    requires Complete(c)
    ensures Complete(s.counters)
    ensures v.modeList.None? ==> s == Step(v, c, [])
    ensures v.modeList.Some? && index == 0 ==> s.view.mode == Hide
    ensures v.modeList.Some? && index != 0 ==> s.view.mode == FullScreen
  {
    if v.modeList.None? then Step(v, c, [])
    else SetViewMode(v, c, if index == 0 then Hide else FullScreen)
  }

  /**
   * The slot a picture-in-picture view takes at an anchor: the slot it
   * asks for, clamped to one below the anchor's count. Other modes use 0.
   */
  function PositionSlot(v: View, c: Counters, a: Anchor): (r: int)
    requires Complete(c)
    ensures v.mode != PictureInPicture ==> r == 0
    ensures v.mode == PictureInPicture ==> r <= v.positionIndex && r < c[a]
    ensures v.mode == PictureInPicture ==> r == v.positionIndex || r == c[a] - 1
  {
    if v.mode != PictureInPicture then 0
    else if v.positionIndex >= c[a] then c[a] - 1
    else v.positionIndex
  }

  // ---------------------------------------------------------------------
  // The counters as a count of the views shown picture-in-picture
  // ---------------------------------------------------------------------

  function Shown(v: View, a: Anchor): nat
  {
    if v.mode == PictureInPicture && v.anchor == a then 1 else 0
  }

  /** The number of views shown picture-in-picture at anchor a. */
  function PipAt(views: seq<View>, a: Anchor): nat
    decreases |views|
  {
    if |views| == 0 then 0 else PipAt(views[..|views| - 1], a) + Shown(views[|views| - 1], a)
  }

  /** Each counter is the number of views shown picture-in-picture at its anchor. */
  predicate Counted(views: seq<View>, c: Counters)
  {
    Complete(c) && forall a :: c[a] == PipAt(views, a)
  }

  /** Replacing one view changes each count by that view's contribution only. */
  lemma {:induction false} PipAtUpdate(views: seq<View>, i: nat, w: View, a: Anchor)
    requires i < |views|
    ensures PipAt(views[i := w], a) == PipAt(views, a) - Shown(views[i], a) + Shown(w, a)
    decreases |views|
  {
    var n := |views| - 1;
    assert views[i := w][..n] == (if i == n then views[..n] else views[..n][i := w]);
    if i < n {
      PipAtUpdate(views[..n], i, w, a);
    }
  }

  /** With no views all counts are 0, so the initial counters are counted. */
  lemma InitialCounted()
    ensures Counted([], InitialCounters)
  {
    forall a: Anchor
      ensures a in InitialCounters && InitialCounters[a] == 0
    {
      match a
      case LeftTop =>
      case LeftBottom =>
      case RightTop =>
      case RightBottom =>
      case Center =>
    }
  }

  /** Adding a view that is not picture-in-picture keeps the counters counted. */
  lemma {:induction false} AddView(views: seq<View>, c: Counters, v: View)
    requires Counted(views, c) && v.mode != PictureInPicture
    ensures Counted(views + [v], c)
  {
    forall a: Anchor
      ensures c[a] == PipAt(views + [v], a)
    {
      assert (views + [v])[..|views|] == views;
    }
  }

  lemma Replace(views: seq<View>, c: Counters, i: nat, w: View, c': Counters)
    requires i < |views| && Counted(views, c) && Complete(c')
    requires forall a :: c'[a] == c[a] - Shown(views[i], a) + Shown(w, a)
    ensures Counted(views[i := w], c')
  {
    forall a: Anchor
      ensures c'[a] == PipAt(views[i := w], a)
    {
      PipAtUpdate(views, i, w, a);
    }
  }

  /** A view shown picture-in-picture at a makes its anchor's count positive. */
  lemma ShownPositive(views: seq<View>, i: nat)
    requires i < |views| && views[i].mode == PictureInPicture
    ensures PipAt(views, views[i].anchor) >= 1
  {
    PipAtUpdate(views, i, views[i].(mode := Hide), views[i].anchor);
  }

  /** The ViewMode setter on any view keeps every counter equal to its count. */
  lemma SetViewModeCounted(views: seq<View>, c: Counters, i: nat, value: Mode)
    requires i < |views| && Counted(views, c)
    ensures Counted(views[i := SetViewMode(views[i], c, value).view], SetViewMode(views[i], c, value).counters)
  {
    var v := views[i];
    var s := SetViewMode(v, c, value);
    if v.mode == PictureInPicture {
      ShownPositive(views, i);
    }
    if v.mode != value {
      Replace(views, c, i, s.view, s.counters);
    } else {
      assert views[i := s.view] == views;
    }
  }

  /** Moving a picture-in-picture view between anchors moves one unit of count. */
  lemma MoveCounts(c: Counters, v: View, value: Anchor)
    requires Complete(c) && v.mode == PictureInPicture && v.anchor != value && c[v.anchor] >= 1
    ensures forall a :: Enter(Leave(c, v.anchor), value)[a] == c[a] - Shown(v, a) + Shown(v.(anchor := value), a)
  {
    var l := Leave(c, v.anchor);
    var e := Enter(l, value);
    forall a: Anchor
      ensures e[a] == c[a] - Shown(v, a) + Shown(v.(anchor := value), a)
    {
      if a == v.anchor {
        assert e[a] == l[a] == c[a] - 1;
      } else if a == value {
        assert e[a] == c[a] + 1;
      } else {
        assert e[a] == c[a];
      }
    }
  }

  /** The ViewAnchor setter on any view keeps every counter equal to its count. */
  lemma SetViewAnchorCounted(views: seq<View>, c: Counters, i: nat, value: Anchor)
    requires i < |views| && Counted(views, c)
    ensures Counted(views[i := SetViewAnchor(views[i], c, value).view], SetViewAnchor(views[i], c, value).counters)
  {
    var v := views[i];
    var s := SetViewAnchor(v, c, value);
    if v.anchor == value {
      assert views[i := s.view] == views;
    } else if v.mode == PictureInPicture {
      ShownPositive(views, i);
      MoveCounts(c, v, value);
      assert forall a :: Shown(s.view, a) == Shown(v.(anchor := value), a);
      Replace(views, c, i, s.view, s.counters);
    } else {
      assert forall a :: Shown(s.view, a) == 0 == Shown(v, a);
      Replace(views, c, i, s.view, s.counters);
    }
  }

  /** The ModeIndex setter keeps the counters counted. */
  lemma SetModeIndexCounted(views: seq<View>, c: Counters, i: nat, value: int)
    requires i < |views| && Counted(views, c)
    ensures var r := SetModeIndex(views[i], c, value);
      r.Some? ==> Counted(views[i := r.value.view], r.value.counters)
  {
    var v := views[i];
    var r := SetModeIndex(v, c, value);
    if r.Some? && value != v.modeIndex && 0 <= value < |v.modeList.value| {
      var views' := views[i := v.(modeIndex := value)];
      Replace(views, c, i, v.(modeIndex := value), c);
      SetViewModeCounted(views', c, i, v.modeList.value[value]);
      assert views'[i := r.value.view] == views[i := r.value.view];
    } else if r.Some? {
      assert views[i := r.value.view] == views;
    }
  }

  /** The AnchorIndex setter keeps the counters counted. */
  lemma SetAnchorIndexCounted(views: seq<View>, c: Counters, i: nat, value: int)
    requires i < |views| && Counted(views, c)
    ensures Counted(views[i := SetAnchorIndex(views[i], c, value).view], SetAnchorIndex(views[i], c, value).counters)
  {
    var v := views[i];
    var s := SetAnchorIndex(v, c, value);
    if value != v.anchorIndex && 0 <= value < |AnchorList| {
      var views' := views[i := v.(anchorIndex := value)];
      Replace(views, c, i, v.(anchorIndex := value), c);
      SetViewAnchorCounted(views', c, i, AnchorList[value]);
      assert views'[i := s.view] == views[i := s.view];
    } else {
      assert views[i := s.view] == views;
    }
  }

  /** In a counted system a picture-in-picture view's slot is a valid slot at its anchor. */
  lemma SlotInRange(views: seq<View>, c: Counters, i: nat)
    requires i < |views| && Counted(views, c)
    requires views[i].mode == PictureInPicture && views[i].positionIndex >= 0
    ensures 0 <= PositionSlot(views[i], c, views[i].anchor) < c[views[i].anchor]
  {
    ShownPositive(views, i);
  }

  /**
   * After Start, choosing a different index in the mode list selects that
   * mode and keeps the index in step with the list.
   */
  lemma SetModeIndexSelects(v: View, c: Counters, value: int)
    requires Complete(c) && v.modeList.Some? && Distinct(v.modeList.value)
    requires 0 <= v.modeIndex < |v.modeList.value| && v.modeList.value[v.modeIndex] == v.mode
    requires 0 <= value < |v.modeList.value| && value != v.modeIndex
    ensures var r := SetModeIndex(v, c, value);
      && r.Some? && r.value.view.modeIndex == value && r.value.view.mode == v.modeList.value[value]
      && r.value.events == [UpdateView, ChangeMode(value)]
  {
    var list := v.modeList.value;
    assert list[value] != v.mode;
    var w := v.(modeIndex := value, mode := list[value]);
    var j := Find(list[value], list);
    assert j == value;
  }
}

=== FILE: mark_billboard.dfy ===
/**
 * The billboard behind a hand-drawn mark (MarkBillboard.cs). While a mark
 * is drawn, five extreme points are kept: leftmost, rightmost, lowest,
 * highest and farthest; when drawing stops the billboard is centred on
 * them and sized to them.
 */
module MarkBillboard {
  import opened Vectors

  const Sentinel: real := 9999.0

  /** The extremes and whether the billboard's renderer is on. */
  datatype Marks = Marks(top: Vec3, bottom: Vec3, left: Vec3, right: Vec3, far: Vec3, shown: bool)

  function Fill(v: real): Vec3
  {
    Vec3(v, v, v)
  }

  /** DrawStarted: the extremes start at ±9999 so that any real point beats them, and the billboard hides. */
  const Started := Marks(Fill(-Sentinel), Fill(Sentinel), Fill(Sentinel), Fill(-Sentinel), Fill(-Sentinel), false)

  /** An axis of the extremes: which coordinate, and whether smaller or larger wins. */
  datatype Axis = MinX | MaxX | MinY | MaxY | MaxZ

  function Key(a: Axis, p: Vec3): real
  {
    match a
    case MinX => p.x
    case MaxX => p.x
    case MinY => p.y
    case MaxY => p.y
    case MaxZ => p.z
  }

  /** p strictly beats q on the axis. */
  predicate Beats(a: Axis, p: Vec3, q: Vec3)
  {
    if a == MinX || a == MinY then Key(a, p) < Key(a, q) else Key(a, p) > Key(a, q)
  }

  /** The field holding an axis's extreme. */
  function Field(m: Marks, a: Axis): Vec3
  {
    match a
    case MinX => m.left
    case MaxX => m.right
    case MinY => m.bottom
    case MaxY => m.top
    case MaxZ => m.far
  }

  /** DrawPointAdded: each extreme is replaced only when the point strictly beats it. */
  function PointAdded(m: Marks, p: Vec3): (r: Marks)
    ensures forall a: Axis :: Field(r, a) == (if Beats(a, p, Field(m, a)) then p else Field(m, a))
    ensures r.shown == m.shown
  {
    Marks(if p.y > m.top.y then p else m.top,
          if p.y < m.bottom.y then p else m.bottom,
          if p.x < m.left.x then p else m.left,
          if p.x > m.right.x then p else m.right,
          if p.z > m.far.z then p else m.far,
          m.shown)
  }

  /** A point that beats no extreme leaves all five unchanged. */
  lemma NoImprovement(m: Marks, p: Vec3)
    requires forall a: Axis :: !Beats(a, p, Field(m, a))
    ensures PointAdded(m, p) == m
  {
    assert Field(PointAdded(m, p), MinX) == m.left;
    assert Field(PointAdded(m, p), MaxX) == m.right;
    assert Field(PointAdded(m, p), MinY) == m.bottom;
    assert Field(PointAdded(m, p), MaxY) == m.top;
    assert Field(PointAdded(m, p), MaxZ) == m.far;
  }

  /** The marks after a stroke of points. */
  function Stroke(m: Marks, points: seq<Vec3>): Marks
    decreases |points|
  {
    if |points| == 0 then m else PointAdded(Stroke(m, points[..|points| - 1]), points[|points| - 1])
  }

  /** Every coordinate lies strictly inside (-9999, 9999). */
  predicate Inside(p: Vec3)
  {
    -Sentinel < p.x < Sentinel && -Sentinel < p.y < Sentinel && -Sentinel < p.z < Sentinel
  }

  /** Point k is the first of the stroke that nothing before or after beats on the axis. */
  predicate FirstBest(points: seq<Vec3>, a: Axis, k: int)
  {
    0 <= k < |points|
    && (forall j :: 0 <= j < |points| ==> !Beats(a, points[j], points[k]))
    && (forall j :: 0 <= j < k ==> Beats(a, points[k], points[j]))
  }

  /**
   * After a stroke of points inside the sentinels, each extreme is the
   * first point that reaches the minimum or maximum of its coordinate.
   */
  lemma {:induction false} StrokeExtremes(points: seq<Vec3>, a: Axis)
    requires |points| >= 1
    requires forall j :: 0 <= j < |points| ==> Inside(points[j])
    ensures exists k :: FirstBest(points, a, k) && Field(Stroke(Started, points), a) == points[k]
    decreases |points|
  {
    var n := |points| - 1;
    var prefix := points[..n];
    var p := points[n];
    assert Stroke(Started, points) == PointAdded(Stroke(Started, prefix), p);
    if n == 0 {
      assert Beats(a, p, Field(Started, a));
      assert FirstBest(points, a, 0);
    } else {
      StrokeExtremes(prefix, a);
      var k :| FirstBest(prefix, a, k) && Field(Stroke(Started, prefix), a) == prefix[k];
      if Beats(a, p, prefix[k]) {
        ExtendBeaten(points, a, k);
      } else {
        ExtendKept(points, a, k);
      }
    }
  }

  /** A new point that beats the best so far is the new first best. */
  lemma ExtendBeaten(points: seq<Vec3>, a: Axis, k: nat)
    requires |points| >= 2 && FirstBest(points[..|points| - 1], a, k)
    requires Beats(a, points[|points| - 1], points[k])
    ensures FirstBest(points, a, |points| - 1)
  {
    var n := |points| - 1;
    forall j | 0 <= j < n
      ensures !Beats(a, points[j], points[n]) && Beats(a, points[n], points[j])
    {
      assert !Beats(a, points[..n][j], points[..n][k]);
    }
  }

  /** A new point that does not beat the best so far leaves it the first best. */
  lemma ExtendKept(points: seq<Vec3>, a: Axis, k: nat)
    requires |points| >= 2 && FirstBest(points[..|points| - 1], a, k)
    requires !Beats(a, points[|points| - 1], points[k])
    ensures FirstBest(points, a, k)
  {
    var n := |points| - 1;
    forall j | 0 <= j < n
      ensures !Beats(a, points[j], points[k])
    {
      assert !Beats(a, points[..n][j], points[..n][k]);
    }
    forall j | 0 <= j < k
      ensures Beats(a, points[k], points[j])
    {
      assert Beats(a, points[..n][k], points[..n][j]);
    }
  }

  /** The extremes only ever improve as points are added. */
  lemma PointAddedImproves(m: Marks, p: Vec3, a: Axis)
    ensures !Beats(a, Field(m, a), Field(PointAdded(m, p), a))
    ensures !Beats(a, p, Field(PointAdded(m, p), a))
  {
  }

  /** The billboard's placement: its centre and its scale. */
  datatype Placement = Placement(position: Vec3, scale: Vec3)

  /**
   * DrawStopped: the renderer is shown; the top, bottom, left and right
   * extremes are projected to the screen, moved to the far extreme's depth
   * and back to the world (the camera's projection, `reproject`, is an
   * input); the billboard sits at their centre and is 1.2 times their
   * extent.
   */
  function DrawStopped(m: Marks, reproject: (Vec3, real) -> Vec3): (r: (Marks, Placement))
    ensures r.0 == m.(shown := true)
    ensures var z := m.far.z;
      var top := reproject(m.top, z);
      var bottom := reproject(m.bottom, z);
      var left := reproject(m.left, z);
      var right := reproject(m.right, z);
      && r.1.position.z == z
      && r.1.position.x * 2.0 == left.x + right.x && r.1.position.y * 2.0 == top.y + bottom.y
      && r.1.scale == Vec3((right.x - left.x) * 1.2, (top.y - bottom.y) * 1.2, 1.2)
  {
    var z := m.far.z;
    var top := reproject(m.top, z);
    var bottom := reproject(m.bottom, z);
    var left := reproject(m.left, z);
    var right := reproject(m.right, z);
    var pos := Vec3((left.x + right.x) / 2.0, (top.y + bottom.y) / 2.0, z);
    (m.(shown := true), Placement(pos, Vec3((right.x - left.x) * 1.2, (top.y - bottom.y) * 1.2, 1.0 * 1.2)))
  }
  /**
   * The billboard, shrunk back by the 1.2 margin, spans exactly from the
   * reprojected left extreme to the right one and from the bottom to the
   * top: its centre plus or minus half its extent lands on them.
   */
  lemma BillboardSpansMark(m: Marks, reproject: (Vec3, real) -> Vec3)
    ensures var pl := DrawStopped(m, reproject).1;
      var z := m.far.z;
      && pl.position.x - pl.scale.x / 2.4 == reproject(m.left, z).x
      && pl.position.x + pl.scale.x / 2.4 == reproject(m.right, z).x
      && pl.position.y - pl.scale.y / 2.4 == reproject(m.bottom, z).y
      && pl.position.y + pl.scale.y / 2.4 == reproject(m.top, z).y
  {
  }
}

=== FILE: material_color_controller.dfy ===
/**
 * The colour picker for a material (MaterialColorController.cs): choosing
 * an entry of a named colour list replaces the material's red, green and
 * blue, keeping its alpha; the original colour is put back on disable.
 */
module MaterialColorController {
  import opened Wrappers
  import opened Vectors

  datatype NamedColor = NamedColor(name: string, color: Color)

  /** The controller: the colour list, the chosen index, the material's colour and the one saved on enable. */
  datatype Picker = Picker(colors: seq<NamedColor>, index: int, material: Color, saved: Color)

  /** The result of the Index setter: the picker and the indices announced. */
  datatype Step = Step(picker: Picker, events: seq<int>)

  /** The material colour with the chosen colour's r, g and b and the material's own alpha. */
  function Recolor(material: Color, chosen: Color): (r: Color)
    ensures r.a == material.a && r.r == chosen.r && r.g == chosen.g && r.b == chosen.b
  {
    material.(r := chosen.r, g := chosen.g, b := chosen.b)
  }

  /** The Index setter: a different index inside the list is taken, applied and announced. */
  function SetIndex(p: Picker, value: int): (r: Step)
    ensures !(value != p.index && 0 <= value < |p.colors|) ==> r == Step(p, [])
    ensures value != p.index && 0 <= value < |p.colors| ==>
      && r.picker == p.(index := value, material := Recolor(p.material, p.colors[value].color))
      && r.events == [value]
    ensures r.picker.material.a == p.material.a && r.picker.saved == p.saved && r.picker.colors == p.colors
  {
    if value != p.index && 0 <= value < |p.colors| then
      Step(p.(index := value, material := Recolor(p.material, p.colors[value].color)), [value])
    else Step(p, [])
  }

  /** Recolouring twice keeps only the second choice, and never the alpha of a chosen colour. */
  lemma RecolorLast(material: Color, first: Color, second: Color)
    ensures Recolor(Recolor(material, first), second) == Recolor(material, second)
  {
  }

  /** ColorNames: the names of the list, in order. */
  function ColorNames(colors: seq<NamedColor>): (r: seq<string>)
    ensures |r| == |colors| && forall i :: 0 <= i < |colors| ==> r[i] == colors[i].name
  {
    seq(|colors|, i requires 0 <= i < |colors| => colors[i].name)
  }

  /** OnEnable saves the material colour; OnDisable restores it. */
  function Enable(p: Picker): (r: Picker)
    ensures r.saved == p.material && r.material == p.material
    ensures r.colors == p.colors && r.index == p.index
  {
    p.(saved := p.material)
  }

  function Disable(p: Picker): (r: Picker)
    ensures r.material == p.saved && r.saved == p.saved
    ensures r.colors == p.colors && r.index == p.index
  {
    p.(material := p.saved)
  }

  /** However many choices are made while enabled, disabling restores the colour found on enable. */
  lemma {:induction false} DisableRestores(p: Picker, choices: seq<int>)
    ensures Disable(Choose(Enable(p), choices)).material == p.material
  {
    ChooseKeepsSaved(Enable(p), choices);
  }

  /** A run of Index settings. */
  function Choose(p: Picker, choices: seq<int>): Picker
    decreases |choices|
  {
    if |choices| == 0 then p else Choose(SetIndex(p, choices[0]).picker, choices[1..])
  }

  lemma {:induction false} ChooseKeepsSaved(p: Picker, choices: seq<int>)
    ensures Choose(p, choices).saved == p.saved
    ensures Choose(p, choices).material.a == p.material.a
    decreases |choices|
  {
    if |choices| > 0 {
      ChooseKeepsSaved(SetIndex(p, choices[0]).picker, choices[1..]);
    }
  }
  /** The Color getter: the chosen entry's colour; None is the IndexOutOfRangeException of an empty list. */
  function CurrentColor(p: Picker): (r: Option<Color>)
    ensures r.Some? <==> 0 <= p.index < |p.colors|
    ensures r.Some? ==> r.value == p.colors[p.index].color
  {
    if 0 <= p.index < |p.colors| then Some(p.colors[p.index].color) else None
  }

  /** After a taken choice, the material shows the chosen colour's r, g and b. */
  lemma ChoiceShows(p: Picker, value: int)
    requires value != p.index && 0 <= value < |p.colors|
    ensures var q := SetIndex(p, value).picker;
      && CurrentColor(q).Some?
      && q.material.r == CurrentColor(q).value.r && q.material.g == CurrentColor(q).value.g
      && q.material.b == CurrentColor(q).value.b
  {
  }
}

=== FILE: material_transparent_controller.dfy ===
/**
 * The transparency slider for a material (MaterialTransparentController.cs):
 * a value in [0, 1] becomes the material colour's alpha, keeping red, green
 * and blue; the original colour is put back on disable.
 */
module MaterialTransparentController {
  import opened Vectors

  const TransparentMin: real := 0.0
  const TransparentMax: real := 1.0
  const TransparentDefault: real := 1.0

  datatype Slider = Slider(transparent: real, material: Color, saved: Color)

  datatype Step = Step(slider: Slider, events: seq<real>)

  /** The Transparent setter: a different value in [0, 1] becomes the alpha and is announced. */
  function SetTransparent(s: Slider, value: real): (r: Step)
    ensures !(s.transparent != value && TransparentMin <= value <= TransparentMax) ==> r == Step(s, [])
    ensures s.transparent != value && TransparentMin <= value <= TransparentMax ==>
      && r.slider.transparent == value && r.slider.material.a == value
      && r.events == [value]
    ensures r.slider.material.r == s.material.r && r.slider.material.g == s.material.g
      && r.slider.material.b == s.material.b && r.slider.saved == s.saved
  {
    if s.transparent != value && TransparentMin <= value <= TransparentMax then
      Step(s.(transparent := value, material := s.material.(a := value)), [value])
    else Step(s, [])
  }

  /** Starting from the default, the value and the alpha it wrote stay in [0, 1]. */
  predicate InRange(s: Slider)
  {
    TransparentMin <= s.transparent <= TransparentMax
  }

  lemma SetKeepsRange(s: Slider, value: real)
    requires InRange(s)
    ensures InRange(SetTransparent(s, value).slider)
    ensures SetTransparent(s, value).events != [] ==> TransparentMin <= SetTransparent(s, value).slider.material.a <= TransparentMax
  {
  }

  function Enable(s: Slider): (r: Slider)
    ensures r.saved == s.material && r.material == s.material
    ensures r.transparent == s.transparent
  {
    s.(saved := s.material)
  }

  function Disable(s: Slider): (r: Slider)
    ensures r.material == s.saved && r.saved == s.saved
    ensures r.transparent == s.transparent
  {
    s.(material := s.saved)
  }

  /** A setting taken between enable and disable is undone by the disable. */
  lemma DisableRestores(s: Slider, value: real)
    ensures Disable(SetTransparent(Enable(s), value).slider).material == s.material
  {
  }
}

=== FILE: raw_bytes.dfy ===
/**
 * Depth samples are 16-bit signed integers; the recorders and the region
 * sampler write them to disk with Buffer.BlockCopy, which copies the
 * in-memory representation: two bytes per sample, low byte first on the
 * little-endian devices the samples run on.
 */
module RawBytes {
  type byte = x: int | 0 <= x < 256
  type short = x: int | -32768 <= x < 32768

  /** Low byte of the two's-complement representation. */
  function LowByte(v: short): byte { v % 256 }

  /** High byte of the two's-complement representation. */
  function HighByte(v: short): byte { ((v - v % 256) / 256) % 256 }

  /** The sample whose two's-complement bytes are `lo`, `hi`. */
  function ShortOf(lo: byte, hi: byte): short
  {
    var u := lo + 256 * hi;
    if u >= 32768 then u - 65536 else u
  }

  lemma ShortBytes(v: short)
    ensures ShortOf(LowByte(v), HighByte(v)) == v
  {
    var lo := v % 256;
    var q := (v - lo) / 256;
    assert v == 256 * q + lo;
    assert -128 <= q < 128;
    if q >= 0 {
      assert HighByte(v) == q;
    } else {
      assert HighByte(v) == q + 256;
    }
  }

  /** Buffer.BlockCopy of a short[] into a byte[] of twice its length. */
  function EncodeShorts(data: seq<short>): (r: seq<byte>)
    ensures |r| == 2 * |data|
  {
    if |data| == 0 then [] else [LowByte(data[0]), HighByte(data[0])] + EncodeShorts(data[1..])
  }

  /** Reads pairs of bytes back as samples; a trailing odd byte is ignored. */
  function DecodeShorts(bytes: seq<byte>): (r: seq<short>)
    ensures |r| == |bytes| / 2
  {
    if |bytes| < 2 then [] else [ShortOf(bytes[0], bytes[1])] + DecodeShorts(bytes[2..])
  }

  /** Sample i occupies bytes 2i (low) and 2i+1 (high). */
  lemma {:induction false} EncodeLayout(data: seq<short>, i: nat)
    requires i < |data|
    ensures EncodeShorts(data)[2 * i] == LowByte(data[i])
    ensures EncodeShorts(data)[2 * i + 1] == HighByte(data[i])
  {
    if i > 0 {
      EncodeLayout(data[1..], i - 1);
    }
  }

  /** What is written is what a reader of the raw file gets back. */
  lemma {:induction false} DecodeEncode(data: seq<short>)
    ensures DecodeShorts(EncodeShorts(data)) == data
  {
    if |data| > 0 {
      var e := EncodeShorts(data);
      assert e[2..] == EncodeShorts(data[1..]);
      ShortBytes(data[0]);
      DecodeEncode(data[1..]);
    }
  }
}

=== FILE: real_hand_controller.dfy ===
/**
 * The real-hand model switcher (RealHandController.cs). Index 0 hides the
 * hand; index v > 0 shows it with material v - 1 and remembers v, so that
 * showing the hand again brings the last choice back.
 */
module RealHandController {
  import opened Vectors
  import HMC = HandModelController

  type Event = HMC.Event

  /**
   * The controller and the parts of the hand model it drives: the base
   * settings (whose isShow is the field behind the getters), the model's
   * current material index, the last index shown, the option names, the
   * model's visibility, its position and the two armature scales.
   */
  datatype Hand = Hand(settings: HMC.Settings, current: int, latestIndex: int, names: seq<string>,
                       visible: bool, position: Vec3, leftScale: Vec3, rightScale: Vec3)

  /** Start: the names are built and the hand hidden; the model keeps its own material index. */
  function Start(modelNames: seq<string>, current: int, position: Vec3, leftScale: Vec3, rightScale: Vec3): (r: Hand)
    ensures !IsShow(r) && Index(r) == 0 && r.latestIndex == 0 && !r.visible
    ensures r.names == HMC.OptionNames(modelNames)
  {
    Hand(HMC.Initial.(isShow := false), current, 0, HMC.OptionNames(modelNames), false, position, leftScale, rightScale)
  }

  /** The Index getter: the model's material index plus one while shown, else 0. */
  function Index(h: Hand): int
  {
    if h.settings.isShow then h.current + 1 else 0
  }

  /** The IsShow getter. */
  predicate IsShow(h: Hand)
  {
    Index(h) != 0
  }

  /**
   * The states the controller reaches: a non-negative material index, a
   * remembered index among the options matching that material once a
   * model was chosen, a shown index among the options, and the model's
   * visibility following isShow.
   */
  predicate Good(h: Hand)
  {
    h.current >= 0 && 0 <= h.latestIndex < |h.names|
    && (h.latestIndex > 0 ==> h.current == h.latestIndex - 1)
    && (h.settings.isShow ==> h.current + 1 < |h.names| && h.latestIndex == h.current + 1)
    && h.visible == h.settings.isShow
  }

  lemma StartGood(modelNames: seq<string>, current: int, position: Vec3, leftScale: Vec3, rightScale: Vec3)
    requires current >= 0
    ensures Good(Start(modelNames, current, position, leftScale, rightScale))
  {
  }

  /** ScaleHand: each component keeps its sign and takes the scale as its size. */
  function ScaleHand(handScale: Vec3, value: real): (r: Vec3)
    requires handScale.x != 0.0 && handScale.y != 0.0 && handScale.z != 0.0
    ensures r.x == (if handScale.x > 0.0 then value else -value)
    ensures r.y == (if handScale.y > 0.0 then value else -value)
    ensures r.z == (if handScale.z > 0.0 then value else -value)
  {
    Vec3(Abs(handScale.x) / handScale.x * value, Abs(handScale.y) / handScale.y * value,
         Abs(handScale.z) / handScale.z * value)
  }

  function Abs(x: real): real
  {
    if x < 0.0 then -x else x
  }

  predicate Scalable(h: Hand)
  {
    h.leftScale.x != 0.0 && h.leftScale.y != 0.0 && h.leftScale.z != 0.0
    && h.rightScale.x != 0.0 && h.rightScale.y != 0.0 && h.rightScale.z != 0.0
  }

  /** ApplyScaling: both armatures rescaled to the current scale. */
  function Rescale(h: Hand): (r: Hand)
    requires Scalable(h)
    ensures r.leftScale == ScaleHand(h.leftScale, h.settings.scale)
    ensures r.rightScale == ScaleHand(h.rightScale, h.settings.scale)
    ensures r.settings == h.settings && r.current == h.current && r.latestIndex == h.latestIndex
    ensures r.names == h.names && r.visible == h.visible && r.position == h.position
    ensures Scalable(r) || h.settings.scale == 0.0
  {
    h.(leftScale := ScaleHand(h.leftScale, h.settings.scale), rightScale := ScaleHand(h.rightScale, h.settings.scale))
  }

  /** A setter's result: the new controller and the events raised. */
  datatype Step = Step(hand: Hand, events: seq<Event>)

  /**
   * The Index setter: acts on a different value among the options. It
   * shows the model for v > 0 (material v - 1, remembered, scale
   * re-applied) and hides it for 0, then announces the new Index.
   */
  function SetIndex(h: Hand, v: int): (r: Step)
    requires Scalable(h) && h.settings.scale != 0.0
    ensures Scalable(r.hand) && r.hand.settings.scale == h.settings.scale
    ensures !(v != Index(h) && 0 <= v < |h.names|) ==> r == Step(h, [])
    ensures v != Index(h) && 0 <= v < |h.names| ==>
      && r.events == [HMC.ChangeIndex(Index(r.hand))]
      && r.hand.settings.isShow == (v > 0) && r.hand.visible == (v > 0)
      && (v > 0 ==> r.hand.current == v - 1 && r.hand.latestIndex == v)
      && (v == 0 ==> r.hand.current == h.current && r.hand.latestIndex == h.latestIndex)
      && r.hand.names == h.names && r.hand.position == h.position
    ensures v != Index(h) && 0 <= v < |h.names| && v > 0 ==>
      && r.hand.leftScale == ScaleHand(h.leftScale, h.settings.scale)
      && r.hand.rightScale == ScaleHand(h.rightScale, h.settings.scale)
    ensures v == 0 ==> r.hand.leftScale == h.leftScale && r.hand.rightScale == h.rightScale
  {
    if v != Index(h) && 0 <= v < |h.names| then
      var shown := h.(settings := h.settings.(isShow := v > 0), visible := v > 0);
      var chosen := if v > 0 then Rescale(shown.(latestIndex := v, current := v - 1)) else shown;
      Step(chosen, [HMC.ChangeIndex(Index(chosen))])
    else Step(h, [])
  }

  /**
   * The IsShow setter: on a change, Index is set to the remembered index
   * (showing) or 0 (hiding), and the resulting IsShow is announced.
   */
  function SetIsShow(h: Hand, value: bool): (r: Step)
    requires Scalable(h) && h.settings.scale != 0.0
    ensures Scalable(r.hand)
    ensures IsShow(h) == value ==> r == Step(h, [])
    ensures IsShow(h) != value ==>
      var inner := SetIndex(h, if value then h.latestIndex else 0);
      r.hand == inner.hand && r.events == inner.events + [HMC.ChangeShow(IsShow(inner.hand))]
  {
    if IsShow(h) != value then
      var inner := SetIndex(h, if value then h.latestIndex else 0);
      Step(inner.hand, inner.events + [HMC.ChangeShow(IsShow(inner.hand))])
    else Step(h, [])
  }

  /** Index reads back what was set, and the controller stays in its reachable states. */
  lemma SetIndexReadsBack(h: Hand, v: int)
    requires Good(h) && Scalable(h) && h.settings.scale != 0.0
    requires v != Index(h) && 0 <= v < |h.names|
    ensures Index(SetIndex(h, v).hand) == v && (IsShow(SetIndex(h, v).hand) <==> v > 0)
    ensures SetIndex(h, v).events == [HMC.ChangeIndex(v)]
    ensures Good(SetIndex(h, v).hand)
  {
  }

  /** IsShow is the isShow field in every reachable state. */
  lemma ShowIsField(h: Hand)
    requires Good(h)
    ensures IsShow(h) <==> h.settings.isShow
  {
  }

  /** Hiding keeps the remembered index, and showing again restores it. */
  lemma HideThenShow(h: Hand)
    requires Good(h) && Scalable(h) && h.settings.scale != 0.0 && IsShow(h)
    ensures var hidden := SetIsShow(h, false);
      && !IsShow(hidden.hand) && hidden.hand.latestIndex == h.latestIndex
      && hidden.events == [HMC.ChangeIndex(0), HMC.ChangeShow(false)]
      && Good(hidden.hand)
      && var shown := SetIsShow(hidden.hand, true);
      && Index(shown.hand) == Index(h) && Good(shown.hand)
      && shown.events == [HMC.ChangeIndex(Index(h)), HMC.ChangeShow(true)]
  {
  }

  /**
   * With no model ever chosen, showing leaves the hand hidden: the Index
   * setter is asked for 0, which it already is, yet the change event is
   * raised, carrying false.
   */
  lemma ShowWithoutChoice(h: Hand)
    requires Good(h) && Scalable(h) && h.settings.scale != 0.0 && !IsShow(h) && h.latestIndex == 0
    ensures SetIsShow(h, true).hand == h
    ensures SetIsShow(h, true).events == [HMC.ChangeShow(false)]
  {
  }

  /** ApplyOffset: the hand model's position is the offset, turned with the screen when reoriented. */
  function ApplyOffset(h: Hand, reoriented: bool, screen: int): (r: Hand)
    ensures r == h.(position := HMC.Oriented(h.settings.offset, reoriented, screen))
    ensures HMC.InOffsetRange(h.settings.offset) ==> HMC.InOffsetRange(r.position)
  {
    HMC.TurnKeepsRange(h.settings.offset, reoriented, screen);
    h.(position := HMC.Oriented(h.settings.offset, reoriented, screen))
  }

  /** The Offset setter with its ApplyOffset: only an accepted offset moves the model. */
  function SetOffset(h: Hand, v: Vec3, reoriented: bool, screen: int): (r: Step)
    ensures var c := HMC.SetOffset(h.settings, v);
      && (c.applied ==> r.hand.position == HMC.Oriented(v, reoriented, screen) && r.hand.settings.offset == v)
      && (!c.applied ==> r.hand == h)
      && r.events == c.events
  {
    var c := HMC.SetOffset(h.settings, v);
    if c.applied then Step(ApplyOffset(h.(settings := c.settings), reoriented, screen), c.events)
    else Step(h, [])
  }

  /** The Scale setter with its ApplyScaling. */
  function SetScale(h: Hand, v: real): (r: Step)
    requires Scalable(h)
    ensures var c := HMC.SetScale(h.settings, v);
      && (c.applied ==> r.hand.settings.scale == v)
      && (c.applied ==> r.hand.leftScale == ScaleHand(h.leftScale, v) && r.hand.rightScale == ScaleHand(h.rightScale, v))
      && (!c.applied ==> r.hand == h)
      && r.events == c.events
  {
    var c := HMC.SetScale(h.settings, v);
    if c.applied then Step(Rescale(h.(settings := c.settings)), c.events)
    else Step(h, [])
  }
}

=== FILE: record_types.dfy ===
/** The enumerations shared by the recorders (Types.cs). */
module RecordTypes {

  /** Which stream a recorder captures. */
  datatype DataType = Hand | Body | Face | BlendShape | Depth | Color | Slam

  /**
   * RecordMode is an int-backed enum with Single = 0 and Multiple = 1. A value
   * cast back from a stored int may be any other int, which the code treats
   * as neither mode.
   */
  datatype RecordMode = Single | Multiple | Unnamed(code: int)

  datatype HandType = Left | Right

  /** DateTime, as an abstract tick count; default(DateTime) is 0. */
  type Timestamp = int
  const DefaultTime: Timestamp := 0

  function RecordModeCode(m: RecordMode): int
  {
    match m
    case Single => 0
    case Multiple => 1
    case Unnamed(c) => c
  }

  /** An Unnamed value never carries the code of a named mode. */
  predicate ValidMode(m: RecordMode)
  {
    m.Unnamed? ==> m.code != 0 && m.code != 1
  }

  /**
   * The cast (RecordMode)code: it keeps the code, is a named mode exactly
   * for 0 and 1, and is the only valid mode with that code, so casting a
   * mode's code back gives the mode.
   */
  function RecordModeOf(code: int): (m: RecordMode)
    ensures RecordModeCode(m) == code
    ensures m.Unnamed? <==> code != 0 && code != 1
    ensures ValidMode(m)
    ensures forall v :: ValidMode(v) && RecordModeCode(v) == code ==> v == m
  {
    if code == 0 then Single else if code == 1 then Multiple else Unnamed(code)
  }
}

=== FILE: recorder.dfy ===
/**
 * The state every recorder shares (Recorder.cs): whether it takes part in a
 * recording (Record) and whether a recording is in progress for it; and the
 * capture logic that CsvRecorder and BinaryRecorder both implement: the latest
 * frame is always kept as the current data, and while recording every frame
 * is also stored under its time.
 */
module Recorder {
  import opened Wrappers
  import opened RecordTypes
  import opened Entries

  datatype Flags = Flags(record: bool, recording: bool)

  /** A new recorder takes part in recordings and is not recording. */
  const Initial := Flags(true, false)

  /** The Record setter: stores the value and raises onChangeRecord with it. */
  function SetRecord(f: Flags, value: bool): (r: (Flags, seq<bool>))
    ensures r.0.record == value && r.0.recording == f.recording
    ensures r.1 == [value]
  {
    (f.(record := value), [value])
  }

  /**
   * What a recorder holds: the current frame (null before the first one) and
   * the dictionary of stored frames.
   */
  datatype Capture<V> = Capture(
    flags: Flags,
    currentTime: Timestamp,
    current: Option<V>,
    stored: seq<Entry<Timestamp, V>>)

  function Init<V>(): Capture<V>
  {
    Capture(Initial, DefaultTime, None, [])
  }

  /** ClearData: forgets the stored frames, keeps the current one. */
  function Clear<V>(c: Capture<V>): Capture<V>
  {
    c.(stored := [])
  }

  /** StartRectoring: clears the data, then records only if Record is on. */
  function Start<V>(c: Capture<V>): Capture<V>
  {
    var d := Clear(c);
    d.(flags := d.flags.(recording := d.flags.record))
  }

  /** StopRectoring. */
  function Stop<V>(c: Capture<V>): Capture<V>
  {
    c.(flags := c.flags.(recording := false))
  }

  /**
   * SetData: the frame becomes the current data at time `now`; while recording
   * it is also stored under `key`, replacing a frame stored under the same key.
   */
  function Set<V>(c: Capture<V>, v: V, now: Timestamp, key: Timestamp): (r: Capture<V>)
    ensures r.currentTime == now && r.current == Some(v)
    ensures c.flags.recording ==> Lookup(r.stored, key) == Some(v)
    ensures !c.flags.recording ==> r.stored == c.stored
    ensures r.flags == c.flags
  {
    var d := c.(currentTime := now, current := Some(v));
    if !c.flags.recording then d else d.(stored := Put(c.stored, key, v))
  }

  /** One frame delivered to SetData: the value and the two clock readings. */
  datatype Frame<V> = Frame(value: V, now: Timestamp, key: Timestamp)

  function Feed<V>(c: Capture<V>, frames: seq<Frame<V>>): Capture<V>
    decreases |frames|
  {
    if |frames| == 0 then c
    else Feed(Set(c, frames[0].value, frames[0].now, frames[0].key), frames[1..])
  }

  /** The dictionary entries the frames would make, in arrival order. */
  function Rows<V>(frames: seq<Frame<V>>): (r: seq<Entry<Timestamp, V>>)
    ensures |r| == |frames|
  {
    if |frames| == 0 then [] else [Entry(frames[0].key, frames[0].value)] + Rows(frames[1..])
  }

  predicate DistinctFrameKeys<V>(frames: seq<Frame<V>>)
  {
    forall i, j :: 0 <= i < j < |frames| ==> frames[i].key != frames[j].key
  }

  /** While not recording, frames only replace the current data. */
  lemma {:induction false} IdleFeedStoresNothing<V>(c: Capture<V>, frames: seq<Frame<V>>)
    requires !c.flags.recording
    ensures Feed(c, frames).stored == c.stored
    ensures Feed(c, frames).flags == c.flags
    decreases |frames|
  {
    if |frames| > 0 {
      IdleFeedStoresNothing(Set(c, frames[0].value, frames[0].now, frames[0].key), frames[1..]);
    }
  }

  /** The first frame of a recording feed is appended and the rest stay fresh. */
  lemma RecordingStep<V>(c: Capture<V>, frames: seq<Frame<V>>)
    requires |frames| > 0
    requires c.flags.recording
    requires DistinctFrameKeys(frames)
    requires forall i :: 0 <= i < |frames| ==> frames[i].key !in Keys(c.stored)
    ensures var f := frames[0];
      Set(c, f.value, f.now, f.key).stored == c.stored + [Entry(f.key, f.value)]
    ensures var f := frames[0]; var c1 := Set(c, f.value, f.now, f.key);
      c1.flags.recording && DistinctFrameKeys(frames[1..]) &&
      forall i :: 0 <= i < |frames[1..]| ==> frames[1..][i].key !in Keys(c1.stored)
  {
    var f := frames[0];
    var c1 := Set(c, f.value, f.now, f.key);
    PutShape(c.stored, f.key, f.value);
    KeysAppend(c.stored, [Entry(f.key, f.value)]);
    var rest := frames[1..];
    forall i | 0 <= i < |rest| ensures rest[i].key !in Keys(c1.stored) {
      assert rest[i] == frames[i + 1];
    }
    assert DistinctFrameKeys(rest) by {
      forall i, j | 0 <= i < j < |rest| ensures rest[i].key != rest[j].key {
        assert rest[i] == frames[i + 1] && rest[j] == frames[j + 1];
      }
    }
  }

  /**
   * While recording, frames with distinct keys are appended in arrival order
   * after the frames already stored.
   */
  lemma {:induction false} RecordingFeedAppends<V>(c: Capture<V>, frames: seq<Frame<V>>)
    requires c.flags.recording
    requires DistinctFrameKeys(frames)
    requires forall i :: 0 <= i < |frames| ==> frames[i].key !in Keys(c.stored)
    ensures Feed(c, frames).stored == c.stored + Rows(frames)
    decreases |frames|
  {
    if |frames| > 0 {
      var f := frames[0];
      var c1 := Set(c, f.value, f.now, f.key);
      var a, e, b := c.stored, Entry(f.key, f.value), Rows(frames[1..]);
      assert c1.stored == a + [e] by { RecordingStep(c, frames); }
      assert Feed(c1, frames[1..]).stored == c1.stored + b by {
        RecordingStep(c, frames);
        RecordingFeedAppends(c1, frames[1..]);
      }
      assert Feed(c, frames) == Feed(c1, frames[1..]);
      assert Rows(frames) == [e] + b;
      assert (a + [e]) + b == a + ([e] + b);
    }
  }

  /**
   * A recording session: starting clears what was stored; afterwards the
   * stored frames are exactly those that arrived, in order, if Record was on,
   * and none if it was off.
   */
  lemma SessionStores<V>(c: Capture<V>, frames: seq<Frame<V>>)
    requires DistinctFrameKeys(frames)
    ensures c.flags.record ==> Feed(Start(c), frames).stored == Rows(frames)
    ensures !c.flags.record ==> Feed(Start(c), frames).stored == []
  {
    if c.flags.record {
      RecordingFeedAppends(Start(c), frames);
    } else {
      IdleFeedStoresNothing(Start(c), frames);
    }
  }

  /** The current data is always the last frame delivered, recording or not. */
  lemma {:induction false} FeedCurrent<V>(c: Capture<V>, frames: seq<Frame<V>>)
    requires |frames| > 0
    ensures Feed(c, frames).current == Some(frames[|frames| - 1].value)
    ensures Feed(c, frames).currentTime == frames[|frames| - 1].now
    decreases |frames|
  {
    if |frames| > 1 {
      var f := frames[0];
      FeedCurrent(Set(c, f.value, f.now, f.key), frames[1..]);
    }
  }
}

=== FILE: region_sampler.dfy ===
/**
 * The ToF region sampler (SaveFromRegion.cs). Each depth frame has a square
 * region around the touched pixel, or the whole frame, copied out of the
 * depth and confidence arrays, and the valid depth samples in it are
 * averaged. After SavePoint the next SaveFrames frames are written as raw
 * files, two bytes per sample. Posting the write to the main thread is
 * modelled as happening straight after the frame.
 */
module RegionSampler {
  import opened Wrappers
  import opened Storage
  import RawBytes
  import Text
  import Arith

  type short = RawBytes.short

  const DefaultSaveFrames := 30
  const DefaultRegionWidth := 11
  const DefaultDepthWidth := 320
  const DefaultDepthHeight := 240
  /** The invalid depth value when the device attributes carry neither JSON layout. */
  const FallbackInvalidValue := 32001

  // ---------------------------------------------------------------------
  // Region geometry

  /** Frame size, region side and whether the whole frame is sampled. */
  datatype Geometry = Geometry(depthWidth: nat, depthHeight: nat, regionWidth: nat, fullScreen: bool)

  /** Columns copied per frame. */
  function Width(g: Geometry): nat
  {
    if g.fullScreen then g.depthWidth else g.regionWidth
  }

  /** Rows copied per frame. */
  function Height(g: Geometry): nat
  {
    if g.fullScreen then g.depthHeight else g.regionWidth
  }

  /** The (int) cast of a float: truncation toward zero. */
  function Truncate(x: real): (r: int)
    ensures x >= 0.0 ==> 0 <= r && r as real <= x < r as real + 1.0
    ensures x < 0.0 ==> r <= 0 && r as real - 1.0 < x <= r as real
  {
    if x >= 0.0 then x.Floor else -((-x).Floor)
  }

  /** One axis of the clamp in Depth_FrameArrived; it always uses the region width. */
  function ClampAxis(start: int, regionWidth: nat, dim: nat): int
  {
    var a := if start < 0 then 0 else start;
    if a + regionWidth >= dim then dim - regionWidth - 1 else a
  }

  /**
   * The origin of the copied region for the pixel (px, py): centred on it
   * in region mode, (0, 0) in full-screen mode, then pulled back inside the
   * frame. A region that already fits is not moved.
   */
  function Origin(g: Geometry, px: int, py: int): (r: (int, int))
    ensures g.regionWidth + 1 <= g.depthWidth ==> 0 <= r.0 && r.0 + g.regionWidth <= g.depthWidth - 1
    ensures g.regionWidth + 1 <= g.depthHeight ==> 0 <= r.1 && r.1 + g.regionWidth <= g.depthHeight - 1
    ensures g.fullScreen && g.regionWidth < g.depthWidth ==> r.0 == 0
    ensures g.fullScreen && g.regionWidth < g.depthHeight ==> r.1 == 0
    ensures !g.fullScreen && 0 <= px - g.regionWidth / 2 && px - g.regionWidth / 2 + g.regionWidth < g.depthWidth
      ==> r.0 == px - g.regionWidth / 2
    ensures !g.fullScreen && 0 <= py - g.regionWidth / 2 && py - g.regionWidth / 2 + g.regionWidth < g.depthHeight
      ==> r.1 == py - g.regionWidth / 2
  {
    var sx := if g.fullScreen then 0 else px - g.regionWidth / 2;
    var sy := if g.fullScreen then 0 else py - g.regionWidth / 2;
    (ClampAxis(sx, g.regionWidth, g.depthWidth), ClampAxis(sy, g.regionWidth, g.depthHeight))
  }

  /** Where sample (i, j) of the region is read from. */
  function SourceIndex(dw: int, rx: int, ry: int, i: int, j: int): int
  {
    (ry + j) * dw + i + rx
  }

  /** Where sample (i, j) of the region is stored in the working buffer. */
  function WorkIndex(w: int, i: int, j: int): int
  {
    j * w + i
  }

  /** Every read the copy makes from an array of n samples is in range. */
  predicate ReadsInBounds(n: int, dw: nat, rx: int, ry: int, w: nat, h: nat)
  {
    forall j, i :: 0 <= j < h && 0 <= i < w ==> 0 <= SourceIndex(dw, rx, ry, i, j) < n
  }

  /** The same condition tested on the first and the last read only. */
  predicate CornersInBounds(n: int, dw: nat, rx: int, ry: int, w: nat, h: nat)
  {
    w == 0 || h == 0 || (0 <= SourceIndex(dw, rx, ry, 0, 0) && SourceIndex(dw, rx, ry, w - 1, h - 1) < n)
  }

  /** Reads grow with the row and the column, so the corners decide. */
  lemma CornersSuffice(n: int, dw: nat, rx: int, ry: int, w: nat, h: nat)
    ensures CornersInBounds(n, dw, rx, ry, w, h) <==> ReadsInBounds(n, dw, rx, ry, w, h)
  {
    if w > 0 && h > 0 {
      if CornersInBounds(n, dw, rx, ry, w, h) {
        forall j, i | 0 <= j < h && 0 <= i < w
          ensures 0 <= SourceIndex(dw, rx, ry, i, j) < n
        {
          Arith.MulLe(0, j, dw);
          Arith.MulLe(j, h - 1, dw);
          assert (ry + j) * dw == ry * dw + j * dw;
          assert (ry + h - 1) * dw == ry * dw + (h - 1) * dw;
        }
      }
      if ReadsInBounds(n, dw, rx, ry, w, h) {
        assert 0 <= SourceIndex(dw, rx, ry, 0, 0) < n;
        assert 0 <= SourceIndex(dw, rx, ry, w - 1, h - 1) < n;
      }
    }
  }

  lemma WorkRange(w: int, h: int, i: int, j: int)
    requires 0 <= i < w && 0 <= j < h
    ensures 0 <= WorkIndex(w, i, j) < w * h
  {
    Arith.MulLe(0, j, w);
    Arith.MulLe(j + 1, h, w);
    assert (j + 1) * w == j * w + w;
    assert h * w == w * h;
  }

  /** Samples earlier in scan order are stored earlier. */
  lemma ScanOrder(w: int, ii: int, jj: int, i: int, j: int)
    requires 0 <= ii < w && 0 <= i && 0 <= jj
    requires jj < j || (jj == j && ii < i)
    ensures WorkIndex(w, ii, jj) < WorkIndex(w, i, j)
  {
    if jj < j {
      Arith.MulLe(jj + 1, j, w);
      assert (jj + 1) * w == jj * w + w;
    }
  }

  /** Sample (i, j) of the working buffer holds the source sample it was copied from. */
  predicate Copied(work: seq<short>, src: seq<short>, dw: int, rx: int, ry: int, w: int, i: int, j: int)
  {
    0 <= WorkIndex(w, i, j) < |work| && 0 <= SourceIndex(dw, rx, ry, i, j) < |src|
    && work[WorkIndex(w, i, j)] == src[SourceIndex(dw, rx, ry, i, j)]
  }

  predicate AllZero(work: seq<short>)
  {
    forall k :: 0 <= k < |work| ==> work[k] == 0
  }

  /**
   * The strided copy of SaveData: a w x h working buffer whose sample
   * (i, j) is the source sample (rx + i, ry + j). An empty source array is
   * not read and leaves the buffer all zeros.
   */
  method Extract(src: seq<short>, dw: nat, rx: int, ry: int, w: nat, h: nat) returns (work: seq<short>)
    requires |src| > 0 ==> ReadsInBounds(|src|, dw, rx, ry, w, h)
    ensures |work| == w * h
    ensures |src| == 0 ==> AllZero(work)
    ensures |src| > 0 ==> forall j, i :: 0 <= j < h && 0 <= i < w ==> Copied(work, src, dw, rx, ry, w, i, j)
  {
    var a := new short[w * h](_ => 0);
    var j := 0;
    while j < h
      invariant 0 <= j <= h
      invariant |src| == 0 ==> AllZero(a[..])
      invariant |src| > 0 ==> forall jj, ii :: 0 <= jj < j && 0 <= ii < w ==> Copied(a[..], src, dw, rx, ry, w, ii, jj)
    {
      var i := 0;
      while i < w
        invariant 0 <= i <= w
        invariant |src| == 0 ==> AllZero(a[..])
        invariant |src| > 0 ==> forall jj, ii :: 0 <= jj < j && 0 <= ii < w ==> Copied(a[..], src, dw, rx, ry, w, ii, jj)
        invariant |src| > 0 ==> forall ii :: 0 <= ii < i ==> Copied(a[..], src, dw, rx, ry, w, ii, j)
      {
        if |src| > 0 {
          ghost var before := a[..];
          WorkRange(w, h, i, j);
          a[WorkIndex(w, i, j)] := src[SourceIndex(dw, rx, ry, i, j)];
          forall jj, ii | 0 <= jj < j && 0 <= ii < w
            ensures Copied(a[..], src, dw, rx, ry, w, ii, jj)
          {
            assert Copied(before, src, dw, rx, ry, w, ii, jj);
            ScanOrder(w, ii, jj, i, j);
          }
          forall ii | 0 <= ii < i
            ensures Copied(a[..], src, dw, rx, ry, w, ii, j)
          {
            assert Copied(before, src, dw, rx, ry, w, ii, j);
            ScanOrder(w, ii, j, i, j);
          }
        }
        i := i + 1;
      }
      j := j + 1;
    }
    work := a[..];
  }

  // ---------------------------------------------------------------------
  // Averaging

  /** Number of samples that differ from the invalid value. */
  function ValidCount(s: seq<short>, invalid: int): nat
  {
    if |s| == 0 then 0
    else ValidCount(s[..|s| - 1], invalid) + (if s[|s| - 1] != invalid then 1 else 0)
  }

  /** Sum of the samples that differ from the invalid value. */
  function ValidSum(s: seq<short>, invalid: int): int
  {
    if |s| == 0 then 0
    else ValidSum(s[..|s| - 1], invalid) + (if s[|s| - 1] != invalid then s[|s| - 1] else 0)
  }

  /** DepthAverage: the mean of the valid samples, 0 when there are none. */
  function Mean(s: seq<short>, invalid: int): real
  {
    var n := ValidCount(s, invalid);
    if n == 0 then 0.0 else ValidSum(s, invalid) as real / n as real
  }

  /** The foreach loop of SaveData that totals the valid samples. */
  method Average(work: seq<short>, invalid: int) returns (total: int, count: nat, average: real)
    ensures total == ValidSum(work, invalid) && count == ValidCount(work, invalid)
    ensures average == Mean(work, invalid)
  {
    total, count := 0, 0;
    var k := 0;
    while k < |work|
      invariant 0 <= k <= |work|
      invariant total == ValidSum(work[..k], invalid) && count == ValidCount(work[..k], invalid)
    {
      assert work[..k + 1][..k] == work[..k];
      if work[k] != invalid {
        count := count + 1;
        total := total + work[k];
      }
      k := k + 1;
    }
    assert work[..k] == work;
    average := if count == 0 then 0.0 else total as real / count as real;
  }

  /** No valid sample is counted exactly when every sample is the invalid value. */
  lemma {:induction false} NoneValid(s: seq<short>, invalid: int)
    ensures ValidCount(s, invalid) == 0 <==> forall k :: 0 <= k < |s| ==> s[k] == invalid
  {
    if |s| > 0 {
      var p := s[..|s| - 1];
      NoneValid(p, invalid);
      assert forall k :: 0 <= k < |p| ==> p[k] == s[k];
    }
  }

  /** Valid samples within [lo, hi] keep their sum within count * [lo, hi]. */
  lemma {:induction false} SumBounds(s: seq<short>, invalid: int, lo: int, hi: int)
    requires forall k :: 0 <= k < |s| && s[k] != invalid ==> lo <= s[k] <= hi
    ensures lo * ValidCount(s, invalid) <= ValidSum(s, invalid) <= hi * ValidCount(s, invalid)
  {
    if |s| > 0 {
      var p := s[..|s| - 1];
      assert forall k :: 0 <= k < |p| ==> p[k] == s[k];
      SumBounds(p, invalid, lo, hi);
      var n := ValidCount(p, invalid);
      if s[|s| - 1] != invalid {
        assert lo * (n + 1) == lo * n + lo;
        assert hi * (n + 1) == hi * n + hi;
      }
    }
  }

  /** The average lies between the smallest and the largest valid sample. */
  lemma MeanWithin(s: seq<short>, invalid: int, lo: int, hi: int)
    requires forall k :: 0 <= k < |s| && s[k] != invalid ==> lo <= s[k] <= hi
    requires ValidCount(s, invalid) > 0
    ensures lo as real <= Mean(s, invalid) <= hi as real
  {
    SumBounds(s, invalid, lo, hi);
    Arith.MeanBounds(lo, hi, ValidSum(s, invalid), ValidCount(s, invalid));
  }

  // ---------------------------------------------------------------------
  // Saving frames

  /**
   * The save state: whether a save is armed, how many frames of it have
   * been written, and the directory it writes to.
   */
  datatype Saver = Saver(saving: bool, framesSaved: nat, directoryName: string)

  const Idle := Saver(false, 0, "")

  /** The counter is 0 when no save is armed and never passes SaveFrames. */
  predicate SaverInv(s: Saver, saveFrames: int)
  {
    (!s.saving ==> s.framesSaved == 0) && (s.framesSaved > 0 ==> s.framesSaved <= saveFrames)
  }

  /** "/Region" + "Full" or the region width + "_" + the time. */
  function RegionDirectory(g: Geometry, now: string): string
  {
    "/Region" + (if g.fullScreen then "Full" else Text.NatToString(g.regionWidth)) + "_" + now
  }

  /** SavePoint: arms a save only while the stream runs and no save is in progress. */
  function SavePoint(s: Saver, streamActive: bool, g: Geometry, now: string): (r: Saver)
    ensures !streamActive || s.saving ==> r == s
    ensures streamActive ==> r.saving
    ensures streamActive && !s.saving ==> r.framesSaved == s.framesSaved && r.directoryName == RegionDirectory(g, now)
    ensures forall saveFrames :: SaverInv(s, saveFrames) ==> SaverInv(r, saveFrames)
  {
    if streamActive && !s.saving then Saver(true, s.framesSaved, RegionDirectory(g, now)) else s
  }

  /**
   * The directory name splits on '_' into "/Region<label>" and the time,
   * and in region mode the label reads back as the region width.
   */
  lemma RegionDirectoryParts(g: Geometry, now: string)
    requires '_' !in now
    ensures var parts := Text.Split(RegionDirectory(g, now), '_');
      |parts| == 2 && parts[1] == now && |parts[0]| > 7 && parts[0][..7] == "/Region"
      && (g.fullScreen ==> parts[0][7..] == "Full")
      && (!g.fullScreen ==> Text.ParseNat(parts[0][7..]) == g.regionWidth)
  {
    var tag := if g.fullScreen then "Full" else Text.NatToString(g.regionWidth);
    var head := "/Region" + tag;
    assert '_' !in head;
    assert RegionDirectory(g, now) == head + ['_'] + now;
    Text.SplitPrefix(head, '_', now);
    Text.SplitFree(now, '_');
    assert head[7..] == tag;
    if !g.fullScreen {
      Text.ParseNatToString(g.regionWidth);
    }
  }

  /**
   * One frame's effect on the save counter. While armed, the counter
   * advances and the new value is the number of the frame to write; the
   * frame after the last one disarms and resets the counter.
   */
  function Advance(s: Saver, saveFrames: int): (r: (Saver, Option<nat>))
    ensures r.0.directoryName == s.directoryName
    ensures !s.saving ==> r.0 == s && r.1 == None
    ensures SaverInv(s, saveFrames) ==> SaverInv(r.0, saveFrames)
    ensures SaverInv(s, saveFrames) && r.1.Some? ==> 1 <= r.1.value <= saveFrames && r.0.framesSaved == r.1.value && r.0.saving
    ensures s.saving && r.1.None? ==> r.0 == Saver(false, 0, s.directoryName)
  {
    if !s.saving then (s, None)
    else if s.framesSaved + 1 > saveFrames then (Saver(false, 0, s.directoryName), None)
    else (s.(framesSaved := s.framesSaved + 1), Some(s.framesSaved + 1))
  }

  /** The saver after n frames, and the numbers of the frames written meanwhile. */
  function Run(s: Saver, saveFrames: int, n: nat): (Saver, seq<nat>)
    decreases n
  {
    if n == 0 then (s, [])
    else
      var step := Advance(s, saveFrames);
      var rest := Run(step.0, saveFrames, n - 1);
      (rest.0, (if step.1.Some? then [step.1.value] else []) + rest.1)
  }

  /**
   * From m frames into an armed save, the remaining frames m + 1 ..
   * saveFrames are written in order and the frame after them disarms.
   */
  lemma {:induction false} RunFrom(d: string, m: nat, saveFrames: nat)
    requires m <= saveFrames
    ensures Run(Saver(true, m, d), saveFrames, saveFrames - m + 1)
      == (Saver(false, 0, d), seq(saveFrames - m, k => m + 1 + k))
    decreases saveFrames - m
  {
    if m == saveFrames {
      var step := Advance(Saver(true, m, d), saveFrames);
      var rest := Run(step.0, saveFrames, 0);
      assert [] + rest.1 == rest.1;
      assert seq(saveFrames - m, k => m + 1 + k) == [];
    } else {
      RunFrom(d, m + 1, saveFrames);
      var step := Advance(Saver(true, m, d), saveFrames);
      assert step == (Saver(true, m + 1, d), Some(m + 1));
      var tail := seq(saveFrames - (m + 1), k => m + 2 + k);
      assert Run(step.0, saveFrames, saveFrames - m) == (Saver(false, 0, d), tail);
      assert [m + 1] + tail == seq(saveFrames - m, k => m + 1 + k);
    }
  }

  /**
   * A save armed by SavePoint writes frames 1 .. SaveFrames, one per
   * frame, then disarms with the counter back at 0.
   */
  lemma SaveSession(s: Saver, g: Geometry, now: string, saveFrames: nat)
    requires !s.saving && SaverInv(s, saveFrames)
    ensures Run(SavePoint(s, true, g, now), saveFrames, saveFrames + 1)
      == (Saver(false, 0, RegionDirectory(g, now)), seq(saveFrames, k => k + 1))
  {
    RunFrom(RegionDirectory(g, now), 0, saveFrames);
    assert seq(saveFrames - 0, k => 0 + 1 + k) == seq(saveFrames, k => k + 1);
  }

  function DepthPath(dataPath: string, dir: string, n: nat): string
  {
    dataPath + dir + "/" + Text.NatToString(n) + ".raw"
  }

  function ConfidencePath(dataPath: string, dir: string, n: nat): string
  {
    dataPath + dir + "/" + Text.NatToString(n) + "_conf.raw"
  }

  /** A frame's depth and confidence files never collide. */
  lemma PathsDiffer(dataPath: string, dir: string, n: nat)
    ensures DepthPath(dataPath, dir, n) != ConfidencePath(dataPath, dir, n)
  {
    var p := dataPath + dir + "/" + Text.NatToString(n);
    assert DepthPath(dataPath, dir, n)[|p|] == '.';
    assert ConfidencePath(dataPath, dir, n)[|p|] == '_';
  }

  /**
   * SaveDepthData / SaveConfidenceData: the directory is created, then the
   * file is created holding two bytes per sample, which read back as the
   * samples. An IOException, modelled by a path in `failing`, reports false
   * and writes no file.
   */
  function SaveRaw(fs: FileSystem, dirPath: string, path: string, data: seq<short>, failing: set<string>): (r: (FileSystem, bool))
    ensures dirPath in r.0.dirs && r.0.texts == fs.texts
    ensures r.1 <==> path !in failing
    ensures r.1 ==> (path in r.0.binaries && |r.0.binaries[path]| == 2 * |data|
                     && RawBytes.DecodeShorts(r.0.binaries[path]) == data)
    ensures forall p :: p in fs.binaries && p != path ==> p in r.0.binaries && r.0.binaries[p] == fs.binaries[p]
    ensures !r.1 ==> r.0.binaries == fs.binaries
  {
    var fs1 := MakeDir(fs, dirPath);
    if path in failing then (fs1, false)
    else
      RawBytes.DecodeEncode(data);
      (CreateBinary(fs1, path, RawBytes.EncodeShorts(data)), true)
  }

  /**
   * The posted save of frame n: both files are always attempted; a dialog
   * reports success after the last frame, or failure of either file.
   */
  function SaveFrame(fs: FileSystem, dataPath: string, dir: string, n: nat, saveFrames: int,
                     depth: seq<short>, confidence: seq<short>, failing: set<string>): (r: (FileSystem, Option<string>))
    ensures var dp := DepthPath(dataPath, dir, n);
      dp !in failing ==> dp in r.0.binaries && RawBytes.DecodeShorts(r.0.binaries[dp]) == depth
    ensures var cp := ConfidencePath(dataPath, dir, n);
      cp !in failing ==> cp in r.0.binaries && RawBytes.DecodeShorts(r.0.binaries[cp]) == confidence
    ensures r.1.Some? <==> (n == saveFrames || DepthPath(dataPath, dir, n) in failing
                            || ConfidencePath(dataPath, dir, n) in failing)
    ensures forall p :: (p in fs.binaries && p != DepthPath(dataPath, dir, n) && p != ConfidencePath(dataPath, dir, n)
                         ==> p in r.0.binaries && r.0.binaries[p] == fs.binaries[p])
  {
    var dp := DepthPath(dataPath, dir, n);
    var cp := ConfidencePath(dataPath, dir, n);
    PathsDiffer(dataPath, dir, n);
    var d := SaveRaw(fs, dataPath + dir, dp, depth, failing);
    var c := SaveRaw(d.0, dataPath + dir, cp, confidence, failing);
    var message :=
      if d.1 && c.1 then (if n == saveFrames then Some("successfully saved data to " + dp) else None)
      else Some("failed to save data to " + dp);
    (c.0, message)
  }

  // ---------------------------------------------------------------------
  // The component

  /** The sampler's fields that the frame handler reads and writes. */
  datatype Sampler = Sampler(geometry: Geometry, saveFrames: int, invalidValue: int,
                             pixelX: real, pixelY: real, saver: Saver, depthAverage: real, dataPath: string)

  /** What a depth frame did. */
  datatype Frame =
    | NoData
    | Threw
    | Sampled(depth: seq<short>, confidence: seq<short>, written: Option<nat>, dialog: Option<string>)

  /** The region of the current frame, as Depth_FrameArrived computes it. */
  function FrameOrigin(s: Sampler): (int, int)
  {
    Origin(s.geometry, Truncate(s.pixelX), Truncate(s.pixelY))
  }

  /** A non-empty array is read, and every read must be in range. */
  predicate Readable(s: Sampler, src: seq<short>)
  {
    var o := FrameOrigin(s);
    |src| == 0 || ReadsInBounds(|src|, s.geometry.depthWidth, o.0, o.1, Width(s.geometry), Height(s.geometry))
  }

  /**
   * Depth_FrameArrived and SaveData. Frames without depth or confidence
   * data are ignored; a read out of range throws before any field changes.
   * Otherwise both working buffers are filled, DepthAverage becomes their
   * valid mean, and an armed save advances and writes the frame.
   */
  method OnFrameArrived(s: Sampler, fs: FileSystem, depth: Option<seq<short>>, confidence: Option<seq<short>>,
                        failing: set<string>)
    returns (r: Sampler, fs': FileSystem, frame: Frame)
    ensures depth.None? || confidence.None? ==> r == s && fs' == fs && frame == NoData
    ensures frame.Threw? <==> (depth.Some? && confidence.Some?
                               && !(Readable(s, depth.value) && Readable(s, confidence.value)))
    ensures frame.Threw? ==> r == s && fs' == fs
    ensures frame.Sampled? ==>
      var o := FrameOrigin(s);
      var w := Width(s.geometry);
      var h := Height(s.geometry);
      && |frame.depth| == w * h && |frame.confidence| == w * h
      && (|depth.value| == 0 ==> AllZero(frame.depth))
      && (|depth.value| > 0 ==> forall j, i :: 0 <= j < h && 0 <= i < w ==>
            Copied(frame.depth, depth.value, s.geometry.depthWidth, o.0, o.1, w, i, j))
      && (|confidence.value| == 0 ==> AllZero(frame.confidence))
      && (|confidence.value| > 0 ==> forall j, i :: 0 <= j < h && 0 <= i < w ==>
            Copied(frame.confidence, confidence.value, s.geometry.depthWidth, o.0, o.1, w, i, j))
      && r.depthAverage == Mean(frame.depth, s.invalidValue)
      && (r.saver, frame.written) == Advance(s.saver, s.saveFrames)
      && r == s.(saver := r.saver, depthAverage := r.depthAverage)
      && (frame.written.None? ==> fs' == fs && frame.dialog.None?)
      && (frame.written.Some? ==>
            (fs', frame.dialog) == SaveFrame(fs, s.dataPath, s.saver.directoryName, frame.written.value,
                                             s.saveFrames, frame.depth, frame.confidence, failing))
  {
    if depth.None? || confidence.None? {
      return s, fs, NoData;
    }
    var o := FrameOrigin(s);
    var w := Width(s.geometry);
    var h := Height(s.geometry);
    var dw := s.geometry.depthWidth;
    CornersSuffice(|depth.value|, dw, o.0, o.1, w, h);
    CornersSuffice(|confidence.value|, dw, o.0, o.1, w, h);
    var depthOk := |depth.value| == 0 || CornersInBounds(|depth.value|, dw, o.0, o.1, w, h);
    var confidenceOk := |confidence.value| == 0 || CornersInBounds(|confidence.value|, dw, o.0, o.1, w, h);
    if !(depthOk && confidenceOk) {
      return s, fs, Threw;
    }
    var workDepth := Extract(depth.value, dw, o.0, o.1, w, h);
    var workConfidence := Extract(confidence.value, dw, o.0, o.1, w, h);
    var _, _, average := Average(workDepth, s.invalidValue);
    var step := Advance(s.saver, s.saveFrames);
    r := s.(saver := step.0, depthAverage := average);
    if step.1.Some? {
      var saved := SaveFrame(fs, s.dataPath, s.saver.directoryName, step.1.value, s.saveFrames,
                             workDepth, workConfidence, failing);
      fs' := saved.0;
      frame := Sampled(workDepth, workConfidence, step.1, saved.1);
    } else {
      fs' := fs;
      frame := Sampled(workDepth, workConfidence, None, None);
    }
  }

  lemma PixelInRange(dim: nat, x: real)
    ensures 0.0 <= x < 1.0 && dim > 0 ==> 0 <= Truncate(dim as real * x) < dim
  {
    if 0.0 <= x < 1.0 && dim > 0 {
      var p := dim as real * x;
      Arith.ScaleBelow(dim as real, x);
      assert 0.0 <= p < dim as real;
      var t := Truncate(p);
      assert 0 <= t && t as real <= p;
      assert t < dim;
    }
  }

  /** TouchImageInScreenSpace: a normalised touch becomes a depth pixel position. */
  function Touch(s: Sampler, x: real, y: real): (r: Sampler)
    ensures 0.0 <= x < 1.0 && s.geometry.depthWidth > 0 ==> 0 <= Truncate(r.pixelX) < s.geometry.depthWidth
    ensures 0.0 <= y < 1.0 && s.geometry.depthHeight > 0 ==> 0 <= Truncate(r.pixelY) < s.geometry.depthHeight
    ensures r.geometry == s.geometry && r.saver == s.saver && r.invalidValue == s.invalidValue
  {
    PixelInRange(s.geometry.depthWidth, x);
    PixelInRange(s.geometry.depthHeight, y);
    s.(pixelX := s.geometry.depthWidth as real * x, pixelY := s.geometry.depthHeight as real * y)
  }

  // ---------------------------------------------------------------------
  // The invalid depth value

  /**
   * The conversion fields of one camera's attributes. A null flag behaves
   * like any value other than "true"; None stands for a value int.Parse
   * rejects.
   */
  datatype Conversion = Conversion(useConvert: string, invalidFrom: Option<int>, invalidTo: Option<int>)

  /** One element of cameraSettings; a null id makes the comparison throw. */
  datatype CameraSetting = CameraSetting(id: Option<string>, conversion: Conversion)

  /**
   * The two readings of the device attribute string: the current layout
   * (None when it does not parse; Some(None) when it has no cameraSettings)
   * and the older one.
   */
  datatype Attributes = Attributes(current: Option<Option<seq<CameraSetting>>>, older: Option<Conversion>)

  /** The converted-to value when conversion is on, else the converted-from value. */
  function Pick(c: Conversion): Option<int>
  {
    if c.useConvert == "true" then c.invalidTo else c.invalidFrom
  }

  /**
   * What parsing the attributes leaves: the invalid value at that point
   * and whether it threw. int.Parse throws before the assignment, so a
   * throw keeps the value reached so far.
   */
  datatype Parsed = Parsed(value: int, threw: bool)

  /** An entry that throws when the loop reaches it: a null id, or a match whose value does not parse. */
  predicate Fails(setting: CameraSetting, cameraId: string)
  {
    setting.id.None? || (setting.id.value == cameraId && Pick(setting.conversion).None?)
  }

  /** The foreach over cameraSettings: no break, so each matching entry overwrites; the first failing entry throws. */
  function ScanSettings(prev: int, settings: seq<CameraSetting>, cameraId: string): Parsed
    decreases |settings|
  {
    if |settings| == 0 then Parsed(prev, false)
    else if settings[0].id.None? then Parsed(prev, true)
    else if settings[0].id.value == cameraId then
      match Pick(settings[0].conversion)
      case None => Parsed(prev, true)
      case Some(v) => ScanSettings(v, settings[1..], cameraId)
    else ScanSettings(prev, settings[1..], cameraId)
  }

  /** The scan throws exactly when some entry fails. */
  lemma {:induction false} ScanThrows(prev: int, settings: seq<CameraSetting>, cameraId: string)
    ensures ScanSettings(prev, settings, cameraId).threw <==>
      exists m :: 0 <= m < |settings| && Fails(settings[m], cameraId)
    decreases |settings|
  {
    if |settings| > 0 && !Fails(settings[0], cameraId) {
      var next := if settings[0].id.value == cameraId then Pick(settings[0].conversion).value else prev;
      ScanThrows(next, settings[1..], cameraId);
      if exists m :: 0 <= m < |settings| && Fails(settings[m], cameraId) {
        var m :| 0 <= m < |settings| && Fails(settings[m], cameraId);
        assert settings[1..][m - 1] == settings[m];
      }
      if exists m :: 0 <= m < |settings[1..]| && Fails(settings[1..][m], cameraId) {
        var m :| 0 <= m < |settings[1..]| && Fails(settings[1..][m], cameraId);
        assert settings[m + 1] == settings[1..][m];
      }
    } else if |settings| > 0 {
      assert Fails(settings[0], cameraId);
    }
  }

  /** The scan stops at the first failing entry: the value is what the entries before it left. */
  lemma {:induction false} ScanStopsAt(prev: int, settings: seq<CameraSetting>, cameraId: string, k: nat)
    requires k < |settings| && Fails(settings[k], cameraId)
    requires forall m :: 0 <= m < k ==> !Fails(settings[m], cameraId)
    ensures ScanSettings(prev, settings, cameraId) == Parsed(ScanSettings(prev, settings[..k], cameraId).value, true)
    ensures !ScanSettings(prev, settings[..k], cameraId).threw
    decreases k
  {
    if k > 0 {
      var next := if settings[0].id.value == cameraId then Pick(settings[0].conversion).value else prev;
      assert settings[..k][1..] == settings[1..][..k - 1];
      ScanStopsAt(next, settings[1..], cameraId, k - 1);
    }
  }

  /** The attribute string makes Start throw: a failing entry in the current layout, or an unparsable older one. */
  predicate AttributesThrow(a: Attributes, cameraId: string)
  {
    if a.current.Some? && a.current.value.Some? then
      exists m :: 0 <= m < |a.current.value.value| && Fails(a.current.value.value[m], cameraId)
    else a.older.Some? && Pick(a.older.value).None?
  }

  /** The invalid value Start settles on, from the field's previous value, and whether parsing threw. */
  function InvalidValue(prev: int, a: Attributes, cameraId: string): (r: Parsed)
    ensures r.threw <==> AttributesThrow(a, cameraId)
    ensures a.current.None? || a.current.value.None? ==>
      && (a.older.None? ==> r == Parsed(FallbackInvalidValue, false))
      && (a.older.Some? && Pick(a.older.value).Some? ==> r == Parsed(Pick(a.older.value).value, false))
      && (r.threw ==> r.value == prev)
  {
    match a.current
    case Some(Some(settings)) =>
      ScanThrows(prev, settings, cameraId);
      ScanSettings(prev, settings, cameraId)
    case _ =>
      match a.older
      case None => Parsed(FallbackInvalidValue, false)
      case Some(c) =>
        match Pick(c)
        case None => Parsed(prev, true)
        case Some(v) => Parsed(v, false)
  }

  /** Without a matching entry the scan keeps the previous value, whether or not it throws. */
  lemma {:induction false} ScanNoMatch(prev: int, settings: seq<CameraSetting>, cameraId: string)
    requires forall m :: 0 <= m < |settings| ==> settings[m].id != Some(cameraId)
    ensures ScanSettings(prev, settings, cameraId).value == prev
    decreases |settings|
  {
    if |settings| > 0 && settings[0].id.Some? {
      ScanNoMatch(prev, settings[1..], cameraId);
    }
  }

  /** When the scan does not throw, the last entry whose id matches the camera decides the value. */
  lemma {:induction false} ScanLastMatch(prev: int, settings: seq<CameraSetting>, cameraId: string, k: nat)
    requires k < |settings| && settings[k].id == Some(cameraId)
    requires forall m :: k < m < |settings| ==> settings[m].id != Some(cameraId)
    requires !ScanSettings(prev, settings, cameraId).threw
    ensures Pick(settings[k].conversion).Some?
    ensures ScanSettings(prev, settings, cameraId).value == Pick(settings[k].conversion).value
    decreases k
  {
    if k == 0 {
      var v := Pick(settings[0].conversion).value;
      ScanNoMatch(v, settings[1..], cameraId);
    } else if settings[0].id.value == cameraId {
      ScanLastMatch(Pick(settings[0].conversion).value, settings[1..], cameraId, k - 1);
    } else {
      ScanLastMatch(prev, settings[1..], cameraId, k - 1);
    }
  }

  /**
   * Start: the frame size comes from the camera configuration, the touch
   * point starts at the centre pixel, the handlers are subscribed and the
   * data path is set before the attributes are read; no save is armed.
   * The invalid value is chosen from the attributes starting from the
   * field's default 0. A throw while parsing ends Start but leaves the
   * component enabled with everything set so far, so the sampler is
   * returned either way, with the flag saying whether Start threw.
   */
  function Start(width: nat, height: nat, a: Attributes, cameraId: string, dataPath: string): (r: (Sampler, bool))
    ensures r.1 <==> AttributesThrow(a, cameraId)
    ensures r.0.invalidValue == InvalidValue(0, a, cameraId).value
    ensures r.0.saver == Idle && SaverInv(r.0.saver, r.0.saveFrames)
    ensures r.0.geometry == Geometry(width, height, DefaultRegionWidth, false)
    ensures Truncate(r.0.pixelX) == width / 2 && Truncate(r.0.pixelY) == height / 2
    ensures r.0.dataPath == dataPath + "/depthData"
  {
    var parsed := InvalidValue(0, a, cameraId);
    (Sampler(Geometry(width, height, DefaultRegionWidth, false), DefaultSaveFrames, parsed.value,
             (width / 2) as real, (height / 2) as real, Idle, 0.0, dataPath + "/depthData"), parsed.threw)
  }

  /** Before any touch, the default region is centred on the middle pixel, whether or not Start threw. */
  lemma StartCentred(width: nat, height: nat, a: Attributes, cameraId: string, dataPath: string)
    requires width >= 13 && height >= 13
    ensures var s := Start(width, height, a, cameraId, dataPath).0;
      FrameOrigin(s) == (width / 2 - 5, height / 2 - 5)
  {
  }
}

=== FILE: reorient_with_device.dfy ===
/**
 * Keeping a scene upright as the device turns (ReorientWithDevice.cs).
 * Each orientation has an angle about the view axis; on a change the
 * object is rotated by the difference of the new and previous angles.
 * The rotation is modelled as the total angle applied so far.
 */
module ReorientWithDevice {

  datatype DeviceOrientation = Unknown | Portrait | PortraitUpsideDown | LandscapeLeft | LandscapeRight | FaceUp | FaceDown

  /** GetRotationAngle, in degrees. */
  function RotationAngle(o: DeviceOrientation): (r: int)
    ensures o == Portrait ==> r == -90
    ensures o == PortraitUpsideDown ==> r == 90
    ensures o == LandscapeRight ==> r == 180
    ensures !(o == Portrait || o == PortraitUpsideDown || o == LandscapeRight) ==> r == 0
  {
    match o
    case Portrait => -90
    case PortraitUpsideDown => 90
    case LandscapeLeft => 0
    case LandscapeRight => 180
    case _ => 0
  }

  /** GetOrientation: an unknown orientation is read from the screen shape. */
  function CurrentOrientation(reported: DeviceOrientation, screenWidth: int, screenHeight: int): (r: DeviceOrientation)
    ensures r != Unknown
    ensures reported != Unknown ==> r == reported
    ensures reported == Unknown ==> (r == Portrait <==> screenWidth < screenHeight)
    ensures reported == Unknown ==> (r == LandscapeLeft <==> screenWidth >= screenHeight)
  {
    if reported != Unknown then reported
    else if screenWidth < screenHeight then Portrait
    else LandscapeLeft
  }

  /** The component: the orientation last applied, the pending flag and the total angle applied. */
  datatype Reorienter = Reorienter(previous: DeviceOrientation, changed: bool, applied: int)

  /** Before any update: Unknown, an update pending, nothing applied. */
  const Initial := Reorienter(Unknown, true, 0)

  /** The applied rotation is the angle of the orientation last applied. */
  predicate Upright(s: Reorienter)
  {
    s.applied == RotationAngle(s.previous)
  }

  /**
   * RotateCameraByDeviceOrientation: face-up, face-down and unknown keep
   * the previous orientation; a different orientation rotates by the
   * difference of the angles and becomes the previous one.
   */
  function Rotate(s: Reorienter, reported: DeviceOrientation, screenWidth: int, screenHeight: int): (r: Reorienter)
    ensures r.changed == s.changed
    ensures var o := CurrentOrientation(reported, screenWidth, screenHeight);
      && (o in {FaceUp, FaceDown} ==> r == s)
      && (o !in {FaceUp, FaceDown} && o != s.previous ==>
            r.previous == o && r.applied - s.applied == RotationAngle(o) - RotationAngle(s.previous))
      && (o == s.previous ==> r == s)
  {
    var current := CurrentOrientation(reported, screenWidth, screenHeight);
    var current := if current == FaceDown || current == FaceUp || current == Unknown then s.previous else current;
    if s.previous != current then
      s.(applied := s.applied + (RotationAngle(current) - RotationAngle(s.previous)), previous := current)
    else s
  }

  /** UpdateRotation, called on enable and on every orientation event: marks an update pending. */
  function UpdateRotation(s: Reorienter): (r: Reorienter)
    ensures r.changed && r.previous == s.previous && r.applied == s.applied
  {
    s.(changed := true)
  }

  /** Update: a pending update clears the flag and rotates; otherwise nothing happens. */
  function Update(s: Reorienter, reported: DeviceOrientation, screenWidth: int, screenHeight: int): (r: Reorienter)
    ensures !r.changed
    ensures !s.changed ==> r == s
    ensures s.changed ==> r == Rotate(s.(changed := false), reported, screenWidth, screenHeight)
  {
    if s.changed then Rotate(s.(changed := false), reported, screenWidth, screenHeight) else s
  }

  /** One frame's input: whether an orientation event arrived, and what the SDK and screen report. */
  datatype Frame = Frame(event: bool, reported: DeviceOrientation, screenWidth: int, screenHeight: int)

  function Step(s: Reorienter, f: Frame): Reorienter
  {
    var s := if f.event then UpdateRotation(s) else s;
    Update(s, f.reported, f.screenWidth, f.screenHeight)
  }

  function Run(s: Reorienter, frames: seq<Frame>): Reorienter
    decreases |frames|
  {
    if |frames| == 0 then s else Run(Step(s, frames[0]), frames[1..])
  }

  /**
   * Starting from Unknown (angle 0), however the device turns, the total
   * rotation applied equals the angle of the orientation last applied:
   * the deltas telescope.
   */
  lemma {:induction false} RunUpright(s: Reorienter, frames: seq<Frame>)
    requires Upright(s)
    ensures Upright(Run(s, frames))
    decreases |frames|
  {
    if |frames| > 0 {
      RunUpright(Step(s, frames[0]), frames[1..]);
    }
  }

  /** From the initial state the total rotation is the angle of the orientation last applied. */
  lemma FromInitial(frames: seq<Frame>)
    ensures Run(Initial, frames).applied == RotationAngle(Run(Initial, frames).previous)
  {
    RunUpright(Initial, frames);
  }

  /** Once an orientation has been applied, the previous orientation is never face-up, face-down or unknown. */
  lemma {:induction false} RunKnown(s: Reorienter, frames: seq<Frame>)
    requires s.previous !in {FaceUp, FaceDown}
    ensures Run(s, frames).previous !in {FaceUp, FaceDown}
    ensures s.previous != Unknown ==> Run(s, frames).previous != Unknown
    decreases |frames|
  {
    if |frames| > 0 {
      RunKnown(Step(s, frames[0]), frames[1..]);
    }
  }
}

=== FILE: scroll_text_view.dfy ===
/**
 * The licence text viewer (ScrollTextView.cs). A licence text is split into
 * lines and shown as a column of text boxes of ten lines each;
 * GetTextSplit cuts a string into pieces of a fixed number of characters.
 */
module ScrollTextView {
  import Text
  import Arith

  const LinesPerChunk := 10

  function Min(a: int, b: int): int
  {
    if a <= b then a else b
  }

  /**
   * String.Split on "\r\n", "\n" and "\r" with no options: at each
   * position "\r\n" is tried first, so it is one line break.
   */
  function SplitLines(s: string): (r: seq<string>)
    ensures |r| >= 1
    decreases |s|
  {
    if |s| == 0 then [""]
    else if s[0] == '\r' && |s| >= 2 && s[1] == '\n' then [""] + SplitLines(s[2..])
    else if s[0] == '\n' || s[0] == '\r' then [""] + SplitLines(s[1..])
    else
      var rest := SplitLines(s[1..]);
      [[s[0]] + rest[0]] + rest[1..]
  }

  /** No line contains a line-break character. */
  lemma {:induction false} LinesHaveNoBreaks(s: string)
    ensures forall i :: 0 <= i < |SplitLines(s)| ==> '\n' !in SplitLines(s)[i] && '\r' !in SplitLines(s)[i]
    decreases |s|
  {
    if |s| > 0 {
      if s[0] == '\r' && |s| >= 2 && s[1] == '\n' {
        LinesHaveNoBreaks(s[2..]);
      } else {
        LinesHaveNoBreaks(s[1..]);
      }
    }
  }

  /** On text without carriage returns the split is String.Split('\n'). */
  lemma {:induction false} SplitLinesUnix(s: string)
    requires '\r' !in s
    ensures SplitLines(s) == Text.Split(s, '\n')
    decreases |s|
  {
    if |s| > 0 {
      assert '\r' !in s[1..] by {
        assert forall k :: 0 <= k < |s[1..]| ==> s[1..][k] == s[k + 1];
      }
      SplitLinesUnix(s[1..]);
    }
  }

  /** Lines joined with "\n" split back into the same lines. */
  lemma SplitJoinedLines(lines: seq<string>)
    requires |lines| >= 1
    requires forall i :: 0 <= i < |lines| ==> '\n' !in lines[i] && '\r' !in lines[i]
    ensures SplitLines(Text.Join(lines, "\n")) == lines
  {
    JoinHasNoReturn(lines);
    SplitLinesUnix(Text.Join(lines, "\n"));
    Text.SplitJoin(lines, '\n');
  }

  lemma {:induction false} JoinHasNoReturn(lines: seq<string>)
    requires forall i :: 0 <= i < |lines| ==> '\r' !in lines[i]
    ensures '\r' !in Text.Join(lines, "\n")
  {
    if |lines| > 1 {
      JoinHasNoReturn(lines[1..]);
    }
  }

  /**
   * The text boxes SetText creates: ten lines per box joined with "\n",
   * and a last box with the remaining lines.
   */
  function Chunks(lines: seq<string>): seq<string>
    decreases |lines|
  {
    if |lines| == 0 then []
    else if |lines| <= LinesPerChunk then [Text.Join(lines, "\n")]
    else [Text.Join(lines[..LinesPerChunk], "\n")] + Chunks(lines[LinesPerChunk..])
  }

  /** A trailing partial box is kept: there are ceil(lines / 10) boxes. */
  lemma {:induction false} ChunkCount(lines: seq<string>)
    ensures |Chunks(lines)| == (|lines| + 9) / 10
    decreases |lines|
  {
    if |lines| > LinesPerChunk {
      ChunkCount(lines[LinesPerChunk..]);
    }
  }

  /** Box i holds lines 10i up to 10i + 10 (or the end), in order. */
  lemma {:induction false} ChunkAt(lines: seq<string>, i: nat)
    requires i < |Chunks(lines)|
    ensures 10 * i < |lines|
    ensures Chunks(lines)[i] == Text.Join(lines[10 * i .. Min(10 * i + 10, |lines|)], "\n")
    decreases |lines|
  {
    if |lines| > LinesPerChunk && i > 0 {
      ChunkAt(lines[LinesPerChunk..], i - 1);
      assert lines[LinesPerChunk..][10 * (i - 1) .. Min(10 * (i - 1) + 10, |lines| - 10)]
        == lines[10 * i .. Min(10 * i + 10, |lines|)];
    } else if |lines| <= LinesPerChunk {
      assert lines[0..|lines|] == lines;
    }
  }

  /** No line is lost or reordered: the boxes joined with "\n" are the lines joined with "\n". */
  lemma {:induction false} JoinChunks(lines: seq<string>)
    requires |lines| >= 1
    ensures Text.Join(Chunks(lines), "\n") == Text.Join(lines, "\n")
    decreases |lines|
  {
    if |lines| > LinesPerChunk {
      var rest := lines[LinesPerChunk..];
      JoinChunks(rest);
      ChunkCount(rest);
      Text.JoinAppend(lines[..LinesPerChunk], rest, "\n");
      assert lines[..LinesPerChunk] + rest == lines;
    }
  }

  /** Appending a block of at most ten lines after whole boxes adds one box. */
  lemma {:induction false} ChunksSnoc(p: seq<string>, block: seq<string>)
    requires |p| % 10 == 0 && 1 <= |block| <= 10
    ensures Chunks(p + block) == Chunks(p) + [Text.Join(block, "\n")]
    decreases |p|
  {
    if |p| == 0 {
      assert p + block == block;
    } else {
      assert (p + block)[..LinesPerChunk] == p[..LinesPerChunk];
      assert (p + block)[LinesPerChunk..] == p[LinesPerChunk..] + block;
      ChunksSnoc(p[LinesPerChunk..], block);
    }
  }

  /** Adding line k to a box that holds lines k - count .. k - 1. */
  lemma MixStep(lines: seq<string>, k: nat, count: nat)
    requires 1 <= count <= k < |lines|
    ensures Text.Join(lines[k - count..k], "\n") + "\n" + lines[k] == Text.Join(lines[k - count..k + 1], "\n")
  {
    Text.JoinSnoc(lines[k - count..k], lines[k], "\n");
    assert lines[k - count..k] + [lines[k]] == lines[k - count..k + 1];
  }

  /** Closing the box of lines k - count .. k - 1 after whole boxes. */
  lemma CloseBox(lines: seq<string>, k: nat, count: nat)
    requires 1 <= count <= 10 && count <= k <= |lines| && (k - count) % 10 == 0
    ensures Chunks(lines[..k - count]) + [Text.Join(lines[k - count..k], "\n")] == Chunks(lines[..k])
  {
    ChunksSnoc(lines[..k - count], lines[k - count..k]);
    assert lines[..k - count] + lines[k - count..k] == lines[..k];
  }

  /**
   * The foreach of SetText after k lines: the boxes hold the first k - count
   * lines in whole boxes, and mixText the count lines since.
   */
  predicate Gathered(lines: seq<string>, k: int, count: int, mixText: string, boxes: seq<string>)
  {
    && 0 <= count < 10 && count <= k <= |lines|
    && k - count == 10 * |boxes|
    && boxes == Chunks(lines[..k - count])
    && (count > 0 ==> mixText == Text.Join(lines[k - count..k], "\n"))
  }

  /** One pass of SetText's foreach: line k joins the open box, which closes at ten lines. */
  method GatherLine(lines: seq<string>, k: nat, count: nat, mixText: string, boxes: seq<string>)
    returns (count': nat, mixText': string, boxes': seq<string>)
    requires k < |lines| && Gathered(lines, k, count, mixText, boxes)
    ensures Gathered(lines, k + 1, count', mixText', boxes')
  {
    if count == 0 {
      mixText' := lines[k];
      assert lines[k..k + 1] == [lines[k]];
    } else {
      MixStep(lines, k, count);
      mixText' := mixText + "\n" + lines[k];
    }
    count' := count + 1;
    boxes' := boxes;
    if count' == 10 {
      CloseBox(lines, k + 1, count');
      boxes' := boxes + [mixText'];
      count' := 0;
      mixText' := "";
    }
  }

  /** SetText: the foreach that gathers lines into boxes of ten. */
  method SetText(text: string) returns (boxes: seq<string>)
    ensures boxes == Chunks(SplitLines(text))
  {
    var lines := SplitLines(text);
    var count := 0;
    var mixText := "";
    boxes := [];
    var k := 0;
    while k < |lines|
      invariant Gathered(lines, k, count, mixText, boxes)
    {
      count, mixText, boxes := GatherLine(lines, k, count, mixText, boxes);
      k := k + 1;
    }
    if count > 0 {
      CloseBox(lines, k, count);
      boxes := boxes + [mixText];
    }
    assert lines[..k] == lines;
  }

  /** Piece i of GetTextSplit: characters count * i up to count * i + count (or the end). */
  predicate PieceAt(pieces: seq<string>, str: string, count: nat, i: int)
  {
    0 <= i < |pieces| && 0 <= count * i < |str|
    && pieces[i] == str[count * i .. Min(count * i + count, |str|)]
  }

  lemma StartInRange(str: string, count: nat, i: nat)
    requires count > 0 && i < (|str| + count - 1) / count
    ensures count * i < |str|
  {
    var n := |str| + count - 1;
    var q := n / count;
    assert q * count + n % count == n;
    Arith.MulLe(i + 1, q, count);
    assert (i + 1) * count == i * count + count;
    assert count * i == i * count;
  }

  /** Appending piece i keeps the earlier pieces and extends the covered prefix. */
  lemma PieceStep(pieces: seq<string>, str: string, count: nat, i: nat, piece: string)
    requires count > 0 && |pieces| == i && count * i < |str|
    requires piece == str[count * i .. Min(count * i + count, |str|)]
    requires forall k :: 0 <= k < i ==> PieceAt(pieces, str, count, k)
    requires Text.Concat(pieces) == str[..count * i]
    ensures forall k :: 0 <= k <= i ==> PieceAt(pieces + [piece], str, count, k)
    ensures Text.Concat(pieces + [piece]) == str[..Min(count * (i + 1), |str|)]
  {
    var next := pieces + [piece];
    var start := count * i;
    var end := Min(start + count, |str|);
    assert count * (i + 1) == start + count;
    PrefixGrows(str, start, end);
    Text.ConcatSnoc(pieces, piece);
    forall k | 0 <= k <= i
      ensures PieceAt(next, str, count, k)
    {
      if k < i {
        assert PieceAt(pieces, str, count, k);
        assert next[k] == pieces[k];
      }
    }
  }

  lemma PrefixGrows(str: string, start: nat, end: nat)
    requires start <= end <= |str|
    ensures str[..start] + str[start..end] == str[..end]
  {
  }

  /** ceil(length / count) pieces of `count` characters reach the end of the string. */
  lemma CoversAll(len: nat, count: nat)
    requires count > 0
    ensures count * ((len + count - 1) / count) >= len
  {
    var q := (len + count - 1) / count;
    var r := (len + count - 1) % count;
    assert count * q + r == len + count - 1;
  }

  /**
   * GetTextSplit: ceil(length / count) pieces of `count` characters, the
   * last possibly shorter, which concatenate back to the string. A
   * negative count makes the rounded-up quotient at most 0, so no piece
   * is made.
   */
  method GetTextSplit(str: string, count: int) returns (pieces: seq<string>)
    requires count != 0
    ensures count < 0 ==> pieces == []
    ensures count > 0 ==> |pieces| == (|str| + count - 1) / count
    ensures count > 0 ==> forall i :: 0 <= i < |pieces| ==> PieceAt(pieces, str, count, i)
    ensures count > 0 ==> Text.Concat(pieces) == str
  {
    if count < 0 {
      return [];
    }
    var length := (|str| + count - 1) / count;
    pieces := [];
    var i := 0;
    while i < length
      invariant 0 <= i <= length && |pieces| == i
      invariant forall k :: 0 <= k < i ==> PieceAt(pieces, str, count, k)
      invariant Text.Concat(pieces) == str[..Min(count * i, |str|)]
    {
      var start := count * i;
      StartInRange(str, count, i);
      if |str| <= start {
        break;
      }
      var piece := if |str| < start + count then str[start..] else str[start..start + count];
      PieceStep(pieces, str, count, i, piece);
      pieces := pieces + [piece];
      i := i + 1;
    }
    CoversAll(|str|, count);
    assert str[..Min(count * length, |str|)] == str;
  }
}

=== FILE: slam_recorder.dfy ===
/** Records the device pose from SLAM as one CSV row per frame (SlamRecorder.cs). */
module SlamRecorder {
  import opened Wrappers
  import opened Vectors
  import opened RecordTypes
  import Text
  import Fields
  import CsvRecorder

  const Kind := DataType.Slam

  /** Position and rotation. */
  const DataLength := 3 + 4

  datatype SlamPose = SlamPose(position: Vec3, rotation: Quat)

  /** The seven values joined by commas (the trailing comma removed). */
  function Row(p: SlamPose, fmt: real -> string): (r: string)
    ensures r == Text.Join(Fields.PoseFields(p.position, p.rotation, fmt), ",")
  {
    var fs := Fields.PoseFields(p.position, p.rotation, fmt);
    var t := Text.Terminated(fs, ",");
    Text.TerminatedTrim(fs, ',');
    t[..|t| - 1]
  }

  /** OnFrameArrived: a frame without SLAM data is ignored. */
  function OnFrameArrived(s: CsvRecorder.State, data: Option<SlamPose>, fmt: real -> string,
                          now: Timestamp, key: Timestamp): (r: CsvRecorder.State)
    ensures data.None? ==> r == s
    ensures data.Some? ==> r.cap.current == Some(Row(data.value, fmt)) && r.dataLength == s.dataLength
  {
    match data
    case None => s
    case Some(p) => CsvRecorder.SetData(s, Row(p, fmt), now, key)
  }

  const HeaderColumns := ["Timestamp", "Position_X", "Position_Y", "Position_Z",
                          "Rotation_X", "Rotation_Y", "Rotation_Z", "Rotation_W"]

  /** CreateHeader: the fixed eight names. */
  function CreateHeader(): string
  {
    Text.Join(HeaderColumns, ",")
  }

  lemma HeaderSplits()
    ensures Text.Split(CreateHeader(), ',') == HeaderColumns
  {
    Text.SplitJoin(HeaderColumns, ',');
  }

  lemma RowSplits(p: SlamPose, fmt: real -> string)
    requires forall v :: ',' !in fmt(v)
    ensures |Text.Split(Row(p, fmt), ',')| == DataLength
  {
    var fs := Fields.PoseFields(p.position, p.rotation, fmt);
    assert Text.Free(fs, ',');
    Text.SplitJoin(fs, ',');
  }

  /**
   * The header names the timestamp and the seven values; with a number
   * format that writes no comma a row has exactly those seven columns.
   */
  lemma RowMatchesHeader(p: SlamPose, fmt: real -> string)
    requires forall v :: ',' !in fmt(v)
    ensures Text.Split(CreateHeader(), ',') == HeaderColumns
    ensures |Text.Split(Row(p, fmt), ',')| == DataLength
    ensures |Text.Split(CreateHeader(), ',')| == 1 + |Text.Split(Row(p, fmt), ',')|
  {
    HeaderSplits();
    RowSplits(p, fmt);
  }
}

=== FILE: storage.dfy ===
/**
 * The device file system as the samples use it: directories, text files
 * and binary files by path. System.IO calls become pure updates.
 */
module Storage {
  import RawBytes

  type Bytes = seq<RawBytes.byte>

  /** Directories, text files and binary files by path. */
  datatype FileSystem = FileSystem(dirs: set<string>, texts: map<string, string>, binaries: map<string, Bytes>)

  /** Directory.CreateDirectory: creating an existing directory does nothing. */
  function MakeDir(fs: FileSystem, path: string): (r: FileSystem)
    ensures r.dirs == fs.dirs + {path} && r.texts == fs.texts && r.binaries == fs.binaries
  {
    fs.(dirs := fs.dirs + {path})
  }

  /** File.AppendAllText: creates the file when it does not exist. */
  function AppendText(fs: FileSystem, path: string, text: string): (r: FileSystem)
    ensures path in r.texts && r.texts[path] == (if path in fs.texts then fs.texts[path] else "") + text
    ensures forall p :: p in fs.texts && p != path ==> p in r.texts && r.texts[p] == fs.texts[p]
    ensures r.dirs == fs.dirs && r.binaries == fs.binaries
  {
    fs.(texts := fs.texts[path := (if path in fs.texts then fs.texts[path] else "") + text])
  }

  /** File.Open with FileMode.Create followed by one Write: the file holds exactly `data`. */
  function CreateBinary(fs: FileSystem, path: string, data: Bytes): (r: FileSystem)
    ensures path in r.binaries && r.binaries[path] == data
    ensures forall p :: p in fs.binaries && p != path ==> p in r.binaries && r.binaries[p] == fs.binaries[p]
    ensures r.dirs == fs.dirs && r.texts == fs.texts
  {
    fs.(binaries := fs.binaries[path := data])
  }
}

=== FILE: text.dfy ===
/**
 * The string operations the components use: String.Join, String.Split on
 * one separator character, substring search and Int32.ToString().
 */
module Text {

  /** `parts` with `sep` between neighbours, as String.Join builds it. */
  function Join(parts: seq<string>, sep: string): string
  {
    if |parts| == 0 then ""
    else if |parts| == 1 then parts[0]
    else parts[0] + sep + Join(parts[1..], sep)
  }

  /** The pieces of `s` between occurrences of `c` (String.Split(c)). */
  function Split(s: string, c: char): (r: seq<string>)
    ensures |r| >= 1
    decreases |s|
  {
    if |s| == 0 then [""]
    else
      var rest := Split(s[1..], c);
      if s[0] == c then [""] + rest
      else [[s[0]] + rest[0]] + rest[1..]
  }

  /** Every field followed by `sep`: what a loop of `text += field + sep` builds. */
  function Terminated(fields: seq<string>, sep: string): string
  {
    if |fields| == 0 then "" else fields[0] + sep + Terminated(fields[1..], sep)
  }

  predicate Free(parts: seq<string>, c: char)
  {
    forall i :: 0 <= i < |parts| ==> c !in parts[i]
  }

  /** `sub` occurs in `s` (String.Contains). */
  predicate Contains(s: string, sub: string)
    decreases |s|
  {
    if |sub| > |s| then false
    else s[..|sub|] == sub || (|s| > 0 && Contains(s[1..], sub))
  }

  function DigitChar(d: nat): (c: char)
    requires d < 10
    ensures '0' <= c <= '9'
  {
    "0123456789"[d]
  }

  function DigitValue(c: char): nat
  {
    if '0' <= c <= '9' then (c as int) - ('0' as int) else 0
  }

  /** Decimal digits of `n`, most significant first (Int32.ToString of a non-negative value). */
  function NatToString(n: nat): (r: string)
    ensures |r| >= 1
    ensures forall i :: 0 <= i < |r| ==> '0' <= r[i] <= '9'
    ensures ',' !in r && '\n' !in r && '_' !in r
  {
    if n < 10 then [DigitChar(n)] else NatToString(n / 10) + [DigitChar(n % 10)]
  }

  function IntToString(i: int): (r: string)
    ensures |r| >= 1
    ensures ',' !in r && '\n' !in r
  {
    if i < 0 then "-" + NatToString(-i) else NatToString(i)
  }

  /** Reads decimal digits back; the inverse of NatToString. */
  function ParseNat(s: string): nat
  {
    if |s| == 0 then 0 else 10 * ParseNat(s[..|s| - 1]) + DigitValue(s[|s| - 1])
  }

  lemma {:induction false} ParseNatToString(n: nat)
    ensures ParseNat(NatToString(n)) == n
  {
    var s := NatToString(n);
    if n < 10 {
      assert s[..|s| - 1] == [];
    } else {
      assert s[..|s| - 1] == NatToString(n / 10);
      ParseNatToString(n / 10);
      assert DigitValue(DigitChar(n % 10)) == n % 10;
    }
  }

  lemma {:induction false} JoinSnoc(parts: seq<string>, p: string, sep: string)
    requires |parts| >= 1
    ensures Join(parts + [p], sep) == Join(parts, sep) + sep + p
  {
    if |parts| == 1 {
      assert parts + [p] == [parts[0], p];
    } else {
      assert (parts + [p])[1..] == parts[1..] + [p];
      JoinSnoc(parts[1..], p, sep);
    }
  }

  lemma {:induction false} TerminatedJoin(fields: seq<string>, last: string, sep: string)
    ensures Terminated(fields, sep) + last == Join(fields + [last], sep)
  {
    if |fields| == 0 {
      assert fields + [last] == [last];
    } else {
      assert (fields + [last])[1..] == fields[1..] + [last];
      TerminatedJoin(fields[1..], last, sep);
    }
  }

  /** Dropping the last separator of a terminated list leaves the joined list. */
  lemma TerminatedTrim(fields: seq<string>, sep: char)
    requires |fields| >= 1
    ensures |Terminated(fields, [sep])| >= 1
    ensures Terminated(fields, [sep])[..|Terminated(fields, [sep])| - 1] == Join(fields, [sep])
  {
    var n := |fields|;
    assert fields == fields[..n - 1] + [fields[n - 1]];
    TerminatedSnoc(fields[..n - 1], fields[n - 1], [sep]);
    TerminatedJoin(fields[..n - 1], fields[n - 1], [sep]);
  }

  lemma {:induction false} TerminatedSnoc(fields: seq<string>, f: string, sep: string)
    ensures Terminated(fields + [f], sep) == Terminated(fields, sep) + f + sep
  {
    if |fields| == 0 {
      assert fields + [f] == [f];
    } else {
      assert (fields + [f])[1..] == fields[1..] + [f];
      TerminatedSnoc(fields[1..], f, sep);
    }
  }

  lemma {:induction false} SplitFree(p: string, c: char)
    requires c !in p
    ensures Split(p, c) == [p]
    decreases |p|
  {
    if |p| > 0 {
      SplitFree(p[1..], c);
      assert [p[0]] + p[1..] == p;
    }
  }

  lemma {:induction false} SplitPrefix(p: string, c: char, t: string)
    requires c !in p
    ensures Split(p + [c] + t, c) == [p] + Split(t, c)
    decreases |p|
  {
    var s := p + [c] + t;
    if |p| == 0 {
      assert s[1..] == t;
    } else {
      assert s[1..] == p[1..] + [c] + t;
      SplitPrefix(p[1..], c, t);
      assert [p[0]] + p[1..] == p;
    }
  }

  /**
   * Splitting a joined list on its separator gives the list back, provided no
   * part contains the separator.
   */
  lemma {:induction false} SplitJoin(parts: seq<string>, c: char)
    requires |parts| >= 1
    requires Free(parts, c)
    ensures Split(Join(parts, [c]), c) == parts
  {
    if |parts| == 1 {
      SplitFree(parts[0], c);
    } else {
      assert Join(parts, [c]) == parts[0] + [c] + Join(parts[1..], [c]);
      SplitPrefix(parts[0], c, Join(parts[1..], [c]));
      SplitJoin(parts[1..], c);
    }
  }

  /** Joining a sequence of non-empty-free parts and splitting again counts the parts. */
  lemma SplitJoinLength(parts: seq<string>, c: char)
    requires |parts| >= 1
    requires Free(parts, c)
    ensures |Split(Join(parts, [c]), c)| == |parts|
  {
    SplitJoin(parts, c);
  }

  /** Joining two non-empty lists is joining each and putting the separator between. */
  lemma {:induction false} JoinAppend(a: seq<string>, b: seq<string>, sep: string)
    requires |a| >= 1 && |b| >= 1
    ensures Join(a + b, sep) == Join(a, sep) + sep + Join(b, sep)
  {
    if |a| == 1 {
      assert (a + b)[1..] == b;
    } else {
      assert (a + b)[1..] == a[1..] + b;
      JoinAppend(a[1..], b, sep);
    }
  }

  /** The parts written one after another (String.Concat). */
  function Concat(parts: seq<string>): string
  {
    if |parts| == 0 then "" else Concat(parts[..|parts| - 1]) + parts[|parts| - 1]
  }

  lemma ConcatSnoc(parts: seq<string>, p: string)
    ensures Concat(parts + [p]) == Concat(parts) + p
  {
    assert (parts + [p])[..|parts|] == parts;
  }
}

=== FILE: tof_manager_controller.dfy ===
/**
 * The ToF camera-configuration list (TofManagerController.cs): the option
 * list built from the SDK's configurations, with an empty entry first and
 * the SDK's recommended configuration highlighted after it, and the lookup
 * of a running configuration in that list. The SDK's answers (platform
 * flags, the recommended configuration, the option text) are inputs.
 */
module TofManagerController {
  import opened Wrappers
  import Text

  /** CameraConfigurationProperty. */
  datatype Config = Config(uid: int, cameraId: string, width: int, height: int, lensFacing: int,
                           frameRate: real, name: string, isFusion: bool)

  /** Camera2DefaultConfigurationProperty: a configuration plus the source size of its fusion mode. */
  datatype DefaultConfig = DefaultConfig(config: Config, fusionSourceWidth: int, fusionSourceHeight: int)

  /**
   * What the SDK reports about the platform: whether a manager exists, the
   * iOS flag, the PC "choose resolution by name" flag and the device's dTof
   * attribute (false when the attribute string does not parse).
   */
  datatype Platform = Platform(managerPresent: bool, usingIos: bool, chooseByName: bool, dTof: bool)

  const IntMin := -0x8000_0000

  /** The empty entry put first in the list, for stopping the stream. */
  const Blank := Config(IntMin, "", 0, 0, 0, 0.0, "", false)

  const BlankText := "-"

  function Highlight(text: string): string
  {
    "<color=red>" + text + "</color>"
  }

  /** Same camera, size and lens as the recommended configuration. */
  predicate SameMode(p: Config, d: Config)
  {
    p.cameraId == d.cameraId && p.width == d.width && p.height == d.height && p.lensFacing == d.lensFacing
  }

  /** Whether entry p is taken as the recommended one while building the list. */
  predicate DefaultMatch(p: Config, d: DefaultConfig, pl: Platform)
  {
    if !p.isFusion && SameMode(p, d.config) then
      if !pl.managerPresent then true
      else if pl.usingIos then p.frameRate == d.config.frameRate
      else if pl.chooseByName then p.name == d.config.name
      else true
    else
      Text.Contains(p.name, "Fusion 16:9 " + Text.IntToString(d.fusionSourceWidth) + "_"
                            + Text.IntToString(d.fusionSourceHeight))
  }

  /**
   * The loop that finds defaultIndex: every match overwrites it, so the
   * last matching entry wins; 0 when none matches.
   */
  method DefaultIndex(props: seq<Config>, d: DefaultConfig, pl: Platform) returns (r: nat)
    ensures |props| > 0 ==> r < |props|
    ensures (exists i :: 0 <= i < |props| && DefaultMatch(props[i], d, pl)) ==>
      DefaultMatch(props[r], d, pl) && forall j :: r < j < |props| ==> !DefaultMatch(props[j], d, pl)
    ensures (forall i :: 0 <= i < |props| ==> !DefaultMatch(props[i], d, pl)) ==> r == 0
    ensures |props| > 0 ==> DefaultMatchLast(props, d, pl, r)
  {
    r := 0;
    var found := false;
    var i := 0;
    while i < |props|
      invariant 0 <= i <= |props|
      invariant found ==> r < i && DefaultMatch(props[r], d, pl)
      invariant found ==> forall j :: r < j < i ==> !DefaultMatch(props[j], d, pl)
      invariant !found ==> r == 0 && forall j :: 0 <= j < i ==> !DefaultMatch(props[j], d, pl)
    {
      if DefaultMatch(props[i], d, pl) {
        r := i;
        found := true;
      }
      i := i + 1;
    }
  }

  function RemoveAt<T>(s: seq<T>, k: nat): (r: seq<T>)
    requires k < |s|
    ensures |r| == |s| - 1
    ensures forall j :: 0 <= j < k ==> r[j] == s[j]
    ensures forall j :: k <= j < |r| ==> r[j] == s[j + 1]
  {
    s[..k] + s[k + 1..]
  }

  /**
   * The list built around the recommended configuration when entry k was
   * the one chosen: the blank entry, the recommended configuration with a
   * red label, then every other entry in order.
   */
  predicate ListedAround(props: seq<Config>, d: DefaultConfig, pl: Platform, text: Config -> string,
                         configs: seq<Config>, options: seq<string>, k: nat)
  {
    && k < |props|
    && configs == [Blank, d.config] + RemoveAt(props, k)
    && options == [BlankText, Highlight(text(props[k]))] + RemoveAt(Texts(props, text), k)
    && DefaultMatchLast(props, d, pl, k)
  }

  /**
   * MakePropertyList: the configurations (none when the SDK gave none),
   * then, when a recommended configuration exists and the list is not
   * empty, the entry at defaultIndex removed and the recommended one put
   * first with a red label, and finally the blank entry in front.
   * Without a recommended configuration no labels are made.
   */
  method MakePropertyList(properties: Option<seq<Config>>, d: Option<DefaultConfig>, pl: Platform,
                          text: Config -> string)
    returns (configs: seq<Config>, options: seq<string>)
    ensures var props := if properties.None? then [] else properties.value;
      && |configs| == |props| + 1 && configs[0] == Blank && |options| >= 1 && options[0] == BlankText
      && (d.None? || |props| == 0 ==> configs == [Blank] + props && options == [BlankText])
      && (d.Some? && |props| > 0 ==>
            && |options| == |configs|
            && configs[1] == d.value.config
            && exists k :: ListedAround(props, d.value, pl, text, configs, options, k))
  {
    var props := if properties.None? then [] else properties.value;
    var texts: seq<string> := [];
    var defaultIndex := 0;
    if d.Some? {
      defaultIndex := DefaultIndex(props, d.value, pl);
      texts := Texts(props, text);
    }
    if |texts| > 0 {
      var defaultText := Highlight(texts[defaultIndex]);
      configs := [Blank, d.value.config] + RemoveAt(props, defaultIndex);
      options := [BlankText, defaultText] + RemoveAt(texts, defaultIndex);
      assert ListedAround(props, d.value, pl, text, configs, options, defaultIndex);
    } else {
      configs := [Blank] + props;
      options := [BlankText];
    }
  }

  /** The option text of every configuration, in order. */
  function Texts(props: seq<Config>, text: Config -> string): (r: seq<string>)
    ensures |r| == |props| && forall i :: 0 <= i < |props| ==> r[i] == text(props[i])
  {
    seq(|props|, i requires 0 <= i < |props| => text(props[i]))
  }

  /** k is the defaultIndex rule's choice: the last match, or 0 when none matches. */
  predicate DefaultMatchLast(props: seq<Config>, d: DefaultConfig, pl: Platform, k: nat)
  {
    k < |props|
    && ((exists i :: 0 <= i < |props| && DefaultMatch(props[i], d, pl)) ==>
          DefaultMatch(props[k], d, pl) && forall j :: k < j < |props| ==> !DefaultMatch(props[j], d, pl))
    && ((forall i :: 0 <= i < |props| ==> !DefaultMatch(props[i], d, pl)) ==> k == 0)
  }

  /** CheckIndexRange: None is the NullReferenceException of a missing list. */
  function CheckIndexRange(configs: Option<seq<Config>>, i: int): (r: Option<bool>)
    ensures r.None? <==> configs.None?
    ensures r.Some? ==> (r.value <==> 0 <= i < |configs.value|)
  {
    if configs.None? then None else Some(0 <= i < |configs.value|)
  }

  /** The outcome of reading CurrentConfig. */
  datatype Current = Null | Selected(config: Config) | IndexOutOfRange

  /** CurrentConfig: null exactly when there is no list, else the entry at Index. */
  function CurrentConfig(configs: Option<seq<Config>>, index: int): (r: Current)
    ensures r.Null? <==> configs.None?
    ensures r.Selected? <==> configs.Some? && CheckIndexRange(configs, index) == Some(true)
    ensures r.Selected? ==> r.config == configs.value[index]
  {
    if configs.None? then Null
    else if 0 <= index < |configs.value| then Selected(configs.value[index])
    else IndexOutOfRange
  }

  /**
   * Which entries FindIndex considers: all of them in name mode, else
   * those with the same camera, size and lens.
   */
  predicate Candidate(prop: Config, c: Config, pl: Platform)
  {
    pl.chooseByName || SameMode(prop, c)
  }

  /** The extra test a candidate must pass: frame rate on iOS, name in name mode or on dTof devices. */
  predicate Accepted(prop: Config, c: Config, pl: Platform)
  {
    if pl.usingIos then prop.frameRate == c.frameRate
    else if pl.chooseByName || pl.dTof then prop.name == c.name
    else true
  }

  predicate Picks(prop: Config, c: Config, pl: Platform)
  {
    Candidate(prop, c, pl) && Accepted(prop, c, pl)
  }

  /** In name mode off iOS the loop does not break, so the last pick wins; elsewhere the first. */
  predicate TakesLast(pl: Platform)
  {
    !pl.usingIos && pl.chooseByName
  }

  /**
   * FindIndex: 0 without a list or a manager; otherwise the first (or, in
   * name mode off iOS, the last) entry that is a candidate and passes the
   * extra test, and 0 when there is none.
   */
  method FindIndex(configs: Option<seq<Config>>, prop: Config, pl: Platform) returns (r: nat)
    ensures configs.None? || !pl.managerPresent ==> r == 0
    ensures configs.Some? && |configs.value| > 0 ==> r < |configs.value|
    ensures configs.Some? && pl.managerPresent ==>
      var cs := configs.value;
      && ((forall i :: 0 <= i < |cs| ==> !Picks(prop, cs[i], pl)) ==> r == 0)
      && ((exists i :: 0 <= i < |cs| && Picks(prop, cs[i], pl)) ==>
            && Picks(prop, cs[r], pl)
            && (TakesLast(pl) ==> forall j :: r < j < |cs| ==> !Picks(prop, cs[j], pl))
            && (!TakesLast(pl) ==> forall j :: 0 <= j < r ==> !Picks(prop, cs[j], pl)))
  {
    if configs.None? || !pl.managerPresent {
      return 0;
    }
    var cs := configs.value;
    r := 0;
    var found := false;
    var i := 0;
    while i < |cs|
      invariant 0 <= i <= |cs|
      invariant found ==> r < i && Picks(prop, cs[r], pl)
      invariant found && TakesLast(pl) ==> forall j :: r < j < i ==> !Picks(prop, cs[j], pl)
      invariant !TakesLast(pl) ==> !found
      invariant !found ==> r == 0 && forall j :: 0 <= j < i ==> !Picks(prop, cs[j], pl)
    {
      if Candidate(prop, cs[i], pl) {
        if pl.usingIos {
          if prop.frameRate == cs[i].frameRate {
            r := i;
            found := true;
            break;
          }
        } else if pl.chooseByName {
          if prop.name == cs[i].name {
            r := i;
            found := true;
          }
        } else if pl.dTof {
          if prop.name == cs[i].name {
            r := i;
            found := true;
            break;
          }
        } else {
          r := i;
          found := true;
          break;
        }
      }
      i := i + 1;
    }
  }
}

=== FILE: urp_hand_alpha_controller.dfy ===
/**
 * Fading the hand model in and out (URPHandAlphaController.cs). A counter
 * follows hand detection over the last frames, a second factor fades the
 * hand as it nears the camera, and their product is written as the alpha
 * of every material; materials switch between opaque and transparent
 * blending only when the fade state flips.
 */
module URPHandAlphaController {
  import opened Wrappers
  import opened Vectors
  import URP = URPMaterialChanger

  type Material = URP.Material

  const FadeTerm := 15
  const AlphaStartDistance: real := 0.3
  const AlphaEndDistance: real := 0.1

  /** The colour read from a material without the colour property. */
  const Clear := Color(0.0, 0.0, 0.0, 0.0)

  /** handCounter: one up per frame with the hand (up to FadeTerm), one down per frame without (down to 0). */
  function Count(counter: int, detected: bool): (r: int)
    ensures 0 <= counter <= FadeTerm ==> 0 <= r <= FadeTerm
    ensures detected ==> r == (if counter < FadeTerm then counter + 1 else counter)
    ensures !detected ==> r == (if counter > 0 then counter - 1 else counter)
  {
    if detected then (if counter < FadeTerm then counter + 1 else counter)
    else (if counter > 0 then counter - 1 else counter)
  }

  /** The counter after a run of frames. */
  function CountRun(counter: int, frames: seq<bool>): int
    decreases |frames|
  {
    if |frames| == 0 then counter else CountRun(Count(counter, frames[0]), frames[1..])
  }

  /** k frames with the hand raise the counter by k, saturating at FadeTerm; k frames without lower it to 0 at the floor. */
  lemma {:induction false} CountSaturates(counter: int, k: nat, detected: bool)
    requires 0 <= counter <= FadeTerm
    ensures detected ==> CountRun(counter, seq(k, _ => detected)) == (if counter + k < FadeTerm then counter + k else FadeTerm)
    ensures !detected ==> CountRun(counter, seq(k, _ => detected)) == (if counter - k > 0 then counter - k else 0)
    decreases k
  {
    if k > 0 {
      assert seq(k, _ => detected)[1..] == seq(k - 1, _ => detected);
      CountSaturates(Count(counter, detected), k - 1, detected);
    }
  }

  /** currentMultiply: the counter over the fade term, in [0, 1]. */
  function Multiplier(counter: int): (r: real)
    requires 0 <= counter <= FadeTerm
    ensures 0.0 <= r <= 1.0
    ensures r == 0.0 <==> counter == 0
    ensures r == 1.0 <==> counter == FadeTerm
  {
    counter as real / FadeTerm as real
  }

  /** ratioInMinMax: where value sits between min and max, whichever way round they are given. */
  function RatioInMinMax(value: real, min: real, max: real): (r: real)
    requires min != max
    ensures r * (if max > min then max - min else min - max) == (if max > min then value - min else value - max)
  {
    if max > min then (value - min) / (max - min) else (value - max) / (min - max)
  }

  /**
   * The distance alpha: 1 beyond AlphaStartDistance, 0 nearer than
   * AlphaEndDistance, and the linear ramp between.
   */
  function DistanceAlpha(dist: real): (r: real)
    ensures 0.0 <= r <= 1.0
    ensures dist > AlphaStartDistance ==> r == 1.0
    ensures dist < AlphaEndDistance ==> r == 0.0
    ensures AlphaEndDistance <= dist <= AlphaStartDistance ==>
      r * (AlphaStartDistance - AlphaEndDistance) == dist - AlphaEndDistance
  {
    if dist > AlphaStartDistance then 1.0
    else if dist < AlphaEndDistance then 0.0
    else RatioInMinMax(dist, AlphaEndDistance, AlphaStartDistance)
  }

  /** The alpha does not drop as the hand moves away: the ramp joins its two flat ends. */
  lemma DistanceAlphaMonotone(d1: real, d2: real)
    requires d1 <= d2
    ensures DistanceAlpha(d1) <= DistanceAlpha(d2)
  {
    if AlphaEndDistance <= d1 <= AlphaStartDistance && AlphaEndDistance <= d2 <= AlphaStartDistance {
      assert (DistanceAlpha(d2) - DistanceAlpha(d1)) * (AlphaStartDistance - AlphaEndDistance) == d2 - d1;
    }
  }

  /** A renderer: its materials and whether its game object is active. */
  datatype Renderer = Renderer(materials: seq<Material>, active: bool)

  /** Color.Lerp from the colour with alpha 0 to the original, at t clamped to [0, 1]. */
  function Faded(one: Color, t: real): (r: Color)
    ensures r.r == one.r && r.g == one.g && r.b == one.b
    ensures 0.0 <= t <= 1.0 ==> r.a == one.a * t
    ensures t < 0.0 ==> r.a == 0.0
    ensures t > 1.0 ==> r.a == one.a
  {
    var clamped := if t < 0.0 then 0.0 else if t > 1.0 then 1.0 else t;
    var zero := one.(a := 0.0);
    Color(zero.r + (one.r - zero.r) * clamped, zero.g + (one.g - zero.g) * clamped,
          zero.b + (one.b - zero.b) * clamped, zero.a + (one.a - zero.a) * clamped)
  }

  /** One renderer's part of Start: every material switched to transparent, colours read and the property checked. */
  datatype Prepared = Prepared(renderer: Renderer, hasColor: bool, colorOne: seq<Color>)

  /** The colour Start records for a material: its colour property, or clear when it has none. */
  function ColorOf(m: Material): Color
  {
    if m.color.Some? then m.color.value else Clear
  }

  function Transparent(ms: seq<Material>): (r: seq<Material>)
    ensures |r| == |ms|
    ensures forall i :: 0 <= i < |ms| ==> URP.ChangeTrans(Some(ms[i]), true) == Ok(r[i])
  {
    seq(|ms|, i requires 0 <= i < |ms| => URP.ChangeTrans(Some(ms[i]), true).value)
  }

  /**
   * Start, as written: the property check inside the loop looks at
   * materials[0] on every pass, while the colour is read from
   * materials[i]. The loop stops at the first failed check.
   */
  method PrepareAsWritten(r: Renderer) returns (p: Prepared)
    ensures p.renderer == r.(materials := Transparent(r.materials))
    ensures p.hasColor <==> |r.materials| == 0 || r.materials[0].color.Some?
    ensures p.hasColor ==>
      && |p.colorOne| == |r.materials|
      && forall i :: 0 <= i < |r.materials| ==> p.colorOne[i] == ColorOf(r.materials[i])
  {
    var ms := Transparent(r.materials);
    var hasColor := true;
    var colorOne: seq<Color> := [];
    var i := 0;
    while i < |ms|
      invariant 0 <= i <= |ms| && |colorOne| == i
      invariant hasColor <==> i == 0 || ms[0].color.Some?
      invariant forall k :: 0 <= k < i ==> colorOne[k] == ColorOf(ms[k])
    {
      if ms[0].color.None? {
        hasColor := false;
        break;
      }
      colorOne := colorOne + [ColorOf(ms[i])];
      i := i + 1;
    }
    if hasColor {
      assert i == |ms|;
    }
    return Prepared(Renderer(ms, r.active), hasColor, colorOne);
  }

  /** Start with the check on materials[i]: a renderer has the colour property when every material has it. */
  method Prepare(r: Renderer) returns (p: Prepared)
    ensures p.renderer == r.(materials := Transparent(r.materials))
    ensures p.hasColor <==> forall i :: 0 <= i < |r.materials| ==> r.materials[i].color.Some?
    ensures p.hasColor ==>
      && |p.colorOne| == |r.materials|
      && forall i :: 0 <= i < |r.materials| ==> Some(p.colorOne[i]) == r.materials[i].color
  {
    var ms := Transparent(r.materials);
    var hasColor := true;
    var colorOne: seq<Color> := [];
    var i := 0;
    while i < |ms|
      invariant 0 <= i <= |ms| && |colorOne| == i
      invariant hasColor
      invariant forall k :: 0 <= k < i ==> ms[k].color.Some? && Some(colorOne[k]) == ms[k].color
    {
      if ms[i].color.None? {
        hasColor := false;
        break;
      }
      colorOne := colorOne + [ColorOf(ms[i])];
      i := i + 1;
    }
    return Prepared(Renderer(ms, r.active), hasColor, colorOne);
  }

  /**
   * The discrepancy: a renderer whose first material has the colour
   * property and whose second does not passes the check as written, so
   * the second material records clear as its colour and is later faded
   * from clear to clear; with the check on each material the renderer is
   * instead shown or hidden as a whole.
   */
  lemma SecondMaterialMissed(m: Material)
    ensures var r := Renderer([m.(color := Some(Color(1.0, 1.0, 1.0, 1.0))), m.(color := None)], true);
      && (|r.materials| == 0 || r.materials[0].color.Some?)
      && !(forall i :: 0 <= i < |r.materials| ==> r.materials[i].color.Some?)
      && ColorOf(r.materials[1]) == Clear
      && Faded(Clear, 1.0) == Clear
  {
    var r := Renderer([m.(color := Some(Color(1.0, 1.0, 1.0, 1.0))), m.(color := None)], true);
    assert !r.materials[1].color.Some?;
  }

  /** The component after Start: the prepared renderers, the counter and the fade flag. */
  datatype Hands = Hands(counter: int, fade: bool, prepared: seq<Prepared>)

  /** The colour lists match the material lists of renderers that have the property. */
  predicate Shaped(h: Hands)
  {
    0 <= h.counter <= FadeTerm && ShapedAll(h.prepared)
  }

  /**
   * setAlpha for one renderer: with the colour property each material is
   * re-blended when the fade state flipped and given the faded colour;
   * without it the renderer is shown iff value > 0.5, once per material,
   * so a renderer with no material is left as it is.
   */
  function SetRendererAlpha(p: Prepared, value: real, flipped: bool, isFade: bool): (r: Prepared)
    requires p.hasColor ==> |p.colorOne| == |p.renderer.materials|
    ensures r.hasColor == p.hasColor && r.colorOne == p.colorOne
    ensures |r.renderer.materials| == |p.renderer.materials|
    ensures p.hasColor ==>
      && r.renderer.active == p.renderer.active
      && forall i :: 0 <= i < |p.renderer.materials| ==> r.renderer.materials[i].color == Some(Faded(p.colorOne[i], value))
    ensures p.hasColor && !flipped ==> forall i :: 0 <= i < |p.renderer.materials| ==>
      r.renderer.materials[i] == p.renderer.materials[i].(color := Some(Faded(p.colorOne[i], value)))
    ensures !p.hasColor ==>
      && r.renderer.materials == p.renderer.materials
      && r.renderer.active == (if |p.renderer.materials| > 0 then value > 0.5 else p.renderer.active)
  {
    var ms := p.renderer.materials;
    if p.hasColor then
      var updated := seq(|ms|, i requires 0 <= i < |ms| =>
        var m := if flipped then URP.ChangeTrans(Some(ms[i]), isFade).value else ms[i];
        m.(color := Some(Faded(p.colorOne[i], value))));
      p.(renderer := p.renderer.(materials := updated))
    else if |ms| > 0 then p.(renderer := p.renderer.(active := value > 0.5))
    else p
  }

  /** Every renderer's colour list matches its materials where it has the colour property. */
  predicate ShapedAll(ps: seq<Prepared>)
  {
    forall j :: 0 <= j < |ps| && ps[j].hasColor ==> |ps[j].colorOne| == |ps[j].renderer.materials|
  }

  /** setAlpha over all renderers. */
  function SetAlpha(ps: seq<Prepared>, value: real, flipped: bool, isFade: bool): (r: seq<Prepared>)
    requires ShapedAll(ps)
    ensures |r| == |ps| && ShapedAll(r)
    ensures forall j :: 0 <= j < |ps| ==> r[j] == SetRendererAlpha(ps[j], value, flipped, isFade)
  {
    seq(|ps|, j requires 0 <= j < |ps| => SetRendererAlpha(ps[j], value, flipped, isFade))
  }

  /**
   * Update: count the frame, take the distance alpha times the
   * multiplier, and write it; the fade flag is value < 1 and materials are
   * re-blended only when it flips.
   */
  function Update(h: Hands, detected: bool, dist: real): (r: Hands)
    requires Shaped(h)
    ensures Shaped(r) && |r.prepared| == |h.prepared|
    ensures r.counter == Count(h.counter, detected)
    ensures r.fade <==> Value(r.counter, dist) < 1.0
    ensures r.prepared == SetAlpha(h.prepared, Value(r.counter, dist), r.fade != h.fade, r.fade)
  {
    var counter := Count(h.counter, detected);
    var value := Value(counter, dist);
    var isFade := value < 1.0;
    Hands(counter, isFade, SetAlpha(h.prepared, value, h.fade != isFade, isFade))
  }

  /** The value written: distance alpha times the detection multiplier. */
  function Value(counter: int, dist: real): (r: real)
    requires 0 <= counter <= FadeTerm
    ensures 0.0 <= r <= 1.0
  {
    var a := DistanceAlpha(dist);
    var m := Multiplier(counter);
    assert a * m <= a * 1.0;
    a * m
  }

  /** The written alpha stays within the original alpha: value is in [0, 1]. */
  lemma AlphaWithinOriginal(counter: int, dist: real, one: Color)
    requires 0 <= counter <= FadeTerm && one.a >= 0.0
    ensures 0.0 <= Faded(one, Value(counter, dist)).a <= one.a
  {
    var v := Value(counter, dist);
    assert Faded(one, v).a == one.a * v;
    NonNegative(one.a, v);
    NonNegative(one.a, 1.0 - v);
    assert one.a * v + one.a * (1.0 - v) == one.a;
  }

  lemma NonNegative(x: real, y: real)
    requires x >= 0.0 && y >= 0.0
    ensures x * y >= 0.0
  {
  }
  /** Every material of a renderer has the colour property. */
  predicate AllHaveColor(r: Renderer)
  {
    forall i :: 0 <= i < |r.materials| ==> r.materials[i].color.Some?
  }

  /**
   * Start over all renderers, with the corrected check: each renderer is
   * prepared in order, the counter starts at 0 and the fade flag set.
   */
  method Start(rs: seq<Renderer>) returns (h: Hands)
    ensures h.counter == 0 && h.fade && Shaped(h) && |h.prepared| == |rs|
    ensures forall j :: 0 <= j < |rs| ==>
      && h.prepared[j].renderer == rs[j].(materials := Transparent(rs[j].materials))
      && (h.prepared[j].hasColor <==> AllHaveColor(rs[j]))
  {
    var ps: seq<Prepared> := [];
    var j := 0;
    while j < |rs|
      invariant 0 <= j <= |rs| && |ps| == j && ShapedAll(ps)
      invariant forall k :: 0 <= k < j ==>
        && ps[k].renderer == rs[k].(materials := Transparent(rs[k].materials))
        && (ps[k].hasColor <==> AllHaveColor(rs[k]))
    {
      var p := Prepare(rs[j]);
      ps := ps + [p];
      j := j + 1;
    }
    h := Hands(0, true, ps);
  }

  /**
   * Once the counter is at 0, a frame without the hand writes alpha 0 to
   * every material that has the colour property, whatever the distance.
   */
  lemma HandGoneIsInvisible(h: Hands, dist: real)
    requires Shaped(h) && h.counter == 0
    ensures var r := Update(h, false, dist);
      forall j, i :: 0 <= j < |h.prepared| && h.prepared[j].hasColor && 0 <= i < |h.prepared[j].renderer.materials| ==>
        r.prepared[j].renderer.materials[i].color.value.a == 0.0
  {
    assert Value(0, dist) == 0.0;
  }
}

=== FILE: urp_material_changer.dfy ===
/**
 * Switching a URP Lit material between opaque and transparent
 * (URPMaterialChanger.cs): the surface and blend settings are written as
 * float properties, then the blend factors, depth writing, render queue,
 * keywords and shadow pass follow from them by a fixed table.
 */
module URPMaterialChanger {
  import opened Wrappers
  import opened Vectors

  /** The enum values of SurfaceType and BlendMode, in declaration order. */
  const Opaque := 0
  const Transparent := 1
  const Alpha := 0
  const Premultiply := 1
  const Additive := 2
  const Multiply := 3

  /** UnityEngine.Rendering.BlendMode values and the Transparent render queue. */
  const FactorZero := 0
  const FactorOne := 1
  const FactorDstColor := 2
  const FactorSrcAlpha := 5
  const FactorOneMinusSrcAlpha := 10
  const QueueTransparent := 3000

  /**
   * The material state the class touches: the _Surface, _Blend and
   * _AlphaClip floats, the RenderType tag, the blend factors, _ZWrite, the
   * _ALPHATEST_ON and _ALPHAPREMULTIPLY_ON keywords, the render queue, the
   * ShadowCaster pass, and the colour property (None when the shader has
   * none).
   */
  datatype Material = Material(
    surface: real, blend: real, alphaClip: real,
    renderType: string, srcBlend: int, dstBlend: int, zWrite: int,
    alphaTest: bool, premultiply: bool, renderQueue: int, shadowCaster: bool,
    color: Option<Color>)

  datatype Failure = NullReference | ArgumentNull

  /** A float cast to an enum: truncation toward zero. */
  function Truncate(x: real): (r: int)
    ensures r as real <= x < r as real + 1.0 || r as real - 1.0 < x <= r as real
    ensures x >= 0.0 ==> r >= 0
  {
    if x >= 0.0 then x.Floor else -((-x).Floor)
  }

  predicate IsOpaque(m: Material)
  {
    Truncate(m.surface) == Opaque
  }

  /** The transparent settings every blend mode shares. */
  predicate TransparentSettings(r: Material)
  {
    r.renderType == "Transparent" && r.zWrite == 0 && r.renderQueue == QueueTransparent && !r.shadowCaster
  }

  /**
   * SetupMaterialBlendMode: the alpha-test keyword follows _AlphaClip == 1;
   * an opaque surface gets One/Zero blending with depth writing and shadows;
   * a transparent one gets the row of its blend mode, and a blend value
   * outside the four modes leaves the rest as it was. A null material
   * throws ArgumentNullException.
   */
  function SetupMaterialBlendMode(m: Option<Material>): (r: Result<Material, Failure>)
    ensures m.None? <==> r == Err(ArgumentNull)
    ensures r.Ok? ==> var n := r.value; var before := m.value;
      && n.surface == before.surface && n.blend == before.blend && n.alphaClip == before.alphaClip && n.color == before.color
      && (n.alphaTest <==> before.alphaClip == 1.0)
      && (IsOpaque(before) ==>
            && n.renderType == "" && n.srcBlend == FactorOne && n.dstBlend == FactorZero && n.zWrite == 1
            && !n.premultiply && n.renderQueue == -1 && n.shadowCaster)
      && (!IsOpaque(before) && 0 <= Truncate(before.blend) <= 3 ==> TransparentSettings(n))
      && (!IsOpaque(before) && Truncate(before.blend) == Alpha ==>
            n.srcBlend == FactorSrcAlpha && n.dstBlend == FactorOneMinusSrcAlpha && !n.premultiply)
      && (!IsOpaque(before) && Truncate(before.blend) == Premultiply ==>
            n.srcBlend == FactorOne && n.dstBlend == FactorOneMinusSrcAlpha && n.premultiply)
      && (!IsOpaque(before) && Truncate(before.blend) == Additive ==>
            n.srcBlend == FactorOne && n.dstBlend == FactorOne && !n.premultiply)
      && (!IsOpaque(before) && Truncate(before.blend) == Multiply ==>
            n.srcBlend == FactorDstColor && n.dstBlend == FactorZero && !n.premultiply)
      && (!IsOpaque(before) && !(0 <= Truncate(before.blend) <= 3) ==> n == before.(alphaTest := n.alphaTest))
  {
    if m.None? then Err(ArgumentNull)
    else
      var mat := m.value.(alphaTest := m.value.alphaClip == 1.0);
      if IsOpaque(mat) then
        Ok(mat.(renderType := "", srcBlend := FactorOne, dstBlend := FactorZero, zWrite := 1,
                premultiply := false, renderQueue := -1, shadowCaster := true))
      else
        var blend := Truncate(mat.blend);
        var transparent := mat.(renderType := "Transparent", zWrite := 0, renderQueue := QueueTransparent,
                                shadowCaster := false);
        if blend == Alpha then
          Ok(transparent.(srcBlend := FactorSrcAlpha, dstBlend := FactorOneMinusSrcAlpha, premultiply := false))
        else if blend == Premultiply then
          Ok(transparent.(srcBlend := FactorOne, dstBlend := FactorOneMinusSrcAlpha, premultiply := true))
        else if blend == Additive then
          Ok(transparent.(srcBlend := FactorOne, dstBlend := FactorOne, premultiply := false))
        else if blend == Multiply then
          Ok(transparent.(srcBlend := FactorDstColor, dstBlend := FactorZero, premultiply := false))
        else Ok(mat)
  }

  /**
   * ChangeTrans: transparent sets _Surface to Transparent and _Blend to
   * Alpha; opaque sets _Surface to Opaque and leaves _Blend. Then the
   * table is applied. A null material fails at the first property write.
   */
  function ChangeTrans(m: Option<Material>, isTrans: bool): (r: Result<Material, Failure>)
    ensures m.None? <==> r == Err(NullReference)
    ensures r.Ok? && isTrans ==>
      && r.value.surface == Transparent as real && r.value.blend == Alpha as real
      && TransparentSettings(r.value) && r.value.srcBlend == FactorSrcAlpha
      && r.value.dstBlend == FactorOneMinusSrcAlpha && !r.value.premultiply
    ensures r.Ok? && !isTrans ==>
      && r.value.surface == Opaque as real && r.value.blend == m.value.blend
      && r.value.srcBlend == FactorOne && r.value.dstBlend == FactorZero && r.value.zWrite == 1
      && r.value.renderQueue == -1 && r.value.shadowCaster && !r.value.premultiply
    ensures r.Ok? ==> r.value.color == m.value.color && (r.value.alphaTest <==> m.value.alphaClip == 1.0)
  {
    if m.None? then Err(NullReference)
    else
      var written := if isTrans then m.value.(surface := Transparent as real, blend := Alpha as real)
                 else m.value.(surface := Opaque as real);
      SetupMaterialBlendMode(Some(written))
  }

  /** Switching twice the same way is switching once. */
  lemma ChangeTransIdempotent(m: Material, isTrans: bool)
    ensures ChangeTrans(Some(ChangeTrans(Some(m), isTrans).value), isTrans) == ChangeTrans(Some(m), isTrans)
  {
  }

  /**
   * Switching to transparent and back gives the opaque result directly, up
   * to _Blend, which the way back does not restore.
   */
  lemma ChangeTransRoundTrip(m: Material)
    ensures ChangeTrans(Some(ChangeTrans(Some(m), true).value), false)
            == ChangeTrans(Some(m.(blend := Alpha as real)), false)
  {
  }
}

=== FILE: vectors.dfy ===
/** Unity's Vector3, Vector2, Quaternion and Color with real components (float rounding is not modelled). */
module Vectors {
  datatype Vec3 = Vec3(x: real, y: real, z: real)
  datatype Vec2 = Vec2(x: real, y: real)
  datatype Quat = Quat(x: real, y: real, z: real, w: real)
  datatype Color = Color(r: real, g: real, b: real, a: real)

  const Zero3 := Vec3(0.0, 0.0, 0.0)
  const Zero2 := Vec2(0.0, 0.0)

  /** The components in indexer order ([0], [1], [2]). */
  function Components3(v: Vec3): seq<real> { [v.x, v.y, v.z] }

  /** The components in indexer order ([0] .. [3]). */
  function Components4(q: Quat): seq<real> { [q.x, q.y, q.z, q.w] }

  function Max(a: real, b: real): real { if a >= b then a else b }
}

=== FILE: vrm_visualizer.dfy ===
/**
 * The VRM avatar driver (VrmVisualizer.cs): which SDK joints drive which
 * avatar bones, the avatar's turn to match the screen, when a body result
 * counts as tracked, and the per-bone detection flags. Quaternion
 * smoothing, inverse kinematics and scaling are not modelled.
 */
module VrmVisualizer {
  import opened Wrappers
  import BodyRotationHandler

  /** The SDK joints the avatar uses, by name; any other joint is Unmapped. */
  datatype JointName =
    | Spine1 | Spine4 | LeftUpLeg | LeftLeg | LeftFoot | RightUpLeg | RightLeg | RightFoot
    | LeftForearm | LeftHand | RightHand | RightForearm | Neck1 | RightShoulder1 | LeftShoulder1
    | Unmapped(code: int)

  /** Unity's HumanBodyBones values for the bones the avatar drives. */
  const Hips := 0
  const LeftUpperLeg := 1
  const RightUpperLeg := 2
  const LeftLowerLeg := 3
  const RightLowerLeg := 4
  const LeftFootBone := 5
  const RightFootBone := 6
  const Spine := 7
  const Neck := 9
  const LeftUpperArm := 13
  const RightUpperArm := 14
  const LeftLowerArm := 15
  const RightLowerArm := 16
  const LeftHandBone := 17
  const RightHandBone := 18
  /** HumanBodyBones.LastBone: one past the last real bone. */
  const LastBone := 55

  /** jointsMapping: the bone each SDK joint drives, if any. */
  function BoneOf(j: JointName): Option<int>
  {
    match j
    case Spine1 => Some(Hips)
    case Spine4 => Some(Spine)
    case LeftUpLeg => Some(LeftUpperLeg)
    case LeftLeg => Some(LeftLowerLeg)
    case LeftFoot => Some(LeftFootBone)
    case RightUpLeg => Some(RightUpperLeg)
    case RightLeg => Some(RightLowerLeg)
    case RightFoot => Some(RightFootBone)
    case LeftForearm => Some(LeftLowerArm)
    case LeftHand => Some(LeftHandBone)
    case RightHand => Some(RightHandBone)
    case RightForearm => Some(RightLowerArm)
    case Neck1 => Some(Neck)
    case RightShoulder1 => Some(RightUpperArm)
    case LeftShoulder1 => Some(LeftUpperArm)
    case Unmapped(_) => None
  }

  /** The joints with an entry in jointsMapping, in the order they are listed. */
  const MappedJoints: seq<JointName> :=
    [Spine1, Spine4, LeftUpLeg, LeftLeg, LeftFoot, RightUpLeg, RightLeg, RightFoot,
     LeftForearm, LeftHand, RightHand, RightForearm, Neck1, RightShoulder1, LeftShoulder1]

  /** The joint that drives a bone: the inverse of BoneOf. */
  function JointOf(bone: int): Option<JointName>
  {
    if bone == Hips then Some(Spine1)
    else if bone == Spine then Some(Spine4)
    else if bone == LeftUpperLeg then Some(LeftUpLeg)
    else if bone == LeftLowerLeg then Some(LeftLeg)
    else if bone == LeftFootBone then Some(LeftFoot)
    else if bone == RightUpperLeg then Some(RightUpLeg)
    else if bone == RightLowerLeg then Some(RightLeg)
    else if bone == RightFootBone then Some(RightFoot)
    else if bone == LeftLowerArm then Some(LeftForearm)
    else if bone == LeftHandBone then Some(LeftHand)
    else if bone == RightHandBone then Some(RightHand)
    else if bone == RightLowerArm then Some(RightForearm)
    else if bone == Neck then Some(Neck1)
    else if bone == RightUpperArm then Some(RightShoulder1)
    else if bone == LeftUpperArm then Some(LeftShoulder1)
    else None
  }

  /** Every mapped joint drives a real bone, and JointOf gives the joint back. */
  lemma BoneOfInverse(j: JointName)
    ensures BoneOf(j).Some? <==> j in MappedJoints
    ensures BoneOf(j).Some? ==> 0 <= BoneOf(j).value < LastBone && JointOf(BoneOf(j).value) == Some(j)
  {
    match j
    case Spine1 => assert MappedJoints[0] == j;
    case Spine4 => assert MappedJoints[1] == j;
    case LeftUpLeg => assert MappedJoints[2] == j;
    case LeftLeg => assert MappedJoints[3] == j;
    case LeftFoot => assert MappedJoints[4] == j;
    case RightUpLeg => assert MappedJoints[5] == j;
    case RightLeg => assert MappedJoints[6] == j;
    case RightFoot => assert MappedJoints[7] == j;
    case LeftForearm => assert MappedJoints[8] == j;
    case LeftHand => assert MappedJoints[9] == j;
    case RightHand => assert MappedJoints[10] == j;
    case RightForearm => assert MappedJoints[11] == j;
    case Neck1 => assert MappedJoints[12] == j;
    case RightShoulder1 => assert MappedJoints[13] == j;
    case LeftShoulder1 => assert MappedJoints[14] == j;
    case Unmapped(_) =>
  }

  /** The mapping has fifteen distinct entries and no two joints drive the same bone. */
  lemma MappingInjective()
    ensures |MappedJoints| == 15
    ensures forall i, k :: 0 <= i < k < |MappedJoints| ==> MappedJoints[i] != MappedJoints[k]
    ensures forall j, k :: BoneOf(j).Some? && BoneOf(j) == BoneOf(k) ==> j == k
  {
    forall j, k | BoneOf(j).Some? && BoneOf(j) == BoneOf(k)
      ensures j == k
    {
      BoneOfInverse(j);
      BoneOfInverse(k);
    }
  }

  /**
   * UpdateOrientation: 0 when not playing; with the External detector the
   * screen angle minus the camera's, otherwise the camera's minus the
   * screen's.
   */
  function AvatarRotation(playing: bool, external: bool, camera: BodyRotationHandler.CameraOrientation,
                          screen: int): (r: int)
    ensures !playing ==> r == 0
    ensures playing && external ==> r == screen - BodyRotationHandler.CameraRotation(camera)
    ensures playing && !external ==> r == BodyRotationHandler.CameraRotation(camera) - screen
  {
    if !playing then 0
    else
      var cameraRotation := BodyRotationHandler.CameraRotation(camera);
      if external then screen - cameraRotation else cameraRotation - screen
  }

  /**
   * The avatar turns like the body model with the External detector, and
   * the opposite way with the other detectors.
   */
  lemma AvatarMatchesBody(playing: bool, external: bool, camera: BodyRotationHandler.CameraOrientation, screen: int)
    ensures external ==> AvatarRotation(playing, external, camera, screen)
                         == BodyRotationHandler.BodyRotation(playing, external, camera, screen)
    ensures playing && !external ==> AvatarRotation(playing, external, camera, screen)
                                     == -BodyRotationHandler.BodyRotation(playing, true, camera, screen)
  {
  }

  /** An SDK joint: its name and whether it is tracked. */
  datatype Joint = Joint(name: JointName, tracked: bool)

  datatype TrackingState = NoTracking | Tracking

  /** A body result: its tracking state and joints (null entries possible). */
  datatype BodyResult = BodyResult(trackingState: TrackingState, joints: seq<Option<Joint>>)

  /** isTracked: tracking, at least one joint, and a non-null first joint. */
  predicate IsTracked(b: BodyResult)
  {
    b.trackingState != NoTracking && |b.joints| > 0 && b.joints[0].Some?
  }

  /** What stops the joint loop: a null joint, or a second joint for a bone already taken. */
  datatype Failure = NullJoint(position: nat) | DuplicateBone(bone: int)

  /** The joint is present, tracked and drives bone b. */
  predicate Drives(j: Option<Joint>, b: int)
  {
    j.Some? && j.value.tracked && BoneOf(j.value.name) == Some(b)
  }

  /** Two present, tracked joints that drive the same bone. */
  predicate SameBone(a: Option<Joint>, b: Option<Joint>)
  {
    a.Some? && a.value.tracked && BoneOf(a.value.name).Some? && Drives(b, BoneOf(a.value.name).value)
  }

  /** The first n joints are all present. */
  predicate PresentBelow(joints: seq<Option<Joint>>, n: nat)
    requires n <= |joints|
  {
    forall i :: 0 <= i < n ==> joints[i].Some?
  }

  /** No two of the first n joints drive the same bone. */
  predicate DistinctBelow(joints: seq<Option<Joint>>, n: nat)
    requires n <= |joints|
  {
    forall i, k :: 0 <= i < k < n ==> !SameBone(joints[i], joints[k])
  }

  /**
   * The availableJoints loop: every tracked joint with a mapping is added
   * under its bone. Reading a null joint throws; Dictionary.Add throws on
   * a bone already present. The loop succeeds exactly when every joint is
   * present and no two tracked joints drive one bone; otherwise it stops
   * at the first null joint or the first repeated bone, whichever comes
   * first.
   */
  method AvailableJoints(joints: seq<Option<Joint>>) returns (r: Result<map<int, Joint>, Failure>)
    ensures r.Ok? <==> PresentBelow(joints, |joints|) && DistinctBelow(joints, |joints|)
    ensures r.Ok? ==> forall b :: b in r.value <==> exists i :: 0 <= i < |joints| && Drives(joints[i], b)
    ensures r.Ok? ==> forall i :: 0 <= i < |joints| && joints[i].value.tracked && BoneOf(joints[i].value.name).Some?
                                  ==> var b := BoneOf(joints[i].value.name).value; b in r.value && r.value[b] == joints[i].value
    ensures r.Err? && r.error.NullJoint? ==>
      var i := r.error.position;
      i < |joints| && joints[i].None? && PresentBelow(joints, i) && DistinctBelow(joints, i)
    ensures r.Err? && r.error.DuplicateBone? ==>
      exists i, k :: 0 <= i < k < |joints| && PresentBelow(joints, k + 1) && DistinctBelow(joints, k)
                     && SameBone(joints[i], joints[k]) && Drives(joints[k], r.error.bone)
  {
    var available: map<int, Joint> := map[];
    var i := 0;
    while i < |joints|
      invariant 0 <= i <= |joints|
      invariant PresentBelow(joints, i) && DistinctBelow(joints, i)
      invariant forall b :: b in available <==> exists k :: 0 <= k < i && Drives(joints[k], b)
      invariant forall k :: 0 <= k < i && joints[k].value.tracked && BoneOf(joints[k].value.name).Some?
                            ==> var b := BoneOf(joints[k].value.name).value; b in available && available[b] == joints[k].value
    {
      if joints[i].None? {
        return Err(NullJoint(i));
      }
      var joint := joints[i].value;
      if joint.tracked && BoneOf(joint.name).Some? {
        var bone := BoneOf(joint.name).value;
        if bone in available {
          var k :| 0 <= k < i && Drives(joints[k], bone);
          assert SameBone(joints[k], joints[i]);
          return Err(DuplicateBone(bone));
        }
        forall k | 0 <= k < i
          ensures !SameBone(joints[k], joints[i])
        {
          if SameBone(joints[k], joints[i]) {
            assert Drives(joints[k], bone);
          }
        }
        available := available[bone := joint];
      }
      i := i + 1;
    }
    return Ok(available);
  }

  /** Per-bone state; the target position and rotations are floating-point geometry and left out. */
  datatype JointInfo = JointInfo(isDetected: bool)

  /** Awake: a JointInfo for every bone in [0, LastBone), none detected. */
  function InitialJoints(): (r: map<int, JointInfo>)
    ensures forall b :: b in r <==> 0 <= b < LastBone
    ensures forall b :: b in r ==> !r[b].isDetected
  {
    BonesBelow(LastBone)
  }

  /** The Awake loop after the bones below n. */
  function BonesBelow(n: nat): (r: map<int, JointInfo>)
    ensures forall b :: b in r <==> 0 <= b < n
    ensures forall b :: b in r ==> !r[b].isDetected
  {
    if n == 0 then map[] else BonesBelow(n - 1)[n - 1 := JointInfo(false)]
  }

  /**
   * SetJoint: false for a bone without an entry; a null or untracked
   * joint clears the bone's flag and gives false; a tracked one sets it
   * and gives true.
   */
  function SetJoint(joints: map<int, JointInfo>, b: int, joint: Option<Joint>): (r: (map<int, JointInfo>, bool))
    ensures b !in joints ==> r == (joints, false)
    ensures b in joints ==> r.0 == joints[b := JointInfo(r.1)]
    ensures r.0.Keys == joints.Keys
    ensures r.1 <==> b in joints && joint.Some? && joint.value.tracked
  {
    if b !in joints then (joints, false)
    else if joint.None? || !joint.value.tracked then (joints[b := JointInfo(false)], false)
    else (joints[b := JointInfo(true)], true)
  }

  // ---------------------------------------------------------------------
  // Event subscriptions across enable and disable
  // ---------------------------------------------------------------------

  /** How many times each handler is subscribed: body stream start, body stream stop, screen orientation. */
  datatype Subscriptions = Subscriptions(started: nat, stopped: nat, screen: nat)

  /** `-=` on an event removes one subscription of the handler when there is one. */
  function Unsubscribe(n: nat): nat
  {
    if n > 0 then n - 1 else 0
  }

  function OnEnable(s: Subscriptions): (r: Subscriptions)
    ensures r.started == s.started + 1 && r.stopped == s.stopped + 1 && r.screen == s.screen + 1
  {
    Subscriptions(s.started + 1, s.stopped + 1, s.screen + 1)
  }

  /** OnDisable as written: the screen-orientation handler is added with `+=` instead of removed. */
  function OnDisableAsWritten(s: Subscriptions): (r: Subscriptions)
    ensures r.screen == s.screen + 1
  {
    Subscriptions(Unsubscribe(s.started), Unsubscribe(s.stopped), s.screen + 1)
  }

  /** OnDisable as intended: every handler added in OnEnable is removed. */
  function OnDisable(s: Subscriptions): (r: Subscriptions)
    ensures s.started > 0 && s.stopped > 0 && s.screen > 0 ==>
      r.started == s.started - 1 && r.stopped == s.stopped - 1 && r.screen == s.screen - 1
  {
    Subscriptions(Unsubscribe(s.started), Unsubscribe(s.stopped), Unsubscribe(s.screen))
  }

  /** n enable/disable cycles under the given OnDisable. */
  function Cycles(s: Subscriptions, n: nat, asWritten: bool): Subscriptions
    decreases n
  {
    if n == 0 then s
    else
      var e := OnEnable(s);
      Cycles(if asWritten then OnDisableAsWritten(e) else OnDisable(e), n - 1, asWritten)
  }

  const NoSubscriptions := Subscriptions(0, 0, 0)

  /**
   * As written, every enable/disable cycle leaves two more screen
   * orientation subscriptions: the disabled avatar keeps reacting to
   * screen turns, and after re-enabling the handler runs several times.
   */
  lemma {:induction false} AsWrittenLeaks(n: nat)
    ensures Cycles(NoSubscriptions, n, true) == Subscriptions(0, 0, 2 * n)
  {
    if n > 0 {
      CyclesSnoc(NoSubscriptions, n - 1, true);
      AsWrittenLeaks(n - 1);
    }
  }

  /** With `-=` every cycle returns to no subscriptions, and while enabled each handler is subscribed once. */
  lemma {:induction false} CorrectedBalanced(n: nat)
    ensures Cycles(NoSubscriptions, n, false) == NoSubscriptions
    ensures OnEnable(Cycles(NoSubscriptions, n, false)) == Subscriptions(1, 1, 1)
  {
    if n > 0 {
      CorrectedBalanced(n - 1);
      CyclesSnoc(NoSubscriptions, n - 1, false);
    }
  }

  /** The last cycle can be peeled off the end. */
  lemma {:induction false} CyclesSnoc(s: Subscriptions, n: nat, asWritten: bool)
    ensures var c := Cycles(s, n, asWritten);
      Cycles(s, n + 1, asWritten) == (if asWritten then OnDisableAsWritten(OnEnable(c)) else OnDisable(OnEnable(c)))
    decreases n
  {
    if n > 0 {
      var e := OnEnable(s);
      CyclesSnoc(if asWritten then OnDisableAsWritten(e) else OnDisable(e), n - 1, asWritten);
    }
  }
}

=== FILE: wrappers.dfy ===
/** Option and Result, used wherever the C# code returns null or throws. */
module Wrappers {
  datatype Option<+T> = None | Some(value: T)

  datatype Result<+T, +E> = Ok(value: T) | Err(error: E)
  {
    predicate IsFailure() { Err? }
  }
}
